=== FILE: README.md ===
# FHIR STU3 StructureMap engine — a Dafny model

This project models `StructureMapUtilities`, the engine of the FHIR STU3 mapping language in the HL7 Java reference implementation. It models the engine's whole core:

- **Renderer** (`render.dfy`). `render`, `groupToString`, `ruleToString`, `sourceToString`, `targetToString` and `paramToString` write the canonical text of a StructureMap into a `StringBuilder`. Each method is proved to append exactly the text that a declarative function (`MapText`, `GroupText`, `RuleText`, ...) defines.
- **Lexer and parser** (`tokens.dfy`, `parser.dfy`). This is the recursive-descent parser of the mapping language. It reads a token sequence with a cursor: `Lexer` is a class whose `cursor` field the parse methods advance. Each production has a reading function of the tokens and a position (`MapAt`, `GroupAt`, `RuleAt`, `SourceAt`, `TargetAt`, ...) that gives the value read and the position after it, or the error the Java code raises. Each parse method is proved to give exactly that reading: `Parsed(r, lexer.cursor) == XAt(lexer.tokens, old(lexer.cursor))`. Lemmas then state what the readings mean: the tokens of the map header, the group and rule names, the head of each source and target, the keywords before nested rules and dependents, the comma loops, and example token sequences read back as the expected values (`EntryWithTarget`, `SourceWithVariable`, `BareRule`, `SingleGroupMap`, ...). `ParameterRoundTrip`, `DependentOfTokens` and `CorrectedDependentRoundTrip` connect the parser back to the renderer.
- **Enumerations** (`ast.dfy`). This is the mapping-language AST, with the `fromCode` readers of its enumerations.
- **Variables** (`variables.dfy`). The `Variables` and `VariablesForProfiling` environments are classes over a list of bindings. `add` replaces the last binding of a mode and name, and `get` finds the first one.
- **Interpreter** (`instance.dfy`, `values.dfy`, `dispatch.dfy`, `interpreter.dfy`). It covers `transform`, `executeGroup`, `executeRule`, `executeDependency`, `processSource`, `processTarget`, `runTransform` and the parameter readers.
  - Instances are a graph of typed nodes with property lists and ids, held in a `Store` object.
  - Group resolution over the map and its imports is specified by `Resolve`.
  - Argument binding is specified by `BindInputs`.
- **Translation** (`translate.dfy`, `values.dfy`). `translate` covers the local concept-map lookup and the selection of a target by equivalence.
- **Analysis helpers** (`analyzer.dfy`). These are the parts of `analyse` that compute values rather than walk type trees:
  - the `TargetWriter` commit text;
  - `analyseSource`;
  - fixed values and transform descriptions;
  - `checkType`;
  - profile naming in `createProfile`, where two profiles of one type always get distinct urls and ids.
- **Map generation** (`generator.dfy`). `generateMapFromMappings` builds a map's text from the mappings of a logical model, and `tail` is modelled with it. The nested child mappings are proved to open as many braces as they close.

Calls into the rest of the library are parameters of the model, kept in the `Oracles` record (`values.dfy`):

- the FluentPath engine, both its parser and its evaluator;
- the worker context: value-set expansion, code validation, oid lookup and concept-map fetch;
- the resource factory's known types;
- the `ITransformerServices` hooks;
- the `toString` texts of targets and parameters.

The `uuid` source of a `Store` stands in for `UUID.randomUUID`.

For the four defects listed under Findings, the engine runs the code as written. `RenderRuleBody` and `RenderDependent` write the dependents without ` then ` and with the variable list repeated. `TranslateLocal` keeps the as-written selection. `RunCreate` takes the id from parameter 0. Beside each one sits the corrected definition, with its property proved, and a lemma that exhibits the difference.

Absent optional strings are modelled as the blank string. HAPI's `hasX()` is false for a blank primitive, so this agrees with the engine's `hasX()` checks.

## Model

| member | source | states |
|---|---|---|
| Text.EscapeJavaNoLineBreaks | implementations/java/org.hl7.fhir.dstu3/src/org/hl7/fhir/dstu3/utils/StructureMapUtilities.java:463 | `Utilities.escapeJava` on a string parameter never leaves a raw line break in the rendered map |
| Text.EscapeJava | implementations/java/org.hl7.fhir.dstu3/src/org/hl7/fhir/dstu3/utils/StructureMapUtilities.java:463 | escaping never shortens a string |
| Text.Trim | implementations/java/org.hl7.fhir.dstu3/src/org/hl7/fhir/dstu3/utils/StructureMapUtilities.java:545-546 | a comment's text has no blank character at either end and is no longer than the comment |
| Text.Lower | implementations/java/org.hl7.fhir.dstu3/src/org/hl7/fhir/dstu3/utils/StructureMapUtilities.java:1143 | the lower-cased UUID text keeps its length and holds no upper-case ASCII letter |
| Text.IntToString | implementations/java/org.hl7.fhir.dstu3/src/org/hl7/fhir/dstu3/utils/StructureMapUtilities.java:1161 | `Integer.toString` is never blank |
| Text.NatToString | implementations/java/org.hl7.fhir.dstu3/src/org/hl7/fhir/dstu3/utils/StructureMapUtilities.java:2102 | a counter is written as a non-empty string of decimal digits |
| Text.NatToStringValue | implementations/java/org.hl7.fhir.dstu3/src/org/hl7/fhir/dstu3/utils/StructureMapUtilities.java:2102 | the digits written for a counter read back as that counter |
| Text.ParseInt | implementations/java/org.hl7.fhir.dstu3/src/org/hl7/fhir/dstu3/utils/StructureMapUtilities.java:1169 | `Integer.parseInt` of an integer text lies in the 32-bit range |
| Text.IntToStringIsInteger | implementations/java/org.hl7.fhir.dstu3/src/org/hl7/fhir/dstu3/utils/StructureMapUtilities.java:1161 | `Integer.toString` of a count in range reads back, through the integer parser, as the same count |
| Text.IndexOf | implementations/java/org.hl7.fhir.dstu3/src/org/hl7/fhir/dstu3/utils/StructureMapUtilities.java:1679 | `indexOf('.')` gives -1 exactly when there is no '.', and otherwise the first position of '.' |
| Text.LastIndexOf | implementations/java/org.hl7.fhir.dstu3/src/org/hl7/fhir/dstu3/utils/StructureMapUtilities.java:2183 | `lastIndexOf('/')` gives -1 exactly when there is no '/', and otherwise the last position of '/' |
| Text.ReplaceAdds | implementations/java/org.hl7.fhir.dstu3/src/org/hl7/fhir/dstu3/utils/StructureMapUtilities.java:2112 | a `replace` adds no character that neither the input nor the replacement holds |
| Ast.ModelModeFromCode | implementations/java/org.hl7.fhir.dstu3/src/org/hl7/fhir/dstu3/utils/StructureMapUtilities.java:602 | the read code names the mode it came from; an unknown non-blank code fails; a blank code gives no mode |
| Ast.InputModeFromCode | implementations/java/org.hl7.fhir.dstu3/src/org/hl7/fhir/dstu3/utils/StructureMapUtilities.java:649 | the read code names the mode it came from; an unknown non-blank code fails; a blank code gives no mode |
| Ast.ListModeFromCode | implementations/java/org.hl7.fhir.dstu3/src/org/hl7/fhir/dstu3/utils/StructureMapUtilities.java:749 | the read code names the list mode it came from; an unknown non-blank code fails; a blank code gives none |
| Ast.TransformFromCode | implementations/java/org.hl7.fhir.dstu3/src/org/hl7/fhir/dstu3/utils/StructureMapUtilities.java:798 | the read code names the transform it came from; an unknown non-blank code fails; a blank code gives none |
| Ast.TransformCodeRoundTrip | implementations/java/org.hl7.fhir.dstu3/src/org/hl7/fhir/dstu3/utils/StructureMapUtilities.java:798 | every transform's code reads back as that transform |
| Render.RenderMap | implementations/java/org.hl7.fhir.dstu3/src/org/hl7/fhir/dstu3/utils/StructureMapUtilities.java:202-215 | `render` produces exactly `MapText`, the text as the engine writes it: the header, the uses, the imports, then every group in order, each rule body as `RuleBodyText` writes it |
| Render.RenderUses | implementations/java/org.hl7.fhir.dstu3/src/org/hl7/fhir/dstu3/utils/StructureMapUtilities.java:217-228 | appends exactly the `uses` lines of the map |
| Render.RenderUse | implementations/java/org.hl7.fhir.dstu3/src/org/hl7/fhir/dstu3/utils/StructureMapUtilities.java:219-224 | appends exactly one `uses` line |
| Render.RenderImports | implementations/java/org.hl7.fhir.dstu3/src/org/hl7/fhir/dstu3/utils/StructureMapUtilities.java:230-238 | appends exactly the `imports` lines of the map |
| Render.GroupToString | implementations/java/org.hl7.fhir.dstu3/src/org/hl7/fhir/dstu3/utils/StructureMapUtilities.java:240-244 | `groupToString` is `GroupText`, the group as the engine writes it, its rules' dependents included as written |
| Render.RenderGroup | implementations/java/org.hl7.fhir.dstu3/src/org/hl7/fhir/dstu3/utils/StructureMapUtilities.java:246-273 | appends exactly `GroupText`: the header, inputs, every rule as `RuleText` writes it, and `endgroup` |
| Render.RenderInput | implementations/java/org.hl7.fhir.dstu3/src/org/hl7/fhir/dstu3/utils/StructureMapUtilities.java:246-273 | appends exactly one `input` line of a group |
| Render.RuleToString | implementations/java/org.hl7.fhir.dstu3/src/org/hl7/fhir/dstu3/utils/StructureMapUtilities.java:275-279 | `ruleToString` is `RuleText` at indentation 0, the body as the engine writes it |
| Render.RenderRule | implementations/java/org.hl7.fhir.dstu3/src/org/hl7/fhir/dstu3/utils/StructureMapUtilities.java:281-348 | appends exactly `RuleText`: name, sources, targets, then the body as `RuleBodyText` writes it |
| Render.RenderRules | implementations/java/org.hl7.fhir.dstu3/src/org/hl7/fhir/dstu3/utils/StructureMapUtilities.java:281-348 | appends `RuleText` of every rule of a list, in order |
| Render.RenderRuleBody | implementations/java/org.hl7.fhir.dstu3/src/org/hl7/fhir/dstu3/utils/StructureMapUtilities.java:315-346 | appends exactly `RuleBodyText`: nested rules in braces after ` then {`; otherwise the dependents straight after the targets with no ` then `, then the documentation and a line break |
| Render.RuleTexts | implementations/java/org.hl7.fhir.dstu3/src/org/hl7/fhir/dstu3/utils/StructureMapUtilities.java:318-320 | one text per rule, the i-th being `RuleText` of the i-th rule, the body as the engine writes it |
| Render.RenderTargets | implementations/java/org.hl7.fhir.dstu3/src/org/hl7/fhir/dstu3/utils/StructureMapUtilities.java:294-314 | appends the targets, each of a multi-target rule on its own continuation line |
| Render.TargetLines | implementations/java/org.hl7.fhir.dstu3/src/org/hl7/fhir/dstu3/utils/StructureMapUtilities.java:297-310 | one line per target, the i-th being the i-th target's line |
| Render.RenderTargetLine | implementations/java/org.hl7.fhir.dstu3/src/org/hl7/fhir/dstu3/utils/StructureMapUtilities.java:298-309 | appends exactly one target's continuation line |
| Render.RenderSources | implementations/java/org.hl7.fhir.dstu3/src/org/hl7/fhir/dstu3/utils/StructureMapUtilities.java:286-293 | appends the sources separated by ", " |
| Render.RenderDependent | implementations/java/org.hl7.fhir.dstu3/src/org/hl7/fhir/dstu3/utils/StructureMapUtilities.java:332-341 | appends exactly `DependentText`: the name, "(", then the whole variable list once per variable, separated by ", ", and no closing parenthesis |
| Render.RenderDependents | implementations/java/org.hl7.fhir.dstu3/src/org/hl7/fhir/dstu3/utils/StructureMapUtilities.java:325-343 | appends the dependents as `DependentText` writes each, separated by ", " |
| Render.SourceToString | implementations/java/org.hl7.fhir.dstu3/src/org/hl7/fhir/dstu3/utils/StructureMapUtilities.java:350-354 | `sourceToString` is the text of the source |
| Render.RenderSource | implementations/java/org.hl7.fhir.dstu3/src/org/hl7/fhir/dstu3/utils/StructureMapUtilities.java:356-383 | appends exactly the source's text: optional keyword, context, element, list mode, variable, where and check |
| Render.SourceTextStart | implementations/java/org.hl7.fhir.dstu3/src/org/hl7/fhir/dstu3/utils/StructureMapUtilities.java:356-359 | a source's text starts with `optional` and its context exactly when it is not required |
| Render.TargetToString | implementations/java/org.hl7.fhir.dstu3/src/org/hl7/fhir/dstu3/utils/StructureMapUtilities.java:385-389 | `targetToString` is the text of the target |
| Render.RenderTarget | implementations/java/org.hl7.fhir.dstu3/src/org/hl7/fhir/dstu3/utils/StructureMapUtilities.java:391-442 | appends exactly the target's text: context, value, variable and list modes |
| Render.RenderTargetContext | implementations/java/org.hl7.fhir.dstu3/src/org/hl7/fhir/dstu3/utils/StructureMapUtilities.java:392-400 | appends `[@]context[.element]`, or nothing when the target has no context |
| Render.RenderTargetValue | implementations/java/org.hl7.fhir.dstu3/src/org/hl7/fhir/dstu3/utils/StructureMapUtilities.java:401-429 | appends exactly `TargetValueText`: ` = ` only when the target has a context, then the transform; nothing when there is no transform |
| Render.RenderTransform | implementations/java/org.hl7.fhir.dstu3/src/org/hl7/fhir/dstu3/utils/StructureMapUtilities.java:404-428 | appends the transform in its short form for a copy or a one-parameter evaluate, else `name(params)` |
| Render.RenderParams | implementations/java/org.hl7.fhir.dstu3/src/org/hl7/fhir/dstu3/utils/StructureMapUtilities.java:419-427 | appends the parameters separated by ", " |
| Render.RenderListModes | implementations/java/org.hl7.fhir.dstu3/src/org/hl7/fhir/dstu3/utils/StructureMapUtilities.java:434-441 | appends each list mode, `share` followed by the list rule id |
| Render.RenderListMode | implementations/java/org.hl7.fhir.dstu3/src/org/hl7/fhir/dstu3/utils/StructureMapUtilities.java:435-440 | appends one list mode |
| Render.ParamToString | implementations/java/org.hl7.fhir.dstu3/src/org/hl7/fhir/dstu3/utils/StructureMapUtilities.java:444-448 | `paramToString` is the text of the parameter |
| Render.RenderTransformParam | implementations/java/org.hl7.fhir.dstu3/src/org/hl7/fhir/dstu3/utils/StructureMapUtilities.java:450-468 | appends a literal or a variable name as it is and a string in escaped double quotes |
| Render.RenderDoco | implementations/java/org.hl7.fhir.dstu3/src/org/hl7/fhir/dstu3/utils/StructureMapUtilities.java:470-475 | appends nothing for no documentation, else ` // ` and the documentation with its line breaks made blanks |
| Render.DocoTextSingleLine | implementations/java/org.hl7.fhir.dstu3/src/org/hl7/fhir/dstu3/utils/StructureMapUtilities.java:470-475 | a documentation comment never breaks the line it is on and starts with ` // ` |
| Render.DependentTextUnclosed | implementations/java/org.hl7.fhir.dstu3/src/org/hl7/fhir/dstu3/utils/StructureMapUtilities.java:332-341 | a dependent with variables is written ending in `]` with no closing parenthesis |
| Render.DependentTextExample | implementations/java/org.hl7.fhir.dstu3/src/org/hl7/fhir/dstu3/utils/StructureMapUtilities.java:332-341 | `f(a)` is written `f([StringType[a]]`, which differs from the corrected text |
| Render.CorrectedDependentText | implementations/java/org.hl7.fhir.dstu3/src/org/hl7/fhir/dstu3/utils/StructureMapUtilities.java:332-341 | the corrected text starts with the name and "(" and ends with ")" |
| Render.CorrectedRuleBodyText | implementations/java/org.hl7.fhir.dstu3/src/org/hl7/fhir/dstu3/utils/StructureMapUtilities.java:325-343 | the corrected body agrees with the engine's for nested rules; with dependents it starts with ` then ` and ends with the line break |
| Render.RuleBodyMissingThen | implementations/java/org.hl7.fhir.dstu3/src/org/hl7/fhir/dstu3/utils/StructureMapUtilities.java:325-343 | a rule whose body is `f(a)` is written `f([StringType[a]]` and a line break, where the corrected body is ` then f(a)` |
| Tokens.ProcessConstant | implementations/java/org.hl7.fhir.dstu3/src/org/hl7/fhir/dstu3/utils/StructureMapUtilities.java:862 | the value of a constant is never longer than its token |
| Tokens.ProcessConstantUnquotes | implementations/java/org.hl7.fhir.dstu3/src/org/hl7/fhir/dstu3/utils/StructureMapUtilities.java:862 | a quoted constant is its content between the two quotes: putting the quotes back gives the token |
| Tokens.CommentText | implementations/java/org.hl7.fhir.dstu3/src/org/hl7/fhir/dstu3/utils/StructureMapUtilities.java:545-546 | the text of a comment is what follows the "//", no longer than the token |
| Tokens.ConcatSlice | implementations/java/org.hl7.fhir.dstu3/src/org/hl7/fhir/dstu3/utils/StructureMapUtilities.java:729-734 | the text of a run of tokens is the text of all but the last, followed by the last |
| Tokens.ConcatPair | implementations/java/org.hl7.fhir.dstu3/src/org/hl7/fhir/dstu3/utils/StructureMapUtilities.java:729-734 | reading one more `. name` pair extends the text of the dotted name by exactly those two tokens |
| Tokens.DotsExtend | implementations/java/org.hl7.fhir.dstu3/src/org/hl7/fhir/dstu3/utils/StructureMapUtilities.java:729-734 | one more `.` after a dotted run keeps every odd position of the run a `.` |
| Tokens.SliceSnoc | implementations/java/org.hl7.fhir.dstu3/src/org/hl7/fhir/dstu3/utils/StructureMapUtilities.java:712-720 | the tokens up to b+1 are those up to b followed by token b |
| Tokens.SlicePair | implementations/java/org.hl7.fhir.dstu3/src/org/hl7/fhir/dstu3/utils/StructureMapUtilities.java:640-649 | two consecutive tokens form a slice of length two |
| Tokens.SliceSplit | implementations/java/org.hl7.fhir.dstu3/src/org/hl7/fhir/dstu3/utils/StructureMapUtilities.java:640-649 | the tokens from a to c are those from a to b followed by those from b to c |
| Tokens.TokenAt | implementations/java/org.hl7.fhir.dstu3/src/org/hl7/fhir/dstu3/utils/StructureMapUtilities.java:482 | the token at a position, and the blank token past the end, as the lexer's `peek` gives at the end of input |
| Tokens.TakeAt | implementations/java/org.hl7.fhir.dstu3/src/org/hl7/fhir/dstu3/utils/StructureMapUtilities.java:524 | taking a token succeeds exactly when one is left; it gives that token and the next position |
| Tokens.KeywordAt | implementations/java/org.hl7.fhir.dstu3/src/org/hl7/fhir/dstu3/utils/StructureMapUtilities.java:482 | an expected keyword succeeds exactly when it is the token there, moving one on; otherwise it fails with the expected-keyword error naming the token found |
| Tokens.SkipAt | implementations/java/org.hl7.fhir.dstu3/src/org/hl7/fhir/dstu3/utils/StructureMapUtilities.java:603 | an optional keyword moves one on exactly when it is the token there, and otherwise stays |
| Tokens.CommentsEnd | implementations/java/org.hl7.fhir.dstu3/src/org/hl7/fhir/dstu3/utils/StructureMapUtilities.java:481 | the position after the comments at c: every token skipped is a comment and the token reached is not |
| Tokens.CommentAt | implementations/java/org.hl7.fhir.dstu3/src/org/hl7/fhir/dstu3/utils/StructureMapUtilities.java:650-652 | a comment at c gives its text and moves one on; with no comment the text is blank and nothing is read |
| Tokens.ConstantAt | implementations/java/org.hl7.fhir.dstu3/src/org/hl7/fhir/dstu3/utils/StructureMapUtilities.java:484 | a string constant succeeds exactly when the token there is one, giving its content and moving one on; anything else fails with the `Found ... expecting` error |
| Tokens.ExpressionAt | implementations/java/org.hl7.fhir.dstu3/src/org/hl7/fhir/dstu3/utils/StructureMapUtilities.java:755-760 | an expression succeeds with exactly what the expression parser reads from c, and only when that parser moves forward within the input |
| Tokens.DotsFrom | implementations/java/org.hl7.fhir.dstu3/src/org/hl7/fhir/dstu3/utils/StructureMapUtilities.java:729-734 | the `. name` pairs from c added to a name: it stops within the input at a token that is not `.` |
| Tokens.DottedAt | implementations/java/org.hl7.fhir.dstu3/src/org/hl7/fhir/dstu3/utils/StructureMapUtilities.java:729-734 | a dotted name `a.b.c` at c takes at least one token and stops before a token that is not `.` |
| Tokens.SeparatedFrom | implementations/java/org.hl7.fhir.dstu3/src/org/hl7/fhir/dstu3/utils/StructureMapUtilities.java:663-669 | the comma loop `do { item } while (hasToken(","))` as a function of any reader that moves forward: it reads at least one more item, moves forward, and stops before a token that is not a comma |
| Tokens.SeparatedNext | implementations/java/org.hl7.fhir.dstu3/src/org/hl7/fhir/dstu3/utils/StructureMapUtilities.java:663-669 | after an item is read, the comma loop goes on past a comma and otherwise ends with that item appended |
| Tokens.SeparatedFails | implementations/java/org.hl7.fhir.dstu3/src/org/hl7/fhir/dstu3/utils/StructureMapUtilities.java:663-669 | when the item at the cursor fails, the comma loop fails with that item's error |
| Tokens.Lexer.constructor | implementations/java/org.hl7.fhir.dstu3/src/org/hl7/fhir/dstu3/utils/StructureMapUtilities.java:478 | a lexer starts at the first token of the input |
| Tokens.Lexer.Next | implementations/java/org.hl7.fhir.dstu3/src/org/hl7/fhir/dstu3/utils/StructureMapUtilities.java:615 | moves one token on, and stays at the end of the input |
| Tokens.Lexer.Take | implementations/java/org.hl7.fhir.dstu3/src/org/hl7/fhir/dstu3/utils/StructureMapUtilities.java:524 | consumes and returns the current token, and at the end fails and stays put: the result and the new cursor are `TakeAt` of the tokens |
| Tokens.Lexer.Advance | implementations/java/org.hl7.fhir.dstu3/src/org/hl7/fhir/dstu3/utils/StructureMapUtilities.java:524 | consumes and returns the current token where one is there |
| Tokens.Lexer.Token | implementations/java/org.hl7.fhir.dstu3/src/org/hl7/fhir/dstu3/utils/StructureMapUtilities.java:482 | consumes the keyword when it is current, else fails with the expected-keyword error and stays put: the outcome and the new cursor are `KeywordAt` of the tokens |
| Tokens.Lexer.SkipToken | implementations/java/org.hl7.fhir.dstu3/src/org/hl7/fhir/dstu3/utils/StructureMapUtilities.java:603 | consumes the keyword only when it is current; the new cursor is `SkipAt` of the tokens |
| Tokens.Lexer.EndItem | implementations/java/org.hl7.fhir.dstu3/src/org/hl7/fhir/dstu3/utils/StructureMapUtilities.java:663-669 | one round of a comma loop: appends the item just read, consumes the comma after it if there is one, and is done exactly when there is none; the loop from the item's start equals the loop from the new cursor, or its end when done |
| Tokens.Lexer.SkipComments | implementations/java/org.hl7.fhir.dstu3/src/org/hl7/fhir/dstu3/utils/StructureMapUtilities.java:481 | consumes every comment at the cursor and stops at the first token that is not one; the new cursor is `CommentsEnd` of the tokens |
| Tokens.Lexer.ReadConstant | implementations/java/org.hl7.fhir.dstu3/src/org/hl7/fhir/dstu3/utils/StructureMapUtilities.java:484 | a string constant gives its unquoted content and advances one token, and anything else fails without moving: the result and the new cursor are `ConstantAt` of the tokens |
| Tokens.Lexer.TakeDottedToken | implementations/java/org.hl7.fhir.dstu3/src/org/hl7/fhir/dstu3/utils/StructureMapUtilities.java:729-734 | consumes `a.b.c` and returns the concatenation of exactly the tokens consumed; the result and the new cursor are `DottedAt` of the tokens |
| Tokens.Lexer.TakeDotAndPart | implementations/java/org.hl7.fhir.dstu3/src/org/hl7/fhir/dstu3/utils/StructureMapUtilities.java:729-734 | one round of the dotted-name loop: consumes `. name` and extends the name by those tokens; the rest of the dotted name reads the same from the new cursor |
| Tokens.Lexer.ReadExpression | implementations/java/org.hl7.fhir.dstu3/src/org/hl7/fhir/dstu3/utils/StructureMapUtilities.java:755-760 | hands the token stream to the expression parser and continues where it stopped: the result and the new cursor are `ExpressionAt` of the tokens |
| Parser.Parse | implementations/java/org.hl7.fhir.dstu3/src/org/hl7/fhir/dstu3/utils/StructureMapUtilities.java:477-504 | empty input fails with "Map Input cannot be empty"; the result is `MapAt` of the tokens |
| Parser.MapAt | implementations/java/org.hl7.fhir.dstu3/src/org/hl7/fhir/dstu3/utils/StructureMapUtilities.java:477-504 | empty input fails with "Map Input cannot be empty"; a map read has at least one group; after leading comments it starts `map`, the url constant, `=` and the name constant, and the url and name are those constants' contents |
| Parser.MapBodyAt | implementations/java/org.hl7.fhir.dstu3/src/org/hl7/fhir/dstu3/utils/StructureMapUtilities.java:488-503 | after the header, the map keeps the url and name read and has at least one group |
| Parser.HeaderAt | implementations/java/org.hl7.fhir.dstu3/src/org/hl7/fhir/dstu3/utils/StructureMapUtilities.java:481-486 | `map "url" = "name"` after any comments: the four tokens at the position reached, the url and the name being the contents of the two constants |
| Parser.ParseHeader | implementations/java/org.hl7.fhir.dstu3/src/org/hl7/fhir/dstu3/utils/StructureMapUtilities.java:481-486 | the result and the new cursor are `HeaderAt` of the tokens; the ghost position is where the comments end |
| Parser.ConceptMapsFrom | implementations/java/org.hl7.fhir.dstu3/src/org/hl7/fhir/dstu3/utils/StructureMapUtilities.java:489-490 | embedded concept maps are read while the token is `conceptmap`, and the position reached is not one |
| Parser.ParseConceptMaps | implementations/java/org.hl7.fhir.dstu3/src/org/hl7/fhir/dstu3/utils/StructureMapUtilities.java:489-490 | the result and the new cursor are `ConceptMapsFrom` of the tokens |
| Parser.UsesFrom | implementations/java/org.hl7.fhir.dstu3/src/org/hl7/fhir/dstu3/utils/StructureMapUtilities.java:492-493 | `uses` clauses are read while the token is `uses`, and the position reached is not one |
| Parser.ParseUsesClauses | implementations/java/org.hl7.fhir.dstu3/src/org/hl7/fhir/dstu3/utils/StructureMapUtilities.java:492-493 | the result and the new cursor are `UsesFrom` of the tokens |
| Parser.ImportsFrom | implementations/java/org.hl7.fhir.dstu3/src/org/hl7/fhir/dstu3/utils/StructureMapUtilities.java:494-495 | `imports` clauses are read while the token is `imports`, and the position reached is not one |
| Parser.ParseImportsClauses | implementations/java/org.hl7.fhir.dstu3/src/org/hl7/fhir/dstu3/utils/StructureMapUtilities.java:494-495 | the result and the new cursor are `ImportsFrom` of the tokens |
| Parser.GroupListAt | implementations/java/org.hl7.fhir.dstu3/src/org/hl7/fhir/dstu3/utils/StructureMapUtilities.java:496-501 | at least one group, read until the input is used up |
| Parser.GroupsFrom | implementations/java/org.hl7.fhir.dstu3/src/org/hl7/fhir/dstu3/utils/StructureMapUtilities.java:500-501 | groups are read until the input is used up, keeping those already read |
| Parser.ParseGroups | implementations/java/org.hl7.fhir.dstu3/src/org/hl7/fhir/dstu3/utils/StructureMapUtilities.java:496-501 | at least one group, read until the input is used up: the result and the new cursor are `GroupListAt` of the tokens |
| Parser.ConceptMapAt | implementations/java/org.hl7.fhir.dstu3/src/org/hl7/fhir/dstu3/utils/StructureMapUtilities.java:506-549 | `conceptmap "#id" { ... }` takes at least one token; an empty id constant fails with the index error the Java substring raises |
| Parser.ConceptMapBodyAt | implementations/java/org.hl7.fhir.dstu3/src/org/hl7/fhir/dstu3/utils/StructureMapUtilities.java:515-548 | the body of a concept map keeps the id it was given and takes at least one token |
| Parser.ParseConceptMap | implementations/java/org.hl7.fhir.dstu3/src/org/hl7/fhir/dstu3/utils/StructureMapUtilities.java:506-549 | an embedded concept map starts `conceptmap` and a string constant, takes its id after the first character, and ends at `}`; the result and the new cursor are `ConceptMapAt` of the tokens |
| Parser.ParseConceptMapBody | implementations/java/org.hl7.fhir.dstu3/src/org/hl7/fhir/dstu3/utils/StructureMapUtilities.java:515-548 | the body ends at `}`; the result and the new cursor are `ConceptMapBodyAt` of the tokens |
| Parser.PrefixesFrom | implementations/java/org.hl7.fhir.dstu3/src/org/hl7/fhir/dstu3/utils/StructureMapUtilities.java:521-528 | prefix declarations are read until the token is no longer `prefix`; earlier prefixes are kept; with no `prefix` nothing is read |
| Parser.PrefixDeclaration | implementations/java/org.hl7.fhir.dstu3/src/org/hl7/fhir/dstu3/utils/StructureMapUtilities.java:521-528 | one declaration `prefix p = "url"` binds p to the url's content, a later one for the same name replacing it |
| Parser.ParsePrefixes | implementations/java/org.hl7.fhir.dstu3/src/org/hl7/fhir/dstu3/utils/StructureMapUtilities.java:521-528 | the prefix declarations of a concept map are read until the next token is no longer `prefix`; the result and the new cursor are `PrefixesFrom` of the tokens |
| Parser.ReadPrefix | implementations/java/org.hl7.fhir.dstu3/src/org/hl7/fhir/dstu3/utils/StructureMapUtilities.java:565-570 | a prefix stands for the URL it was declared with; an unknown prefix fails naming the prefix; the result and the new cursor are `PrefixAt` of the tokens |
| Parser.PrefixAt | implementations/java/org.hl7.fhir.dstu3/src/org/hl7/fhir/dstu3/utils/StructureMapUtilities.java:565-570 | reading a prefix succeeds exactly when the token is a declared prefix, giving its URL; an unknown prefix fails with "Unknown prefix" and its name |
| Parser.EquivalenceOfToken | implementations/java/org.hl7.fhir.dstu3/src/org/hl7/fhir/dstu3/utils/StructureMapUtilities.java:573-594 | each of the equivalence operators names one equivalence; any other token fails with "Unknown equivalence token" |
| Parser.EquivalenceTokenRoundTrip | implementations/java/org.hl7.fhir.dstu3/src/org/hl7/fhir/dstu3/utils/StructureMapUtilities.java:573-594 | every equivalence reads back from its operator and no two equivalences share one |
| Parser.EquivalenceAt | implementations/java/org.hl7.fhir.dstu3/src/org/hl7/fhir/dstu3/utils/StructureMapUtilities.java:573-594 | reading an equivalence succeeds exactly when a token is left and it is an operator, moving one on |
| Parser.ReadEquivalence | implementations/java/org.hl7.fhir.dstu3/src/org/hl7/fhir/dstu3/utils/StructureMapUtilities.java:573-594 | consumes the operator and returns the equivalence it names; the result and the new cursor are `EquivalenceAt` of the tokens |
| Parser.TargetCodeAt | implementations/java/org.hl7.fhir.dstu3/src/org/hl7/fhir/dstu3/utils/StructureMapUtilities.java:541-543 | the target code `: code` succeeds exactly when a `:` and a code follow, giving the code |
| Parser.EntryAt | implementations/java/org.hl7.fhir.dstu3/src/org/hl7/fhir/dstu3/utils/StructureMapUtilities.java:530-546 | one entry `s:code op t:code [comment]` takes at least one token |
| Parser.EntryWithTarget | implementations/java/org.hl7.fhir.dstu3/src/org/hl7/fhir/dstu3/utils/StructureMapUtilities.java:530-546 | `s:code op t:code` gives the two systems the prefixes stand for, the source code and one target with that code, with no equivalence for `==` and the operator's otherwise |
| Parser.EntryUnmatched | implementations/java/org.hl7.fhir.dstu3/src/org/hl7/fhir/dstu3/utils/StructureMapUtilities.java:530-546 | `s:code --` gives no target system and one target with no code and the unmatched equivalence |
| Parser.ParseEntry | implementations/java/org.hl7.fhir.dstu3/src/org/hl7/fhir/dstu3/utils/StructureMapUtilities.java:530-546 | the result and the new cursor are `EntryAt` of the tokens |
| Parser.EntriesFrom | implementations/java/org.hl7.fhir.dstu3/src/org/hl7/fhir/dstu3/utils/StructureMapUtilities.java:529-548 | the entries are read up to and including the closing `}`, which is the last token taken |
| Parser.EntryListFrom | implementations/java/org.hl7.fhir.dstu3/src/org/hl7/fhir/dstu3/utils/StructureMapUtilities.java:529-548 | the entries up to the closing `}`, as a list, take at least one token |
| Parser.EntriesAreGrouped | implementations/java/org.hl7.fhir.dstu3/src/org/hl7/fhir/dstu3/utils/StructureMapUtilities.java:529-548 | reading the entries into groups is reading them as a list and then adding each, in order, to its group |
| Parser.GroupedCount | implementations/java/org.hl7.fhir.dstu3/src/org/hl7/fhir/dstu3/utils/StructureMapUtilities.java:529-548 | grouping a list of entries keeps every entry: the total grows by the length of the list |
| Parser.ParseConceptMapEntries | implementations/java/org.hl7.fhir.dstu3/src/org/hl7/fhir/dstu3/utils/StructureMapUtilities.java:529-548 | the entries of a concept map are read up to and including the closing `}`, which is the last token consumed; the result and the new cursor are `EntriesFrom` of the tokens |
| Parser.GroupIndex | implementations/java/org.hl7.fhir.dstu3/src/org/hl7/fhir/dstu3/utils/StructureMapUtilities.java:552-562 | the index of the first group for these source and target systems, or the end when there is none |
| Parser.AddEntry | implementations/java/org.hl7.fhir.dstu3/src/org/hl7/fhir/dstu3/utils/StructureMapUtilities.java:552-562 | an entry joins the first matching group, or a new group appended at the end; every other group is unchanged |
| Parser.EntryCountUpdate | implementations/java/org.hl7.fhir.dstu3/src/org/hl7/fhir/dstu3/utils/StructureMapUtilities.java:552-562 | replacing one group changes the total number of entries by the difference in that group's entries |
| Parser.AddEntryCounts | implementations/java/org.hl7.fhir.dstu3/src/org/hl7/fhir/dstu3/utils/StructureMapUtilities.java:529-547 | every entry read is kept: adding an entry adds exactly one to the total |
| Parser.UsesAt | implementations/java/org.hl7.fhir.dstu3/src/org/hl7/fhir/dstu3/utils/StructureMapUtilities.java:597-608 | `uses "url" as mode` takes at least one token |
| Parser.ParseUses | implementations/java/org.hl7.fhir.dstu3/src/org/hl7/fhir/dstu3/utils/StructureMapUtilities.java:597-608 | `uses "url" as mode`: the URL is the constant's content and the mode's code is the token read; the result and the new cursor are `UsesAt` of the tokens |
| Parser.ImportsAt | implementations/java/org.hl7.fhir.dstu3/src/org/hl7/fhir/dstu3/utils/StructureMapUtilities.java:610-618 | `imports "url"` takes at least one token |
| Parser.ParseImports | implementations/java/org.hl7.fhir.dstu3/src/org/hl7/fhir/dstu3/utils/StructureMapUtilities.java:610-618 | `imports "url"`: the import is the constant's content; the result and the new cursor are `ImportsAt` of the tokens |
| Parser.GroupHeadAt | implementations/java/org.hl7.fhir.dstu3/src/org/hl7/fhir/dstu3/utils/StructureMapUtilities.java:620-628 | `group name [extends other]`: the name is the token after `group`; the extended group is the token after `extends` when that keyword follows, and blank exactly when it does not |
| Parser.ParseGroupHead | implementations/java/org.hl7.fhir.dstu3/src/org/hl7/fhir/dstu3/utils/StructureMapUtilities.java:620-628 | the result and the new cursor are `GroupHeadAt` of the tokens |
| Parser.GroupAt | implementations/java/org.hl7.fhir.dstu3/src/org/hl7/fhir/dstu3/utils/StructureMapUtilities.java:620-638 | `group name [extends other]`: the name is the token after `group`; the extended group is the token after `extends` when that keyword follows, and blank otherwise; no documentation; every rule has at least one source |
| Parser.ParseGroup | implementations/java/org.hl7.fhir.dstu3/src/org/hl7/fhir/dstu3/utils/StructureMapUtilities.java:620-638 | the result and the new cursor are `GroupAt` of the tokens |
| Parser.InputsFrom | implementations/java/org.hl7.fhir.dstu3/src/org/hl7/fhir/dstu3/utils/StructureMapUtilities.java:629-630 | input declarations are read while the token is `input`, and the position reached is not one |
| Parser.ParseInputs | implementations/java/org.hl7.fhir.dstu3/src/org/hl7/fhir/dstu3/utils/StructureMapUtilities.java:629-630 | the result and the new cursor are `InputsFrom` of the tokens |
| Parser.GroupRulesFrom | implementations/java/org.hl7.fhir.dstu3/src/org/hl7/fhir/dstu3/utils/StructureMapUtilities.java:631-635 | rules are read up to `endgroup`; running out of tokens first fails with "premature termination expecting 'endgroup'"; every rule read has at least one source |
| Parser.ParseGroupRules | implementations/java/org.hl7.fhir.dstu3/src/org/hl7/fhir/dstu3/utils/StructureMapUtilities.java:631-635 | the result and the new cursor are `GroupRulesFrom` of the tokens |
| Parser.OptionalTokenAt | implementations/java/org.hl7.fhir.dstu3/src/org/hl7/fhir/dstu3/utils/StructureMapUtilities.java:644-647 | an optional `keyword t`, read for `: type` of an input and `as v` of a source or target: without the keyword the result is blank and nothing is read; with it, the result is the next token |
| Parser.ReadInputType | implementations/java/org.hl7.fhir.dstu3/src/org/hl7/fhir/dstu3/utils/StructureMapUtilities.java:644-647 | the optional type consumes exactly `: type` when present and nothing when absent; the result and the new cursor are `OptionalTokenAt` of the tokens with the keyword `:` |
| Parser.InputModeAt | implementations/java/org.hl7.fhir.dstu3/src/org/hl7/fhir/dstu3/utils/StructureMapUtilities.java:649 | a mode read is one token whose code is that mode |
| Parser.ReadInputMode | implementations/java/org.hl7.fhir.dstu3/src/org/hl7/fhir/dstu3/utils/StructureMapUtilities.java:649 | consumes one token whose code is the mode returned; the result and the new cursor are `InputModeAt` of the tokens |
| Parser.InputHeadAt | implementations/java/org.hl7.fhir.dstu3/src/org/hl7/fhir/dstu3/utils/StructureMapUtilities.java:640-649 | `input name [: type] as mode` takes at least one token and has no documentation |
| Parser.InputHeadTokens | implementations/java/org.hl7.fhir.dstu3/src/org/hl7/fhir/dstu3/utils/StructureMapUtilities.java:640-649 | the tokens `input name`, then `: type` if typed, then `as mode` are exactly the tokens of that input |
| Parser.ParseInputHead | implementations/java/org.hl7.fhir.dstu3/src/org/hl7/fhir/dstu3/utils/StructureMapUtilities.java:640-649 | consumes exactly the tokens of the declaration `input name [: type] as mode`; the result and the new cursor are `InputHeadAt` of the tokens |
| Parser.InputAt | implementations/java/org.hl7.fhir.dstu3/src/org/hl7/fhir/dstu3/utils/StructureMapUtilities.java:640-655 | an input declaration and its comment take at least one token |
| Parser.ParseInput | implementations/java/org.hl7.fhir.dstu3/src/org/hl7/fhir/dstu3/utils/StructureMapUtilities.java:640-655 | an input declaration is exactly the tokens of the input read, followed by an optional comment; the result and the new cursor are `InputAt` of the tokens |
| Parser.ReadComment | implementations/java/org.hl7.fhir.dstu3/src/org/hl7/fhir/dstu3/utils/StructureMapUtilities.java:650-652 | a comment at the cursor becomes the text returned; without one nothing is consumed; text and cursor are `CommentAt` of the tokens |
| Parser.RuleAt | implementations/java/org.hl7.fhir.dstu3/src/org/hl7/fhir/dstu3/utils/StructureMapUtilities.java:657-707 | a rule takes at least one token and has at least one source, and never both nested rules and dependents |
| Parser.ParseRule | implementations/java/org.hl7.fhir.dstu3/src/org/hl7/fhir/dstu3/utils/StructureMapUtilities.java:657-707 | the name is the dotted tokens before `: for`; at least one source; nested rules exactly follow `then {`, dependents follow `then` without `{`, and without `then` there are neither; the result and the new cursor are `RuleAt` of the tokens |
| Parser.RuleNameAt | implementations/java/org.hl7.fhir.dstu3/src/org/hl7/fhir/dstu3/utils/StructureMapUtilities.java:660-662 | a rule name `a.b : for` takes at least one token |
| Parser.ParseRuleName | implementations/java/org.hl7.fhir.dstu3/src/org/hl7/fhir/dstu3/utils/StructureMapUtilities.java:660-662 | the name is the concatenation of the dotted tokens before `: for`; the result and the new cursor are `RuleNameAt` of the tokens |
| Parser.RuleHeadAt | implementations/java/org.hl7.fhir.dstu3/src/org/hl7/fhir/dstu3/utils/StructureMapUtilities.java:660-679 | the part before `then` takes at least one token and has at least one source |
| Parser.ParseRuleHead | implementations/java/org.hl7.fhir.dstu3/src/org/hl7/fhir/dstu3/utils/StructureMapUtilities.java:660-679 | the name is the concatenation of the dotted tokens before `: for`, and at least one source follows; the result and the new cursor are `RuleHeadAt` of the tokens |
| Parser.MadeAt | implementations/java/org.hl7.fhir.dstu3/src/org/hl7/fhir/dstu3/utils/StructureMapUtilities.java:670-679 | without `make` there are no targets and nothing is read; with it, the targets are the comma loop after `make` |
| Parser.ParseMade | implementations/java/org.hl7.fhir.dstu3/src/org/hl7/fhir/dstu3/utils/StructureMapUtilities.java:670-679 | the result and the new cursor are `MadeAt` of the tokens |
| Parser.RuleBodyAt | implementations/java/org.hl7.fhir.dstu3/src/org/hl7/fhir/dstu3/utils/StructureMapUtilities.java:680-706 | the body keeps the name, sources and targets; nested rules only after `then {`, dependents only after `then` without `{`, neither without `then`; dependents have no documentation |
| Parser.RuleBodyNested | implementations/java/org.hl7.fhir.dstu3/src/org/hl7/fhir/dstu3/utils/StructureMapUtilities.java:682-693 | after `then {` the body is the comment as documentation and the nested rules, and fails with their error |
| Parser.RuleBodyInvoking | implementations/java/org.hl7.fhir.dstu3/src/org/hl7/fhir/dstu3/utils/StructureMapUtilities.java:695-701 | after `then` without `{` the body is the dependents with no documentation, and fails with their error |
| Parser.ParseRuleBody | implementations/java/org.hl7.fhir.dstu3/src/org/hl7/fhir/dstu3/utils/StructureMapUtilities.java:680-706 | the rule read from its start is the body read from here, with the shape `RuleShape` gives; the result and the new cursor are `RuleAt` of the tokens from the rule's start |
| Parser.ParseRuleRest | implementations/java/org.hl7.fhir.dstu3/src/org/hl7/fhir/dstu3/utils/StructureMapUtilities.java:680-706 | the result and the new cursor are `RuleBodyAt` of the tokens |
| Parser.ParseNestedBody | implementations/java/org.hl7.fhir.dstu3/src/org/hl7/fhir/dstu3/utils/StructureMapUtilities.java:682-693 | after `then` and before `{`: the result and the new cursor are `RuleBodyAt` of the tokens from `then` |
| Parser.ParseInvokingBody | implementations/java/org.hl7.fhir.dstu3/src/org/hl7/fhir/dstu3/utils/StructureMapUtilities.java:695-701 | after `then` with no `{`: the result and the new cursor are `RuleBodyAt` of the tokens from `then` |
| Parser.NestedRulesFrom | implementations/java/org.hl7.fhir.dstu3/src/org/hl7/fhir/dstu3/utils/StructureMapUtilities.java:688-693 | nested rules run up to and past the closing `}`; running out of tokens first fails with "premature termination expecting '}' in nested group"; every rule read has at least one source |
| Parser.ParseNestedRule | implementations/java/org.hl7.fhir.dstu3/src/org/hl7/fhir/dstu3/utils/StructureMapUtilities.java:688-693 | one round of the nested-rules loop: at the end of input it fails as the loop does, and otherwise the loop from here equals the loop from the new cursor with the rule read appended |
| Parser.ParseNestedRules | implementations/java/org.hl7.fhir.dstu3/src/org/hl7/fhir/dstu3/utils/StructureMapUtilities.java:688-693 | nested rules run up to the closing `}`; each nested rule has at least one source, and running out of tokens first is an error; the result and the new cursor are `NestedRulesFrom` of the tokens |
| Parser.SourcesFrom | implementations/java/org.hl7.fhir.dstu3/src/org/hl7/fhir/dstu3/utils/StructureMapUtilities.java:663-669 | the sources of a rule, at least one, are the comma loop over `SourceAt` |
| Parser.SourceReader | implementations/java/org.hl7.fhir.dstu3/src/org/hl7/fhir/dstu3/utils/StructureMapUtilities.java:663-669 | reading one source always moves forward within the input |
| Parser.ParseSources | implementations/java/org.hl7.fhir.dstu3/src/org/hl7/fhir/dstu3/utils/StructureMapUtilities.java:663-669 | the sources of a rule: at least one, separated by commas; the result and the new cursor are `SourcesFrom` of the tokens |
| Parser.ParseNextSource | implementations/java/org.hl7.fhir.dstu3/src/org/hl7/fhir/dstu3/utils/StructureMapUtilities.java:663-669 | one round of the sources loop: a failing source fails the loop, and otherwise the loop from here equals the loop from the new cursor, or ends here when no comma follows |
| Parser.TargetsFrom | implementations/java/org.hl7.fhir.dstu3/src/org/hl7/fhir/dstu3/utils/StructureMapUtilities.java:673-678 | the targets after `make`, at least one, are the comma loop over `TargetAt` |
| Parser.TargetReader | implementations/java/org.hl7.fhir.dstu3/src/org/hl7/fhir/dstu3/utils/StructureMapUtilities.java:673-678 | reading one target always moves forward within the input |
| Parser.ParseTargets | implementations/java/org.hl7.fhir.dstu3/src/org/hl7/fhir/dstu3/utils/StructureMapUtilities.java:670-679 | the targets after `make`: at least one, separated by commas; the result and the new cursor are `TargetsFrom` of the tokens |
| Parser.ParseNextTarget | implementations/java/org.hl7.fhir.dstu3/src/org/hl7/fhir/dstu3/utils/StructureMapUtilities.java:673-678 | one round of the targets loop: a failing target fails the loop, and otherwise the loop from here equals the loop from the new cursor, or ends here when no comma follows |
| Parser.RuleReferencesFrom | implementations/java/org.hl7.fhir.dstu3/src/org/hl7/fhir/dstu3/utils/StructureMapUtilities.java:696-701 | the dependents after `then`, at least one, are the comma loop over `RuleReferenceAt` |
| Parser.RuleReferenceReader | implementations/java/org.hl7.fhir.dstu3/src/org/hl7/fhir/dstu3/utils/StructureMapUtilities.java:696-701 | reading one dependent always moves forward within the input |
| Parser.ParseRuleReferences | implementations/java/org.hl7.fhir.dstu3/src/org/hl7/fhir/dstu3/utils/StructureMapUtilities.java:695-701 | the dependents after `then`: at least one, separated by commas; the result and the new cursor are `RuleReferencesFrom` of the tokens |
| Parser.ParseNextReference | implementations/java/org.hl7.fhir.dstu3/src/org/hl7/fhir/dstu3/utils/StructureMapUtilities.java:696-701 | one round of the dependents loop: a failing dependent fails the loop, and otherwise the loop from here equals the loop from the new cursor, or ends here when no comma follows |
| Parser.RuleReferenceAt | implementations/java/org.hl7.fhir.dstu3/src/org/hl7/fhir/dstu3/utils/StructureMapUtilities.java:709-721 | `name(v1, ..., vn)` takes at least one token |
| Parser.DependentOfTokens | implementations/java/org.hl7.fhir.dstu3/src/org/hl7/fhir/dstu3/utils/StructureMapUtilities.java:709-721 | the tokens of an invocation `name(v1, ..., vn)` read back as that invocation, and as many tokens are taken |
| Parser.DependentTokenParts | implementations/java/org.hl7.fhir.dstu3/src/org/hl7/fhir/dstu3/utils/StructureMapUtilities.java:709-721 | the tokens of an invocation are its name, `(`, the variables with commas between them, and `)` |
| Parser.DependentTokensAt | implementations/java/org.hl7.fhir.dstu3/src/org/hl7/fhir/dstu3/utils/StructureMapUtilities.java:709-721 | a name, `(`, variable tokens and `)` in a row are the tokens of that invocation |
| Parser.DependentTokensTexts | implementations/java/org.hl7.fhir.dstu3/src/org/hl7/fhir/dstu3/utils/StructureMapUtilities.java:709-721 | the texts of an invocation's tokens are the name, `(`, the texts of the variable tokens and `)` |
| Parser.ParseRuleReference | implementations/java/org.hl7.fhir.dstu3/src/org/hl7/fhir/dstu3/utils/StructureMapUtilities.java:709-721 | consumes exactly the tokens of `name(v1, ..., vn)` for the dependent returned, with at least one variable; the result and the new cursor are `RuleReferenceAt` of the tokens |
| Parser.VariablesFrom | implementations/java/org.hl7.fhir.dstu3/src/org/hl7/fhir/dstu3/utils/StructureMapUtilities.java:714-719 | the variables after the first, each after a comma: it stops within the input at a token that is not a comma, keeping those already read |
| Parser.VariablesAt | implementations/java/org.hl7.fhir.dstu3/src/org/hl7/fhir/dstu3/utils/StructureMapUtilities.java:713-719 | the variable list takes at least one token |
| Parser.VariablesFromTokens | implementations/java/org.hl7.fhir.dstu3/src/org/hl7/fhir/dstu3/utils/StructureMapUtilities.java:714-719 | variable tokens, not followed by a comma, read back as exactly those variables |
| Parser.VariablesOfTokens | implementations/java/org.hl7.fhir.dstu3/src/org/hl7/fhir/dstu3/utils/StructureMapUtilities.java:713-719 | a non-empty list of variables written with commas between them reads back as that list, taking exactly those tokens |
| Parser.VariableStep | implementations/java/org.hl7.fhir.dstu3/src/org/hl7/fhir/dstu3/utils/StructureMapUtilities.java:714-719 | a comma and a variable extend the tokens and the variables read by one |
| Parser.VariableTokenAt | implementations/java/org.hl7.fhir.dstu3/src/org/hl7/fhir/dstu3/utils/StructureMapUtilities.java:713-719 | the i-th variable is token 2i of the variable tokens, and a comma follows it unless it is the last |
| Parser.VariablesFromSlice | implementations/java/org.hl7.fhir.dstu3/src/org/hl7/fhir/dstu3/utils/StructureMapUtilities.java:714-719 | the tokens the variable loop consumes are exactly the variable tokens of what it reads |
| Parser.ParseVariables | implementations/java/org.hl7.fhir.dstu3/src/org/hl7/fhir/dstu3/utils/StructureMapUtilities.java:713-719 | consumes exactly the variables returned and the commas between them; the result and the new cursor are `VariablesAt` of the tokens |
| Parser.VariableTokens | implementations/java/org.hl7.fhir.dstu3/src/org/hl7/fhir/dstu3/utils/StructureMapUtilities.java:712-720 | n variables take 2n-1 tokens, the variables and the commas between them |
| Parser.ReferenceStep | implementations/java/org.hl7.fhir.dstu3/src/org/hl7/fhir/dstu3/utils/StructureMapUtilities.java:712-720 | reading one more variable after a comma extends the consumed tokens by that variable |
| Parser.VariableTokensText | implementations/java/org.hl7.fhir.dstu3/src/org/hl7/fhir/dstu3/utils/StructureMapUtilities.java:712-720 | the consumed variable tokens, a comma written ", ", spell the variables joined by ", " |
| Parser.CorrectedDependentRoundTrip | implementations/java/org.hl7.fhir.dstu3/src/org/hl7/fhir/dstu3/utils/StructureMapUtilities.java:709-721 | the corrected text of an invocation spells out exactly the tokens the parser reads for it |
| Parser.SourceAt | implementations/java/org.hl7.fhir.dstu3/src/org/hl7/fhir/dstu3/utils/StructureMapUtilities.java:723-767 | a source takes at least one token; it is required exactly when its first token is not `optional`, and its context is the token after that keyword if present |
| Parser.SourceWithVariable | implementations/java/org.hl7.fhir.dstu3/src/org/hl7/fhir/dstu3/utils/StructureMapUtilities.java:723-767 | `context.element first as v` gives that context, element, list mode and variable, required, with no conditions |
| Parser.SourceWithConditions | implementations/java/org.hl7.fhir.dstu3/src/org/hl7/fhir/dstu3/utils/StructureMapUtilities.java:723-767 | `optional context where e check f` gives an optional source whose conditions are what the expression parser reads after each keyword |
| Parser.ParseSource | implementations/java/org.hl7.fhir.dstu3/src/org/hl7/fhir/dstu3/utils/StructureMapUtilities.java:723-767 | the context is never blank; the result and the new cursor are `SourceAt` of the tokens |
| Parser.ParseSourceHead | implementations/java/org.hl7.fhir.dstu3/src/org/hl7/fhir/dstu3/utils/StructureMapUtilities.java:725-734 | reads `[optional] context[.element]`: the result and the new cursor are `SourceHeadAt` of the tokens |
| Parser.SourceHeadAt | implementations/java/org.hl7.fhir.dstu3/src/org/hl7/fhir/dstu3/utils/StructureMapUtilities.java:725-734 | a source is required exactly when the first token is not `optional`, and its context is the token after that keyword if present |
| Parser.TypeAndCardinalityAt | implementations/java/org.hl7.fhir.dstu3/src/org/hl7/fhir/dstu3/utils/StructureMapUtilities.java:735-743 | without `:` nothing is read; the position reached stays within the input |
| Parser.SkipTypeAndCardinality | implementations/java/org.hl7.fhir.dstu3/src/org/hl7/fhir/dstu3/utils/StructureMapUtilities.java:735-743 | `: type min..max` is read and dropped; without ':' nothing is consumed; outcome and cursor are `TypeAndCardinalityAt` of the tokens |
| Parser.SourceListModeAt | implementations/java/org.hl7.fhir.dstu3/src/org/hl7/fhir/dstu3/utils/StructureMapUtilities.java:744-749 | a list mode is read exactly when the token is `first`, `last` or `only_one`, moving one on |
| Parser.ReadSourceListMode | implementations/java/org.hl7.fhir.dstu3/src/org/hl7/fhir/dstu3/utils/StructureMapUtilities.java:744-749 | `first` and `last` give their modes; `only_one` is read as share; any other token is not consumed; mode and cursor are `SourceListModeAt` of the tokens |
| Parser.ReadVariable | implementations/java/org.hl7.fhir.dstu3/src/org/hl7/fhir/dstu3/utils/StructureMapUtilities.java:751-754 | `as v` gives v and consumes two tokens; without `as` the variable is blank and nothing is consumed; the result and the new cursor are `OptionalTokenAt` of the tokens with the keyword `as` |
| Parser.ConditionAt | implementations/java/org.hl7.fhir.dstu3/src/org/hl7/fhir/dstu3/utils/StructureMapUtilities.java:755-766 | without the keyword the condition is blank and nothing is read; with it, the condition is the expression read after the keyword |
| Parser.ReadCondition | implementations/java/org.hl7.fhir.dstu3/src/org/hl7/fhir/dstu3/utils/StructureMapUtilities.java:755-766 | `where e` or `check e` gives the expression text the expression parser read; without the keyword nothing; the result and the new cursor are `ConditionAt` of the tokens |
| Parser.TargetAt | implementations/java/org.hl7.fhir.dstu3/src/org/hl7/fhir/dstu3/utils/StructureMapUtilities.java:769-841 | a target takes at least one token |
| Parser.TargetShape | implementations/java/org.hl7.fhir.dstu3/src/org/hl7/fhir/dstu3/utils/StructureMapUtilities.java:769-841 | a target keeps the context, context type and element its head reads; evaluate has one or two parameters, the last a string; a target keeps an expression exactly when it is an evaluate, and it is that last string; a list rule id comes with share |
| Parser.ParseTarget | implementations/java/org.hl7.fhir.dstu3/src/org/hl7/fhir/dstu3/utils/StructureMapUtilities.java:769-841 | a context type exactly when there is an element; the result and the new cursor are `TargetAt` of the tokens |
| Parser.ParseTargetHead | implementations/java/org.hl7.fhir.dstu3/src/org/hl7/fhir/dstu3/utils/StructureMapUtilities.java:771-788 | reads `context.element =`, `context =`, `context.element` or a bare value: the result and the new cursor are `TargetHeadAt` of the tokens |
| Parser.TargetHeadAt | implementations/java/org.hl7.fhir.dstu3/src/org/hl7/fhir/dstu3/utils/StructureMapUtilities.java:771-788 | a target head takes at least one token |
| Parser.TargetHeadShape | implementations/java/org.hl7.fhir.dstu3/src/org/hl7/fhir/dstu3/utils/StructureMapUtilities.java:771-788 | a context type exactly when the second token is `.`, the element being the token after it; the context is the first token when a `.` or `=` follows it; the value is the token after `=`, or the first token when it stands alone; it is a literal exactly when it follows `=` and is a constant, and then it is never blank |
| Parser.TargetValueAt | implementations/java/org.hl7.fhir.dstu3/src/org/hl7/fhir/dstu3/utils/StructureMapUtilities.java:790-825 | reading a target's value stays within the input |
| Parser.TargetValueShape | implementations/java/org.hl7.fhir.dstu3/src/org/hl7/fhir/dstu3/utils/StructureMapUtilities.java:790-825 | `(expr)` is an evaluate with one parameter; no name and no `(` give no transform and read nothing; a name without `(` is a copy of one parameter, the constant's value for a literal and the dotted reference otherwise; `name(` names the transform by its code, and any transform other than evaluate takes the parameter list |
| Parser.TargetValueEvaluate | implementations/java/org.hl7.fhir.dstu3/src/org/hl7/fhir/dstu3/utils/StructureMapUtilities.java:790-825 | evaluate, and only evaluate, keeps its parsed expression, which equals its last string parameter, with one or two parameters |
| Parser.ParseTargetValue | implementations/java/org.hl7.fhir.dstu3/src/org/hl7/fhir/dstu3/utils/StructureMapUtilities.java:790-825 | the result and the new cursor are `TargetValueAt` of the tokens |
| Parser.DotsFromText | implementations/java/org.hl7.fhir.dstu3/src/org/hl7/fhir/dstu3/utils/StructureMapUtilities.java:817-821 | a copied reference is the name followed by the text of every token consumed |
| Parser.ReadDottedReference | implementations/java/org.hl7.fhir.dstu3/src/org/hl7/fhir/dstu3/utils/StructureMapUtilities.java:817-821 | a copied variable reference is the name followed by every `.` and name consumed, stopping before a token that is not `.`; the result and the new cursor are `DotsFrom` of the tokens |
| Parser.ParametersFrom | implementations/java/org.hl7.fhir.dstu3/src/org/hl7/fhir/dstu3/utils/StructureMapUtilities.java:807-811 | the parameter list stops within the input at a `)` |
| Parser.ParametersOfTokens | implementations/java/org.hl7.fhir.dstu3/src/org/hl7/fhir/dstu3/utils/StructureMapUtilities.java:807-811 | one parameter for each token |
| Parser.ParametersOfTokensSnoc | implementations/java/org.hl7.fhir.dstu3/src/org/hl7/fhir/dstu3/utils/StructureMapUtilities.java:807-811 | reading one more token adds its parameter at the end |
| Parser.ParameterStep | implementations/java/org.hl7.fhir.dstu3/src/org/hl7/fhir/dstu3/utils/StructureMapUtilities.java:807-811 | a parameter followed by `,` goes on with it appended; followed by `)` it ends the list with it appended |
| Parser.ParametersFromTokens | implementations/java/org.hl7.fhir.dstu3/src/org/hl7/fhir/dstu3/utils/StructureMapUtilities.java:807-811 | parameters written with commas between them and a `)` after read back as the parameter of each token |
| Parser.ParametersOfList | implementations/java/org.hl7.fhir.dstu3/src/org/hl7/fhir/dstu3/utils/StructureMapUtilities.java:807-811 | a parameter list `p1, ..., pn )` reads back as the parameters of those tokens and stops at the `)` |
| Parser.ParseParameters | implementations/java/org.hl7.fhir.dstu3/src/org/hl7/fhir/dstu3/utils/StructureMapUtilities.java:807-812 | reads the parameters of a transform up to the closing parenthesis; the result and the new cursor are `ParametersFrom` of the tokens |
| Parser.ListModesFrom | implementations/java/org.hl7.fhir.dstu3/src/org/hl7/fhir/dstu3/utils/StructureMapUtilities.java:830-840 | the list modes stay within the input |
| Parser.ListModesShape | implementations/java/org.hl7.fhir.dstu3/src/org/hl7/fhir/dstu3/utils/StructureMapUtilities.java:830-840 | the list modes stop at a token that is not one; a rule id comes with a share mode; with no list-mode token nothing is read |
| Parser.OnlyOneIsLast | implementations/java/org.hl7.fhir.dstu3/src/org/hl7/fhir/dstu3/utils/StructureMapUtilities.java:830-840 | `only_one` in a target is read as the last mode |
| Parser.ShareSkipsAToken | implementations/java/org.hl7.fhir.dstu3/src/org/hl7/fhir/dstu3/utils/StructureMapUtilities.java:830-840 | `share id` records share and the id, and then skips the token after the id as well |
| Parser.ParseListMode | implementations/java/org.hl7.fhir.dstu3/src/org/hl7/fhir/dstu3/utils/StructureMapUtilities.java:830-840 | one round of the list-mode loop: the loop from here equals the loop from the new cursor with the mode read, or fails with its error |
| Parser.ParseTargetListModes | implementations/java/org.hl7.fhir.dstu3/src/org/hl7/fhir/dstu3/utils/StructureMapUtilities.java:830-840 | reads the list modes; `share` takes the rule id after it; with no list-mode token nothing is consumed; the result and the new cursor are `ListModesFrom` of the tokens |
| Parser.ParameterAt | implementations/java/org.hl7.fhir.dstu3/src/org/hl7/fhir/dstu3/utils/StructureMapUtilities.java:844-852 | a parameter is read exactly when a token is left, as `ParameterOfToken` of that token |
| Parser.ParseParameter | implementations/java/org.hl7.fhir.dstu3/src/org/hl7/fhir/dstu3/utils/StructureMapUtilities.java:844-852 | a token becomes the parameter `ParameterOfToken` reads from it; at the end of input it fails; the result and the new cursor are `ParameterAt` of the tokens |
| Parser.ConstantValue | implementations/java/org.hl7.fhir.dstu3/src/org/hl7/fhir/dstu3/utils/StructureMapUtilities.java:854-863 | an integer, else a decimal, else a boolean `true`/`false`, else a string with its quotes removed |
| Parser.ParameterRoundTrip | implementations/java/org.hl7.fhir.dstu3/src/org/hl7/fhir/dstu3/utils/StructureMapUtilities.java:450-468 | a well-formed parameter as the renderer writes it reads back as the same parameter |
| Parser.EscapeJavaPlain | implementations/java/org.hl7.fhir.dstu3/src/org/hl7/fhir/dstu3/utils/StructureMapUtilities.java:463 | a string with no quote, backslash or line break is written as it is |
| Parser.NotAComment | implementations/java/org.hl7.fhir.dstu3/src/org/hl7/fhir/dstu3/utils/StructureMapUtilities.java:545 | a token that does not start with '/' is not a comment |
| Parser.QuotedChar | implementations/java/org.hl7.fhir.dstu3/src/org/hl7/fhir/dstu3/utils/StructureMapUtilities.java:862 | a quoted one-character constant's value is that character |
| Parser.SingleGroupMap | implementations/java/org.hl7.fhir.dstu3/src/org/hl7/fhir/dstu3/utils/StructureMapUtilities.java:477-504 | `map "u" = "n" group g` followed by rules up to the end reads as the map with url u, name n and the one group g with those rules |
| Parser.EmptyGroupMap | implementations/java/org.hl7.fhir.dstu3/src/org/hl7/fhir/dstu3/utils/StructureMapUtilities.java:477-504 | `map "u" = "m" group g endgroup` reads as the map with one empty group |
| Parser.BareRule | implementations/java/org.hl7.fhir.dstu3/src/org/hl7/fhir/dstu3/utils/StructureMapUtilities.java:657-707 | `r : for s` ended by `endgroup` or `}` reads as a rule with one required source and nothing else |
| Variables.Lookup | implementations/java/org.hl7.fhir.dstu3/src/org/hl7/fhir/dstu3/utils/StructureMapUtilities.java:913-918 | `get`'s result is the first entry with this mode and name, and none exactly when no entry matches |
| Variables.LastIndex | implementations/java/org.hl7.fhir.dstu3/src/org/hl7/fhir/dstu3/utils/StructureMapUtilities.java:897-901 | the position of the last entry with this mode and name, or -1 |
| Variables.Rest | implementations/java/org.hl7.fhir.dstu3/src/org/hl7/fhir/dstu3/utils/StructureMapUtilities.java:897-903 | removing an entry keeps only entries of the list |
| Variables.RestAtLastIndex | implementations/java/org.hl7.fhir.dstu3/src/org/hl7/fhir/dstu3/utils/StructureMapUtilities.java:897-903 | `list.remove` cuts out the last matching entry and nothing else |
| Variables.BindSemantics | implementations/java/org.hl7.fhir.dstu3/src/org/hl7/fhir/dstu3/utils/StructureMapUtilities.java:897-905 | after `add`, the name in that mode has the new value, every other binding is unchanged, and no pair is bound twice |
| Variables.BindUnique | implementations/java/org.hl7.fhir.dstu3/src/org/hl7/fhir/dstu3/utils/StructureMapUtilities.java:897-905 | `add` keeps each mode and name bound at most once |
| Variables.BindFinds | implementations/java/org.hl7.fhir.dstu3/src/org/hl7/fhir/dstu3/utils/StructureMapUtilities.java:897-905 | after `add`, `get` finds the new value |
| Variables.BindKeepsOthers | implementations/java/org.hl7.fhir.dstu3/src/org/hl7/fhir/dstu3/utils/StructureMapUtilities.java:897-905 | `add` does not change what `get` finds for another mode or name |
| Variables.RestKeepsOthers | implementations/java/org.hl7.fhir.dstu3/src/org/hl7/fhir/dstu3/utils/StructureMapUtilities.java:903 | removing the bound entry does not change a lookup of another mode or name |
| Variables.LookupPrefix | implementations/java/org.hl7.fhir.dstu3/src/org/hl7/fhir/dstu3/utils/StructureMapUtilities.java:913-918 | looking up in `a + b` finds in a first, and in b what a lacks |
| Variables.LookupSkip | implementations/java/org.hl7.fhir.dstu3/src/org/hl7/fhir/dstu3/utils/StructureMapUtilities.java:913-918 | an entry of another key does not change a lookup |
| Variables.Replace | implementations/java/org.hl7.fhir.dstu3/src/org/hl7/fhir/dstu3/utils/StructureMapUtilities.java:897-905 | the `add` loop computes `Bind`: the old binding of the pair removed and the new one appended |
| Variables.Find | implementations/java/org.hl7.fhir.dstu3/src/org/hl7/fhir/dstu3/utils/StructureMapUtilities.java:913-918 | the `get` loop returns `Lookup` |
| Variables.Variables.constructor | implementations/java/org.hl7.fhir.dstu3/src/org/hl7/fhir/dstu3/utils/StructureMapUtilities.java:895 | a new environment is empty |
| Variables.Variables.Add | implementations/java/org.hl7.fhir.dstu3/src/org/hl7/fhir/dstu3/utils/StructureMapUtilities.java:897-905 | binds the name in this mode, replacing any earlier binding of that pair; other bindings unchanged |
| Variables.Variables.Copy | implementations/java/org.hl7.fhir.dstu3/src/org/hl7/fhir/dstu3/utils/StructureMapUtilities.java:907-911 | a new environment with the same entries |
| Variables.Variables.Get | implementations/java/org.hl7.fhir.dstu3/src/org/hl7/fhir/dstu3/utils/StructureMapUtilities.java:913-918 | the value bound to the name in this mode, if any |
| Variables.VariablesForProfiling.constructor | implementations/java/org.hl7.fhir.dstu3/src/org/hl7/fhir/dstu3/utils/StructureMapUtilities.java:1477-1480 | a new environment is empty with the given flags |
| Variables.VariablesForProfiling.Add | implementations/java/org.hl7.fhir.dstu3/src/org/hl7/fhir/dstu3/utils/StructureMapUtilities.java:1490-1498 | binds the name in this mode, replacing any earlier binding; the flags are unchanged |
| Variables.VariablesForProfiling.CopyWith | implementations/java/org.hl7.fhir.dstu3/src/org/hl7/fhir/dstu3/utils/StructureMapUtilities.java:1500-1504 | a new environment with the same entries and the given flags |
| Variables.VariablesForProfiling.Copy | implementations/java/org.hl7.fhir.dstu3/src/org/hl7/fhir/dstu3/utils/StructureMapUtilities.java:1506-1510 | a new environment with the same entries and the same flags |
| Variables.VariablesForProfiling.Get | implementations/java/org.hl7.fhir.dstu3/src/org/hl7/fhir/dstu3/utils/StructureMapUtilities.java:1512-1525 | the first entry with this mode and name |
| Variables.VariablesForProfiling.GetEither | implementations/java/org.hl7.fhir.dstu3/src/org/hl7/fhir/dstu3/utils/StructureMapUtilities.java:1513-1520 | with no mode, an output binding is found first, and an input binding otherwise |
| Instance.Children | implementations/java/org.hl7.fhir.dstu3/src/org/hl7/fhir/dstu3/utils/StructureMapUtilities.java:965-969 | the values of a property of a node all belong to the instance graph |
| Instance.AddNode | implementations/java/org.hl7.fhir.dstu3/src/org/hl7/fhir/dstu3/utils/StructureMapUtilities.java:1142 | a new node is numbered past every existing node, with the given type; nothing else changes |
| Instance.WithProperty | implementations/java/org.hl7.fhir.dstu3/src/org/hl7/fhir/dstu3/utils/StructureMapUtilities.java:1130-1131 | setting a property appends the value to a repeating property and replaces a single one |
| Instance.WithMadeProperty | implementations/java/org.hl7.fhir.dstu3/src/org/hl7/fhir/dstu3/utils/StructureMapUtilities.java:1132-1133 | `makeProperty` gives a value that is a child of the node under that name |
| Instance.WithId | implementations/java/org.hl7.fhir.dstu3/src/org/hl7/fhir/dstu3/utils/StructureMapUtilities.java:1143 | `setIdBase` sets or clears the id of that node only |
| Instance.NewNodeKeeps | implementations/java/org.hl7.fhir.dstu3/src/org/hl7/fhir/dstu3/utils/StructureMapUtilities.java:1142 | a new node keeps every older node's type, id and property values, and has no property value itself |
| Instance.SetNewPropertyKeeps | implementations/java/org.hl7.fhir.dstu3/src/org/hl7/fhir/dstu3/utils/StructureMapUtilities.java:1130-1131 | setting a property of a node made after `g0` keeps every node of `g0` as it was |
| Instance.SetIdKeeps | implementations/java/org.hl7.fhir.dstu3/src/org/hl7/fhir/dstu3/utils/StructureMapUtilities.java:1143 | giving a node an id keeps every other node as it was; an older node may gain an id only when it is that node |
| Instance.SetPropertyFrame | implementations/java/org.hl7.fhir.dstu3/src/org/hl7/fhir/dstu3/utils/StructureMapUtilities.java:1130-1131 | setting a property changes that property of that node and nothing else |
| Instance.MakePropertyIdempotent | implementations/java/org.hl7.fhir.dstu3/src/org/hl7/fhir/dstu3/utils/StructureMapUtilities.java:1132-1133 | making a single-valued property twice gives the same value and the same graph |
| Instance.MakePropertyRepeatingFresh | implementations/java/org.hl7.fhir.dstu3/src/org/hl7/fhir/dstu3/utils/StructureMapUtilities.java:1132-1133 | making a repeating property adds a new empty element each time |
| Instance.Store.constructor | implementations/java/org.hl7.fhir.dstu3/src/org/hl7/fhir/dstu3/utils/StructureMapUtilities.java:1142 | a store holds the given graph and has drawn no UUID |
| Instance.Store.NewUuid | implementations/java/org.hl7.fhir.dstu3/src/org/hl7/fhir/dstu3/utils/StructureMapUtilities.java:1199 | each UUID drawn is the next one of the source, and the graph is unchanged |
| Instance.Store.NewNode | implementations/java/org.hl7.fhir.dstu3/src/org/hl7/fhir/dstu3/utils/StructureMapUtilities.java:1142 | a new node as `AddNode` describes |
| Instance.Store.SetProperty | implementations/java/org.hl7.fhir.dstu3/src/org/hl7/fhir/dstu3/utils/StructureMapUtilities.java:1130-1131 | the graph after a `setProperty` is `WithProperty` of the one before |
| Instance.Store.MakeProperty | implementations/java/org.hl7.fhir.dstu3/src/org/hl7/fhir/dstu3/utils/StructureMapUtilities.java:1132-1133 | the graph after a `makeProperty` is `WithMadeProperty` of the one before |
| Instance.Store.SetId | implementations/java/org.hl7.fhir.dstu3/src/org/hl7/fhir/dstu3/utils/StructureMapUtilities.java:1143 | the graph after `setIdBase` is `WithId` of the one before |
| Values.ConstantBase | implementations/java/org.hl7.fhir.dstu3/src/org/hl7/fhir/dstu3/utils/StructureMapUtilities.java:1275-1277 | a parameter that is not a variable name is its own value |
| Values.ParamBase | implementations/java/org.hl7.fhir.dstu3/src/org/hl7/fhir/dstu3/utils/StructureMapUtilities.java:1274-1287 | a literal is its own value; a name is the input binding, else the output binding; it fails exactly when neither exists |
| Values.ParamString | implementations/java/org.hl7.fhir.dstu3/src/org/hl7/fhir/dstu3/utils/StructureMapUtilities.java:1266-1271 | the primitive value of the parameter, none when it has no primitive value, failing exactly when the parameter does |
| Values.ParamStringNoNull | implementations/java/org.hl7.fhir.dstu3/src/org/hl7/fhir/dstu3/utils/StructureMapUtilities.java:1257-1264 | succeeds exactly when the parameter has a primitive value, and then gives it |
| Values.ParamAt | implementations/java/org.hl7.fhir.dstu3/src/org/hl7/fhir/dstu3/utils/StructureMapUtilities.java:1142 | `getParameter().get(i)` succeeds exactly when the index is in range |
| Values.Truncated | implementations/java/org.hl7.fhir.dstu3/src/org/hl7/fhir/dstu3/utils/StructureMapUtilities.java:1165-1173 | the result is a prefix of the source of the given length when that is shorter, else the whole source; a negative length fails |
| Values.TruncateIdempotent | implementations/java/org.hl7.fhir.dstu3/src/org/hl7/fhir/dstu3/utils/StructureMapUtilities.java:1165-1173 | truncating twice to the same length is truncating once |
| Values.TruncateOutcome | implementations/java/org.hl7.fhir.dstu3/src/org/hl7/fhir/dstu3/utils/StructureMapUtilities.java:1165-1173 | a missing source string fails for an integer length (the null dereference) and otherwise gives an empty string |
| Values.CreateId | implementations/java/org.hl7.fhir.dstu3/src/org/hl7/fhir/dstu3/utils/StructureMapUtilities.java:1143 | as written: with two or more parameters the id is parameter 0, the type name; otherwise a fresh UUID, in lower case |
| Values.CreateIdIgnoresSecondParameter | implementations/java/org.hl7.fhir.dstu3/src/org/hl7/fhir/dstu3/utils/StructureMapUtilities.java:1143 | `create("Patient", "p1")` gets the id "Patient", where the corrected id is "p1" |
| Values.CorrectedCreateId | implementations/java/org.hl7.fhir.dstu3/src/org/hl7/fhir/dstu3/utils/StructureMapUtilities.java:1143 | with two or more parameters the id is parameter 1's text; otherwise a fresh UUID |
| Values.FirstEntry | implementations/java/org.hl7.fhir.dstu3/src/org/hl7/fhir/dstu3/utils/StructureMapUtilities.java:1232-1245 | the first expansion entry whose code, or case-folded display, matches and that has a system; none exactly when no entry matches |
| Values.ExpansionCodes | implementations/java/org.hl7.fhir.dstu3/src/org/hl7/fhir/dstu3/utils/StructureMapUtilities.java:1231-1234 | the listed valid codes, one per entry that has a code, none blank |
| Values.CodingFor | implementations/java/org.hl7.fhir.dstu3/src/org/hl7/fhir/dstu3/utils/StructureMapUtilities.java:1222-1254 | without a value set the system is the uri; with one the code must match an entry, whose system is used; the code is kept |
| Values.SourceCode | implementations/java/org.hl7.fhir.dstu3/src/org/hl7/fhir/dstu3/utils/StructureMapUtilities.java:1307-1325 | a primitive source is its value as the code, with no system; a Coding or CE keeps its `code` property when it has exactly one, and has no code otherwise; any other source fails with "Unable to translate source" and its type |
| Values.ConceptMapFor | implementations/java/org.hl7.fhir.dstu3/src/org/hl7/fhir/dstu3/utils/StructureMapUtilities.java:1337-1346 | a `#id` url fails with "null" when some contained map has no id, since the loop compares the id of every contained map; otherwise it finds the last contained map with that id, the message url being the map's url plus the reference when one is found; any other url is fetched |
| Values.TranslationOf | implementations/java/org.hl7.fhir.dstu3/src/org/hl7/fhir/dstu3/utils/StructureMapUtilities.java:1347-1390 | a failed lookup fails with its error; no map and no services fails with "No map found for"; no map with services delegates; a local map gives `LocalOutcome`, the as-written selection (see Findings) |
| Values.Oid2Uri | implementations/java/org.hl7.fhir.dstu3/src/org/hl7/fhir/dstu3/utils/StructureMapUtilities.java:1329-1331 | an unknown oid becomes `urn:oid:` followed by the oid |
| Values.TranslateOutcome | implementations/java/org.hl7.fhir.dstu3/src/org/hl7/fhir/dstu3/utils/StructureMapUtilities.java:1306-1398 | a source that cannot be read fails with that error; no map url fails; the special oid map gives a uri only for field "uri", looking up the code or "null" when there is none; a missing code fails with "null" when the local map compares it with an element, which happens when some group with an element has the coding's system as its source, or when the coding has no system; otherwise the outcome fails, is empty or holds a value exactly as the translation of the code does |
| Values.EvaluationOutcome | implementations/java/org.hl7.fhir.dstu3/src/org/hl7/fhir/dstu3/utils/StructureMapUtilities.java:1157-1163 | no result gives nothing, exactly one result gives that result, and more fail |
| Values.EvaluateInputs | implementations/java/org.hl7.fhir.dstu3/src/org/hl7/fhir/dstu3/utils/StructureMapUtilities.java:1151-1158 | the expression is the one the parser kept, else the text of parameter 1 (which must exist); the focus is the value of parameter 0; with a kept expression it succeeds exactly when parameter 0 has a value |
| Values.Wrapped | implementations/java/org.hl7.fhir.dstu3/src/org/hl7/fhir/dstu3/utils/StructureMapUtilities.java:1216-1218 | an exception keeps its message, prefixed by the transform and rule it came from |
| Values.SourceItems | implementations/java/org.hl7.fhir.dstu3/src/org/hl7/fhir/dstu3/utils/StructureMapUtilities.java:1103-1106 | with no element the item is the source itself; every item belongs to the graph |
| Values.ItemVariablesOk | implementations/java/org.hl7.fhir.dstu3/src/org/hl7/fhir/dstu3/utils/StructureMapUtilities.java:1106-1110 | an item's environment keeps each binding once and stays in the graph |
| Values.BindInputsWithin | implementations/java/org.hl7.fhir.dstu3/src/org/hl7/fhir/dstu3/utils/StructureMapUtilities.java:1061-1070 | binding a group's inputs keeps every value inside the graph |
| Interpreter.Engine.constructor | implementations/java/org.hl7.fhir.dstu3/src/org/hl7/fhir/dstu3/utils/StructureMapUtilities.java:158-166 | an engine holds the given maps, oracles and store |
| Interpreter.Engine.Summary | implementations/java/org.hl7.fhir.dstu3/src/org/hl7/fhir/dstu3/utils/StructureMapUtilities.java:920-929 | the summary lists the input bindings and then the output bindings |
| Values.EntriesText | implementations/java/org.hl7.fhir.dstu3/src/org/hl7/fhir/dstu3/utils/StructureMapUtilities.java:920-929 | one summary entry at most per binding |
| Interpreter.Engine.GetParam | implementations/java/org.hl7.fhir.dstu3/src/org/hl7/fhir/dstu3/utils/StructureMapUtilities.java:1274-1287 | the value of a parameter is `ParamBase` |
| Interpreter.Engine.GetParamString | implementations/java/org.hl7.fhir.dstu3/src/org/hl7/fhir/dstu3/utils/StructureMapUtilities.java:1266-1271 | the string of a parameter is `ParamString` |
| Interpreter.Engine.GetParamStringNoNull | implementations/java/org.hl7.fhir.dstu3/src/org/hl7/fhir/dstu3/utils/StructureMapUtilities.java:1257-1264 | the string of a parameter is `ParamStringNoNull` |
| Interpreter.Engine.MakeCoding | implementations/java/org.hl7.fhir.dstu3/src/org/hl7/fhir/dstu3/utils/StructureMapUtilities.java:1222-1254 | a new Coding node holding the system, code and display, with no id; every older node keeps its type, id and property values (`KeepsNodes`) |
| Interpreter.Engine.SetIfText | implementations/java/org.hl7.fhir.dstu3/src/org/hl7/fhir/dstu3/utils/StructureMapUtilities.java:1253 | a blank string sets no property value; any other text becomes the one value of an unset property; every other property, every type and every id is unchanged |
| Interpreter.Engine.RunCreate | implementations/java/org.hl7.fhir.dstu3/src/org/hl7/fhir/dstu3/utils/StructureMapUtilities.java:1141-1148 | succeeds exactly when parameter 0 names a type the engine knows; the result is one new node of that type, with no property value, whose id is `CreateId`, as written: the type name with a second parameter, else the next UUID; every older node keeps its type, id and property values; a failure leaves the graph as it was |
| Interpreter.Engine.RunEvaluate | implementations/java/org.hl7.fhir.dstu3/src/org/hl7/fhir/dstu3/utils/StructureMapUtilities.java:1151-1163 | evaluate runs the expression the parser kept, else parameter 1's text, on the value of parameter 0, and gives `EvaluationOutcome`; a missing parameter or value gives its error |
| Interpreter.Engine.RunTruncate | implementations/java/org.hl7.fhir.dstu3/src/org/hl7/fhir/dstu3/utils/StructureMapUtilities.java:1165-1173 | truncate succeeds only when both parameters have values, and then gives a string holding `TruncateOutcome` of the source and length, or its error |
| Interpreter.Engine.RunReference | implementations/java/org.hl7.fhir.dstu3/src/org/hl7/fhir/dstu3/utils/StructureMapUtilities.java:1182-1195 | succeeds exactly for a resource: a new Reference node whose only property is `reference` = `Type/id`, the resource keeping its id or given the next UUID in lower case; every other older node, and every property, is kept (`KeepsNodes`); a non-resource fails naming its type and a failure leaves the graph as it was |
| Interpreter.Engine.ReferenceTo | implementations/java/org.hl7.fhir.dstu3/src/org/hl7/fhir/dstu3/utils/StructureMapUtilities.java:1189-1194 | a resource without an id is given the next UUID in lower case, an existing id is kept; the result is a new Reference node whose only property is `reference` = `Type/id`; every older node is kept, except that the resource may gain an id |
| Interpreter.Engine.MakeReference | implementations/java/org.hl7.fhir.dstu3/src/org/hl7/fhir/dstu3/utils/StructureMapUtilities.java:1194 | the new Reference node is fresh, has type Reference, holds the text as its only `reference` value and no other property; the ids are unchanged and every older node keeps its type and property values |
| Interpreter.Engine.RunPointer | implementations/java/org.hl7.fhir.dstu3/src/org/hl7/fhir/dstu3/utils/StructureMapUtilities.java:1200-1205 | pointer succeeds exactly when parameter 0 has a value that is a resource, giving `urn:uuid:` and its id, "null" without one |
| Interpreter.Engine.RunCoding | implementations/java/org.hl7.fhir.dstu3/src/org/hl7/fhir/dstu3/utils/StructureMapUtilities.java:1206-1212 | `cc` and `c` succeed exactly when `CodingFor` of the two parameters' texts does, and give a new CodeableConcept or Coding holding it, adding two nodes or one; every older node keeps its type, id and property values; a failure leaves the graph as it was |
| Interpreter.Engine.MakeConcept | implementations/java/org.hl7.fhir.dstu3/src/org/hl7/fhir/dstu3/utils/StructureMapUtilities.java:1206-1209 | `cc` adds two nodes: a CodeableConcept whose one coding is a new Coding carrying the system and code given; every older node keeps its type, id and property values |
| Interpreter.Engine.RunTranslate | implementations/java/org.hl7.fhir.dstu3/src/org/hl7/fhir/dstu3/utils/StructureMapUtilities.java:1180-1181 | succeeds exactly when the parameters have values and `TranslateOutcome` of them succeeds: nothing gives nothing, a value is returned as it is, and a code becomes a new Coding with its system and code; only that Coding is added, every older node kept as it was; any other outcome, failures included, leaves the graph as it was |
| Interpreter.Engine.RunTransform | implementations/java/org.hl7.fhir.dstu3/src/org/hl7/fhir/dstu3/utils/StructureMapUtilities.java:1138-1219 | transforms not supported yet and unknown transforms fail with their own message and change nothing; any other gives its reading or making transform's result, a failure prefixed with the target and rule, and the graph only grows (`Grows`: no node lost, no type or given id changed) |
| Interpreter.Engine.RunReading | implementations/java/org.hl7.fhir.dstu3/src/org/hl7/fhir/dstu3/utils/StructureMapUtilities.java:1149-1205 | copy gives the value of parameter 0; evaluate gives `EvaluationOutcome` of `EvaluateInputs`; truncate gives `TruncateOutcome`; pointer gives a resource's `urn:uuid:` URI; the graph is not changed |
| Interpreter.Engine.RunMaking | implementations/java/org.hl7.fhir.dstu3/src/org/hl7/fhir/dstu3/utils/StructureMapUtilities.java:1141-1212 | create, translate, reference, cc and c give what `RunCreate`, `RunTranslate`, `RunReference` and `RunCoding` promise, the new nodes added and older nodes kept; uuid gives the next UUID as an id value and leaves the graph as it was |
| Interpreter.Engine.Environments | implementations/java/org.hl7.fhir.dstu3/src/org/hl7/fhir/dstu3/utils/StructureMapUtilities.java:1106-1112 | one fresh, distinct environment per item, each the copy with the item bound |
| Interpreter.CopyPerItem | implementations/java/org.hl7.fhir.dstu3/src/org/hl7/fhir/dstu3/utils/StructureMapUtilities.java:1108-1112 | one fresh, valid, distinct environment per item, in item order, each the copy with the source variable bound to that item |
| Interpreter.CopyForItem | implementations/java/org.hl7.fhir.dstu3/src/org/hl7/fhir/dstu3/utils/StructureMapUtilities.java:1109-1111 | a fresh copy of the environment, with the source variable bound to the item only when the source names one |
| Interpreter.Engine.ProcessSource | implementations/java/org.hl7.fhir.dstu3/src/org/hl7/fhir/dstu3/utils/StructureMapUtilities.java:1075-1115 | an unknown context fails; a false condition gives no environments; a false check fails; otherwise one environment per item |
| Interpreter.Engine.TargetValue | implementations/java/org.hl7.fhir.dstu3/src/org/hl7/fhir/dstu3/utils/StructureMapUtilities.java:1123-1133 | a transform's value is set on the destination's element: the graph is `WithProperty` of the graph after the transform, appended to a repeating element and replacing a single one; a primitive destination fails "Attempt to set unknown property"; without a transform the element is made, the graph and value being `WithMadeProperty` of the graph before, or fails "Attempt to make unknown property"; without a destination the transform's result is returned and nothing is set |
| Interpreter.Engine.ProcessTarget | implementations/java/org.hl7.fhir.dstu3/src/org/hl7/fhir/dstu3/utils/StructureMapUtilities.java:1118-1136 | an unknown context or a missing element fails and changes nothing; otherwise the graph is `WithProperty` of the graph after the transform for a set value, `WithMadeProperty` of the graph before when there is no transform, and unchanged after the transform otherwise; a failing value fails with its error and leaves the variables, and a produced value binds the target variable (`Bind`) and is a child of the destination |
| Interpreter.Engine.ExecuteGroup | implementations/java/org.hl7.fhir.dstu3/src/org/hl7/fhir/dstu3/utils/StructureMapUtilities.java:995-1002 | the rules run in order until one fails: a pass means every rule passed, a failure is the last rule run's outcome; a group with no rules does nothing; the graph only grows (`Grows`) |
| Interpreter.Engine.ExecuteRule | implementations/java/org.hl7.fhir.dstu3/src/org/hl7/fhir/dstu3/utils/StructureMapUtilities.java:1004-1026 | a rule with other than one source fails "not handled yet"; an unknown input fails; a false condition passes doing nothing; a false check fails; otherwise the branch runs in the i-th item's environment, for the source's items in order, all of them on a pass; the graph only grows (`Grows`) |
| Interpreter.Engine.RunEnvironments | implementations/java/org.hl7.fhir.dstu3/src/org/hl7/fhir/dstu3/utils/StructureMapUtilities.java:1010-1025 | the branch runs in each environment, in order, each as it was on entry, until one fails; a pass means all ran; the graph only grows (`Grows`) |
| Interpreter.Engine.RunBranch | implementations/java/org.hl7.fhir.dstu3/src/org/hl7/fhir/dstu3/utils/StructureMapUtilities.java:1011-1024 | the targets run in order, each leaving the environment as it was or binding its variable, all of them on a pass; then the nested rules or dependents; an empty rule does nothing; the graph only grows (`Grows`) |
| Interpreter.Engine.RunTargets | implementations/java/org.hl7.fhir.dstu3/src/org/hl7/fhir/dstu3/utils/StructureMapUtilities.java:1011-1013 | the targets in order until one fails: after each the environment is unchanged or has that target's variable bound; no targets do nothing; the graph only grows (`Grows`) |
| Interpreter.Engine.RunTarget | implementations/java/org.hl7.fhir.dstu3/src/org/hl7/fhir/dstu3/utils/StructureMapUtilities.java:1012 | one target leaves the environment unchanged or, on a pass, binds its variable; the graph only grows (`Grows`) |
| Interpreter.Engine.RunNestedRules | implementations/java/org.hl7.fhir.dstu3/src/org/hl7/fhir/dstu3/utils/StructureMapUtilities.java:1014-1017 | no nested rules do nothing; otherwise each runs in turn until one fails; the graph only grows (`Grows`) |
| Interpreter.Engine.RunDependents | implementations/java/org.hl7.fhir.dstu3/src/org/hl7/fhir/dstu3/utils/StructureMapUtilities.java:1018-1021 | no dependents do nothing; otherwise each is invoked in turn until one fails; the graph only grows (`Grows`) |
| Interpreter.Engine.ExecuteDependency | implementations/java/org.hl7.fhir.dstu3/src/org/hl7/fhir/dstu3/utils/StructureMapUtilities.java:1028-1072 | an invocation that resolves to no group, has the wrong number of arguments or cannot bind them fails with that error and changes nothing; otherwise the group runs in the environment `Invocation` binds; the graph only grows (`Grows`) |
| Interpreter.Engine.Transform | implementations/java/org.hl7.fhir.dstu3/src/org/hl7/fhir/dstu3/utils/StructureMapUtilities.java:971-981 | a map with no groups fails and changes nothing; an ambiguous source or target input fails; otherwise the first group runs with the source bound as input and the target as output under the input names; the graph only grows (`Grows`) |
| Dispatch.NamesOfMode | implementations/java/org.hl7.fhir.dstu3/src/org/hl7/fhir/dstu3/utils/StructureMapUtilities.java:983-993 | the names of the inputs of this mode |
| Dispatch.GetInputName | implementations/java/org.hl7.fhir.dstu3/src/org/hl7/fhir/dstu3/utils/StructureMapUtilities.java:983-993 | the loop computes `InputName` |
| Dispatch.InputNameMeaning | implementations/java/org.hl7.fhir.dstu3/src/org/hl7/fhir/dstu3/utils/StructureMapUtilities.java:983-993 | fails exactly when two inputs have the mode; gives the default when none has it and the name when exactly one has it |
| Dispatch.NamesOfModeNone | implementations/java/org.hl7.fhir.dstu3/src/org/hl7/fhir/dstu3/utils/StructureMapUtilities.java:983-993 | no names exactly when no input has the mode |
| Dispatch.NamesOfModeTwo | implementations/java/org.hl7.fhir.dstu3/src/org/hl7/fhir/dstu3/utils/StructureMapUtilities.java:983-993 | two names or more exactly when two inputs have the mode |
| Dispatch.NamesOfModeOne | implementations/java/org.hl7.fhir.dstu3/src/org/hl7/fhir/dstu3/utils/StructureMapUtilities.java:983-993 | exactly one input of the mode gives exactly its name |
| Dispatch.ScanGroupsCount | implementations/java/org.hl7.fhir.dstu3/src/org/hl7/fhir/dstu3/utils/StructureMapUtilities.java:1029-1040 | the scan fails with "Multiple possible matches" when two groups have the name, and finds the one group that has it |
| Dispatch.ScanImportsCount | implementations/java/org.hl7.fhir.dstu3/src/org/hl7/fhir/dstu3/utils/StructureMapUtilities.java:1041-1056 | the scan of imported maps succeeds exactly when every import exists and at most one group has the name in all |
| Dispatch.ResolveUnique | implementations/java/org.hl7.fhir.dstu3/src/org/hl7/fhir/dstu3/utils/StructureMapUtilities.java:1029-1060 | resolution succeeds exactly when exactly one group in the map and its imports has the name, and fails with "No matches" or "Multiple possible matches" otherwise |
| Dispatch.FindGroup | implementations/java/org.hl7.fhir.dstu3/src/org/hl7/fhir/dstu3/utils/StructureMapUtilities.java:1029-1060 | the loops compute `Resolve` |
| Dispatch.BindInputsFails | implementations/java/org.hl7.fhir.dstu3/src/org/hl7/fhir/dstu3/utils/StructureMapUtilities.java:1061-1070 | binding fails exactly when some input's argument is unbound in that input's mode |
| Dispatch.BindInputsValues | implementations/java/org.hl7.fhir.dstu3/src/org/hl7/fhir/dstu3/utils/StructureMapUtilities.java:1061-1070 | each input name is bound to the value of its argument in the caller, and each name once |
| Dispatch.BindInputsUnique | implementations/java/org.hl7.fhir.dstu3/src/org/hl7/fhir/dstu3/utils/StructureMapUtilities.java:1061-1070 | a successful binding binds no name twice in one mode |
| Dispatch.BindInputsPrefixErr | implementations/java/org.hl7.fhir.dstu3/src/org/hl7/fhir/dstu3/utils/StructureMapUtilities.java:1061-1070 | the first failing input decides the error |
| Dispatch.BindArguments | implementations/java/org.hl7.fhir.dstu3/src/org/hl7/fhir/dstu3/utils/StructureMapUtilities.java:1061-1070 | the new environment holds `BindInputs` of the caller's, or the same error |
| Dispatch.InvocationSucceeds | implementations/java/org.hl7.fhir.dstu3/src/org/hl7/fhir/dstu3/utils/StructureMapUtilities.java:1028-1072 | an invocation succeeds exactly when the name resolves, the argument count matches and every argument is bound |
| Translate.MatchesIn | implementations/java/org.hl7.fhir.dstu3/src/org/hl7/fhir/dstu3/utils/StructureMapUtilities.java:1359-1366 | the matches of one group are its entries that match the source code and system |
| Translate.AllMatches | implementations/java/org.hl7.fhir.dstu3/src/org/hl7/fhir/dstu3/utils/StructureMapUtilities.java:1359-1366 | every match is an entry of a group of the map that matches the source |
| Translate.NoMatchMeansNone | implementations/java/org.hl7.fhir.dstu3/src/org/hl7/fhir/dstu3/utils/StructureMapUtilities.java:1359-1367 | no match exactly when no entry of any group matches |
| Translate.CollectMatches | implementations/java/org.hl7.fhir.dstu3/src/org/hl7/fhir/dstu3/utils/StructureMapUtilities.java:1358-1366 | the loops compute `AllMatches` |
| Translate.LastContained | implementations/java/org.hl7.fhir.dstu3/src/org/hl7/fhir/dstu3/utils/StructureMapUtilities.java:1338-1344 | a contained map whose id is the one given, none exactly when no contained map has it |
| Translate.LastContainedIsLast | implementations/java/org.hl7.fhir.dstu3/src/org/hl7/fhir/dstu3/utils/StructureMapUtilities.java:1338-1344 | the map found is the last contained map with the id |
| Translate.FindContained | implementations/java/org.hl7.fhir.dstu3/src/org/hl7/fhir/dstu3/utils/StructureMapUtilities.java:1338-1344 | the loop fails with "null" exactly when some contained map has no id, and otherwise computes `LastContained` |
| Translate.SelectTarget | implementations/java/org.hl7.fhir.dstu3/src/org/hl7/fhir/dstu3/utils/StructureMapUtilities.java:1372-1384 | the target loop as written computes `Select`, the as-written selection of the Findings |
| Translate.LocalOutcome | implementations/java/org.hl7.fhir.dstu3/src/org/hl7/fhir/dstu3/utils/StructureMapUtilities.java:1367-1390 | no match gives nothing; a first entry without targets fails "found no translation"; a result's system is the group's target |
| Translate.CollectAcceptable | implementations/java/org.hl7.fhir.dstu3/src/org/hl7/fhir/dstu3/utils/StructureMapUtilities.java:1372-1384 | the loop keeps exactly the acceptable targets, in order |
| Translate.TranslateLocal | implementations/java/org.hl7.fhir.dstu3/src/org/hl7/fhir/dstu3/utils/StructureMapUtilities.java:1358-1390 | the local branch of translate gives `LocalOutcome` of the matches, the selection as written (see Findings) |
| Translate.SelectParity | implementations/java/org.hl7.fhir.dstu3/src/org/hl7/fhir/dstu3/utils/StructureMapUtilities.java:1372-1386 | selection succeeds exactly when the acceptable targets after the last unmatched one are even, or odd with no unmatched one |
| Translate.AcceptableSinceNoUnmatched | implementations/java/org.hl7.fhir.dstu3/src/org/hl7/fhir/dstu3/utils/StructureMapUtilities.java:1372-1386 | with no unmatched target, the count since the last unmatched one is the whole count |
| Translate.SelectSkipsIgnored | implementations/java/org.hl7.fhir.dstu3/src/org/hl7/fhir/dstu3/utils/StructureMapUtilities.java:1372-1386 | targets that are neither acceptable nor unmatched do not change the selection |
| Translate.SingleAcceptableChosen | implementations/java/org.hl7.fhir.dstu3/src/org/hl7/fhir/dstu3/utils/StructureMapUtilities.java:1372-1386 | exactly one acceptable target is chosen |
| Translate.OnlyUnmatchedGivesNone | implementations/java/org.hl7.fhir.dstu3/src/org/hl7/fhir/dstu3/utils/StructureMapUtilities.java:1381-1383 | only unmatched targets give no translation |
| Translate.TwoAcceptableReportedAsUnusable | implementations/java/org.hl7.fhir.dstu3/src/org/hl7/fhir/dstu3/utils/StructureMapUtilities.java:1374-1386 | two acceptable targets set "multiple matches" but fail with "found no usable translation" |
| Translate.ThirdAcceptableChosen | implementations/java/org.hl7.fhir.dstu3/src/org/hl7/fhir/dstu3/utils/StructureMapUtilities.java:1374-1380 | three acceptable targets choose the third |
| Translate.AcceptableTargets | implementations/java/org.hl7.fhir.dstu3/src/org/hl7/fhir/dstu3/utils/StructureMapUtilities.java:1373 | the acceptable targets, counted |
| Translate.CorrectedOutcome | implementations/java/org.hl7.fhir.dstu3/src/org/hl7/fhir/dstu3/utils/StructureMapUtilities.java:1367-1390 | a result comes from the one acceptable target; more than one acceptable target fails "found multiple matches" |
| Translate.CorrectedAgrees | implementations/java/org.hl7.fhir.dstu3/src/org/hl7/fhir/dstu3/utils/StructureMapUtilities.java:1367-1390 | with a single acceptable target the corrected and the as-written outcomes agree |
| Analyzer.TargetWriter.constructor | implementations/java/org.hl7.fhir.dstu3/src/org/hl7/fhir/dstu3/utils/StructureMapUtilities.java:1657-1661 | an empty writer |
| Analyzer.TargetWriter.Record | implementations/java/org.hl7.fhir.dstu3/src/org/hl7/fhir/dstu3/utils/StructureMapUtilities.java:1666 | each piece is appended to the comma-separated text |
| Analyzer.TargetWriter.NewResource | implementations/java/org.hl7.fhir.dstu3/src/org/hl7/fhir/dstu3/utils/StructureMapUtilities.java:1663-1666 | records the new resource of the variable and its text |
| Analyzer.TargetWriter.ValueAssignment | implementations/java/org.hl7.fhir.dstu3/src/org/hl7/fhir/dstu3/utils/StructureMapUtilities.java:1668-1671 | records the assignment and its text |
| Analyzer.TargetWriter.KeyAssignment | implementations/java/org.hl7.fhir.dstu3/src/org/hl7/fhir/dstu3/utils/StructureMapUtilities.java:1673-1676 | records the key assignment and its text |
| Analyzer.TargetWriter.Commit | implementations/java/org.hl7.fhir.dstu3/src/org/hl7/fhir/dstu3/utils/StructureMapUtilities.java:1677-1685 | the cell is `CommitText` of the recorded state, and every value assignment appears in it |
| Analyzer.CommitShowsAssignments | implementations/java/org.hl7.fhir.dstu3/src/org/hl7/fhir/dstu3/utils/StructureMapUtilities.java:1677-1685 | every recorded value assignment appears in the committed text |
| Analyzer.CommitDropsKeyPath | implementations/java/org.hl7.fhir.dstu3/src/org/hl7/fhir/dstu3/utils/StructureMapUtilities.java:1677-1685 | one new resource, assignment and key give `new desc (rest)`, the key without its path before the first '.' |
| Analyzer.AnalyseSource | implementations/java/org.hl7.fhir.dstu3/src/org/hl7/fhir/dstu3/utils/StructureMapUtilities.java:1688-1729 | fails for an unknown input, an unknown element or an untyped element; otherwise a fresh environment with the flags, the cell text and the bound element |
| Analyzer.TransformSuffix | implementations/java/org.hl7.fhir.dstu3/src/org/hl7/fhir/dstu3/utils/StructureMapUtilities.java:1879-1899 | blank exactly for a copy; the listed transforms give ` (...)` |
| Analyzer.IsSignificantElement | implementations/java/org.hl7.fhir.dstu3/src/org/hl7/fhir/dstu3/utils/StructureMapUtilities.java:1870-1877 | significant exactly for an Observation's code and a Bundle's type |
| Analyzer.GenerateFixedValue | implementations/java/org.hl7.fhir.dstu3/src/org/hl7/fhir/dstu3/utils/StructureMapUtilities.java:1783-1811 | fixed parameters give a fixed value for copy, cc and c, nothing otherwise; missing parameters fail |
| Analyzer.DescribeCoding | implementations/java/org.hl7.fhir.dstu3/src/org/hl7/fhir/dstu3/utils/StructureMapUtilities.java:1850-1867 | fewer than two parameters or an id parameter gives nothing; a blank uri or code fails; else exactly the coding's system description, "#", the code and, when the coding has a display, the display in brackets |
| Analyzer.DescribeTransform | implementations/java/org.hl7.fhir.dstu3/src/org/hl7/fhir/dstu3/utils/StructureMapUtilities.java:1827-1847 | cc and c describe their coding; other transforms give nothing; no transform fails |
| Analyzer.ProfilesMatch | implementations/java/org.hl7.fhir.dstu3/src/org/hl7/fhir/dstu3/utils/StructureMapUtilities.java:1971-1973 | profiles match when there are none or exactly the one given |
| Analyzer.FirstCompatible | implementations/java/org.hl7.fhir.dstu3/src/org/hl7/fhir/dstu3/utils/StructureMapUtilities.java:1961-1969 | the first compatible type, none exactly when no type is compatible |
| Analyzer.CheckType | implementations/java/org.hl7.fhir.dstu3/src/org/hl7/fhir/dstu3/utils/StructureMapUtilities.java:1961-1969 | fails exactly when no type is compatible; nothing when the one type is compatible and the profiles match; otherwise the first compatible code |
| Analyzer.NamedProfile | implementations/java/org.hl7.fhir.dstu3/src/org/hl7/fhir/dstu3/utils/StructureMapUtilities.java:2110-2114 | the url has StructureDefinition for StructureMap, and url and id end with the type and suffix |
| Analyzer.ProfileNamer.constructor | implementations/java/org.hl7.fhir.dstu3/src/org/hl7/fhir/dstu3/utils/StructureMapUtilities.java:1565 | no type has been counted |
| Analyzer.ProfileNamer.Clear | implementations/java/org.hl7.fhir.dstu3/src/org/hl7/fhir/dstu3/utils/StructureMapUtilities.java:1565 | `ids.clear()` forgets every count |
| Analyzer.ProfileNamer.CreateProfile | implementations/java/org.hl7.fhir.dstu3/src/org/hl7/fhir/dstu3/utils/StructureMapUtilities.java:2091-2132 | a dotted path fails "Unable to process entry point"; otherwise the type is counted and the profile named with the suffix of its count before |
| Analyzer.AfterCounts | implementations/java/org.hl7.fhir.dstu3/src/org/hl7/fhir/dstu3/utils/StructureMapUtilities.java:2097-2103 | after a run of profiles, a type's counter is one less than its occurrences, and absent when it never occurs |
| Analyzer.ProfileSuffixCounts | implementations/java/org.hl7.fhir.dstu3/src/org/hl7/fhir/dstu3/utils/StructureMapUtilities.java:2097-2114 | the suffix of a profile is that of the number of earlier profiles of its type |
| Analyzer.SuffixForInjective | implementations/java/org.hl7.fhir.dstu3/src/org/hl7/fhir/dstu3/utils/StructureMapUtilities.java:2097-2103 | different counts give different suffixes |
| Analyzer.ProfileNamesDistinct | implementations/java/org.hl7.fhir.dstu3/src/org/hl7/fhir/dstu3/utils/StructureMapUtilities.java:2091-2132 | two profiles of the same type in one analysis get different urls and ids |
| Generator.FindMapping | implementations/java/org.hl7.fhir.dstu3/src/org/hl7/fhir/dstu3/utils/StructureMapUtilities.java:2208-2213 | the index of the first mapping with the identity, none exactly when there is none |
| Generator.GetMapping | implementations/java/org.hl7.fhir.dstu3/src/org/hl7/fhir/dstu3/utils/StructureMapUtilities.java:2208-2213 | the text of the first mapping with the identity, none exactly when there is none |
| Generator.FindLogical | implementations/java/org.hl7.fhir.dstu3/src/org/hl7/fhir/dstu3/utils/StructureMapUtilities.java:2216-2223 | the index of the first mapping with the logical uri, none exactly when there is none |
| Generator.LogicalMappingId | implementations/java/org.hl7.fhir.dstu3/src/org/hl7/fhir/dstu3/utils/StructureMapUtilities.java:2216-2223 | the identity of the first logical mapping, none exactly when there is none |
| Generator.Tail | implementations/java/org.hl7.fhir.dstu3/src/org/hl7/fhir/dstu3/utils/StructureMapUtilities.java:2182-2184 | the text after the last '/', the whole url when it has none |
| Generator.AddChildMappings | implementations/java/org.hl7.fhir.dstu3/src/org/hl7/fhir/dstu3/utils/StructureMapUtilities.java:2187-2205 | appends exactly `ChildMappings`: each mapped child's text, and the first opens the `then {` block it closes |
| Generator.AppendChild | implementations/java/org.hl7.fhir.dstu3/src/org/hl7/fhir/dstu3/utils/StructureMapUtilities.java:2187-2205 | appends exactly one child's mapping and its own children's mappings |
| Generator.MapText | implementations/java/org.hl7.fhir.dstu3/src/org/hl7/fhir/dstu3/utils/StructureMapUtilities.java:2150-2179 | a text exists only when there is a logical mapping id, a prefix and a suffix |
| Generator.GenerateMapText | implementations/java/org.hl7.fhir.dstu3/src/org/hl7/fhir/dstu3/utils/StructureMapUtilities.java:2150-2179 | the text built is `MapText` |
| Generator.ExcessAppend | implementations/java/org.hl7.fhir.dstu3/src/org/hl7/fhir/dstu3/utils/StructureMapUtilities.java:2187-2205 | open braces less close braces add up over concatenation |
| Generator.ChildMappingsBalanced | implementations/java/org.hl7.fhir.dstu3/src/org/hl7/fhir/dstu3/utils/StructureMapUtilities.java:2187-2205 | the child mappings of an element open as many braces as they close |
| Generator.MappedChildrenBalanced | implementations/java/org.hl7.fhir.dstu3/src/org/hl7/fhir/dstu3/utils/StructureMapUtilities.java:2187-2205 | the mappings of a list of children are balanced |
| Generator.MappedChildBalanced | implementations/java/org.hl7.fhir.dstu3/src/org/hl7/fhir/dstu3/utils/StructureMapUtilities.java:2187-2205 | the mapping of one child and its descendants is balanced |
| Generator.MapTextBalanced | implementations/java/org.hl7.fhir.dstu3/src/org/hl7/fhir/dstu3/utils/StructureMapUtilities.java:2150-2179 | the generated text is as balanced as the prefix and suffix together |

## Left out

- Lexing of raw text (`FHIRLexer`), with positions in its error messages. `FHIRLexer` is not part of this model. The parser starts from a token sequence and reports bare messages.
- `Lexer.Take`: at the end of input it fails, where `FHIRLexer.take` returns null. Every successful take advances, so the parse terminates.
- `Interpreter.Engine.ExecuteDependency`: a `fuel` bound limits the depth of nested invocations. When the fuel runs out, the result is "Invocation depth exhausted". The Java recursion has no such bound and can overflow its stack.
- The expression cache in user data (`MAP_EXPRESSION`, `MAP_WHERE_EXPRESSION`). A target keeps the text of the expression the parser read, in place of the parsed `ExpressionNode`, and evaluate uses it before parameter 1. Where and check conditions are parsed again at each use. The engine stores a freshly parsed expression under `MAP_WHERE_EXPRESSION` and never reads it back, so that cache changes nothing either.
- The FluentPath engine, the worker context, `ResourceFactory`, `ITransformerServices`, the `toString` of model elements and `Base` property access. They are oracles or the instance graph, not code of this model.
- `Utilities.isInteger` and decimal recognition are predicates. The 32-bit limit of `Integer.parseInt` is the range check of `IsInteger`.
- `equalsIgnoreCase` on displays is ASCII case folding.
- `Interpreter.Engine.RunCreate`: the `profile` user data copied onto a created resource is left out. `services.createResource` is treated as the identity.
- `Interpreter.Engine.TargetValue`: the messages for setting or making an unknown property stand for the exceptions of the object model.
- Exceptions thrown by the object model on wrong types (a cast of a non-string parameter, `getParameter().get(i)` out of range) appear as `Err` results with Java's message. A null dereference appears as the message "null".
- Logging, `TextFile.stringToFile`, and the XHTML of the analysis tables.
- `analyse`, `analyseGroup`, `analyseRule`, `analyseTarget`, `analyseTransform`, `resolveType`, `updateProfile` and the remaining fields `createProfile` fills (status, contacts, dates, kind, differential). They walk StructureDefinition type trees, which are left out. The value computations inside them are modelled: `AnalyseSource`, `GenerateFixedValue`, `DescribeTransform`, `CheckType`, `CreateProfile` and `TargetWriter`.
- `Generator.GenerateMapText`: `generateMapFromMappings` goes on to parse the text it built, set the id from `tail` of the url, set the status and write the narrative. Only the text and `tail` are modelled, because lexing raw text is outside the model. The element tree of the StructureDefinition is given as a datatype, with children already grouped.
- `Values.TruncateOutcome`: a null source with a non-integer length gives a string holding the blank string where Java would hold null.
- In the as-written dependent text (`Render.DependentText`), a variable list prints as `[StringType[a], ...]`, the `toString` of a HAPI `List<StringType>`. This assumes the text that HAPI's `PrimitiveType.toString` gives.
- `Values.Truncated`: `substring` counts UTF-16 code units, while a Dafny string counts characters. Outside the Basic Multilingual Plane the cut falls at a different place.
- `Values.TruncateOutcome`: the length is compared with the number of characters, not of UTF-16 code units, for the same reason.
- `Parser.AddEntry`: a blank prefix URL leaves a group's source system unset, and `getGroup` then calls `equals` on null and throws. The model compares the blank strings and finds the group.
- `Render.RenderTransform`: for a one-parameter evaluate, `renderTarget` casts the parameter to `StringType`, and for a two-parameter evaluate the parameters to `IdType` and `StringType`. Any other value type throws a `ClassCastException`. The model writes the parameters' plain text as they stand in both forms.
- `Interpreter.Engine.RunNestedRules` and `Interpreter.Engine.RunDependents`: each rule and each dependent is proved to run in order until one fails, but the per-rule outcomes are not tied to a functional description of rule execution. `ExecuteRule` and `ExecuteDependency` state those.
- `Interpreter.Engine.ExecuteGroup`: the rules' outcomes are related to the group's outcome, not to a function of the graph, because the graph changes between rules. Of the graph it states only `Grows`: no node is lost and no type or given id changes.
- `Interpreter.Engine.ExecuteRule`, `Interpreter.Engine.RunEnvironments`, `Interpreter.Engine.RunBranch` and `Interpreter.Engine.Transform`: the graph after a rule, a branch or a whole transform is not given as a function of the graph before, since it depends on every target, nested rule and dependent group run. They state `Grows`, and each single target's effect is stated exactly by `ProcessTarget`.
- `Interpreter.Engine.RunTargets` and `Interpreter.Engine.RunTarget`: the loop keeps of each target only its effect on the environment and `Grows` of the graph. The exact graph after one target is stated by `ProcessTarget`, not carried through the loop.
- `Interpreter.Engine.ExecuteDependency`: the outcome of the invoked group is not stated; only the environment it runs in and the failures before it runs.
- `Values.TranslateOutcome`: a missing code is passed to `oid2Uri` as the text "null", and to `services.translate` as the blank code, where Java passes null. Where Java's matching dereferences the null code, the model fails with "null".
- `Parser.DependentOfTokens`: the parser is proved to read back the tokens of one invocation. A whole `then` list of invocations is read by the comma loop, and `SeparatedNext` gives it item by item, but no lemma reads back a list of several invocations in one step.
- `BatchLoader.java`: not part of the engine.

## Findings

| source | as written | input that shows it | evidently intended | confidence | as-written member | corrected member |
|---|---|---|---|---|---|---|
| implementations/java/org.hl7.fhir.dstu3/src/org/hl7/fhir/dstu3/utils/StructureMapUtilities.java:324-343 | the dependent loop appends the whole variable list once per variable, never appends ")", and the rule body with dependents has no `then` | a rule whose body is `then f(a)` renders its body as `f([StringType[a]]` | ` then ` before the dependents, each written `f(a)` with each variable once, separated by ", ", then ")" | not executed | Render.RuleBodyMissingThen | Render.CorrectedRuleBodyText |
| implementations/java/org.hl7.fhir.dstu3/src/org/hl7/fhir/dstu3/utils/StructureMapUtilities.java:1372-1386 | a second acceptable target sets the "multiple matches" message, then clears `done`, so the final message is "found no usable translation" | one concept-map entry with two `equal` targets | fail with "found multiple matches" | not executed | Translate.TwoAcceptableReportedAsUnusable | Translate.CorrectedOutcome |
| implementations/java/org.hl7.fhir.dstu3/src/org/hl7/fhir/dstu3/utils/StructureMapUtilities.java:1372-1380 | after two acceptable targets `done` is false again, so a third acceptable target is accepted as the translation | one concept-map entry with three `equal` targets `a`, `b`, `c` translates to `c` | fail with "found multiple matches" | not executed | Translate.ThirdAcceptableChosen | Translate.CorrectedOutcome |
| implementations/java/org.hl7.fhir.dstu3/src/org/hl7/fhir/dstu3/utils/StructureMapUtilities.java:1143 | `create(type, id)` sets the id from parameter 0, the type name | `create("Patient", "p1")` gets the id "Patient" | the id is parameter 1, "p1" | not executed | Values.CreateIdIgnoresSecondParameter | Values.CorrectedCreateId |

=== FILE: analyzer.dfy ===
/** The deterministic helpers of the map analyser, which walks a map without
    running it to describe, per rule, what it reads and makes, and to derive
    profiles of the target structures:
    - the writer that collects the description of a rule's targets;
    - the optional/repeating flags a source gives the branch that reads it;
    - the fixed values and short descriptions of constant transforms;
    - the type check of a target element;
    - the naming of the generated profiles. */
module Analyzer {
  import opened Wrappers
  import opened Text
  import opened Ast
  import opened Variables
  import opened Values

  // ---------------------------------------------------------------------
  // The target description of a rule

  /** A (variable, description) pair recorded by the writer. */
  datatype Assignment = Assignment(variable: string, desc: string)

  /** The text s appears in t at position k. */
  predicate OccursAt(s: string, t: string, k: nat) {
    k + |s| <= |t| && t[k..k + |s|] == s
  }

  /** The text s appears in t. */
  ghost predicate Occurs(s: string, t: string) {
    exists k: nat :: OccursAt(s, t, k)
  }

  lemma OccursIn(a: string, s: string, b: string)
    ensures Occurs(s, a + s + b)
  {
    var t := a + s + b;
    assert t[|a|..|a| + |s|] == s;
    assert OccursAt(s, t, |a|);
  }

  /** Every part of a joined list appears in the joined text. */
  lemma {:induction false} JoinContains(parts: seq<string>, sep: string, i: nat)
    requires i < |parts|
    ensures Occurs(parts[i], Join(parts, sep))
    decreases |parts|
  {
    var n := |parts| - 1;
    if n == 0 {
      OccursIn("", parts[i], "");
      assert "" + parts[i] + "" == Join(parts, sep);
    } else if i == n {
      OccursIn(Join(parts[..n], sep) + sep, parts[n], "");
      assert Join(parts[..n], sep) + sep + parts[n] + "" == Join(parts, sep);
    } else {
      JoinContains(parts[..n], sep, i);
      var t := Join(parts[..n], sep);
      var k: nat :| OccursAt(parts[i], t, k);
      var u := Join(parts, sep);
      assert u == t + (sep + parts[n]);
      assert u[k..k + |parts[i]|] == t[k..k + |parts[i]|];
      assert OccursAt(parts[i], u, k);
    }
  }

  /** The text `commit` writes: one new resource filled by one assignment is
      written "new <assignment>", followed in brackets by its key property
      without the part up to the first '.'; anything else is every recorded
      text separated by ", ". */
  function CommitText(newResources: map<string, string>, assignments: seq<Assignment>,
                      keyProps: seq<Assignment>, txt: string): string
  {
    if |newResources| == 1 && |assignments| == 1 && assignments[0].variable in newResources
       && |keyProps| == 1 && keyProps[0].variable in newResources then
      var key := keyProps[0].desc;
      "new " + assignments[0].desc + " (" + key[IndexOf(key, '.') + 1..] + ")"
    else if |newResources| == 1 && |assignments| == 1 && assignments[0].variable in newResources
       && |keyProps| == 0 then
      "new " + assignments[0].desc
    else
      txt
  }

  /** `TargetWriter`: the new resources a rule makes, its value assignments,
      its key properties, and every text recorded, comma-separated. */
  class TargetWriter {
    var newResources: map<string, string>
    var assignments: seq<Assignment>
    var keyProps: seq<Assignment>
    var txt: string
    var first: bool
    /** The texts recorded so far, in order. */
    ghost var parts: seq<string>

    /** The text is the recorded texts joined by ", ", and each resource,
        assignment and key property has its text among them. */
    ghost predicate Valid()
      reads this
    {
      && txt == Join(parts, ", ")
      && (first <==> parts == [])
      && (forall v :: v in newResources ==> "new " + newResources[v] in parts)
      && (forall i :: 0 <= i < |assignments| ==> assignments[i].desc in parts)
      && (forall i :: 0 <= i < |keyProps| ==> keyProps[i].desc in parts)
    }

    constructor ()
      ensures Valid() && parts == []
      ensures newResources == map[] && assignments == [] && keyProps == []
    {
      newResources := map[];
      assignments := [];
      keyProps := [];
      txt := "";
      first := true;
      parts := [];
    }

    /** CommaSeparatedStringBuilder.append. */
    method Record(s: string)
      requires Valid()
      modifies this
      ensures parts == old(parts) + [s] && txt == Join(parts, ", ") && (first <==> parts == [])
      ensures newResources == old(newResources) && assignments == old(assignments) && keyProps == old(keyProps)
    {
      if first {
        txt := s;
      } else {
        JoinAppend(parts, ", ", s);
        txt := txt + ", " + s;
      }
      first := false;
      parts := parts + [s];
    }

    method NewResource(variable: string, name: string)
      requires Valid()
      modifies this
      ensures Valid() && parts == old(parts) + ["new " + name]
      ensures newResources == old(newResources)[variable := name]
      ensures assignments == old(assignments) && keyProps == old(keyProps)
    {
      Record("new " + name);
      newResources := newResources[variable := name];
    }

    method ValueAssignment(context: string, desc: string)
      requires Valid()
      modifies this
      ensures Valid() && parts == old(parts) + [desc]
      ensures assignments == old(assignments) + [Assignment(context, desc)]
      ensures newResources == old(newResources) && keyProps == old(keyProps)
    {
      Record(desc);
      assignments := assignments + [Assignment(context, desc)];
    }

    method KeyAssignment(context: string, desc: string)
      requires Valid()
      modifies this
      ensures Valid() && parts == old(parts) + [desc]
      ensures keyProps == old(keyProps) + [Assignment(context, desc)]
      ensures newResources == old(newResources) && assignments == old(assignments)
    {
      Record(desc);
      keyProps := keyProps + [Assignment(context, desc)];
    }

    /** The text of the rule's target cell. */
    method Commit() returns (s: string)
      requires Valid()
      ensures s == CommitText(newResources, assignments, keyProps, Join(parts, ", "))
      ensures forall i :: 0 <= i < |assignments| ==> Occurs(assignments[i].desc, s)
    {
      if |newResources| == 1 && |assignments| == 1 && assignments[0].variable in newResources
         && |keyProps| == 1 && keyProps[0].variable in newResources {
        var key := keyProps[0].desc;
        s := "new " + assignments[0].desc + " (" + key[IndexOf(key, '.') + 1..] + ")";
      } else if |newResources| == 1 && |assignments| == 1 && assignments[0].variable in newResources
         && |keyProps| == 0 {
        s := "new " + assignments[0].desc;
      } else {
        s := txt;
      }
      CommitShowsAssignments(newResources, assignments, keyProps, parts);
    }
  }

  /** Whatever form the text takes, every value assignment is in it. */
  lemma CommitShowsAssignments(newResources: map<string, string>, assignments: seq<Assignment>,
                               keyProps: seq<Assignment>, parts: seq<string>)
    requires forall i :: 0 <= i < |assignments| ==> assignments[i].desc in parts
    ensures var s := CommitText(newResources, assignments, keyProps, Join(parts, ", "));
      forall i :: 0 <= i < |assignments| ==> Occurs(assignments[i].desc, s)
  {
    var s := CommitText(newResources, assignments, keyProps, Join(parts, ", "));
    forall i | 0 <= i < |assignments|
      ensures Occurs(assignments[i].desc, s)
    {
      if s == Join(parts, ", ") {
        var j :| 0 <= j < |parts| && parts[j] == assignments[i].desc;
        JoinContains(parts, ", ", j);
      } else if |keyProps| == 1 {
        var key := keyProps[0].desc;
        OccursIn("new ", assignments[0].desc, " (" + key[IndexOf(key, '.') + 1..] + ")");
        assert s == "new " + assignments[0].desc + (" (" + key[IndexOf(key, '.') + 1..] + ")");
      } else {
        OccursIn("new ", assignments[0].desc, "");
        assert s == "new " + assignments[0].desc + "";
      }
    }
  }

  /** A key property written as `<path>.<element> = <value>` for a path with
      no '.' (the analyser writes keys only for Observation and Bundle) is
      shown without its path. */
  lemma {:induction false} CommitDropsKeyPath(newResources: map<string, string>, a: Assignment,
                                              path: string, rest: string, txt: string)
    requires |newResources| == 1 && a.variable in newResources && '.' !in path
    ensures CommitText(newResources, [a], [Assignment(a.variable, path + "." + rest)], txt)
      == "new " + a.desc + " (" + rest + ")"
  {
    var key := path + "." + rest;
    assert key[|path|] == '.' && key[..|path|] == path;
    assert IndexOf(key, '.') == |path|;
    assert key[|path| + 1..] == rest;
  }

  // ---------------------------------------------------------------------
  // Sources

  /** A type reference of an element definition: its code ("" when it has
      none) and its profile ("" when it has none). */
  datatype TypeRef = TypeRef(code: string, profile: string)

  /** What the analyser reads of an element definition. */
  datatype ElementDefinition = ElementDefinition(path: string, min: nat, max: string, types: seq<TypeRef>)

  /** The property a profiled variable stands for: its path and types. */
  datatype Property = Property(path: string, types: seq<TypeRef>)

  predicate Untyped(types: seq<TypeRef>) {
    exists i :: 0 <= i < |types| && types[i].code == ""
  }

  /** The flags the branch reading a source gets: optional when the source
      has a condition or its element may be absent, repeating when the
      element repeats. The flags of the enclosing branch are not kept. */
  function SourceFlags(src: Source, element: Option<ElementDefinition>): (bool, bool) {
    var optional := src.condition != "" || (element.Some? && element.value.min == 0);
    var repeating := element.Some? && element.value.max == "*";
    (optional, repeating)
  }

  /** `analyseSource`: the variables of the branch that reads the source,
      and the text of its source cell. `child` is the property lookup of the
      object model. */
  method AnalyseSource(ruleId: string, child: (Property, string) -> Option<ElementDefinition>,
                       vars: VariablesForProfiling<Property>, src: Source)
    returns (r: Result<VariablesForProfiling<Property>>, cell: string)
    requires vars.Valid()
    ensures Lookup(vars.list, VariableMode.Input, src.context).None? ==>
      r == Fails("Rule \"" + ruleId + "\": Unknown input variable " + src.context)
    ensures Lookup(vars.list, VariableMode.Input, src.context).Some? ==>
      var prop := Lookup(vars.list, VariableMode.Input, src.context).value.value;
      var element := if src.element == "" then None else child(prop, src.element);
      && (src.element != "" && element.None? ==>
            r == Fails("Rule \"" + ruleId + "\": Unknown element name " + src.element))
      && (element.Some? && Untyped(element.value.types) ==>
            r == Fails("Rule \"" + ruleId + "\": Element has no type"))
      && (r.Ok? <==> src.element == "" || (element.Some? && !Untyped(element.value.types)))
      && (r.Ok? ==>
            && fresh(r.value) && r.value.Valid()
            && (r.value.optional, r.value.repeating) == SourceFlags(src, element)
            && cell == (if src.element == "" then prop.path else prop.path + "." + src.element)
            && r.value.list == if src.element != "" && src.variable != ""
                               then Bind(vars.list, VariableMode.Input, src.variable,
                                         Property(prop.path + "." + src.element, element.value.types))
                               else vars.list)
  {
    cell := "";
    var v := vars.Get(VariableMode.Input, src.context);
    if v.None? {
      return Fails("Rule \"" + ruleId + "\": Unknown input variable " + src.context), cell;
    }
    var prop := v.value.value;
    var optional := false;
    var repeating := false;
    if src.condition != "" {
      optional := true;
    }
    if src.element != "" {
      var element := child(prop, src.element);
      if element.None? {
        return Fails("Rule \"" + ruleId + "\": Unknown element name " + src.element), cell;
      }
      if element.value.min == 0 {
        optional := true;
      }
      if element.value.max == "*" {
        repeating := true;
      }
      var result := vars.CopyWith(optional, repeating);
      var types := element.value.types;
      for i := 0 to |types|
        invariant forall j :: 0 <= j < i ==> types[j].code != ""
      {
        if types[i].code == "" {
          return Fails("Rule \"" + ruleId + "\": Element has no type"), cell;
        }
      }
      cell := prop.path + "." + src.element;
      if src.variable != "" {
        result.Add(VariableMode.Input, src.variable, Property(prop.path + "." + src.element, types));
      }
      return Ok(result), cell;
    } else {
      cell := prop.path;
      var result := vars.CopyWith(optional, repeating);
      return Ok(result), cell;
    }
  }

  // ---------------------------------------------------------------------
  // Constant transforms

  /** The suffix a value assignment's description gets for its transform. */
  function TransformSuffix(t: Transform): (s: string)
    ensures s == "" <==> t == Copy
    ensures t in {Truncate, Translate, CC, C, Qty} ==> |s| > 2 && s[..2] == " (" && s[|s| - 1] == ')'
    ensures s != "" ==> s[0] == ' '
  {
    match t
    case Copy => ""
    case Truncate => " (truncated)"
    case Translate => " (translated)"
    case CC => " (--> CodeableConcept)"
    case C => " (--> Coding)"
    case Qty => " (--> Quantity)"
    case _ => " {??)"
  }

  /** The elements whose constant value names what a resource is: the code
      of an Observation and the type of a Bundle. */
  function IsSignificantElement(path: string, element: string): (b: bool)
    ensures b ==> path in {"Observation", "Bundle"}
    ensures path == "Observation" ==> (b <==> element == "code")
    ensures path == "Bundle" ==> (b <==> element == "type")
  {
    if path == "Observation" then element == "code"
    else if path == "Bundle" then element == "type"
    else false
  }

  /** No parameter names a variable. */
  predicate AllParametersFixed(ps: seq<ParamValue>) {
    forall i :: 0 <= i < |ps| ==> !ps[i].IdParam?
  }

  /** The fixed value of a target: a parameter itself, or a coding or
      codeable concept of (system, code). */
  datatype Fixed = FixedValue(param: ParamValue) | FixedCoding(system: string, code: string)
    | FixedConcept(system: string, code: string)

  /** The text of a literal parameter. */
  function LiteralText(p: ParamValue): string
    requires !p.IdParam?
  {
    ConstantBase(p).value
  }

  /** `generateFixedValue`: a target whose parameters are all literals has a
      fixed value when it copies, or makes a coding or concept from two
      literals; the missing parameter of such a target is an index error. */
  function GenerateFixedValue(tgt: Target): (r: Result<Option<Fixed>>)
    ensures !AllParametersFixed(tgt.parameters) || tgt.transform.None? ==> r == Ok(None)
    ensures r.Ok? && r.value.Some? ==> tgt.transform.Some? && tgt.transform.value in {Copy, CC, C}
    ensures AllParametersFixed(tgt.parameters) && tgt.transform.Some? ==>
      var ps := tgt.parameters;
      match tgt.transform.value
      case Copy => r == if ps == [] then Fails("Index: 0, Size: 0") else Ok(Some(FixedValue(ps[0])))
      case CC => |ps| >= 2 ==> r == Ok(Some(FixedConcept(LiteralText(ps[0]), LiteralText(ps[1]))))
      case C => |ps| >= 2 ==> r == Ok(Some(FixedCoding(LiteralText(ps[0]), LiteralText(ps[1]))))
      case _ => r == Ok(None)
    ensures r.Err? <==>
      && AllParametersFixed(tgt.parameters) && tgt.transform.Some?
      && ((tgt.transform.value == Copy && |tgt.parameters| == 0)
          || (tgt.transform.value in {CC, C} && |tgt.parameters| < 2))
  {
    if !AllParametersFixed(tgt.parameters) || tgt.transform.None? then Ok(None)
    else
      match tgt.transform.value
      case Copy =>
        var p0 :- ParamAt(tgt.parameters, 0);
        Ok(Some(FixedValue(p0)))
      case CC =>
        var p0 :- ParamAt(tgt.parameters, 0);
        var p1 :- ParamAt(tgt.parameters, 1);
        Ok(Some(FixedConcept(LiteralText(p0), LiteralText(p1))))
      case C =>
        var p0 :- ParamAt(tgt.parameters, 0);
        var p1 :- ParamAt(tgt.parameters, 1);
        Ok(Some(FixedCoding(LiteralText(p0), LiteralText(p1))))
      case _ => Ok(None)
  }

  /** `describeTransformCCorC`: "<system>#<code>", with the display in
      brackets when there is one, for two literal parameters; the coding is
      built as the CC and C transforms build it. `describeSystem` is the
      narrative generator's short name of a code system. */
  function DescribeCoding(o: Oracles, describeSystem: string -> string, ps: seq<ParamValue>): (r: Result<Option<string>>)
    ensures |ps| < 2 || ps[0].IdParam? || ps[1].IdParam? ==> r == Ok(None)
    ensures |ps| >= 2 && !ps[0].IdParam? && !ps[1].IdParam? ==>
      var uri := LiteralText(ps[0]);
      var code := LiteralText(ps[1]);
      && (uri == "" ==> r == Fails("Describe Transform, but the uri is blank"))
      && (uri != "" && code == "" ==> r == Fails("Describe Transform, but the code is blank"))
      && (uri != "" && code != "" ==>
            match CodingFor(o, uri, code)
            case Err(e) => r == Err(e)
            case Ok(c) =>
              r == Ok(Some(describeSystem(c.system) + "#" + code + (if c.display != "" then "(" + c.display + ")" else ""))))
  {
    if |ps| < 2 then Ok(None)
    else if ps[0].IdParam? || ps[1].IdParam? then Ok(None)
    else
      var uri := LiteralText(ps[0]);
      var code := LiteralText(ps[1]);
      if uri == "" then Fails("Describe Transform, but the uri is blank")
      else if code == "" then Fails("Describe Transform, but the code is blank")
      else
        var c :- CodingFor(o, uri, code);
        Ok(Some(describeSystem(c.system) + "#" + c.code + (if c.display != "" then "(" + c.display + ")" else "")))
  }

  /** `describeTransform`: only the coding transforms have a description; a
      target without a transform fails on the switch. */
  function DescribeTransform(o: Oracles, describeSystem: string -> string, tgt: Target): (r: Result<Option<string>>)
    ensures tgt.transform.None? ==> r == Fails("null")
    ensures tgt.transform.Some? && tgt.transform.value !in {CC, C} ==> r == Ok(None)
    ensures tgt.transform.Some? && tgt.transform.value in {CC, C} ==>
      r == DescribeCoding(o, describeSystem, tgt.parameters)
  {
    match tgt.transform
    case None => Fails("null")
    case Some(t) =>
      match t
      case CC => DescribeCoding(o, describeSystem, tgt.parameters)
      case C => DescribeCoding(o, describeSystem, tgt.parameters)
      case _ => Ok(None)
  }

  // ---------------------------------------------------------------------
  // Type checks

  /** `isCompatibleType`: the same type, or a string assigned to a type whose
      definition is based on string (`stringBased`, from the worker). */
  predicate IsCompatibleType(t: string, code: string, stringBased: string -> bool) {
    t == code || (t == "string" && stringBased(code))
  }

  /** `profilesMatch`: no profiles asked for, or exactly the one given. */
  function ProfilesMatch(profiles: Option<seq<string>>, profile: string): (b: bool)
    ensures b <==> profiles.None? || profiles.value == [] || profiles.value == [profile]
  {
    profiles.None? || |profiles.value| == 0 || (|profiles.value| == 1 && profiles.value[0] == profile)
  }

  /** The k-th type reference is the first one compatible with t. */
  predicate FirstCompatibleAt(t: string, types: seq<TypeRef>, stringBased: string -> bool, k: nat) {
    && k < |types| && IsCompatibleType(t, types[k].code, stringBased)
    && forall i :: 0 <= i < k ==> !IsCompatibleType(t, types[i].code, stringBased)
  }

  /** The position of the first type reference compatible with t. */
  function FirstCompatible(t: string, types: seq<TypeRef>, stringBased: string -> bool): (r: Option<nat>)
    ensures r.None? <==> forall i :: 0 <= i < |types| ==> !IsCompatibleType(t, types[i].code, stringBased)
    ensures r.Some? ==>
      && r.value < |types| && IsCompatibleType(t, types[r.value].code, stringBased)
      && forall i :: 0 <= i < r.value ==> !IsCompatibleType(t, types[i].code, stringBased)
    decreases |types|
  {
    if types == [] then None
    else if IsCompatibleType(t, types[0].code, stringBased) then Some(0)
    else match FirstCompatible(t, types[1..], stringBased)
      case None => None
      case Some(k) => Some(k + 1)
  }

  /** `checkType`: nothing to record when the element has a single compatible
      type and the profiles match; otherwise the base type of the first
      compatible reference; an error when none is compatible. */
  function CheckType(t: string, def: ElementDefinition, profiles: Option<seq<string>>,
                     stringBased: string -> bool): (r: Result<Option<string>>)
    ensures r.Err? <==> forall i :: 0 <= i < |def.types| ==> !IsCompatibleType(t, def.types[i].code, stringBased)
    ensures r.Err? ==> r == Fails("The type " + t + " is not compatible with the allowed types for " + def.path)
    ensures r == Ok(None) <==>
      |def.types| == 1 && IsCompatibleType(t, def.types[0].code, stringBased)
      && ProfilesMatch(profiles, def.types[0].profile)
    ensures r.Ok? && r.value.Some? ==>
      exists k :: 0 <= k < |def.types| && r.value.value == def.types[k].code && FirstCompatibleAt(t, def.types, stringBased, k)
  {
    if |def.types| == 1 && IsCompatibleType(t, def.types[0].code, stringBased)
       && ProfilesMatch(profiles, def.types[0].profile) then Ok(None)
    else match FirstCompatible(t, def.types, stringBased)
      case Some(k) => Ok(Some(def.types[k].code))
      case None => Fails("The type " + t + " is not compatible with the allowed types for " + def.path)
  }

  // ---------------------------------------------------------------------
  // Profile names

  /** What a generated profile takes from its naming. */
  datatype Profile = Profile(url: string, id: string, name: string, typeName: string, baseDefinition: string)

  /** The suffix of the n-th profile made for one type (counting from 0). */
  function SuffixFor(n: nat): string {
    if n == 0 then "" else "-" + NatToString(n)
  }

  /** The suffix `createProfile` gives, from the counter of the types seen. */
  function ProfileSuffix(ids: map<string, nat>, typeName: string): string {
    if typeName in ids then SuffixFor(ids[typeName] + 1) else ""
  }

  /** The counter after a profile for the type is made. */
  function Counted(ids: map<string, nat>, typeName: string): map<string, nat> {
    ids[typeName := if typeName in ids then ids[typeName] + 1 else 0]
  }

  /** The profile named for the map, the type and the suffix. */
  function NamedProfile(mapUrl: string, mapId: string, typeName: string, suffix: string,
                        baseDefinition: string, sliceName: string): (p: Profile)
    ensures p.url == ReplaceAll(mapUrl, "StructureMap", "StructureDefinition") + "-" + typeName + suffix
    ensures p.id == mapId + "-" + typeName + suffix
  {
    Profile(ReplaceAll(mapUrl, "StructureMap", "StructureDefinition") + "-" + typeName + suffix,
            mapId + "-" + typeName + suffix,
            "Profile for " + typeName + " for " + sliceName,
            typeName, baseDefinition)
  }

  /** The counter of profiles made per type, kept across the calls of one
      analysis. */
  class ProfileNamer {
    var ids: map<string, nat>

    constructor ()
      ensures ids == map[]
    {
      ids := map[];
    }

    /** What `analyse` does first. */
    method Clear()
      modifies this
      ensures ids == map[]
    {
      ids := map[];
    }

    /** `createProfile`: the entry point's definition path is the type;
        the first profile for a type has no suffix, later ones "-1", "-2", .... */
    method CreateProfile(mapUrl: string, mapId: string, path: string, baseDefinition: string, sliceName: string)
      returns (r: Result<Profile>)
      modifies this
      ensures '.' in path ==> r == Fails("Unable to process entry point") && ids == old(ids)
      ensures '.' !in path ==>
        && ids == Counted(old(ids), path)
        && r == Ok(NamedProfile(mapUrl, mapId, path, ProfileSuffix(old(ids), path), baseDefinition, sliceName))
    {
      if '.' in path {
        return Fails("Unable to process entry point");
      }
      var typeName := path;
      var suffix := "";
      if typeName in ids {
        var id := ids[typeName];
        id := id + 1;
        ids := ids[typeName := id];
        suffix := "-" + NatToString(id);
      } else {
        ids := ids[typeName := 0];
      }
      r := Ok(NamedProfile(mapUrl, mapId, typeName, suffix, baseDefinition, sliceName));
    }
  }

  /** The counter after profiles for each of the types, in order. */
  function After(ids: map<string, nat>, types: seq<string>): map<string, nat>
    decreases |types|
  {
    if types == [] then ids else Counted(After(ids, types[..|types| - 1]), types[|types| - 1])
  }

  /** From a cleared counter, a type is counted once it has occurred, and
      holds one less than the number of its occurrences. */
  lemma {:induction false} AfterCounts(types: seq<string>, t: string)
    ensures t in After(map[], types) <==> multiset(types)[t] > 0
    ensures t in After(map[], types) ==> After(map[], types)[t] == multiset(types)[t] - 1
    decreases |types|
  {
    if types != [] {
      var n := |types| - 1;
      AfterCounts(types[..n], t);
      assert types == types[..n] + [types[n]];
      assert multiset(types) == multiset(types[..n]) + multiset{types[n]};
    }
  }

  /** In one analysis, the profile made for the i-th entry point has the
      suffix "-k" when k profiles of its type were made before it, and none
      when it is the first. */
  lemma ProfileSuffixCounts(types: seq<string>, i: nat)
    requires i < |types|
    ensures ProfileSuffix(After(map[], types[..i]), types[i]) == SuffixFor(multiset(types[..i])[types[i]])
  {
    AfterCounts(types[..i], types[i]);
  }

  lemma {:induction false} SuffixForInjective(a: nat, b: nat)
    requires SuffixFor(a) == SuffixFor(b)
    ensures a == b
  {
    if a != 0 && b != 0 {
      assert NatToString(a) == SuffixFor(a)[1..];
      assert NatToString(b) == SuffixFor(b)[1..];
      NatToStringValue(a);
      NatToStringValue(b);
    }
  }

  /** Two profiles made for the same type in one analysis have different
      URLs and different ids. */
  lemma ProfileNamesDistinct(mapUrl: string, mapId: string, types: seq<string>, i: nat, j: nat,
                             baseDefinition: string, sliceName: string)
    requires i < j < |types| && types[i] == types[j]
    ensures var p := NamedProfile(mapUrl, mapId, types[i], ProfileSuffix(After(map[], types[..i]), types[i]),
                                  baseDefinition, sliceName);
            var q := NamedProfile(mapUrl, mapId, types[j], ProfileSuffix(After(map[], types[..j]), types[j]),
                                  baseDefinition, sliceName);
            p.url != q.url && p.id != q.id
  {
    var t := types[i];
    ProfileSuffixCounts(types, i);
    ProfileSuffixCounts(types, j);
    assert types[..j] == types[..i] + types[i..j];
    assert types[i..j][0] == t;
    assert multiset(types[..j])[t] == multiset(types[..i])[t] + multiset(types[i..j])[t];
    assert multiset(types[i..j])[t] > 0;
    var si := SuffixFor(multiset(types[..i])[t]);
    var sj := SuffixFor(multiset(types[..j])[t]);
    if si == sj {
      SuffixForInjective(multiset(types[..i])[t], multiset(types[..j])[t]);
    }
    var u := ReplaceAll(mapUrl, "StructureMap", "StructureDefinition") + "-" + t;
    var d := mapId + "-" + t;
    assert (u + si)[|u|..] == si && (u + sj)[|u|..] == sj;
    assert (d + si)[|d|..] == si && (d + sj)[|d|..] == sj;
  }
}

=== FILE: ast.dfy ===
/** The StructureMap abstract syntax tree of the FHIR STU3 mapping language,
    with the coded enumerations it uses and their textual codes.

    A string field holds "" where the resource leaves the element absent: the
    FHIR model's `hasX()` is false for a blank primitive, so "" and "absent"
    behave alike everywhere in the engine. */
module Ast {
  import opened Wrappers

  /** StructureMapModelMode: how a `uses` declaration uses a structure. */
  datatype ModelMode = ModelSource | Queried | ModelTarget | Produced

  /** StructureMapInputMode: the direction of a group input. */
  datatype InputMode = InputSource | InputTarget

  /** StructureMapListMode: list handling of a source or target. */
  datatype ListMode = First | Share | Last

  /** StructureMapContextType of a target context. */
  datatype ContextType = TypeContext | VariableContext

  /** StructureMapTransform: the transform kinds of the mapping language. */
  datatype Transform =
    | Create | Copy | Truncate | Escape | Cast | Append | Translate | Reference
    | DateOp | Uuid | Pointer | Evaluate | CC | C | Qty | Id | CP

  /** ConceptMapEquivalence of a concept-map target. */
  datatype Equivalence =
    | Equivalent | Equal | Wider | Subsumes | Narrower | Specializes | Inexact | Unmatched | Disjoint

  function ModelModeCode(m: ModelMode): string {
    match m
    case ModelSource => "source"
    case Queried => "queried"
    case ModelTarget => "target"
    case Produced => "produced"
  }

  function InputModeCode(m: InputMode): string {
    match m
    case InputSource => "source"
    case InputTarget => "target"
  }

  function ListModeCode(m: ListMode): string {
    match m
    case First => "first"
    case Share => "share"
    case Last => "last"
  }

  function TransformCode(t: Transform): string {
    match t
    case Create => "create"
    case Copy => "copy"
    case Truncate => "truncate"
    case Escape => "escape"
    case Cast => "cast"
    case Append => "append"
    case Translate => "translate"
    case Reference => "reference"
    case DateOp => "dateOp"
    case Uuid => "uuid"
    case Pointer => "pointer"
    case Evaluate => "evaluate"
    case CC => "cc"
    case C => "c"
    case Qty => "qty"
    case Id => "id"
    case CP => "cp"
  }

  /** StructureMapModelMode.fromCode: "" gives no mode (null), an unknown code fails. */
  function ModelModeFromCode(s: string): (r: Result<Option<ModelMode>>)
    ensures r.Ok? && r.value.Some? ==> ModelModeCode(r.value.value) == s
    ensures r.Err? <==> s != "" && forall m: ModelMode :: ModelModeCode(m) != s
    ensures r == Ok(None) <==> s == ""
  {
    if s == "" then Ok(None)
    else if s == "source" then Ok(Some(ModelSource))
    else if s == "queried" then Ok(Some(Queried))
    else if s == "target" then Ok(Some(ModelTarget))
    else if s == "produced" then Ok(Some(Produced))
    else Fails("Unknown StructureMapModelMode code '" + s + "'")
  }

  /** StructureMapInputMode.fromCode. */
  function InputModeFromCode(s: string): (r: Result<Option<InputMode>>)
    ensures r.Ok? && r.value.Some? ==> InputModeCode(r.value.value) == s
    ensures r.Err? <==> s != "" && forall m: InputMode :: InputModeCode(m) != s
    ensures r == Ok(None) <==> s == ""
  {
    if s == "" then Ok(None)
    else if s == "source" then Ok(Some(InputSource))
    else if s == "target" then Ok(Some(InputTarget))
    else Fails("Unknown StructureMapInputMode code '" + s + "'")
  }

  /** StructureMapListMode.fromCode. */
  function ListModeFromCode(s: string): (r: Result<Option<ListMode>>)
    ensures r.Ok? && r.value.Some? ==> ListModeCode(r.value.value) == s
    ensures r.Err? <==> s != "" && forall m: ListMode :: ListModeCode(m) != s
    ensures r == Ok(None) <==> s == ""
  {
    if s == "" then Ok(None)
    else if s == "first" then Ok(Some(First))
    else if s == "share" then Ok(Some(Share))
    else if s == "last" then Ok(Some(Last))
    else Fails("Unknown StructureMapListMode code '" + s + "'")
  }

  /** StructureMapTransform.fromCode. */
  function TransformFromCode(s: string): (r: Result<Option<Transform>>)
    ensures r.Ok? && r.value.Some? ==> TransformCode(r.value.value) == s
    ensures r.Err? <==> s != "" && forall t: Transform :: TransformCode(t) != s
    ensures r == Ok(None) <==> s == ""
  {
    if s == "" then Ok(None)
    else if s == "create" then Ok(Some(Create))
    else if s == "copy" then Ok(Some(Copy))
    else if s == "truncate" then Ok(Some(Truncate))
    else if s == "escape" then Ok(Some(Escape))
    else if s == "cast" then Ok(Some(Cast))
    else if s == "append" then Ok(Some(Append))
    else if s == "translate" then Ok(Some(Translate))
    else if s == "reference" then Ok(Some(Reference))
    else if s == "dateOp" then Ok(Some(DateOp))
    else if s == "uuid" then Ok(Some(Uuid))
    else if s == "pointer" then Ok(Some(Pointer))
    else if s == "evaluate" then Ok(Some(Evaluate))
    else if s == "cc" then Ok(Some(CC))
    else if s == "c" then Ok(Some(C))
    else if s == "qty" then Ok(Some(Qty))
    else if s == "id" then Ok(Some(Id))
    else if s == "cp" then Ok(Some(CP))
    else Fails("Unknown StructureMapTransform code '" + s + "'")
  }

  /** Every transform code reads back as its transform. */
  lemma TransformCodeRoundTrip(t: Transform)
    ensures TransformFromCode(TransformCode(t)) == Ok(Some(t))
  {
  }

  /** A literal or variable-reference parameter of a transform. The numeric and
      decimal literals keep the text they were read from, which is what their
      `asStringValue` gives back. */
  datatype ParamValue =
    | IdParam(id: string)
    | StringParam(s: string)
    | BoolParam(b: bool)
    | IntParam(digits: string)
    | DecimalParam(text: string)

  /** A rule source: `[optional] context[.element] [listMode] [as v] [where c] [check c]`. */
  datatype Source = Source(
    context: string,
    element: string,
    required: bool,
    listMode: Option<ListMode>,
    variable: string,
    condition: string,
    check: string)

  /** A rule target: `[context.element =] transform(params) [as v] [listModes]`.
      `expression` is the FluentPath text the parser keeps beside an
      `evaluate` target (inline `(expr)` or `evaluate(p, expr)`); None for
      every other target. */
  datatype Target = Target(
    context: string,
    contextType: Option<ContextType>,
    element: string,
    transform: Option<Transform>,
    parameters: seq<ParamValue>,
    variable: string,
    listModes: seq<ListMode>,
    listRuleId: string,
    expression: Option<string>)

  /** An invocation of another group: `name(v1, ..., vn)`. */
  datatype Dependent = Dependent(name: string, variables: seq<string>)

  /** A rule: sources, targets and either nested rules or dependent invocations. */
  datatype Rule = Rule(
    name: string,
    sources: seq<Source>,
    targets: seq<Target>,
    rules: seq<Rule>,
    dependents: seq<Dependent>,
    documentation: string)

  datatype Input = Input(name: string, typeName: string, mode: InputMode, documentation: string)

  datatype Group = Group(
    name: string,
    extendsName: string,
    documentation: string,
    inputs: seq<Input>,
    rules: seq<Rule>)

  /** A `uses "url" as mode` declaration. */
  datatype Structure = Structure(url: string, mode: ModelMode, documentation: string)

  /** A concept-map target: code plus equivalence (None when left unset). */
  datatype TargetElement = TargetElement(code: string, equivalence: Option<Equivalence>, comments: string)

  datatype SourceElement = SourceElement(code: string, targets: seq<TargetElement>)

  /** The entries of one (source system, target system) pair. */
  datatype ConceptMapGroup = ConceptMapGroup(source: string, target: string, elements: seq<SourceElement>)

  /** A concept map; a resource built elsewhere may have no id. */
  datatype ConceptMap = ConceptMap(id: Option<string>, groups: seq<ConceptMapGroup>)

  /** A StructureMap: header, embedded concept maps, uses, imports and groups. */
  datatype StructureMap = StructureMap(
    url: string,
    name: string,
    contained: seq<ConceptMap>,
    structures: seq<Structure>,
    imports: seq<string>,
    groups: seq<Group>)

  /** The number of rules in a rule tree, used as a termination measure. */
  function RuleSize(r: Rule): (n: nat)
    ensures n >= 1
    decreases r, 0
  {
    1 + RulesSize(r.rules)
  }

  function RulesSize(rs: seq<Rule>): (n: nat)
    ensures forall i :: 0 <= i < |rs| ==> RuleSize(rs[i]) <= n
    decreases rs, 1
  {
    if rs == [] then 0 else RuleSize(rs[0]) + RulesSize(rs[1..])
  }
}

=== FILE: dispatch.dfy ===
/** How the engine picks the group that starts a transform or that a rule's
    dependent invocation calls, and how it binds that group's inputs. */
module Dispatch {
  import opened Wrappers
  import opened Text
  import opened Ast
  import opened Variables

  // ---------------------------------------------------------------------
  // The input names of the first group

  /** The names of the inputs of one mode, in order. */
  function NamesOfMode(inputs: seq<Input>, mode: InputMode): (r: seq<string>)
    ensures |r| <= |inputs|
    decreases |inputs|
  {
    if inputs == [] then []
    else
      var n := |inputs| - 1;
      NamesOfMode(inputs[..n], mode) + (if inputs[n].mode == mode then [inputs[n].name] else [])
  }

  /** A group names at most one input per mode; without one the default
      name is used. */
  function InputName(inputs: seq<Input>, mode: InputMode, default: string): Result<string> {
    var names := NamesOfMode(inputs, mode);
    if |names| > 1 then Fails("This engine does not support multiple source inputs")
    else if names == [] then Ok(default)
    else Ok(names[0])
  }

  /** The loop over the inputs that finds the one of the mode. */
  method GetInputName(inputs: seq<Input>, mode: InputMode, default: string) returns (r: Result<string>)
    ensures r == InputName(inputs, mode, default)
  {
    var name: Option<string> := None;
    for i := 0 to |inputs|
      invariant |NamesOfMode(inputs[..i], mode)| <= 1
      invariant name.None? <==> NamesOfMode(inputs[..i], mode) == []
      invariant name.Some? ==> NamesOfMode(inputs[..i], mode) == [name.value]
    {
      assert inputs[..i + 1][..i] == inputs[..i];
      if inputs[i].mode == mode {
        if name.Some? {
          assert inputs[..|inputs|] == inputs;
          NamesOfModePrefix(inputs, mode, i + 1);
          return Fails("This engine does not support multiple source inputs");
        }
        name := Some(inputs[i].name);
      }
    }
    assert inputs[..|inputs|] == inputs;
    r := if name.None? then Ok(default) else Ok(name.value);
  }

  /** The names found in a prefix are never more than in the whole. */
  lemma {:induction false} NamesOfModePrefix(inputs: seq<Input>, mode: InputMode, k: nat)
    requires k <= |inputs|
    ensures |NamesOfMode(inputs[..k], mode)| <= |NamesOfMode(inputs, mode)|
    decreases |inputs| - k
  {
    if k < |inputs| {
      NamesOfModePrefix(inputs, mode, k + 1);
      assert inputs[..k + 1][..k] == inputs[..k];
    } else {
      assert inputs[..k] == inputs;
    }
  }

  lemma {:induction false} NamesOfModeNone(inputs: seq<Input>, mode: InputMode)
    ensures NamesOfMode(inputs, mode) == [] <==> forall i :: 0 <= i < |inputs| ==> inputs[i].mode != mode
    decreases |inputs|
  {
    if inputs != [] {
      var n := |inputs| - 1;
      NamesOfModeNone(inputs[..n], mode);
      if NamesOfMode(inputs, mode) == [] {
        forall i | 0 <= i < |inputs| ensures inputs[i].mode != mode {
          if i < n {
            assert inputs[..n][i] == inputs[i];
          }
        }
      }
    }
  }

  lemma {:induction false} NamesOfModeTwo(inputs: seq<Input>, mode: InputMode)
    ensures |NamesOfMode(inputs, mode)| >= 2 <==>
      exists i, j :: 0 <= i < j < |inputs| && inputs[i].mode == mode && inputs[j].mode == mode
    decreases |inputs|
  {
    if inputs != [] {
      var n := |inputs| - 1;
      var init := inputs[..n];
      NamesOfModeTwo(init, mode);
      NamesOfModeNone(init, mode);
      if |NamesOfMode(inputs, mode)| >= 2 {
        if |NamesOfMode(init, mode)| >= 2 {
          var i, j :| 0 <= i < j < |init| && init[i].mode == mode && init[j].mode == mode;
          assert inputs[i] == init[i] && inputs[j] == init[j];
        } else {
          var i :| 0 <= i < |init| && init[i].mode == mode;
          assert inputs[i] == init[i];
          assert inputs[n].mode == mode;
        }
      }
    }
  }

  lemma {:induction false} NamesOfModeOne(inputs: seq<Input>, mode: InputMode, k: nat)
    requires k < |inputs| && inputs[k].mode == mode
    requires forall i :: 0 <= i < |inputs| && i != k ==> inputs[i].mode != mode
    ensures NamesOfMode(inputs, mode) == [inputs[k].name]
    decreases |inputs|
  {
    var n := |inputs| - 1;
    if k < n {
      NamesOfModeOne(inputs[..n], mode, k);
    } else {
      NamesOfModeNone(inputs[..n], mode);
    }
  }

  /** Input k is the only one of the mode. */
  predicate OnlyOfMode(inputs: seq<Input>, mode: InputMode, k: int) {
    && 0 <= k < |inputs| && inputs[k].mode == mode
    && forall i :: 0 <= i < |inputs| && i != k ==> inputs[i].mode != mode
  }

  /** The input name is the default when no input has the mode, that input's
      name when exactly one has it, and an error when two have it. */
  lemma InputNameMeaning(inputs: seq<Input>, mode: InputMode, default: string)
    ensures InputName(inputs, mode, default).Err? <==>
      exists i, j :: 0 <= i < j < |inputs| && inputs[i].mode == mode && inputs[j].mode == mode
    ensures (forall i :: 0 <= i < |inputs| ==> inputs[i].mode != mode) ==> InputName(inputs, mode, default) == Ok(default)
    ensures forall k :: OnlyOfMode(inputs, mode, k) ==> InputName(inputs, mode, default) == Ok(inputs[k].name)
  {
    NamesOfModeTwo(inputs, mode);
    NamesOfModeNone(inputs, mode);
    forall k | OnlyOfMode(inputs, mode, k)
      ensures InputName(inputs, mode, default) == Ok(inputs[k].name)
    {
      NamesOfModeOne(inputs, mode, k);
    }
  }

  // ---------------------------------------------------------------------
  // Resolving a dependent invocation

  /** The group found, and the map that holds it. */
  datatype Resolution = Resolution(owner: StructureMap, group: Group)

  function MultipleRuleMatches(name: string): Result<Option<Resolution>> {
    Fails("Multiple possible matches for rule '" + name + "'")
  }

  /** The scan of one map's groups, having found `found` so far: a second
      group of the name is an error. */
  function ScanGroups(found: Option<Resolution>, m: StructureMap, gs: seq<Group>, name: string): Result<Option<Resolution>>
    decreases |gs|
  {
    if gs == [] then Ok(found)
    else if gs[0].name != name then ScanGroups(found, m, gs[1..], name)
    else if found.Some? then MultipleRuleMatches(name)
    else ScanGroups(Some(Resolution(m, gs[0])), m, gs[1..], name)
  }

  /** The scan of the imported maps, in order: an import missing from the
      library is an error. */
  function ScanImports(found: Option<Resolution>, library: map<string, StructureMap>, imports: seq<string>, name: string): Result<Option<Resolution>>
    decreases |imports|
  {
    if imports == [] then Ok(found)
    else if imports[0] !in library then Fails("Unable to find map " + imports[0])
    else
      var m := library[imports[0]];
      match ScanGroups(found, m, m.groups, name)
      case Err(e) => Err(e)
      case Ok(f) => ScanImports(f, library, imports[1..], name)
  }

  /** The group a dependent invocation calls: the map's own groups, then
      each imported map's, and exactly one of them must have the name. */
  function Resolve(library: map<string, StructureMap>, m: StructureMap, name: string): Result<Resolution> {
    match ScanGroups(None, m, m.groups, name)
    case Err(e) => Err(e)
    case Ok(f) =>
      match ScanImports(f, library, m.imports, name)
      case Err(e) => Err(e)
      case Ok(None) => Fails("No matches found for rule '" + name + "'")
      case Ok(Some(res)) => Ok(res)
  }

  /** How many groups have the name. */
  function Named(gs: seq<Group>, name: string): nat
    decreases |gs|
  {
    if gs == [] then 0 else (if gs[0].name == name then 1 else 0) + Named(gs[1..], name)
  }

  predicate AllImported(library: map<string, StructureMap>, imports: seq<string>) {
    forall i :: 0 <= i < |imports| ==> imports[i] in library
  }

  /** How many groups of the imported maps have the name. */
  function ImportedNamed(library: map<string, StructureMap>, imports: seq<string>, name: string): nat
    requires AllImported(library, imports)
    decreases |imports|
  {
    if imports == [] then 0 else Named(library[imports[0]].groups, name) + ImportedNamed(library, imports[1..], name)
  }

  function Found(f: Option<Resolution>): nat {
    if f.Some? then 1 else 0
  }

  lemma {:induction false} ScanGroupsCount(found: Option<Resolution>, m: StructureMap, gs: seq<Group>, name: string)
    ensures ScanGroups(found, m, gs, name).Ok? <==> Found(found) + Named(gs, name) <= 1
    ensures ScanGroups(found, m, gs, name).Err? ==> ScanGroups(found, m, gs, name) == MultipleRuleMatches(name)
    ensures var r := ScanGroups(found, m, gs, name);
      r.Ok? ==>
        && (found.Some? ==> r.value == found)
        && (found.None? && r.value.Some? ==>
              r.value.value.owner == m && r.value.value.group in gs && r.value.value.group.name == name)
        && (r.value.Some? <==> Found(found) + Named(gs, name) == 1)
    decreases |gs|
  {
    if gs != [] {
      if gs[0].name != name {
        ScanGroupsCount(found, m, gs[1..], name);
      } else if found.None? {
        ScanGroupsCount(Some(Resolution(m, gs[0])), m, gs[1..], name);
      }
    }
  }

  lemma {:induction false} ScanImportsCount(found: Option<Resolution>, library: map<string, StructureMap>, imports: seq<string>, name: string)
    ensures ScanImports(found, library, imports, name).Ok? <==>
      AllImported(library, imports) && Found(found) + ImportedNamed(library, imports, name) <= 1
    ensures var r := ScanImports(found, library, imports, name);
      r.Ok? ==>
        && (found.Some? ==> r.value == found)
        && (found.None? && r.value.Some? ==>
              && r.value.value.group in r.value.value.owner.groups
              && r.value.value.group.name == name
              && exists i :: 0 <= i < |imports| && imports[i] in library && r.value.value.owner == library[imports[i]])
        && (r.value.Some? <==> Found(found) + ImportedNamed(library, imports, name) == 1)
    ensures AllImported(library, imports) && Found(found) + ImportedNamed(library, imports, name) > 1 ==>
      ScanImports(found, library, imports, name) == MultipleRuleMatches(name)
    decreases |imports|
  {
    if imports != [] {
      var rest := imports[1..];
      assert AllImported(library, imports) <==> imports[0] in library && AllImported(library, rest) by {
        if imports[0] in library && AllImported(library, rest) {
          forall i | 0 <= i < |imports| ensures imports[i] in library {
            if i > 0 {
              assert imports[i] == rest[i - 1];
            }
          }
        }
      }
      if imports[0] in library {
        var m := library[imports[0]];
        ScanGroupsCount(found, m, m.groups, name);
        var s := ScanGroups(found, m, m.groups, name);
        if s.Ok? {
          ScanImportsCount(s.value, library, rest, name);
          var r := ScanImports(s.value, library, rest, name);
          if r.Ok? && found.None? && r.value.Some? {
            if s.value.Some? {
              assert r.value.value.owner == library[imports[0]];
            } else {
              var i :| 0 <= i < |rest| && rest[i] in library && r.value.value.owner == library[rest[i]];
              assert imports[i + 1] == rest[i];
            }
          }
        } else if AllImported(library, imports) {
          assert Found(found) + ImportedNamed(library, imports, name) > 1;
        }
      }
    }
  }

  /** Dependent resolution succeeds exactly when every import is in the
      library and exactly one group of the map and its imports has the
      name; the group found then has the name and belongs to the map or to
      one of its imports. */
  lemma ResolveUnique(library: map<string, StructureMap>, m: StructureMap, name: string)
    ensures Resolve(library, m, name).Ok? <==>
      AllImported(library, m.imports) && Named(m.groups, name) + ImportedNamed(library, m.imports, name) == 1
    ensures var r := Resolve(library, m, name);
      r.Ok? ==>
        && r.value.group.name == name
        && r.value.group in r.value.owner.groups
        && (r.value.owner == m || exists i :: 0 <= i < |m.imports| && m.imports[i] in library && r.value.owner == library[m.imports[i]])
    ensures AllImported(library, m.imports) && Named(m.groups, name) + ImportedNamed(library, m.imports, name) == 0 ==>
      Resolve(library, m, name) == Fails("No matches found for rule '" + name + "'")
    ensures AllImported(library, m.imports) && Named(m.groups, name) + ImportedNamed(library, m.imports, name) > 1 ==>
      Resolve(library, m, name) == Fails("Multiple possible matches for rule '" + name + "'")
  {
    ScanGroupsCount(None, m, m.groups, name);
    var s := ScanGroups(None, m, m.groups, name);
    if s.Ok? {
      ScanImportsCount(s.value, library, m.imports, name);
    }
  }

  /** The loops of `executeDependency` that look for the group. */
  method FindGroup(library: map<string, StructureMap>, m: StructureMap, name: string) returns (r: Result<Resolution>)
    ensures r == Resolve(library, m, name)
  {
    var found: Option<Resolution> := None;
    for i := 0 to |m.groups|
      invariant ScanGroups(None, m, m.groups, name) == ScanGroups(found, m, m.groups[i..], name)
    {
      assert m.groups[i..][1..] == m.groups[i + 1..];
      if m.groups[i].name == name {
        if found.Some? {
          return Fails("Multiple possible matches for rule '" + name + "'");
        }
        found := Some(Resolution(m, m.groups[i]));
      }
    }
    ghost var afterOwn := found;
    for i := 0 to |m.imports|
      invariant ScanImports(afterOwn, library, m.imports, name) == ScanImports(found, library, m.imports[i..], name)
    {
      assert m.imports[i..][1..] == m.imports[i + 1..];
      if m.imports[i] !in library {
        return Fails("Unable to find map " + m.imports[i]);
      }
      var imp := library[m.imports[i]];
      ghost var before := found;
      for j := 0 to |imp.groups|
        invariant ScanGroups(before, imp, imp.groups, name) == ScanGroups(found, imp, imp.groups[j..], name)
      {
        assert imp.groups[j..][1..] == imp.groups[j + 1..];
        if imp.groups[j].name == name {
          if found.Some? {
            return Fails("Multiple possible matches for rule '" + name + "'");
          }
          found := Some(Resolution(imp, imp.groups[j]));
        }
      }
    }
    if found.None? {
      return Fails("No matches found for rule '" + name + "'");
    }
    r := Ok(found.value);
  }

  // ---------------------------------------------------------------------
  // Binding the called group's inputs

  /** A source input becomes an INPUT variable, a target input an OUTPUT one. */
  function ModeOfInput(m: InputMode): VariableMode {
    if m == InputSource then VariableMode.Input else Output
  }

  function ModeText(m: VariableMode): string {
    if m == VariableMode.Input then "INPUT" else "OUTPUT"
  }

  function UnboundError(name: string, mode: VariableMode, input: string): Error {
    Error("Rule '" + name + "' " + ModeText(mode) + " variable '" + input + "' has no value")
  }

  /** The called group's variables: each input, under its own name and in
      its own mode, gets the caller's value of the argument at its position;
      the first argument without a value is an error. */
  function BindInputs<V>(name: string, inputs: seq<Input>, args: seq<string>, vin: seq<Variable<V>>): Result<seq<Variable<V>>>
    requires |inputs| == |args|
    decreases |inputs|
  {
    if inputs == [] then Ok([])
    else
      var n := |inputs| - 1;
      var mode := ModeOfInput(inputs[n].mode);
      match BindInputs(name, inputs[..n], args[..n], vin)
      case Err(e) => Err(e)
      case Ok(list) =>
        match ValueOf(vin, mode, args[n])
        case None => Err(UnboundError(name, mode, inputs[n].name))
        case Some(v) => Ok(Bind(list, mode, inputs[n].name, v))
  }

  /** No two inputs share a mode and a name. */
  predicate DistinctInputs(inputs: seq<Input>) {
    forall i, j :: 0 <= i < j < |inputs| ==> inputs[i].name != inputs[j].name || inputs[i].mode != inputs[j].mode
  }

  /** Argument i has no value in the caller's environment, in the mode of
      its input. */
  predicate Unbound<V>(vin: seq<Variable<V>>, inputs: seq<Input>, args: seq<string>, i: int)
    requires |inputs| == |args|
  {
    0 <= i < |inputs| && ValueOf(vin, ModeOfInput(inputs[i].mode), args[i]).None?
  }

  lemma UnboundPrefix<V>(vin: seq<Variable<V>>, inputs: seq<Input>, args: seq<string>, n: nat, i: int)
    requires |inputs| == |args| && n <= |inputs| && i < n
    ensures Unbound(vin, inputs[..n], args[..n], i) <==> Unbound(vin, inputs, args, i)
  {
    if 0 <= i {
      assert inputs[..n][i] == inputs[i] && args[..n][i] == args[i];
    }
  }

  /** Binding fails exactly when some argument has no value in the caller's
      environment, in the mode of its input. */
  lemma {:induction false} BindInputsFails<V>(name: string, inputs: seq<Input>, args: seq<string>, vin: seq<Variable<V>>)
    requires |inputs| == |args|
    ensures BindInputs(name, inputs, args, vin).Err? <==> exists i :: Unbound(vin, inputs, args, i)
    decreases |inputs|
  {
    if inputs != [] {
      var n := |inputs| - 1;
      BindInputsFails(name, inputs[..n], args[..n], vin);
      if BindInputs(name, inputs, args, vin).Err? {
        if BindInputs(name, inputs[..n], args[..n], vin).Err? {
          var i :| Unbound(vin, inputs[..n], args[..n], i);
          UnboundPrefix(vin, inputs, args, n, i);
        } else {
          assert Unbound(vin, inputs, args, n);
        }
      } else {
        assert BindInputs(name, inputs[..n], args[..n], vin).Ok?;
        assert !Unbound(vin, inputs, args, n);
        forall i ensures !Unbound(vin, inputs, args, i) {
          if 0 <= i < n {
            assert !Unbound(vin, inputs[..n], args[..n], i);
            UnboundPrefix(vin, inputs, args, n, i);
          }
        }
      }
    }
  }

  /** When binding succeeds and the inputs are distinct, each input's own
      name holds the caller's value of its argument, and no name is bound
      twice. */
  lemma {:induction false} BindInputsValues<V>(name: string, inputs: seq<Input>, args: seq<string>, vin: seq<Variable<V>>)
    requires |inputs| == |args| && DistinctInputs(inputs)
    requires BindInputs(name, inputs, args, vin).Ok?
    ensures Unique(BindInputs(name, inputs, args, vin).value)
    ensures forall i :: 0 <= i < |inputs| ==>
      ValueOf(BindInputs(name, inputs, args, vin).value, ModeOfInput(inputs[i].mode), inputs[i].name)
        == ValueOf(vin, ModeOfInput(inputs[i].mode), args[i])
    decreases |inputs|
  {
    BindInputsUnique(name, inputs, args, vin);
    if inputs == [] {
      return;
    }
    var n := |inputs| - 1;
    var init, initArgs := inputs[..n], args[..n];
    DistinctPrefix(inputs, n);
    BindInputsStep(name, inputs, args, vin);
    var list, mode := BindInputs(name, init, initArgs, vin).value, ModeOfInput(inputs[n].mode);
    if n > 0 {
      BindInputsValues(name, init, initArgs, vin);
    }
    BindInputsUnique(name, init, initArgs, vin);
    var v := ValueOf(vin, mode, args[n]).value;
    forall i | 0 <= i < |inputs|
      ensures ValueOf(Bind(list, mode, inputs[n].name, v), ModeOfInput(inputs[i].mode), inputs[i].name)
        == ValueOf(vin, ModeOfInput(inputs[i].mode), args[i])
    {
      if i < n {
        assert init[i] == inputs[i] && initArgs[i] == args[i];
        assert inputs[i].name != inputs[n].name || inputs[i].mode != inputs[n].mode;
      }
      BindLookup(list, mode, inputs[n].name, v, ModeOfInput(inputs[i].mode), inputs[i].name,
                 ValueOf(vin, ModeOfInput(inputs[i].mode), args[i]));
    }
  }

  /** A successful binding binds no name twice in one mode. */
  lemma {:induction false} BindInputsUnique<V>(name: string, inputs: seq<Input>, args: seq<string>, vin: seq<Variable<V>>)
    requires |inputs| == |args|
    requires BindInputs(name, inputs, args, vin).Ok?
    ensures Unique(BindInputs(name, inputs, args, vin).value)
    decreases |inputs|
  {
    if inputs != [] {
      var n := |inputs| - 1;
      BindInputsStep(name, inputs, args, vin);
      BindInputsUnique(name, inputs[..n], args[..n], vin);
      var mode := ModeOfInput(inputs[n].mode);
      BindUnique(BindInputs(name, inputs[..n], args[..n], vin).value, mode, inputs[n].name, ValueOf(vin, mode, args[n]).value);
    }
  }

  /** The last step of a successful binding: the prefix was bound, and the
      last argument has a value, which is bound to the last input's name. */
  lemma BindInputsStep<V>(name: string, inputs: seq<Input>, args: seq<string>, vin: seq<Variable<V>>)
    requires |inputs| == |args| && |inputs| > 0
    requires BindInputs(name, inputs, args, vin).Ok?
    ensures var n := |inputs| - 1;
      var mode := ModeOfInput(inputs[n].mode);
      && BindInputs(name, inputs[..n], args[..n], vin).Ok?
      && ValueOf(vin, mode, args[n]).Some?
      && BindInputs(name, inputs, args, vin)
         == Ok(Bind(BindInputs(name, inputs[..n], args[..n], vin).value, mode, inputs[n].name, ValueOf(vin, mode, args[n]).value))
  {
  }

  lemma DistinctPrefix(inputs: seq<Input>, n: nat)
    requires n <= |inputs| && DistinctInputs(inputs)
    ensures DistinctInputs(inputs[..n])
  {
    forall i, j | 0 <= i < j < n
      ensures inputs[..n][i].name != inputs[..n][j].name || inputs[..n][i].mode != inputs[..n][j].mode
    {
      assert inputs[..n][i] == inputs[i] && inputs[..n][j] == inputs[j];
    }
  }

  /** Binding stops at the first argument without a value: once a prefix of
      the inputs fails, the whole list fails with the same error. */
  lemma {:induction false} BindInputsPrefixErr<V>(name: string, inputs: seq<Input>, args: seq<string>, vin: seq<Variable<V>>, n: nat)
    requires |inputs| == |args| && n <= |inputs|
    requires BindInputs(name, inputs[..n], args[..n], vin).Err?
    ensures BindInputs(name, inputs, args, vin) == BindInputs(name, inputs[..n], args[..n], vin)
    decreases |inputs|
  {
    if n == |inputs| {
      assert inputs[..n] == inputs && args[..n] == args;
    } else {
      var k := |inputs| - 1;
      assert inputs[..k][..n] == inputs[..n] && args[..k][..n] == args[..n];
      BindInputsPrefixErr(name, inputs[..k], args[..k], vin, n);
    }
  }

  /** The loop of `executeDependency` that fills the called group's new
      environment from the caller's. */
  method BindArguments<V>(name: string, inputs: seq<Input>, args: seq<string>, vin: Variables<V>) returns (r: Result<Variables<V>>)
    requires |inputs| == |args|
    ensures r.Ok? ==> fresh(r.value) && r.value.Valid() && BindInputs(name, inputs, args, vin.list) == Ok(r.value.list)
    ensures r.Err? ==> BindInputs(name, inputs, args, vin.list) == Err(r.error)
  {
    var v := new Variables<V>();
    for i := 0 to |inputs|
      invariant fresh(v) && v.Valid()
      invariant BindInputs(name, inputs[..i], args[..i], vin.list) == Ok(v.list)
    {
      assert inputs[..i + 1][..i] == inputs[..i] && args[..i + 1][..i] == args[..i];
      var mode := ModeOfInput(inputs[i].mode);
      var value := vin.Get(mode, args[i]);
      if value.None? {
        BindInputsPrefixErr(name, inputs, args, vin.list, i + 1);
        return Err(UnboundError(name, mode, inputs[i].name));
      }
      v.Add(mode, inputs[i].name, value.value);
    }
    assert inputs[..|inputs|] == inputs && args[..|args|] == args;
    return Ok(v);
  }

  /** What `executeDependency` does before it runs the group: resolve it,
      check the number of arguments, bind the inputs. */
  function Invocation<V>(library: map<string, StructureMap>, m: StructureMap, d: Dependent, vin: seq<Variable<V>>): Result<(Resolution, seq<Variable<V>>)> {
    match Resolve(library, m, d.name)
    case Err(e) => Err(e)
    case Ok(res) =>
      if |res.group.inputs| != |d.variables| then
        Fails("Rule '" + d.name + "' has " + IntToString(|res.group.inputs|)
          + " but the invocation has " + IntToString(|d.variables|) + " variables")
      else
        match BindInputs(d.name, res.group.inputs, d.variables, vin)
        case Err(e) => Err(e)
        case Ok(list) => Ok((res, list))
  }

  /** An invocation succeeds exactly when the group resolves, the argument
      count matches and every argument is bound. */
  lemma InvocationSucceeds<V>(library: map<string, StructureMap>, m: StructureMap, d: Dependent, vin: seq<Variable<V>>)
    ensures Invocation(library, m, d, vin).Ok? <==>
      && Resolve(library, m, d.name).Ok?
      && |Resolve(library, m, d.name).value.group.inputs| == |d.variables|
      && forall i :: !Unbound(vin, Resolve(library, m, d.name).value.group.inputs, d.variables, i)
  {
    var r := Resolve(library, m, d.name);
    if r.Ok? && |r.value.group.inputs| == |d.variables| {
      BindInputsFails(d.name, r.value.group.inputs, d.variables, vin);
    }
  }
}

=== FILE: generator.dfy ===
/** The generator that writes the text of a map from the mappings of a
    logical model: every element with a mapping for the model's logical
    mapping identity becomes a rule `path: mapping`, and the rules of its
    mapped children are nested in a `then { ... }` block under it. */
module Generator {
  import opened Wrappers
  import opened Text

  /** A mapping of an element definition: the identity of the mapping it
      belongs to and the mapping's text. */
  datatype ElementMapping = ElementMapping(identity: string, text: string)

  /** An element of the snapshot with its direct children, in order. */
  datatype Element = Element(path: string, mappings: seq<ElementMapping>, children: seq<Element>)

  /** A mapping declared by a structure definition. */
  datatype DefinitionMapping = DefinitionMapping(uri: string, identity: string)

  /** What the generator reads of a structure definition: its mappings, the
      prefix and suffix extensions (None when absent) and the root element
      of its snapshot. */
  datatype Definition = Definition(
    mappings: seq<DefinitionMapping>,
    prefix: Option<string>,
    suffix: Option<string>,
    root: Element)

  const LogicalUri: string := "http://hl7.org/fhir/logical"

  /** The k-th mapping is the first one of this identity. */
  predicate MappingAt(ms: seq<ElementMapping>, id: string, k: nat) {
    && k < |ms| && ms[k].identity == id
    && forall i :: 0 <= i < k ==> ms[i].identity != id
  }

  function FindMapping(ms: seq<ElementMapping>, id: string): (r: Option<nat>)
    ensures r.None? <==> forall i :: 0 <= i < |ms| ==> ms[i].identity != id
    ensures r.Some? ==> MappingAt(ms, id, r.value)
    decreases |ms|
  {
    if ms == [] then None
    else if ms[0].identity == id then Some(0)
    else match FindMapping(ms[1..], id)
      case None => None
      case Some(k) => Some(k + 1)
  }

  /** `getMapping`: the text of the element's first mapping of this identity. */
  function GetMapping(e: Element, id: string): (r: Option<string>)
    ensures r.None? <==> forall i :: 0 <= i < |e.mappings| ==> e.mappings[i].identity != id
    ensures r.Some? ==> exists k: nat :: MappingAt(e.mappings, id, k) && r.value == e.mappings[k].text
  {
    match FindMapping(e.mappings, id)
    case None => None
    case Some(k) => Some(e.mappings[k].text)
  }

  /** The k-th mapping is the first one for the logical model. */
  predicate LogicalAt(ms: seq<DefinitionMapping>, k: nat) {
    && k < |ms| && ms[k].uri == LogicalUri
    && forall i :: 0 <= i < k ==> ms[i].uri != LogicalUri
  }

  function FindLogical(ms: seq<DefinitionMapping>): (r: Option<nat>)
    ensures r.None? <==> forall i :: 0 <= i < |ms| ==> ms[i].uri != LogicalUri
    ensures r.Some? ==> LogicalAt(ms, r.value)
    decreases |ms|
  {
    if ms == [] then None
    else if ms[0].uri == LogicalUri then Some(0)
    else match FindLogical(ms[1..])
      case None => None
      case Some(k) => Some(k + 1)
  }

  /** `getLogicalMappingId`: the identity of the first mapping whose URI is
      the logical-model URI. */
  function LogicalMappingId(ms: seq<DefinitionMapping>): (r: Option<string>)
    ensures r.None? <==> forall i :: 0 <= i < |ms| ==> ms[i].uri != LogicalUri
    ensures r.Some? ==> exists k: nat :: LogicalAt(ms, k) && r.value == ms[k].identity
  {
    match FindLogical(ms)
    case None => None
    case Some(k) => Some(ms[k].identity)
  }

  /** `tail`: the part of a URL after its last '/', all of it when it has
      none. */
  function Tail(url: string): (r: string)
    ensures '/' !in r
    ensures |r| <= |url| && url[|url| - |r|..] == r
    ensures '/' !in url ==> r == url
    ensures '/' in url ==> url[|url| - |r| - 1] == '/'
  {
    url[LastIndexOf(url, '/') + 1..]
  }

  // ---------------------------------------------------------------------
  // The nested rules

  /** The text `addChildMappings` appends for the children of e: the
      `then {` block is opened before the first child and closed after the
      last one only for an inner element with children. */
  function ChildMappings(id: string, indent: string, e: Element, inner: bool): string
    decreases e, 1
  {
    var open := inner && e.children != [];
    (if open then " then {\r\n" else "")
    + MappedChildren(id, indent, e.children)
    + (if open then indent + "}" else "")
  }

  /** The rules of the mapped elements among cs, in order. */
  function MappedChildren(id: string, indent: string, cs: seq<Element>): string
    decreases cs, 0
  {
    if cs == [] then ""
    else MappedChildren(id, indent, cs[..|cs| - 1]) + MappedChild(id, indent, cs[|cs| - 1])
  }

  /** The rule of one child: its path and mapping, its own nested rules and
      a line break; nothing when it has no mapping. */
  function MappedChild(id: string, indent: string, c: Element): string
    decreases c, 2
  {
    match GetMapping(c, id)
    case None => ""
    case Some(m) => indent + "  " + c.path + ": " + m + ChildMappings(id, indent + "  ", c, true) + "\r\n"
  }

  /** The block opening written once i children have been visited. */
  function Opened(inner: bool, i: nat): string {
    if inner && i > 0 then " then {\r\n" else ""
  }

  /** `addChildMappings`, appending to the builder. */
  method AddChildMappings(b: StringBuilder, id: string, indent: string, e: Element, inner: bool)
    modifies b
    ensures b.text == old(b.text) + ChildMappings(id, indent, e, inner)
    decreases e, 1
  {
    ghost var start := b.text;
    var first := true;
    var children := e.children;
    for i := 0 to |children|
      invariant first == !(inner && i > 0)
      invariant b.text == start + Opened(inner, i) + MappedChildren(id, indent, children[..i])
    {
      if first && inner {
        b.Append(" then {\r\n");
        first := false;
      }
      ghost var before := b.text;
      assert before == start + Opened(inner, i + 1) + MappedChildren(id, indent, children[..i]);
      AppendChild(b, id, indent, children[i]);
      assert children[..i + 1][..i] == children[..i];
      AppendAssoc(start + Opened(inner, i + 1), MappedChildren(id, indent, children[..i]),
                  MappedChild(id, indent, children[i]));
    }
    assert children[..|children|] == children;
    ghost var head, body := Opened(inner, |children|), MappedChildren(id, indent, children);
    ghost var closing := if !first && inner then indent + "}" else "";
    if !first && inner {
      b.Append(indent + "}");
    } else {
      assert b.text + closing == b.text;
    }
    assert ChildMappings(id, indent, e, inner) == head + body + closing;
    AppendAssoc(start, head, body);
    AppendAssoc(start, head + body, closing);
  }

  /** The body of the loop of `addChildMappings` for one mapped child. */
  method AppendChild(b: StringBuilder, id: string, indent: string, c: Element)
    modifies b
    ensures b.text == old(b.text) + MappedChild(id, indent, c)
    decreases c, 2
  {
    var m := GetMapping(c, id);
    if m.Some? {
      ghost var before := b.text;
      var line := indent + "  " + c.path + ": " + m.value;
      b.Append(line);
      AddChildMappings(b, id, indent + "  ", c, true);
      b.Append("\r\n");
      AppendAssoc(before, line, ChildMappings(id, indent + "  ", c, true));
      AppendAssoc(before, line + ChildMappings(id, indent + "  ", c, true), "\r\n");
    } else {
      assert b.text + "" == b.text;
    }
  }

  /** The text of the map the generator parses: the prefix, the root's own
      mapping on a line, the nested rules of its children, and the suffix.
      None when the definition has no logical mapping, or lacks the prefix
      or the suffix. */
  function MapText(d: Definition): (r: Option<string>)
    ensures r.Some? ==> LogicalMappingId(d.mappings).Some? && d.prefix.Some? && d.suffix.Some?
  {
    match LogicalMappingId(d.mappings)
    case None => None
    case Some(id) =>
      if d.prefix.None? || d.suffix.None? then None
      else
        var rootLine := match GetMapping(d.root, id) case None => "" case Some(m) => m + "\r\n";
        Some(d.prefix.value + rootLine + ChildMappings(id, "", d.root, false) + "\r\n" + d.suffix.value + "\r\n")
  }

  /** `generateMapFromMappings`, up to the text it parses. */
  method GenerateMapText(d: Definition) returns (r: Option<string>)
    ensures r == MapText(d)
  {
    var id := LogicalMappingId(d.mappings);
    if id.None? {
      return None;
    }
    if d.prefix.None? || d.suffix.None? {
      return None;
    }
    var b := new StringBuilder();
    b.Append(d.prefix.value);
    assert b.text == d.prefix.value;
    var m := GetMapping(d.root, id.value);
    ghost var rootLine := if m.Some? then m.value + "\r\n" else "";
    if m.Some? {
      b.Append(m.value + "\r\n");
    } else {
      assert b.text + "" == b.text;
    }
    assert b.text == d.prefix.value + rootLine;
    AddChildMappings(b, id.value, "", d.root, false);
    b.Append("\r\n");
    b.Append(d.suffix.value);
    b.Append("\r\n");
    r := Some(b.text);
  }

  // ---------------------------------------------------------------------
  // Balance of the nested blocks

  /** A text with no braces. */
  predicate Plain(s: string) {
    '{' !in s && '}' !in s
  }

  /** Every path and mapping text of the tree is free of braces. */
  predicate PlainTree(e: Element)
    decreases e
  {
    && Plain(e.path)
    && (forall i :: 0 <= i < |e.mappings| ==> Plain(e.mappings[i].text))
    && (forall i :: 0 <= i < |e.children| ==> PlainTree(e.children[i]))
  }

  /** The number of opening braces less the number of closing ones. */
  function Excess(s: string): int
    decreases |s|
  {
    if s == [] then 0
    else Excess(s[..|s| - 1]) + (if s[|s| - 1] == '{' then 1 else if s[|s| - 1] == '}' then -1 else 0)
  }

  lemma {:induction false} ExcessAppend(a: string, b: string)
    ensures Excess(a + b) == Excess(a) + Excess(b)
    decreases |b|
  {
    if b != [] {
      ExcessAppend(a, b[..|b| - 1]);
      assert (a + b)[..|a + b| - 1] == a + b[..|b| - 1];
    } else {
      assert a + b == a;
    }
  }

  lemma {:induction false} PlainExcess(s: string)
    requires Plain(s)
    ensures Excess(s) == 0
    decreases |s|
  {
    if s != [] {
      assert s[|s| - 1] in s;
      PlainExcess(s[..|s| - 1]);
    }
  }

  lemma OpenerExcess()
    ensures Excess(" then {\r\n") == 1 && Excess("}") == -1
  {
    assert " then {\r\n" == " then " + "{" + "\r\n";
    PlainExcess(" then ");
    PlainExcess("\r\n");
    ExcessAppend(" then ", "{");
    ExcessAppend(" then " + "{", "\r\n");
    assert Excess("}") == Excess("") - 1;
  }

  /** Every `then {` block the generator opens, it closes. */
  lemma {:induction false} ChildMappingsBalanced(id: string, indent: string, e: Element, inner: bool)
    requires Plain(indent) && PlainTree(e)
    ensures Excess(ChildMappings(id, indent, e, inner)) == 0
    decreases e, 1
  {
    var body := MappedChildren(id, indent, e.children);
    MappedChildrenBalanced(id, indent, e.children);
    if inner && e.children != [] {
      OpenerExcess();
      PlainExcess(indent);
      ExcessAppend(indent, "}");
      ExcessAppend(" then {\r\n", body);
      ExcessAppend(" then {\r\n" + body, indent + "}");
    } else {
      assert ChildMappings(id, indent, e, inner) == "" + body + "";
      assert "" + body + "" == body;
    }
  }

  lemma {:induction false} MappedChildrenBalanced(id: string, indent: string, cs: seq<Element>)
    requires Plain(indent) && forall i :: 0 <= i < |cs| ==> PlainTree(cs[i])
    ensures Excess(MappedChildren(id, indent, cs)) == 0
    decreases cs, 0
  {
    if cs != [] {
      MappedChildrenBalanced(id, indent, cs[..|cs| - 1]);
      MappedChildBalanced(id, indent, cs[|cs| - 1]);
      ExcessAppend(MappedChildren(id, indent, cs[..|cs| - 1]), MappedChild(id, indent, cs[|cs| - 1]));
    }
  }

  lemma {:induction false} MappedChildBalanced(id: string, indent: string, c: Element)
    requires Plain(indent) && PlainTree(c)
    ensures Excess(MappedChild(id, indent, c)) == 0
    decreases c, 2
  {
    match GetMapping(c, id)
    case None =>
      assert Excess("") == 0;
    case Some(m) =>
      var k: nat :| MappingAt(c.mappings, id, k) && m == c.mappings[k].text;
      var line := indent + "  " + c.path + ": " + m;
      PlainExcess(line);
      ChildMappingsBalanced(id, indent + "  ", c, true);
      PlainExcess("\r\n");
      ExcessAppend(line, ChildMappings(id, indent + "  ", c, true));
      ExcessAppend(line + ChildMappings(id, indent + "  ", c, true), "\r\n");
  }

  /** Outside the prefix and the suffix, the generated text opens and closes
      as many blocks. */
  lemma {:induction false} MapTextBalanced(d: Definition)
    requires PlainTree(d.root) && MapText(d).Some?
    ensures Excess(MapText(d).value) == Excess(d.prefix.value) + Excess(d.suffix.value)
  {
    var id := LogicalMappingId(d.mappings).value;
    var rootLine := match GetMapping(d.root, id) case None => "" case Some(m) => m + "\r\n";
    var body := ChildMappings(id, "", d.root, false);
    ChildMappingsBalanced(id, "", d.root, false);
    var m := GetMapping(d.root, id);
    if m.Some? {
      var k: nat :| MappingAt(d.root.mappings, id, k) && m.value == d.root.mappings[k].text;
      PlainExcess(m.value + "\r\n");
    } else {
      assert Excess(rootLine) == 0;
    }
    PlainExcess("\r\n");
    var p := d.prefix.value;
    ExcessAppend(p, rootLine);
    ExcessAppend(p + rootLine, body);
    ExcessAppend(p + rootLine + body, "\r\n");
    ExcessAppend(p + rootLine + body + "\r\n", d.suffix.value);
    ExcessAppend(p + rootLine + body + "\r\n" + d.suffix.value, "\r\n");
  }
}

=== FILE: instance.dfy ===
/** The FHIR object graph a transform reads from and writes to. Resources and
    complex elements are nodes with a type name, an optional resource id and,
    per property name, an ordered list of values; primitives are values with
    a type name and a text. The object model's schema appears only through
    two facts the engine relies on: whether a property repeats, and the type
    of a child element made on demand. */
module Instance {
  import opened Wrappers

  /** A FHIR value: a node of the graph, or a primitive. */
  datatype Base = Node(id: nat) | Primitive(fhirType: string, value: string)

  /** The graph: node types, resource ids, property values, and the first
      unused node number. */
  datatype Graph = Graph(
    types: map<nat, string>,
    ids: map<nat, string>,
    props: map<(nat, string), seq<Base>>,
    next: nat)

  /** A value that refers to no node beyond the first unused number. */
  predicate Within(next: nat, b: Base) {
    b.Node? ==> b.id < next
  }

  /** Every node that is used is below `next`, so a new node is fresh. */
  ghost predicate GraphValid(g: Graph) {
    && (forall n :: n in g.types ==> n < g.next)
    && (forall n :: n in g.ids ==> n < g.next)
    && (forall k :: k in g.props ==> k.0 < g.next)
    && (forall k, j :: k in g.props && 0 <= j < |g.props[k]| ==> Within(g.next, g.props[k][j]))
  }

  /** The schema facts: does the property repeat, and what type does a new
      element of that property get. Both are indexed by (owner type, name). */
  datatype Schema = Schema(repeats: (string, string) -> bool, childType: (string, string) -> string)

  function FhirType(g: Graph, b: Base): string {
    match b
    case Node(id) => if id in g.types then g.types[id] else ""
    case Primitive(t, _) => t
  }

  /** `hasPrimitiveValue`: a primitive with a non-blank text. */
  predicate HasPrimitiveValue(b: Base) {
    b.Primitive? && b.value != ""
  }

  /** `listChildrenByName`: the values of the property, in order; a primitive
      has none. */
  function Children(g: Graph, b: Base, name: string): (r: seq<Base>)
    ensures GraphValid(g) ==> forall j :: 0 <= j < |r| ==> Within(g.next, r[j])
  {
    match b
    case Node(id) => if (id, name) in g.props then g.props[(id, name)] else []
    case Primitive(_, _) => []
  }

  /** A new node of this type, numbered `next`. */
  function AddNode(g: Graph, typeName: string): (r: (Graph, nat))
    requires GraphValid(g)
    ensures GraphValid(r.0) && r.1 == g.next && r.0.next == g.next + 1
    ensures r.1 !in g.types && r.0.types == g.types[r.1 := typeName]
    ensures r.0.ids == g.ids && r.0.props == g.props
  {
    (g.(types := g.types[g.next := typeName], next := g.next + 1), g.next)
  }

  /** `setProperty`: a repeating property gains the value at the end, a
      single one is replaced by it. */
  function WithProperty(g: Graph, id: nat, name: string, v: Base, repeating: bool): (r: Graph)
    requires GraphValid(g) && id < g.next && Within(g.next, v)
    ensures GraphValid(r) && r.types == g.types && r.ids == g.ids && r.next == g.next
    ensures Children(r, Node(id), name) == if repeating then Children(g, Node(id), name) + [v] else [v]
  {
    g.(props := g.props[(id, name) := (if repeating then Children(g, Node(id), name) + [v] else [v])])
  }

  /** `makeProperty`: a repeating property gains a new element; a single one
      gives its present value, or a new element when it has none. */
  function WithMadeProperty(g: Graph, schema: Schema, id: nat, name: string): (r: (Graph, Base))
    requires GraphValid(g) && id < g.next
    ensures GraphValid(r.0) && r.0.ids == g.ids && g.next <= r.0.next
    ensures Grows(g, r.0)
    ensures r.1 in Children(r.0, Node(id), name)
  {
    var owner := FhirType(g, Node(id));
    var repeating := schema.repeats(owner, name);
    var present := Children(g, Node(id), name);
    if !repeating && present != [] then (g, present[0])
    else
      var (g1, n) := AddNode(g, schema.childType(owner, name));
      (WithProperty(g1, id, name, Node(n), repeating), Node(n))
  }

  /** `setIdBase`: sets the resource id, or clears it. */
  function WithId(g: Graph, id: nat, value: Option<string>): (r: Graph)
    requires GraphValid(g) && id < g.next
    ensures GraphValid(r) && r.types == g.types && r.props == g.props && r.next == g.next
    ensures value.Some? ==> id in r.ids && r.ids[id] == value.value
    ensures value.None? ==> id !in r.ids
    ensures forall n :: n != id ==> (n in r.ids <==> n in g.ids) && (n in g.ids ==> r.ids[n] == g.ids[n])
  {
    match value
    case Some(s) => g.(ids := g.ids[id := s])
    case None => g.(ids := g.ids - {id})
  }

  /** `g1` grows out of `g0`: no node is lost or changes its type, and no
      resource loses or changes an id it had; property values may change. */
  ghost predicate Grows(g0: Graph, g1: Graph) {
    && g0.next <= g1.next
    && (forall n :: n in g0.types ==> n in g1.types && g1.types[n] == g0.types[n])
    && (forall n :: n < g0.next && n in g1.types ==> n in g0.types)
    && (forall n :: n in g0.ids ==> n in g1.ids && g1.ids[n] == g0.ids[n])
  }

  /** `g1` adds nodes to `g0` and keeps every older node as it was: its
      type, its property values, and its id, except that a node of
      `reIded` may be given an id it did not have. */
  ghost predicate KeepsNodes(g0: Graph, g1: Graph, reIded: set<nat>) {
    && Grows(g0, g1)
    && (forall n :: n < g0.next && n !in reIded ==> (n in g1.ids <==> n in g0.ids))
    && (forall n: nat, name :: n < g0.next ==> Children(g1, Node(n), name) == Children(g0, Node(n), name))
  }

  lemma KeepsTrans(g0: Graph, g1: Graph, g2: Graph, a: set<nat>, b: set<nat>)
    requires KeepsNodes(g0, g1, a) && KeepsNodes(g1, g2, b)
    ensures KeepsNodes(g0, g2, a + b)
  {
  }

  /** A new node keeps every older one and has no property value. */
  lemma NewNodeKeeps(g: Graph, typeName: string)
    requires GraphValid(g)
    ensures KeepsNodes(g, AddNode(g, typeName).0, {})
    ensures forall name :: Children(AddNode(g, typeName).0, Node(g.next), name) == []
  {
    forall name
      ensures Children(AddNode(g, typeName).0, Node(g.next), name) == []
    {
      assert (g.next, name) !in g.props;
    }
  }

  /** Setting a property of a node newer than `g0` keeps the nodes of `g0`. */
  lemma SetNewPropertyKeeps(g0: Graph, g: Graph, id: nat, name: string, v: Base, repeating: bool)
    requires KeepsNodes(g0, g, {}) && GraphValid(g) && g0.next <= id < g.next && Within(g.next, v)
    ensures KeepsNodes(g0, WithProperty(g, id, name, v, repeating), {})
  {
    forall n: nat, other | n < g0.next
      ensures Children(WithProperty(g, id, name, v, repeating), Node(n), other) == Children(g0, Node(n), other)
    {
      SetPropertyFrame(g, id, name, v, repeating, Node(n), other);
    }
  }

  /** Giving a node an id keeps the nodes of `g0`, except that the node may
      gain an id when it is one of them. */
  lemma SetIdKeeps(g0: Graph, g: Graph, id: nat, s: string)
    requires KeepsNodes(g0, g, {}) && GraphValid(g) && id < g.next && (id in g.ids ==> g.ids[id] == s)
    ensures KeepsNodes(g0, WithId(g, id, Some(s)), if id < g0.next then {id} else {})
  {
  }

  /** Setting a property changes that property of that node and nothing else. */
  lemma SetPropertyFrame(g: Graph, id: nat, name: string, v: Base, repeating: bool, b: Base, other: string)
    requires GraphValid(g) && id < g.next && Within(g.next, v)
    requires b != Node(id) || other != name
    ensures Children(WithProperty(g, id, name, v, repeating), b, other) == Children(g, b, other)
  {
  }

  /** A single-valued property is made once: making it again gives the same
      element and leaves the graph as it was. */
  lemma {:induction false} MakePropertyIdempotent(g: Graph, schema: Schema, id: nat, name: string)
    requires GraphValid(g) && id < g.next
    requires !schema.repeats(FhirType(g, Node(id)), name)
    ensures var (g1, b1) := WithMadeProperty(g, schema, id, name);
      WithMadeProperty(g1, schema, id, name) == (g1, b1)
  {
    var (g1, b1) := WithMadeProperty(g, schema, id, name);
    assert FhirType(g1, Node(id)) == FhirType(g, Node(id));
    if Children(g, Node(id), name) == [] {
      assert Children(g1, Node(id), name) == [b1];
    }
  }

  /** A repeating property gains a new element every time: the element made
      is a node that did not exist before, added at the end. */
  lemma MakePropertyRepeatingFresh(g: Graph, schema: Schema, id: nat, name: string)
    requires GraphValid(g) && id < g.next
    requires schema.repeats(FhirType(g, Node(id)), name)
    ensures var (g1, b1) := WithMadeProperty(g, schema, id, name);
      && b1 == Node(g.next) && g.next !in g.types
      && Children(g1, Node(id), name) == Children(g, Node(id), name) + [b1]
  {
  }

  /** The mutable object world: the graph, and the UUIDs handed out so far. */
  class Store {
    var graph: Graph
    var uuids: nat
    /** The fresh-UUID source: the k-th UUID handed out. */
    const uuid: nat -> string
    const schema: Schema

    ghost predicate Valid()
      reads this
    {
      GraphValid(graph)
    }

    constructor (graph: Graph, schema: Schema, uuid: nat -> string)
      requires GraphValid(graph)
      ensures Valid() && this.graph == graph && uuids == 0
      ensures this.schema == schema && this.uuid == uuid
    {
      this.graph := graph;
      this.schema := schema;
      this.uuid := uuid;
      uuids := 0;
    }

    /** `UUID.randomUUID().toString()`. */
    method NewUuid() returns (s: string)
      modifies this
      ensures graph == old(graph) && uuids == old(uuids) + 1
      ensures s == uuid(old(uuids))
    {
      s := uuid(uuids);
      uuids := uuids + 1;
    }

    /** A new resource or element of this type. */
    method NewNode(typeName: string) returns (b: Base)
      requires Valid()
      modifies this
      ensures Valid() && uuids == old(uuids)
      ensures b.Node? && (graph, b.id) == AddNode(old(graph), typeName)
    {
      var (g, n) := AddNode(graph, typeName);
      graph := g;
      b := Node(n);
    }

    method SetProperty(id: nat, name: string, v: Base)
      requires Valid() && id < graph.next && Within(graph.next, v)
      modifies this
      ensures Valid() && uuids == old(uuids)
      ensures graph == WithProperty(old(graph), id, name, v, schema.repeats(FhirType(old(graph), Node(id)), name))
    {
      graph := WithProperty(graph, id, name, v, schema.repeats(FhirType(graph, Node(id)), name));
    }

    method MakeProperty(id: nat, name: string) returns (b: Base)
      requires Valid() && id < graph.next
      modifies this
      ensures Valid() && uuids == old(uuids)
      ensures (graph, b) == WithMadeProperty(old(graph), schema, id, name)
    {
      var (g, v) := WithMadeProperty(graph, schema, id, name);
      graph := g;
      b := v;
    }

    method SetId(id: nat, value: Option<string>)
      requires Valid() && id < graph.next
      modifies this
      ensures Valid() && uuids == old(uuids)
      ensures graph == WithId(old(graph), id, value)
    {
      graph := WithId(graph, id, value);
    }
  }
}

=== FILE: interpreter.dfy ===
/** The transform engine: runs a structure map's first group on a source
    value and a target value, rule by rule, through the dependent groups it
    invokes, making and setting elements of the target graph. */
module Interpreter {
  import opened Wrappers
  import opened Text
  import opened Ast
  import opened Variables
  import opened Instance
  import opened Dispatch
  import opened Translate
  import opened Values

  /** The loop of `processSource` that copies the rule's environment once per
      value, binding the source variable to the value when there is one. */
  method CopyPerItem(vars: Variables<Base>, src: Source, items: seq<Base>) returns (result: seq<Variables<Base>>)
    requires vars.Valid()
    ensures |result| == |items|
    ensures forall i :: 0 <= i < |result| ==> fresh(result[i]) && result[i].Valid()
    ensures forall i :: 0 <= i < |result| ==> result[i].list == ItemVariables(vars.list, src, items[i])
    ensures forall i, j :: 0 <= i < j < |result| ==> result[i] != result[j]
  {
    result := [];
    for i := 0 to |items|
      invariant |result| == i
      invariant forall j :: 0 <= j < i ==> fresh(result[j]) && result[j].Valid()
      invariant forall j :: 0 <= j < i ==> result[j].list == ItemVariables(vars.list, src, items[j])
      invariant forall j, k :: 0 <= j < k < i ==> result[j] != result[k]
    {
      var v := CopyForItem(vars, src, items[i]);
      result := result + [v];
    }
  }

  /** One round of that loop: a fresh copy of the environment, with the
      source variable bound to `item` when the source names one. */
  method CopyForItem(vars: Variables<Base>, src: Source, item: Base) returns (v: Variables<Base>)
    requires vars.Valid()
    ensures fresh(v) && v.Valid()
    ensures v.list == ItemVariables(vars.list, src, item)
  {
    v := vars.Copy();
    if src.variable != "" {
      v.Add(VariableMode.Input, src.variable, item);
    }
  }

  /** A transform result that is a value, as a per-transform result. */
  function Present(r: Result<Option<Base>>): Result<Base>
    requires r.Ok? ==> r.value.Some?
  {
    if r.Ok? then Ok(r.value.value) else Err(r.error)
  }

  class Engine {
    /** The maps that imports name, by URL. */
    const library: map<string, StructureMap>
    const oracles: Oracles
    /** The object graph, and the UUIDs handed out. */
    const store: Store

    ghost predicate Valid()
      reads store
    {
      store.Valid() && EvaluateWithin(oracles)
    }

    /** A variable environment of this engine: no name bound twice, every
        value in the graph. */
    ghost predicate VarsOk(vars: Variables<Base>)
      reads store, vars
    {
      vars.Valid() && VarsWithin(store.graph.next, vars.list)
    }

    constructor (library: map<string, StructureMap>, oracles: Oracles, store: Store)
      requires store.Valid() && EvaluateWithin(oracles)
      ensures Valid()
      ensures this.library == library && this.oracles == oracles && this.store == store
    {
      this.library := library;
      this.oracles := oracles;
      this.store := store;
    }

    /** TRUNCATE's parameters are there and have values in graph `g`. */
    ghost predicate TruncateReady(g: Graph, tgt: Target, list: seq<Variable<Base>>) {
      && |tgt.parameters| >= 2
      && ParamString(g, list, tgt.parameters[0]).Ok?
      && ParamStringNoNull(oracles, g, list, tgt.parameters[1], oracles.targetText(tgt)).Ok?
    }

    /** What TRUNCATE gives once its parameters have values: the cut text as
        a string, or the cut's own error. */
    ghost predicate TruncateSpec(g: Graph, tgt: Target, list: seq<Variable<Base>>, r: Result<Base>) {
      && (r.Ok? ==> TruncateReady(g, tgt, list))
      && (TruncateReady(g, tgt, list) ==>
            var text := TruncateOutcome(
              ParamString(g, list, tgt.parameters[0]).value,
              ParamStringNoNull(oracles, g, list, tgt.parameters[1], oracles.targetText(tgt)).value);
            && (r.Ok? <==> text.Ok?)
            && (r.Ok? ==> r.value == Primitive("string", text.value)))
    }

    /** What the pointer transform gives: for a resource, `urn:uuid:` and its
        id ("null" when it has none); anything else fails. */
    ghost predicate PointerSpec(g: Graph, tgt: Target, list: seq<Variable<Base>>, r: Result<Base>) {
      && (r.Ok? <==>
            && |tgt.parameters| > 0
            && ParamBase(g, list, tgt.parameters[0]).Ok?
            && IsResource(oracles, g, ParamBase(g, list, tgt.parameters[0]).value))
      && (r.Ok? ==>
            var b := ParamBase(g, list, tgt.parameters[0]).value;
            r.value == Primitive("uri", "urn:uuid:" + if b.id in g.ids then g.ids[b.id] else "null"))
    }

    /** What a transform that only reads the graph gives on graph `g`:
        COPY the value of parameter 0, EVALUATE the expression's one value,
        TRUNCATE the cut text, the pointer transform a resource's URI. */
    ghost predicate ReadingSpec(ruleId: string, tgt: Target, g: Graph, list: seq<Variable<Base>>, r: Result<Option<Base>>)
      requires tgt.transform.Some?
    {
      match tgt.transform.value
      case Copy =>
        && (r.Ok? <==> |tgt.parameters| > 0 && ParamBase(g, list, tgt.parameters[0]).Ok?)
        && (r.Ok? ==> r.value == Some(ParamBase(g, list, tgt.parameters[0]).value))
      case Evaluate =>
        var inputs := EvaluateInputs(oracles, g, list, tgt);
        && (inputs.Err? ==> r == Err(inputs.error))
        && (inputs.Ok? ==> r == EvaluationOutcome(ruleId, inputs.value.0, oracles.evaluate(g, inputs.value.1, inputs.value.0)))
      case Truncate =>
        && (r.Ok? ==> r.value.Some?)
        && TruncateSpec(g, tgt, list, if r.Ok? then Ok(r.value.value) else Err(r.error))
      case Pointer =>
        && (r.Ok? ==> r.value.Some?)
        && PointerSpec(g, tgt, list, if r.Ok? then Ok(r.value.value) else Err(r.error))
      case _ => false
    }

    /** What CREATE gives: a new node of the type parameter 0 names, which
        must be a type the engine knows, carrying the id `CreateId` gives
        and no property value, every older node kept as it was; a failure
        leaves the graph as it was. */
    ghost predicate CreateSpec(g0: Graph, u0: nat, g1: Graph, tgt: Target, list: seq<Variable<Base>>, r: Result<Base>) {
      && (r.Err? ==> g1 == g0)
      && (r.Ok? <==>
            && |tgt.parameters| > 0
            && ParamStringNoNull(oracles, g0, list, tgt.parameters[0], oracles.targetText(tgt)).Ok?
            && ParamStringNoNull(oracles, g0, list, tgt.parameters[0], oracles.targetText(tgt)).value in oracles.knownTypes)
      && (r.Ok? ==>
            var name := ParamStringNoNull(oracles, g0, list, tgt.parameters[0], oracles.targetText(tgt)).value;
            && r.value == Node(g0.next) && r.value.id !in g0.types
            && KeepsNodes(g0, g1, {}) && g1.next == g0.next + 1
            && (forall name :: Children(g1, r.value, name) == [])
            && FhirType(g1, r.value) == name
            && r.value.id in g1.ids
            && g1.ids[r.value.id] == CreateId(name, tgt.parameters, store.uuid(u0)))
    }

    /** What REFERENCE gives: for a resource, a new Reference element whose
        `reference` is "Type/id", the resource first given the next UUID as
        its id when it has none; every other older node is kept as it was.
        Anything else fails and leaves the graph as it was. */
    ghost predicate ReferenceSpec(ruleId: string, g0: Graph, u0: nat, g1: Graph, tgt: Target, list: seq<Variable<Base>>, r: Result<Base>) {
      && (r.Err? ==> g1 == g0)
      && (r.Ok? ==> |tgt.parameters| > 0 && ParamBase(g0, list, tgt.parameters[0]).Ok?)
      && (r.Ok? ==>
            var b := ParamBase(g0, list, tgt.parameters[0]).value;
            && IsResource(oracles, g0, b)
            && KeepsNodes(g0, g1, {b.id})
            && b.id in g1.ids
            && (b.id in g0.ids ==> g1.ids[b.id] == g0.ids[b.id])
            && (b.id !in g0.ids ==> g1.ids[b.id] == Lower(store.uuid(u0)))
            && g1.next == g0.next + 1 && r.value == Node(g0.next)
            && FhirType(g1, r.value) == "Reference" && r.value.id !in g1.ids
            && (forall name :: name != "reference" ==> Children(g1, r.value, name) == [])
            && Children(g1, r.value, "reference") == [Primitive("string", FhirType(g1, b) + "/" + g1.ids[b.id])])
      && (r.Ok? <==>
            && |tgt.parameters| > 0 && ParamBase(g0, list, tgt.parameters[0]).Ok?
            && IsResource(oracles, g0, ParamBase(g0, list, tgt.parameters[0]).value))
      && (|tgt.parameters| > 0 && ParamBase(g0, list, tgt.parameters[0]).Err? ==>
            r == Err(ParamBase(g0, list, tgt.parameters[0]).error))
      && (|tgt.parameters| > 0 && ParamBase(g0, list, tgt.parameters[0]).Ok? ==>
            var b := ParamBase(g0, list, tgt.parameters[0]).value;
            !IsResource(oracles, g0, b) ==>
              r == Fails("Rule \"" + ruleId + "\": Transform engine cannot point at an element of type " + FhirType(g0, b)))
    }

    /** C and CC find both their parameters, each with a value. */
    ghost predicate CodingParamsOk(g0: Graph, tgt: Target, list: seq<Variable<Base>>) {
      && |tgt.parameters| >= 2
      && ParamStringNoNull(oracles, g0, list, tgt.parameters[0], oracles.targetText(tgt)).Ok?
      && ParamStringNoNull(oracles, g0, list, tgt.parameters[1], oracles.targetText(tgt)).Ok?
    }

    /** What C and CC give: a Coding (wrapped in a CodeableConcept for CC)
        for the code in parameter 1 and the system or value set in
        parameter 0, made as one new node (two for CC) with every older node
        kept as it was; a failure leaves the graph as it was. */
    ghost predicate CodingSpec(g0: Graph, g1: Graph, tgt: Target, list: seq<Variable<Base>>, cc: bool, r: Result<Base>) {
      && (r.Err? ==> g1 == g0)
      && (r.Ok? ==> CodingParamsOk(g0, tgt, list))
      && (CodingParamsOk(g0, tgt, list) ==>
            var uri := ParamStringNoNull(oracles, g0, list, tgt.parameters[0], oracles.targetText(tgt)).value;
            var code := ParamStringNoNull(oracles, g0, list, tgt.parameters[1], oracles.targetText(tgt)).value;
            && (r.Ok? <==> CodingFor(oracles, uri, code).Ok?)
            && (r.Err? ==> r == Err(CodingFor(oracles, uri, code).error)))
      && (r.Ok? ==>
            var uri := ParamStringNoNull(oracles, g0, list, tgt.parameters[0], oracles.targetText(tgt)).value;
            var code := ParamStringNoNull(oracles, g0, list, tgt.parameters[1], oracles.targetText(tgt)).value;
            && CodingFor(oracles, uri, code).Ok?
            && KeepsNodes(g0, g1, {}) && g1.next == g0.next + (if cc then 2 else 1)
            && (!cc ==> HoldsCoding(g1, r.value, CodingFor(oracles, uri, code).value))
            && (cc ==> HoldsConcept(g1, r.value, CodingFor(oracles, uri, code).value)))
    }

    /** TRANSLATE finds the source and the map URL, and the field when a
        third parameter names one. */
    ghost predicate TranslateParamsOk(g0: Graph, tgt: Target, list: seq<Variable<Base>>) {
      && |tgt.parameters| >= 2
      && ParamBase(g0, list, tgt.parameters[0]).Ok?
      && ParamString(g0, list, tgt.parameters[1]).Ok?
      && (|tgt.parameters| > 2 ==> ParamString(g0, list, tgt.parameters[2]).Ok?)
    }

    /** The translation outcome of the parameters' values. */
    ghost function TranslationFor(m: StructureMap, g0: Graph, tgt: Target, list: seq<Variable<Base>>): Result<Option<Translated>>
      requires TranslateParamsOk(g0, tgt, list)
    {
      var fld := if |tgt.parameters| > 2 then ParamString(g0, list, tgt.parameters[2]).value else None;
      TranslateOutcome(oracles, m, g0, ParamBase(g0, list, tgt.parameters[0]).value,
        ParamString(g0, list, tgt.parameters[1]).value, fld)
    }

    /** What TRANSLATE gives: the outcome of translating parameter 0 through
        the concept map at the URL in parameter 1, as the field parameter 2
        names; a translated code becomes a new Coding, every older node kept
        as it was, and any other outcome leaves the graph as it was. */
    ghost predicate TranslateSpec(m: StructureMap, g0: Graph, g1: Graph, tgt: Target, list: seq<Variable<Base>>, r: Result<Option<Base>>) {
      && (r.Ok? ==> TranslateParamsOk(g0, tgt, list))
      && (r.Err? ==> g1 == g0)
      && (TranslateParamsOk(g0, tgt, list) ==>
            var t := TranslationFor(m, g0, tgt, list);
            && (r.Ok? <==> t.Ok?)
            && (r.Err? ==> r == Err(t.error)))
      && (r.Ok? ==>
            var t := TranslationFor(m, g0, tgt, list);
            && KeepsNodes(g0, g1, {})
            && (t.value.None? || t.value.value.TranslatedValue? ==> g1 == g0)
            && (t.value.None? ==> r.value.None?)
            && (t.value.Some? && t.value.value.TranslatedValue? ==> r.value == Some(t.value.value.b))
            && (t.value.Some? && t.value.value.TranslatedCoding? ==> r.value.Some? && g1.next == g0.next + 1)
            && (t.value.Some? && t.value.value.TranslatedCoding? ==>
                  HoldsCoding(g1, r.value.value, Coded(t.value.value.c.system, t.value.value.c.code, ""))))
    }

    /** What a transform that makes elements or hands out ids gives, from
        graph `g0` with `u0` UUIDs handed out to graph `g1`. */
    ghost predicate MakingSpec(ruleId: string, m: StructureMap, tgt: Target, g0: Graph, u0: nat, g1: Graph,
                               list: seq<Variable<Base>>, r: Result<Option<Base>>)
      requires tgt.transform.Some?
    {
      match tgt.transform.value
      case Create => (r.Ok? ==> r.value.Some?) && CreateSpec(g0, u0, g1, tgt, list, Present(r))
      case Translate => TranslateSpec(m, g0, g1, tgt, list, r)
      case Reference => (r.Ok? ==> r.value.Some?) && ReferenceSpec(ruleId, g0, u0, g1, tgt, list, Present(r))
      case Uuid => r == Ok(Some(Primitive("id", store.uuid(u0)))) && g1 == g0
      case CC => (r.Ok? ==> r.value.Some?) && CodingSpec(g0, g1, tgt, list, true, Present(r))
      case C => (r.Ok? ==> r.value.Some?) && CodingSpec(g0, g1, tgt, list, false, Present(r))
      case _ => false
    }

    /** What `runTransform` gives: the transforms not supported yet and those
        the engine does not know fail with their own message; any other is
        the reading or making transform's result `inner`, its failure
        reported with the target and the rule. */
    ghost predicate TransformSpec(ruleId: string, m: StructureMap, tgt: Target, g0: Graph, u0: nat, g1: Graph,
                                  list: seq<Variable<Base>>, inner: Result<Option<Base>>, r: Result<Option<Base>>)
      requires tgt.transform.Some?
    {
      var t := tgt.transform.value;
      if NotSupportedYet(t) then
        g1 == g0 && r == Fails("Rule \"" + ruleId + "\": Transform " + TransformCode(t) + " not supported yet")
      else if UnknownTransform(t) then
        g1 == g0 && r == Fails("Rule \"" + ruleId + "\": Transform Unknown: " + TransformCode(t))
      else
        && r == Wrapped(oracles, tgt, ruleId, inner)
        && (t in {Copy, Evaluate, Truncate, Pointer} ==> g1 == g0 && ReadingSpec(ruleId, tgt, g0, list, inner))
        && (t !in {Copy, Evaluate, Truncate, Pointer} ==> MakingSpec(ruleId, m, tgt, g0, u0, g1, list, inner))
    }

    /** `Variables.summary`, the list the "not found" error quotes. */
    method Summary(vars: Variables<Base>) returns (s: string)
      ensures s == SummaryText(store.graph, vars.list)
    {
      var list := vars.list;
      var ins: seq<string> := [];
      var outs: seq<string> := [];
      for i := 0 to |list|
        invariant ins == EntriesText(store.graph, list[..i], VariableMode.Input)
        invariant outs == EntriesText(store.graph, list[..i], Output)
      {
        assert list[..i + 1][..i] == list[..i];
        var entry := list[i].name + ": " + FhirType(store.graph, list[i].value);
        if list[i].mode == VariableMode.Input {
          ins := ins + [entry];
        } else {
          outs := outs + [entry];
        }
      }
      assert list[..|list|] == list;
      s := "source variables [" + Join(ins, ", ") + "], target variables [" + Join(outs, ", ") + "]";
    }

    /** `getParam`. */
    method GetParam(vars: Variables<Base>, p: ParamValue) returns (r: Result<Base>)
      ensures r == ParamBase(store.graph, vars.list, p)
    {
      if !p.IdParam? {
        return Ok(ConstantBase(p));
      }
      var b := vars.Get(VariableMode.Input, p.id);
      if b.None? {
        b := vars.Get(Output, p.id);
      }
      if b.None? {
        var summary := Summary(vars);
        return Fails("Variable " + p.id + " not found (" + summary + ")");
      }
      return Ok(b.value);
    }

    /** `getParamString`. */
    method GetParamString(vars: Variables<Base>, p: ParamValue) returns (r: Result<Option<string>>)
      ensures r == ParamString(store.graph, vars.list, p)
    {
      var b := GetParam(vars, p);
      if b.Err? {
        return Err(b.error);
      }
      if HasPrimitiveValue(b.value) {
        return Ok(Some(b.value.value));
      }
      return Ok(None);
    }

    /** `getParamStringNoNull`. */
    method GetParamStringNoNull(vars: Variables<Base>, p: ParamValue, context: string) returns (r: Result<string>)
      ensures r == ParamStringNoNull(oracles, store.graph, vars.list, p, context)
    {
      var b := GetParam(vars, p);
      if b.Err? {
        return Err(b.error);
      }
      if !HasPrimitiveValue(b.value) {
        return Fails("Found a value for " + oracles.parameterText(p) + ", but it has a type of "
          + FhirType(store.graph, b.value) + " and cannot be treated as a string. Context: " + context);
      }
      return Ok(b.value.value);
    }

    /** A Coding element with the system, code and display that are not
        blank. */
    method MakeCoding(c: Coded) returns (b: Base)
      requires Valid()
      modifies store
      ensures Valid() && store.uuids == old(store.uuids)
      ensures b == Node(old(store.graph.next)) && store.graph.next == old(store.graph.next) + 1
      ensures HoldsCoding(store.graph, b, c) && b.id !in store.graph.ids
      ensures KeepsNodes(old(store.graph), store.graph, {})
    {
      var g0 := store.graph;
      b := store.NewNode("Coding");
      NewNodeKeeps(g0, "Coding");
      SetIfText(b.id, "system", "uri", c.system);
      SetIfText(b.id, "code", "code", c.code);
      SetIfText(b.id, "display", "string", c.display);
    }

    /** A CodeableConcept element whose one coding is a new Coding element
        for `c`. */
    method MakeConcept(c: Coded) returns (b: Base)
      requires Valid()
      modifies store
      ensures Valid() && store.uuids == old(store.uuids) && store.graph.next == old(store.graph.next) + 2
      ensures HoldsConcept(store.graph, b, c)
      ensures KeepsNodes(old(store.graph), store.graph, {})
    {
      ghost var g0 := store.graph;
      var coding := MakeCoding(c);
      ghost var g1 := store.graph;
      b := store.NewNode("CodeableConcept");
      NewNodeKeeps(g1, "CodeableConcept");
      ghost var g2 := store.graph;
      store.SetProperty(b.id, "coding", coding);
      SetNewPropertyKeeps(g1, g2, b.id, "coding", coding, store.schema.repeats("CodeableConcept", "coding"));
      KeepsTrans(g0, g1, store.graph, {}, {});
      HoldsCodingKept(g1, store.graph, coding, c, {});
    }

    /** Sets a primitive property of a node when its text is not blank, and
        leaves every other property as it was. */
    method SetIfText(id: nat, name: string, fhirType: string, s: string)
      requires Valid() && id < store.graph.next
      modifies store
      ensures Valid() && store.uuids == old(store.uuids) && store.graph.next == old(store.graph.next)
      ensures store.graph.types == old(store.graph.types) && store.graph.ids == old(store.graph.ids)
      ensures old(Children(store.graph, Node(id), name)) == [] ==> Children(store.graph, Node(id), name) == PrimitiveIf(fhirType, s)
      ensures forall n: nat, other :: n != id || other != name ==> Children(store.graph, Node(n), other) == Children(old(store.graph), Node(n), other)
    {
      if s != "" {
        ghost var g0 := store.graph;
        store.SetProperty(id, name, Primitive(fhirType, s));
        forall n: nat, other | n != id || other != name
          ensures Children(store.graph, Node(n), other) == Children(g0, Node(n), other)
        {
          SetPropertyFrame(g0, id, name, Primitive(fhirType, s), store.schema.repeats(FhirType(g0, Node(id)), name), Node(n), other);
        }
      }
    }

    /** CREATE: a new resource or data type of the named type (parameter 0).
        As written, with a second parameter the id is read from parameter 0
        again, so it is the type name; without one it is a fresh UUID. */
    method RunCreate(tgt: Target, vars: Variables<Base>) returns (r: Result<Base>)
      requires Valid() && VarsOk(vars)
      modifies store
      ensures Valid() && VarsOk(vars) && Grows(old(store.graph), store.graph)
      ensures CreateSpec(old(store.graph), old(store.uuids), store.graph, tgt, vars.list, r)
    {
      var p0 := ParamAt(tgt.parameters, 0);
      if p0.Err? {
        return Err(p0.error);
      }
      var name := GetParamStringNoNull(vars, p0.value, oracles.targetText(tgt));
      if name.Err? {
        return Err(name.error);
      }
      if name.value !in oracles.knownTypes {
        return Fails("Unknown Resource or Type Name '" + name.value + "'");
      }
      ghost var g0 := store.graph;
      var b := store.NewNode(name.value);
      NewNodeKeeps(g0, name.value);
      var u := "";
      if |tgt.parameters| <= 1 {
        u := store.NewUuid();
      }
      ghost var g1 := store.graph;
      store.SetId(b.id, Some(CreateId(name.value, tgt.parameters, u)));
      SetIdKeeps(g0, g1, b.id, CreateId(name.value, tgt.parameters, u));
      VarsWithinGrow(vars.list, old(store.graph.next), store.graph.next);
      return Ok(b);
    }

    /** EVALUATE: the kept expression, or parameter 1's text, on the focus
        (parameter 0). */
    method RunEvaluate(ruleId: string, tgt: Target, vars: Variables<Base>) returns (r: Result<Option<Base>>)
      requires Valid() && VarsOk(vars)
      ensures var inputs := EvaluateInputs(oracles, store.graph, vars.list, tgt);
        && (inputs.Err? ==> r == Err(inputs.error))
        && (inputs.Ok? ==> r == EvaluationOutcome(ruleId, inputs.value.0, oracles.evaluate(store.graph, inputs.value.1, inputs.value.0)))
      ensures r.Ok? && r.value.Some? ==> Within(store.graph.next, r.value.value)
    {
      var expr: string;
      if tgt.expression.Some? {
        expr := tgt.expression.value;
      } else {
        var p1 := ParamAt(tgt.parameters, 1);
        if p1.Err? {
          return Err(p1.error);
        }
        var text := GetParamStringNoNull(vars, p1.value, oracles.targetText(tgt));
        if text.Err? {
          return Err(text.error);
        }
        expr := text.value;
      }
      var p0 := ParamAt(tgt.parameters, 0);
      if p0.Err? {
        return Err(p0.error);
      }
      var focus := GetParam(vars, p0.value);
      if focus.Err? {
        return Err(focus.error);
      }
      var results := oracles.evaluate(store.graph, focus.value, expr);
      r := EvaluationOutcome(ruleId, expr, results);
    }

    /** TRUNCATE: the text of parameter 0 cut to the length in parameter 1. */
    method RunTruncate(tgt: Target, vars: Variables<Base>) returns (r: Result<Base>)
      requires Valid() && VarsOk(vars)
      ensures TruncateSpec(store.graph, tgt, vars.list, r)
    {
      var p0 := ParamAt(tgt.parameters, 0);
      if p0.Err? {
        return Err(p0.error);
      }
      var src := GetParamString(vars, p0.value);
      if src.Err? {
        return Err(src.error);
      }
      var p1 := ParamAt(tgt.parameters, 1);
      if p1.Err? {
        return Err(p1.error);
      }
      var len := GetParamStringNoNull(vars, p1.value, oracles.targetText(tgt));
      if len.Err? {
        return Err(len.error);
      }
      var text := TruncateOutcome(src.value, len.value);
      if text.Err? {
        return Err(text.error);
      }
      return Ok(Primitive("string", text.value));
    }

    /** REFERENCE: a Reference element pointing at a resource, as
        "Type/id"; a resource without an id is given a fresh one first. */
    method RunReference(ruleId: string, tgt: Target, vars: Variables<Base>) returns (r: Result<Base>)
      requires Valid() && VarsOk(vars)
      modifies store
      ensures Valid() && VarsOk(vars) && Grows(old(store.graph), store.graph)
      ensures ReferenceSpec(ruleId, old(store.graph), old(store.uuids), store.graph, tgt, vars.list, r)
    {
      var p0 := ParamAt(tgt.parameters, 0);
      if p0.Err? {
        return Err(p0.error);
      }
      var b := GetParam(vars, p0.value);
      if b.Err? {
        return Err(b.error);
      }
      var res := b.value;
      if !IsResource(oracles, store.graph, res) {
        return Fails("Rule \"" + ruleId + "\": Transform engine cannot point at an element of type " + FhirType(store.graph, res));
      }
      var n := ReferenceTo(res);
      VarsWithinGrow(vars.list, old(store.graph.next), store.graph.next);
      return Ok(n);
    }

    /** The Reference element for a resource: the resource is first given
        the next UUID, in lower case, as its id when it has none; then a new
        Reference whose `reference` is "Type/id". */
    method ReferenceTo(res: Base) returns (n: Base)
      requires Valid() && res.Node? && res.id < store.graph.next
      modifies store
      ensures Valid() && KeepsNodes(old(store.graph), store.graph, {res.id})
      ensures res.id in store.graph.ids
      ensures res.id in old(store.graph.ids) ==> store.graph.ids[res.id] == old(store.graph.ids[res.id])
      ensures res.id !in old(store.graph.ids) ==> store.graph.ids[res.id] == Lower(store.uuid(old(store.uuids)))
      ensures store.graph.next == old(store.graph.next) + 1 && n == Node(old(store.graph.next))
      ensures FhirType(store.graph, n) == "Reference" && n.id !in store.graph.ids
      ensures forall name :: name != "reference" ==> Children(store.graph, n, name) == []
      ensures Children(store.graph, n, "reference") == [Primitive("string", FhirType(store.graph, res) + "/" + store.graph.ids[res.id])]
    {
      ghost var g0 := store.graph;
      var id: string;
      if res.id in store.graph.ids {
        id := store.graph.ids[res.id];
      } else {
        var u := store.NewUuid();
        id := Lower(u);
        store.SetId(res.id, Some(id));
      }
      ghost var g1 := store.graph;
      var text := FhirType(store.graph, res) + "/" + id;
      n := MakeReference(text);
      KeepsTrans(g0, g1, store.graph, {res.id}, {});
      assert {res.id} + {} == {res.id};
    }

    /** A new Reference element whose `reference` is the given text. */
    method MakeReference(text: string) returns (b: Base)
      requires Valid()
      modifies store
      ensures Valid() && store.uuids == old(store.uuids)
      ensures b == Node(old(store.graph.next)) && store.graph.next == old(store.graph.next) + 1
      ensures store.graph.ids == old(store.graph.ids)
      ensures KeepsNodes(old(store.graph), store.graph, {})
      ensures FhirType(store.graph, b) == "Reference"
      ensures Children(store.graph, b, "reference") == [Primitive("string", text)]
      ensures forall name :: name != "reference" ==> Children(store.graph, b, name) == []
    {
      ghost var g0 := store.graph;
      b := store.NewNode("Reference");
      NewNodeKeeps(g0, "Reference");
      ghost var g1 := store.graph;
      store.SetProperty(b.id, "reference", Primitive("string", text));
      SetNewPropertyKeeps(g0, g1, b.id, "reference", Primitive("string", text), store.schema.repeats("Reference", "reference"));
      forall name | name != "reference"
        ensures Children(store.graph, b, name) == []
      {
        SetPropertyFrame(g1, b.id, "reference", Primitive("string", text), store.schema.repeats("Reference", "reference"), b, name);
      }
    }

    /** The pointer transform: a URI naming a resource by its id ("null" when it has none). */
    method RunPointer(ruleId: string, tgt: Target, vars: Variables<Base>) returns (r: Result<Base>)
      requires Valid() && VarsOk(vars)
      ensures PointerSpec(store.graph, tgt, vars.list, r)
    {
      var p0 := ParamAt(tgt.parameters, 0);
      if p0.Err? {
        return Err(p0.error);
      }
      var b := GetParam(vars, p0.value);
      if b.Err? {
        return Err(b.error);
      }
      if !IsResource(oracles, store.graph, b.value) {
        return Fails("Rule \"" + ruleId + "\": Transform engine cannot point at an element of type " + FhirType(store.graph, b.value));
      }
      var id := if b.value.id in store.graph.ids then store.graph.ids[b.value.id] else "null";
      return Ok(Primitive("uri", "urn:uuid:" + id));
    }

    /** C and CC: a Coding for the code (parameter 1) in the system or value
        set (parameter 0); CC wraps it in a CodeableConcept. */
    method RunCoding(tgt: Target, vars: Variables<Base>, cc: bool) returns (r: Result<Base>)
      requires Valid() && VarsOk(vars)
      modifies store
      ensures Valid() && VarsOk(vars) && Grows(old(store.graph), store.graph)
      ensures store.uuids == old(store.uuids)
      ensures CodingSpec(old(store.graph), store.graph, tgt, vars.list, cc, r)
    {
      var p0 := ParamAt(tgt.parameters, 0);
      if p0.Err? {
        return Err(p0.error);
      }
      var uri := GetParamStringNoNull(vars, p0.value, oracles.targetText(tgt));
      if uri.Err? {
        return Err(uri.error);
      }
      var p1 := ParamAt(tgt.parameters, 1);
      if p1.Err? {
        return Err(p1.error);
      }
      var code := GetParamStringNoNull(vars, p1.value, oracles.targetText(tgt));
      if code.Err? {
        return Err(code.error);
      }
      var coding := CodingFor(oracles, uri.value, code.value);
      if coding.Err? {
        return Err(coding.error);
      }
      var b;
      if cc {
        b := MakeConcept(coding.value);
      } else {
        b := MakeCoding(coding.value);
      }
      VarsWithinGrow(vars.list, old(store.graph.next), store.graph.next);
      return Ok(b);
    }

    /** TRANSLATE: the source (parameter 0) through the concept map at the
        URL (parameter 1), returning the field named by parameter 2. */
    method RunTranslate(m: StructureMap, tgt: Target, vars: Variables<Base>) returns (r: Result<Option<Base>>)
      requires Valid() && VarsOk(vars)
      modifies store
      ensures Valid() && VarsOk(vars) && Grows(old(store.graph), store.graph)
      ensures store.uuids == old(store.uuids)
      ensures r.Ok? && r.value.Some? ==> Within(store.graph.next, r.value.value)
      ensures TranslateSpec(m, old(store.graph), store.graph, tgt, vars.list, r)
    {
      var p0 := ParamAt(tgt.parameters, 0);
      if p0.Err? {
        return Err(p0.error);
      }
      var src := GetParam(vars, p0.value);
      if src.Err? {
        return Err(src.error);
      }
      var p1 := ParamAt(tgt.parameters, 1);
      if p1.Err? {
        return Err(p1.error);
      }
      var url := GetParamString(vars, p1.value);
      if url.Err? {
        return Err(url.error);
      }
      var fld: Option<string> := None;
      if |tgt.parameters| > 2 {
        var f := GetParamString(vars, tgt.parameters[2]);
        if f.Err? {
          return Err(f.error);
        }
        fld := f.value;
      }
      var t := TranslateOutcome(oracles, m, store.graph, src.value, url.value, fld);
      if t.Err? {
        return Err(t.error);
      }
      match t.value {
        case None =>
          return Ok(None);
        case Some(TranslatedValue(b)) =>
          return Ok(Some(b));
        case Some(TranslatedCoding(c)) =>
          var n := MakeCoding(Coded(c.system, c.code, ""));
          VarsWithinGrow(vars.list, old(store.graph.next), store.graph.next);
          return Ok(Some(n));
      }
    }

    /** `runTransform`: the transform of a target. The transforms not
        supported yet, and those the engine does not know, fail with their
        own message; any other failure is reported with the target and the
        rule. */
    method RunTransform(ruleId: string, m: StructureMap, tgt: Target, vars: Variables<Base>)
      returns (r: Result<Option<Base>>, ghost inner: Result<Option<Base>>)
      requires Valid() && VarsOk(vars) && tgt.transform.Some?
      modifies store
      ensures Valid() && VarsOk(vars) && Grows(old(store.graph), store.graph)
      ensures r.Ok? && r.value.Some? ==> Within(store.graph.next, r.value.value)
      ensures TransformSpec(ruleId, m, tgt, old(store.graph), old(store.uuids), store.graph, vars.list, inner, r)
      ensures r.Err? && !NotSupportedYet(tgt.transform.value) && !UnknownTransform(tgt.transform.value) ==>
        StartsWith(r.error.msg, ExceptionPrefix(oracles, tgt, ruleId))
    {
      var t := tgt.transform.value;
      inner := Ok(None);
      if NotSupportedYet(t) {
        return Fails("Rule \"" + ruleId + "\": Transform " + TransformCode(t) + " not supported yet"), inner;
      }
      if UnknownTransform(t) {
        return Fails("Rule \"" + ruleId + "\": Transform Unknown: " + TransformCode(t)), inner;
      }
      var result: Result<Option<Base>>;
      if t == Copy || t == Evaluate || t == Truncate || t == Pointer {
        result := RunReading(ruleId, tgt, vars);
      } else {
        result := RunMaking(ruleId, m, tgt, vars);
      }
      inner := result;
      r := Wrapped(oracles, tgt, ruleId, result);
    }

    /** The transforms that only read the graph: COPY, EVALUATE, TRUNCATE
        and the pointer transform. */
    method RunReading(ruleId: string, tgt: Target, vars: Variables<Base>) returns (r: Result<Option<Base>>)
      requires Valid() && VarsOk(vars) && tgt.transform.Some?
      requires tgt.transform.value in {Copy, Evaluate, Truncate, Pointer}
      ensures r.Ok? && r.value.Some? ==> Within(store.graph.next, r.value.value)
      ensures ReadingSpec(ruleId, tgt, store.graph, vars.list, r)
    {
      match tgt.transform.value {
        case Copy =>
          var p0 := ParamAt(tgt.parameters, 0);
          if p0.Err? {
            return Err(p0.error);
          }
          var b := GetParam(vars, p0.value);
          r := if b.Err? then Err(b.error) else Ok(Some(b.value));
        case Evaluate =>
          r := RunEvaluate(ruleId, tgt, vars);
        case Truncate =>
          var b := RunTruncate(tgt, vars);
          r := if b.Err? then Err(b.error) else Ok(Some(b.value));
        case Pointer =>
          var b := RunPointer(ruleId, tgt, vars);
          r := if b.Err? then Err(b.error) else Ok(Some(b.value));
      }
    }

    /** The transforms that make elements or hand out ids: CREATE,
        TRANSLATE, REFERENCE, UUID, CC and C. */
    method RunMaking(ruleId: string, m: StructureMap, tgt: Target, vars: Variables<Base>) returns (r: Result<Option<Base>>)
      requires Valid() && VarsOk(vars) && tgt.transform.Some?
      requires tgt.transform.value in {Create, Translate, Reference, Uuid, CC, C}
      modifies store
      ensures Valid() && VarsOk(vars) && Grows(old(store.graph), store.graph)
      ensures r.Ok? && r.value.Some? ==> Within(store.graph.next, r.value.value)
      ensures MakingSpec(ruleId, m, tgt, old(store.graph), old(store.uuids), store.graph, vars.list, r)
    {
      match tgt.transform.value {
        case Create =>
          var b := RunCreate(tgt, vars);
          r := if b.Err? then Err(b.error) else Ok(Some(b.value));
          assert Present(r) == b;
        case Translate =>
          r := RunTranslate(m, tgt, vars);
        case Reference =>
          var b := RunReference(ruleId, tgt, vars);
          r := if b.Err? then Err(b.error) else Ok(Some(b.value));
          assert Present(r) == b;
        case Uuid =>
          var u := store.NewUuid();
          r := Ok(Some(Primitive("id", u)));
        case CC =>
          var b := RunCoding(tgt, vars, true);
          r := if b.Err? then Err(b.error) else Ok(Some(b.value));
          assert Present(r) == b;
        case C =>
          var b := RunCoding(tgt, vars, false);
          r := if b.Err? then Err(b.error) else Ok(Some(b.value));
          assert Present(r) == b;
      }
    }

    /** One copy of the rule's environment per value, the source variable
        bound to the value when the source names one. */
    method Environments(vars: Variables<Base>, src: Source, items: seq<Base>) returns (result: seq<Variables<Base>>)
      requires Valid() && VarsOk(vars)
      requires forall i :: 0 <= i < |items| ==> Within(store.graph.next, items[i])
      ensures |result| == |items|
      ensures forall i :: 0 <= i < |result| ==> fresh(result[i]) && VarsOk(result[i])
      ensures forall i :: 0 <= i < |result| ==> result[i].list == ItemVariables(vars.list, src, items[i])
      ensures forall i, j :: 0 <= i < j < |result| ==> result[i] != result[j]
    {
      result := CopyPerItem(vars, src, items);
      forall j | 0 <= j < |result|
        ensures VarsOk(result[j])
      {
        ItemVariablesOk(vars.list, src, items[j], store.graph.next);
      }
    }

    /** `processSource`: the environments a rule runs in, one per value of
        its source, or none when the `where` condition is false. */
    method ProcessSource(ruleId: string, vars: Variables<Base>, src: Source) returns (r: Result<Option<seq<Variables<Base>>>>)
      requires Valid() && VarsOk(vars)
      ensures ValueOf(vars.list, VariableMode.Input, src.context).None? ==> r == Fails("Unknown input variable " + src.context)
      ensures ValueOf(vars.list, VariableMode.Input, src.context).Some? ==>
        var b := ValueOf(vars.list, VariableMode.Input, src.context).value;
        && (ConditionFails(oracles, store.graph, b, src) ==> r == Ok(None))
        && (!ConditionFails(oracles, store.graph, b, src) && CheckFails(oracles, store.graph, b, src) ==>
              r == Fails("Rule \"" + ruleId + "\": Check condition failed"))
        && (!ConditionFails(oracles, store.graph, b, src) && !CheckFails(oracles, store.graph, b, src) ==> r.Ok? && r.value.Some?)
      ensures r.Ok? && r.value.Some? ==>
        var items := SourceItems(store.graph, ValueOf(vars.list, VariableMode.Input, src.context).value, src);
        var vs := r.value.value;
        && |vs| == |items|
        && (forall i :: 0 <= i < |vs| ==> fresh(vs[i]) && VarsOk(vs[i]))
        && (forall i :: 0 <= i < |vs| ==> vs[i].list == ItemVariables(vars.list, src, items[i]))
        && (forall i, j :: 0 <= i < j < |vs| ==> vs[i] != vs[j])
    {
      var b := vars.Get(VariableMode.Input, src.context);
      if b.None? {
        return Fails("Unknown input variable " + src.context);
      }
      assert Lookup(vars.list, VariableMode.Input, src.context).value in vars.list;
      if src.condition != "" && !oracles.evaluateToBoolean(store.graph, b.value, src.condition) {
        return Ok(None);
      }
      if src.check != "" && !oracles.evaluateToBoolean(store.graph, b.value, src.check) {
        return Fails("Rule \"" + ruleId + "\": Check condition failed");
      }
      var items := SourceItems(store.graph, b.value, src);
      var result := Environments(vars, src, items);
      return Ok(Some(result));
    }

    /** The value of a target: the transform's result, set on the context's
        element when there is a context, or, without a transform, the
        context's element made on demand. */
    method TargetValue(ruleId: string, m: StructureMap, tgt: Target, vars: Variables<Base>, dest: Option<Base>)
      returns (r: Result<Option<Base>>, ghost inner: Result<Option<Base>>, ghost transformed: Result<Option<Base>>, ghost mid: Graph)
      requires Valid() && VarsOk(vars)
      requires dest.Some? ==> Within(store.graph.next, dest.value)
      modifies store
      ensures Valid() && VarsOk(vars) && Grows(old(store.graph), store.graph)
      ensures r.Ok? && r.value.Some? ==> Within(store.graph.next, r.value.value)
      ensures r.Ok? && r.value.Some? && dest.Some? ==> r.value.value in Children(store.graph, dest.value, tgt.element)
      ensures tgt.transform.Some? ==> GraphValid(mid) && Grows(old(store.graph), mid)
      ensures tgt.transform.Some? && transformed.Ok? && transformed.value.Some? ==> Within(mid.next, transformed.value.value)
      ensures tgt.transform.Some? && transformed.Ok? && transformed.value.Some? && dest.Some? && dest.value.Node? ==>
        store.graph == WithProperty(mid, dest.value.id, tgt.element, transformed.value.value,
                                    store.schema.repeats(FhirType(mid, dest.value), tgt.element))
      ensures tgt.transform.None? && dest.Some? && dest.value.Node? ==>
        && r == Ok(Some(WithMadeProperty(old(store.graph), store.schema, dest.value.id, tgt.element).1))
        && store.graph == WithMadeProperty(old(store.graph), store.schema, dest.value.id, tgt.element).0
      ensures r.Ok? && tgt.transform.None? && dest.Some? ==> r.value.Some?
      ensures tgt.transform.Some? ==>
        && TransformSpec(ruleId, m, tgt, old(store.graph), old(store.uuids), mid, vars.list, inner, transformed)
        && (transformed.Err? || transformed.value.None? || dest.None? ==> r == transformed && store.graph == mid)
        && (transformed.Ok? && transformed.value.Some? && dest.Some? ==>
              && (dest.value.Primitive? ==> r == Fails("Attempt to set unknown property " + tgt.element) && store.graph == mid)
              && (!dest.value.Primitive? ==> r == transformed))
      ensures tgt.transform.None? && dest.None? ==> r == Ok(None) && store.graph == old(store.graph)
      ensures tgt.transform.None? && dest.Some? && dest.value.Primitive? ==>
        r == Fails("Attempt to make unknown property " + tgt.element) && store.graph == old(store.graph)
    {
      inner := Ok(None);
      transformed := Ok(None);
      mid := store.graph;
      if tgt.transform.Some? {
        r, inner := RunTransform(ruleId, m, tgt, vars);
        transformed := r;
        mid := store.graph;
        if r.Ok? && r.value.Some? && dest.Some? {
          if dest.value.Primitive? {
            r := Fails("Attempt to set unknown property " + tgt.element);
            return;
          }
          store.SetProperty(dest.value.id, tgt.element, r.value.value);
        }
      } else if dest.Some? {
        if dest.value.Primitive? {
          r := Fails("Attempt to make unknown property " + tgt.element);
          return;
        }
        var made := store.MakeProperty(dest.value.id, tgt.element);
        VarsWithinGrow(vars.list, old(store.graph.next), store.graph.next);
        r := Ok(Some(made));
      } else {
        r := Ok(None);
      }
    }

    /** `processTarget`: runs the target's transform and sets the value on
        the target context's element, or makes that element when there is no
        transform; the target variable then names the value. `value` is what
        the target gives, `transformed` the transform's own result. */
    method ProcessTarget(ruleId: string, vars: Variables<Base>, m: StructureMap, tgt: Target)
      returns (r: Outcome, ghost value: Result<Option<Base>>, ghost inner: Result<Option<Base>>,
               ghost transformed: Result<Option<Base>>, ghost mid: Graph)
      requires Valid() && VarsOk(vars)
      modifies store, vars
      ensures Valid() && VarsOk(vars) && Grows(old(store.graph), store.graph)
      ensures tgt.context != "" && ValueOf(old(vars.list), Output, tgt.context).Some? ==>
        Within(old(store.graph.next), ValueOf(old(vars.list), Output, tgt.context).value)
      ensures tgt.transform.Some? ==> GraphValid(mid) && Grows(old(store.graph), mid)
      ensures tgt.transform.Some? && transformed.Ok? && transformed.value.Some? ==> Within(mid.next, transformed.value.value)
      ensures tgt.context != "" && ValueOf(old(vars.list), Output, tgt.context).Some? && tgt.element != "" ==>
        var dest := ValueOf(old(vars.list), Output, tgt.context).value;
        && (tgt.transform.Some? ==>
              value == if transformed.Ok? && transformed.value.Some? && dest.Primitive?
                       then Fails("Attempt to set unknown property " + tgt.element) else transformed)
        && (tgt.transform.Some? && transformed.Ok? && transformed.value.Some? && dest.Node? ==>
              store.graph == WithProperty(mid, dest.id, tgt.element, transformed.value.value,
                                          store.schema.repeats(FhirType(mid, dest), tgt.element)))
        && (tgt.transform.Some? && !(transformed.Ok? && transformed.value.Some? && dest.Node?) ==> store.graph == mid)
        && (tgt.transform.None? && dest.Node? ==>
              && value == Ok(Some(WithMadeProperty(old(store.graph), store.schema, dest.id, tgt.element).1))
              && store.graph == WithMadeProperty(old(store.graph), store.schema, dest.id, tgt.element).0)
        && (tgt.transform.None? && dest.Primitive? ==>
              value == Fails("Attempt to make unknown property " + tgt.element) && store.graph == old(store.graph))
      ensures tgt.context != "" && ValueOf(old(vars.list), Output, tgt.context).None? ==>
        r == Fail(Error("Rule \"" + ruleId + "\": target context not known: " + tgt.context)) && store.graph == old(store.graph)
      ensures tgt.context != "" && ValueOf(old(vars.list), Output, tgt.context).Some? && tgt.element == "" ==>
        r == Fail(Error("Rule \"" + ruleId + "\": Not supported yet")) && store.graph == old(store.graph)
      ensures vars.list == old(vars.list) || (r.Pass? && OutputBound(old(vars.list), vars.list, tgt.variable))
      ensures r.Pass? && tgt.context != "" && tgt.variable != "" && (tgt.transform.None? || vars.list != old(vars.list)) ==>
        && OutputBound(old(vars.list), vars.list, tgt.variable)
        && ValueOf(vars.list, Output, tgt.variable).value in Children(store.graph, ValueOf(old(vars.list), Output, tgt.context).value, tgt.element)
      ensures tgt.context == "" || (ValueOf(old(vars.list), Output, tgt.context).Some? && tgt.element != "") ==>
        && (value.Err? ==> r == Fail(value.error) && vars.list == old(vars.list))
        && (value.Ok? ==> r == Pass)
        && (value.Ok? && value.value.Some? && tgt.variable != "" ==>
              vars.list == Bind(old(vars.list), Output, tgt.variable, value.value.value))
        && (value.Ok? && (value.value.None? || tgt.variable == "") ==> vars.list == old(vars.list))
        && (tgt.transform.Some? ==>
              && TransformSpec(ruleId, m, tgt, old(store.graph), old(store.uuids), mid, old(vars.list), inner, transformed)
              && (value == transformed || value == Fails("Attempt to set unknown property " + tgt.element)))
      ensures tgt.context == "" ==>
        && (tgt.transform.Some? ==> value == transformed && store.graph == mid)
        && (tgt.transform.None? ==> value == Ok(None) && store.graph == old(store.graph))
    {
      value, inner, transformed, mid := Ok(None), Ok(None), Ok(None), store.graph;
      var dest: Option<Base> := None;
      if tgt.context != "" {
        dest := vars.Get(Output, tgt.context);
        if dest.None? {
          r := Fail(Error("Rule \"" + ruleId + "\": target context not known: " + tgt.context));
          return;
        }
        if tgt.element == "" {
          r := Fail(Error("Rule \"" + ruleId + "\": Not supported yet"));
          return;
        }
        assert Lookup(vars.list, Output, tgt.context).value in vars.list;
      }
      var result;
      result, inner, transformed, mid := TargetValue(ruleId, m, tgt, vars, dest);
      value := result;
      if result.Err? {
        r := Fail(result.error);
        return;
      }
      var v := result.value;
      if tgt.variable != "" && v.Some? {
        BindWithin(vars.list, Output, tgt.variable, v.value, store.graph.next);
        vars.Add(Output, tgt.variable, v.value);
      }
      r := Pass;
    }

    /** `executeGroup`: the group's rules in order, each in the caller's
        environment, which none of them changes. `fuel` bounds the depth of
        dependent invocations. `outcomes` are the rules' outcomes, in order:
        every rule runs until one fails. */
    method ExecuteGroup(fuel: nat, m: StructureMap, vars: Variables<Base>, group: Group)
      returns (r: Outcome, ghost outcomes: seq<Outcome>)
      requires Valid() && VarsOk(vars)
      modifies store
      ensures Valid() && Grows(old(store.graph), store.graph)
      ensures group.rules == [] ==> r == Pass && store.graph == old(store.graph)
      ensures |outcomes| <= |group.rules|
      ensures forall k :: 0 <= k < |outcomes| - 1 ==> outcomes[k] == Pass
      ensures r.Pass? ==> |outcomes| == |group.rules| && forall k :: 0 <= k < |outcomes| ==> outcomes[k] == Pass
      ensures r.Fail? ==> |outcomes| > 0 && outcomes[|outcomes| - 1] == r
      decreases fuel, 2, 0, 0
    {
      outcomes := [];
      for k := 0 to |group.rules|
        invariant Valid() && VarsOk(vars) && Grows(old(store.graph), store.graph)
        invariant k == 0 ==> store.graph == old(store.graph)
        invariant |outcomes| == k && forall j :: 0 <= j < k ==> outcomes[j] == Pass
      {
        ghost var next := store.graph.next;
        ghost var envs;
        r, envs := ExecuteRule(fuel, m, vars, group.rules[k]);
        outcomes := outcomes + [r];
        if r.Fail? {
          return;
        }
        VarsWithinGrow(vars.list, next, store.graph.next);
      }
      return Pass, outcomes;
    }

    /** `executeRule`: for every environment the source gives, the targets
        in order, then the nested rules, or, when there are none, the
        dependent invocations. The caller's environment is copied, never
        changed. `envs` are the environments the rule has run in: one per
        value of the source, in order, until a run fails. */
    method ExecuteRule(fuel: nat, m: StructureMap, vars: Variables<Base>, rule: Rule)
      returns (r: Outcome, ghost envs: seq<seq<Variable<Base>>>)
      requires Valid() && VarsOk(vars)
      modifies store
      ensures Valid() && Grows(old(store.graph), store.graph)
      ensures |rule.sources| != 1 ==> r == Fail(Error("Rule \"" + rule.name + "\": not handled yet")) && store.graph == old(store.graph)
      ensures |rule.sources| == 1 ==>
        var src := rule.sources[0];
        var b := ValueOf(vars.list, VariableMode.Input, src.context);
        && (b.None? ==> r == Fail(Error("Unknown input variable " + src.context)) && store.graph == old(store.graph))
        && (b.Some? && ConditionFails(oracles, old(store.graph), b.value, src) ==>
              r == Pass && envs == [] && store.graph == old(store.graph))
        && (b.Some? && !ConditionFails(oracles, old(store.graph), b.value, src) && CheckFails(oracles, old(store.graph), b.value, src) ==>
              r == Fail(Error("Rule \"" + rule.name + "\": Check condition failed")) && store.graph == old(store.graph))
        && (b.Some? && !ConditionFails(oracles, old(store.graph), b.value, src) && !CheckFails(oracles, old(store.graph), b.value, src) ==>
              var items := SourceItems(old(store.graph), b.value, src);
              && |envs| <= |items|
              && (forall i :: 0 <= i < |envs| ==> envs[i] == ItemVariables(vars.list, src, items[i]))
              && (r.Pass? ==> |envs| == |items|)
              && (r.Fail? ==> |envs| > 0))
      decreases fuel, 1, RuleSize(rule), 3
    {
      envs := [];
      var srcVars := vars.Copy();
      if |rule.sources| != 1 {
        return Fail(Error("Rule \"" + rule.name + "\": not handled yet")), envs;
      }
      var source := ProcessSource(rule.name, srcVars, rule.sources[0]);
      if source.Err? {
        return Fail(source.error), envs;
      }
      if source.value.None? {
        return Pass, envs;
      }
      r, envs := RunEnvironments(fuel, m, rule, source.value.value);
    }

    /** The loop of `executeRule` over the environments: the rule's branch in
        each, in order, until one fails. `envs` are the environments it has
        run in, as they were on entry. */
    method RunEnvironments(fuel: nat, m: StructureMap, rule: Rule, vs: seq<Variables<Base>>)
      returns (r: Outcome, ghost envs: seq<seq<Variable<Base>>>)
      requires Valid()
      requires forall j :: 0 <= j < |vs| ==> VarsOk(vs[j])
      requires forall i, j :: 0 <= i < j < |vs| ==> vs[i] != vs[j]
      modifies store, set j | 0 <= j < |vs| :: vs[j]
      ensures Valid() && Grows(old(store.graph), store.graph)
      ensures |envs| <= |vs| && forall j :: 0 <= j < |envs| ==> envs[j] == old(vs[j].list)
      ensures r.Pass? ==> |envs| == |vs|
      ensures r.Fail? ==> |envs| > 0
      decreases fuel, 1, RuleSize(rule), 2
    {
      envs := [];
      r := Pass;
      ghost var start := store.graph.next;
      for i := 0 to |vs|
        invariant Valid() && start <= store.graph.next && Grows(old(store.graph), store.graph)
        invariant r == Pass
        invariant forall j :: i <= j < |vs| ==> vs[j].Valid() && VarsWithin(start, vs[j].list) && vs[j].list == old(vs[j].list)
        invariant |envs| == i && forall j :: 0 <= j < i ==> envs[j] == old(vs[j].list)
      {
        var v := vs[i];
        envs := envs + [v.list];
        VarsWithinGrow(v.list, start, store.graph.next);
        ghost var lists;
        r, lists := RunBranch(fuel, m, v, rule);
        if r.Fail? {
          return;
        }
      }
    }

    /** One environment of a rule: its targets, then its nested rules or its
        dependent invocations. `lists` is the environment before the first
        target and after each target that ran: each target leaves it as it
        was or binds its variable. */
    method RunBranch(fuel: nat, m: StructureMap, v: Variables<Base>, rule: Rule)
      returns (r: Outcome, ghost lists: seq<seq<Variable<Base>>>)
      requires Valid() && VarsOk(v)
      modifies store, v
      ensures Valid() && Grows(old(store.graph), store.graph)
      ensures rule.targets == [] && rule.rules == [] && rule.dependents == [] ==> r == Pass && store.graph == old(store.graph)
      ensures 0 < |lists| <= |rule.targets| + 1 && lists[0] == old(v.list) && v.list == lists[|lists| - 1]
      ensures forall k :: 0 <= k < |lists| - 1 ==>
        lists[k + 1] == lists[k] || OutputBound(lists[k], lists[k + 1], rule.targets[k].variable)
      ensures r.Pass? ==> |lists| == |rule.targets| + 1
      decreases fuel, 1, RuleSize(rule), 1
    {
      r, lists := RunTargets(rule.name, m, v, rule.targets);
      if r.Fail? {
        return;
      }
      if rule.rules != [] {
        r := RunNestedRules(fuel, m, v, rule);
      } else {
        r := RunDependents(fuel, m, v, rule);
      }
    }

    /** The targets of a rule in order, until one fails. `lists` is the
        environment before the first target and after each one that ran. */
    method RunTargets(ruleId: string, m: StructureMap, v: Variables<Base>, targets: seq<Target>)
      returns (r: Outcome, ghost lists: seq<seq<Variable<Base>>>)
      requires Valid() && VarsOk(v)
      modifies store, v
      ensures Valid() && VarsOk(v) && Grows(old(store.graph), store.graph)
      ensures targets == [] ==> r == Pass && store.graph == old(store.graph)
      ensures 0 < |lists| <= |targets| + 1 && lists[0] == old(v.list) && v.list == lists[|lists| - 1]
      ensures forall k :: 0 <= k < |lists| - 1 ==>
        lists[k + 1] == lists[k] || OutputBound(lists[k], lists[k + 1], targets[k].variable)
      ensures r.Pass? ==> |lists| == |targets| + 1
    {
      r := Pass;
      lists := [v.list];
      for k := 0 to |targets|
        invariant Valid() && VarsOk(v) && Grows(old(store.graph), store.graph)
        invariant k == 0 ==> store.graph == old(store.graph)
        invariant r == Pass
        invariant |lists| == k + 1 && lists[0] == old(v.list) && v.list == lists[k]
        invariant forall j :: 0 <= j < k ==>
          lists[j + 1] == lists[j] || OutputBound(lists[j], lists[j + 1], targets[j].variable)
      {
        r := RunTarget(ruleId, m, v, targets[k]);
        lists := lists + [v.list];
        if r.Fail? {
          return;
        }
      }
    }

    /** One round of the targets loop: what the loop keeps of
        `processTarget` is that the environment is unchanged or has the
        target variable bound. */
    method RunTarget(ruleId: string, m: StructureMap, v: Variables<Base>, tgt: Target) returns (r: Outcome)
      requires Valid() && VarsOk(v)
      modifies store, v
      ensures Valid() && VarsOk(v) && Grows(old(store.graph), store.graph)
      ensures v.list == old(v.list) || (r.Pass? && OutputBound(old(v.list), v.list, tgt.variable))
    {
      ghost var value, inner, transformed, mid;
      r, value, inner, transformed, mid := ProcessTarget(ruleId, v, m, tgt);
    }

    /** A rule's nested rules in order, each in the branch's environment,
        until one fails. */
    method RunNestedRules(fuel: nat, m: StructureMap, v: Variables<Base>, rule: Rule) returns (r: Outcome)
      requires Valid() && VarsOk(v)
      modifies store
      ensures Valid() && Grows(old(store.graph), store.graph)
      ensures rule.rules == [] ==> r == Pass && store.graph == old(store.graph)
      decreases fuel, 1, RuleSize(rule), 0
    {
      r := Pass;
      for k := 0 to |rule.rules|
        invariant Valid() && VarsOk(v) && Grows(old(store.graph), store.graph)
        invariant k == 0 ==> store.graph == old(store.graph)
        invariant r == Pass
      {
        ghost var next := store.graph.next;
        assert RuleSize(rule.rules[k]) <= RulesSize(rule.rules);
        ghost var envs;
        r, envs := ExecuteRule(fuel, m, v, rule.rules[k]);
        if r.Fail? {
          return;
        }
        VarsWithinGrow(v.list, next, store.graph.next);
      }
    }

    /** A rule's dependent invocations in order, each from the branch's
        environment, until one fails. */
    method RunDependents(fuel: nat, m: StructureMap, v: Variables<Base>, rule: Rule) returns (r: Outcome)
      requires Valid() && VarsOk(v)
      modifies store
      ensures Valid() && Grows(old(store.graph), store.graph)
      ensures rule.dependents == [] ==> r == Pass && store.graph == old(store.graph)
      decreases fuel, 1, RuleSize(rule), 0
    {
      r := Pass;
      for k := 0 to |rule.dependents|
        invariant Valid() && VarsOk(v) && Grows(old(store.graph), store.graph)
        invariant k == 0 ==> store.graph == old(store.graph)
        invariant r == Pass
      {
        ghost var next := store.graph.next;
        ghost var env;
        r, env := ExecuteDependency(fuel, m, v, rule.dependents[k]);
        if r.Fail? {
          return;
        }
        VarsWithinGrow(v.list, next, store.graph.next);
      }
    }

    /** `executeDependency`: resolves the invoked group, checks the number
        of arguments, binds the group's inputs in a new environment and runs
        the group. A failed invocation changes nothing. `env` is the
        environment the invoked group runs in. */
    method ExecuteDependency(fuel: nat, m: StructureMap, vin: Variables<Base>, d: Dependent)
      returns (r: Outcome, ghost env: seq<Variable<Base>>)
      requires Valid() && VarsOk(vin)
      modifies store
      ensures Valid() && Grows(old(store.graph), store.graph)
      ensures Invocation(library, m, d, vin.list).Err? ==>
        r == Fail(Invocation(library, m, d, vin.list).error) && store.graph == old(store.graph)
      ensures Invocation(library, m, d, vin.list).Ok? && fuel == 0 ==>
        r == Fail(Error("Invocation depth exhausted at rule '" + d.name + "'")) && store.graph == old(store.graph)
      ensures Invocation(library, m, d, vin.list).Ok? && fuel > 0 ==> env == Invocation(library, m, d, vin.list).value.1
      decreases fuel, 0, 0, 0
    {
      env := [];
      var res := FindGroup(library, m, d.name);
      if res.Err? {
        return Fail(res.error), env;
      }
      var target := res.value.group;
      if |target.inputs| != |d.variables| {
        return Fail(Error("Rule '" + d.name + "' has " + IntToString(|target.inputs|)
          + " but the invocation has " + IntToString(|d.variables|) + " variables")), env;
      }
      var v := BindArguments(d.name, target.inputs, d.variables, vin);
      if v.Err? {
        return Fail(v.error), env;
      }
      if fuel == 0 {
        return Fail(Error("Invocation depth exhausted at rule '" + d.name + "'")), env;
      }
      BindInputsWithin(d.name, target.inputs, d.variables, vin.list, store.graph.next);
      env := v.value.list;
      ghost var outcomes;
      r, outcomes := ExecuteGroup(fuel - 1, res.value.owner, v.value, target);
    }

    /** `transform`: runs the map's first group with the source value bound
        to its source input's name ("source" when it has none) and the
        target value to its target input's name ("target" when it has none). */
    method Transform(fuel: nat, source: Base, m: StructureMap, target: Base) returns (r: Outcome, ghost env: seq<Variable<Base>>)
      requires Valid() && Within(store.graph.next, source) && Within(store.graph.next, target)
      modifies store
      ensures Valid() && Grows(old(store.graph), store.graph)
      ensures m.groups == [] ==> r == Fail(Error("Index: 0, Size: 0")) && store.graph == old(store.graph)
      ensures m.groups != [] && InputName(m.groups[0].inputs, InputSource, "source").Err? ==>
        r == Fail(InputName(m.groups[0].inputs, InputSource, "source").error) && store.graph == old(store.graph)
      ensures (m.groups != [] && InputName(m.groups[0].inputs, InputSource, "source").Ok?
               && InputName(m.groups[0].inputs, InputTarget, "target").Err?) ==>
        r == Fail(InputName(m.groups[0].inputs, InputTarget, "target").error) && store.graph == old(store.graph)
      ensures (m.groups != [] && InputName(m.groups[0].inputs, InputSource, "source").Ok?
               && InputName(m.groups[0].inputs, InputTarget, "target").Ok?) ==>
        env == Bind(Bind([], VariableMode.Input, InputName(m.groups[0].inputs, InputSource, "source").value, source),
                    Output, InputName(m.groups[0].inputs, InputTarget, "target").value, target)
    {
      env := [];
      if m.groups == [] {
        return Fail(Error("Index: 0, Size: 0")), env;
      }
      var g := m.groups[0];
      var vars := new Variables<Base>();
      var sourceName := GetInputName(g.inputs, InputSource, "source");
      if sourceName.Err? {
        return Fail(sourceName.error), env;
      }
      BindWithin(vars.list, VariableMode.Input, sourceName.value, source, store.graph.next);
      vars.Add(VariableMode.Input, sourceName.value, source);
      var targetName := GetInputName(g.inputs, InputTarget, "target");
      if targetName.Err? {
        return Fail(targetName.error), env;
      }
      BindWithin(vars.list, Output, targetName.value, target, store.graph.next);
      vars.Add(Output, targetName.value, target);
      env := vars.list;
      ghost var outcomes;
      r, outcomes := ExecuteGroup(fuel, m, vars, g);
    }
  }
}

=== FILE: parser.dfy ===
/** The recursive-descent parser of the mapping language: it reads a
    StructureMap (header, embedded concept maps, uses, imports, groups,
    rules, sources, targets, parameters and dependent invocations) from a
    token stream, advancing the lexer's cursor. */
module Parser {
  import opened Wrappers
  import opened Text
  import opened Ast
  import opened Tokens
  import Render

  // ---------------------------------------------------------------------
  // Concept-map equivalence operators

  /** The operator that stands for each equivalence. */
  function EquivalenceToken(e: Equivalence): string {
    match e
    case Equal => "="
    case Equivalent => "=="
    case Disjoint => "!="
    case Unmatched => "--"
    case Wider => "<="
    case Subsumes => "<-"
    case Narrower => ">="
    case Specializes => ">-"
    case Inexact => "~"
  }

  /** readEquivalence on a token: the nine operators map one-to-one onto the
      nine equivalences; any other token is an error. */
  function EquivalenceOfToken(t: string): (r: Result<Equivalence>)
    ensures r.Ok? ==> EquivalenceToken(r.value) == t
    ensures r.Err? <==> forall e: Equivalence :: EquivalenceToken(e) != t
    ensures r.Err? ==> r.error == Error("Unknown equivalence token '" + t + "'")
  {
    if t == "=" then Ok(Equal)
    else if t == "==" then Ok(Equivalent)
    else if t == "!=" then Ok(Disjoint)
    else if t == "--" then Ok(Unmatched)
    else if t == "<=" then Ok(Wider)
    else if t == "<-" then Ok(Subsumes)
    else if t == ">=" then Ok(Narrower)
    else if t == ">-" then Ok(Specializes)
    else if t == "~" then Ok(Inexact)
    else Fails("Unknown equivalence token '" + t + "'")
  }

  /** Every equivalence reads back from its operator, and no two share one. */
  lemma EquivalenceTokenRoundTrip(e: Equivalence, f: Equivalence)
    ensures EquivalenceOfToken(EquivalenceToken(e)) == Ok(e)
    ensures EquivalenceToken(e) == EquivalenceToken(f) ==> e == f
  {
  }

  /** The equivalence operator at c. */
  function EquivalenceAt(ts: seq<string>, c: nat): (r: Result<(Equivalence, nat)>)
    ensures r.Ok? <==> c < |ts| && EquivalenceOfToken(ts[c]).Ok?
    ensures r.Ok? ==> r.value == (EquivalenceOfToken(ts[c]).value, c + 1)
  {
    var t :- TakeAt(ts, c);
    var e :- EquivalenceOfToken(t.0);
    Ok((e, t.1))
  }

  method ReadEquivalence(lexer: Lexer) returns (r: Result<Equivalence>)
    requires lexer.Valid()
    modifies lexer
    ensures lexer.Valid()
    ensures r.Ok? ==>
      && lexer.cursor == old(lexer.cursor) + 1
      && r == EquivalenceOfToken(lexer.tokens[old(lexer.cursor)])
    ensures Parsed(r, lexer.cursor) == EquivalenceAt(lexer.tokens, old(lexer.cursor))
  {
    var token :- lexer.Take();
    r := EquivalenceOfToken(token);
  }

  // ---------------------------------------------------------------------
  // Constants and transform parameters

  /** readConstant(s): an integer, a decimal, a boolean, or else a string. */
  function ConstantValue(s: string): (p: ParamValue)
    ensures IsInteger(s) ==> p == IntParam(s)
    ensures p.DecimalParam? <==> !IsInteger(s) && IsDecimal(s)
    ensures p.BoolParam? <==> !IsInteger(s) && !IsDecimal(s) && (s == "true" || s == "false")
    ensures p.StringParam? ==> p.s == ProcessConstant(s)
  {
    if IsInteger(s) then IntParam(s)
    else if IsDecimal(s) then DecimalParam(s)
    else if s == "true" || s == "false" then BoolParam(s == "true")
    else StringParam(ProcessConstant(s))
  }

  /** parseParameter on a token: a name that is not a literal is a variable
      reference, a quoted string is a string, anything else a constant. */
  function ParameterOfToken(t: string): ParamValue {
    if !IsConstantToken(t, true) then IdParam(t)
    else if IsStringConstantToken(t) then StringParam(ProcessConstant(t))
    else ConstantValue(t)
  }

  predicate NeedsEscape(c: char) {
    c == '\r' || c == '\n' || c == '"' || c == '\\'
  }

  /** The parameters whose written form reads back as the same parameter. */
  predicate WellFormedParam(p: ParamValue) {
    match p
    case IdParam(id) => id != "" && !IsConstantToken(id, true)
    case StringParam(s) => forall i :: 0 <= i < |s| ==> !NeedsEscape(s[i])
    case BoolParam(_) => true
    case IntParam(digits) => IsInteger(digits)
    case DecimalParam(text) =>
      IsDecimal(text) && !IsInteger(text) && text != "" && (IsDigit(text[0]) || text[0] == '-' || text[0] == '+')
  }

  lemma {:induction false} EscapeJavaPlain(s: string)
    requires forall i :: 0 <= i < |s| ==> !NeedsEscape(s[i])
    ensures EscapeJava(s) == s
    decreases |s|
  {
    if s != [] {
      EscapeJavaPlain(s[1..]);
    }
  }

  /** A parameter as the renderer writes it is read back by the parser as the
      same parameter. */
  lemma {:induction false} ParameterRoundTrip(p: ParamValue)
    requires WellFormedParam(p)
    ensures ParameterOfToken(Render.ParamText(p)) == p
  {
    match p
    case StringParam(s) =>
      EscapeJavaPlain(s);
      var t := "\"" + s + "\"";
      assert Render.ParamText(p) == t;
      assert ProcessConstant(t) == s;
    case BoolParam(b) =>
      var t := if b then "true" else "false";
      assert !IsDecimal(t) by {
        assert !IsDigit(t[0]) && !IsDigit(t[1]) && !IsDigit(t[2]) && !IsDigit(t[3]);
        if b {
          assert forall i :: 0 <= i < |t| ==> !IsDigit(t[i]);
        } else {
          assert !IsDigit(t[4]);
          assert forall i :: 0 <= i < |t| ==> !IsDigit(t[i]);
        }
      }
    case IntParam(digits) =>
      assert IsConstantToken(digits, true) by {
        if digits[0] != '-' && digits[0] != '+' {
          assert AllDigits(digits);
        }
      }
    case IdParam(_) =>
    case DecimalParam(_) =>
  }

  /** The parameter at c. */
  function ParameterAt(ts: seq<string>, c: nat): (r: Result<(ParamValue, nat)>)
    ensures r.Ok? <==> c < |ts|
    ensures r.Ok? ==> r.value == (ParameterOfToken(ts[c]), c + 1)
  {
    var t :- TakeAt(ts, c);
    Ok((ParameterOfToken(t.0), t.1))
  }

  method ParseParameter(lexer: Lexer) returns (r: Result<ParamValue>)
    requires lexer.Valid()
    modifies lexer
    ensures lexer.Valid()
    ensures old(lexer.cursor) < |lexer.tokens| ==>
      r == Ok(ParameterOfToken(lexer.tokens[old(lexer.cursor)])) && lexer.cursor == old(lexer.cursor) + 1
    ensures old(lexer.cursor) == |lexer.tokens| ==> r.Err? && lexer.cursor == old(lexer.cursor)
    ensures Parsed(r, lexer.cursor) == ParameterAt(lexer.tokens, old(lexer.cursor))
  {
    if !lexer.IsConstant(true) {
      var id :- lexer.Take();
      r := Ok(IdParam(id));
    } else if lexer.IsStringConstant() {
      var t := lexer.Advance();
      r := Ok(StringParam(ProcessConstant(t)));
    } else {
      var t := lexer.Advance();
      r := Ok(ConstantValue(t));
    }
  }

  // ---------------------------------------------------------------------
  // Embedded concept maps

  /** getGroup's test. A blank target system is stored as absent, and an
      absent target never equals the one asked for. */
  predicate GroupMatches(g: ConceptMapGroup, srcs: string, tgts: string) {
    g.source == srcs && tgts != "" && g.target == tgts
  }

  /** The position of the first group for these systems, or |groups|. */
  function GroupIndex(groups: seq<ConceptMapGroup>, srcs: string, tgts: string): (i: nat)
    ensures i <= |groups|
    ensures i < |groups| ==> GroupMatches(groups[i], srcs, tgts)
    ensures forall j :: 0 <= j < i ==> !GroupMatches(groups[j], srcs, tgts)
    decreases |groups|
  {
    if groups == [] then 0
    else if GroupMatches(groups[0], srcs, tgts) then 0
    else 1 + GroupIndex(groups[1..], srcs, tgts)
  }

  /** getGroup followed by addElement: the element joins the first group for
      its systems, or a new group at the end when there is none. */
  function AddEntry(groups: seq<ConceptMapGroup>, srcs: string, tgts: string, e: SourceElement): (r: seq<ConceptMapGroup>)
    ensures var i := GroupIndex(groups, srcs, tgts);
      && (i < |groups| ==> |r| == |groups| && r[i] == groups[i].(elements := groups[i].elements + [e]))
      && (i == |groups| ==> r == groups + [ConceptMapGroup(srcs, tgts, [e])])
      && forall j :: 0 <= j < |groups| && j != i ==> r[j] == groups[j]
  {
    var i := GroupIndex(groups, srcs, tgts);
    if i < |groups| then groups[i := groups[i].(elements := groups[i].elements + [e])]
    else groups + [ConceptMapGroup(srcs, tgts, [e])]
  }

  /** The number of entries in all groups. */
  function EntryCount(groups: seq<ConceptMapGroup>): nat
    decreases |groups|
  {
    if groups == [] then 0 else EntryCount(groups[..|groups| - 1]) + |groups[|groups| - 1].elements|
  }

  lemma {:induction false} EntryCountUpdate(groups: seq<ConceptMapGroup>, i: nat, g: ConceptMapGroup)
    requires i < |groups|
    ensures EntryCount(groups[i := g]) == EntryCount(groups) - |groups[i].elements| + |g.elements|
    decreases |groups|
  {
    var n := |groups| - 1;
    if i < n {
      EntryCountUpdate(groups[..n], i, g);
      assert groups[i := g][..n] == groups[..n][i := g];
    } else {
      assert groups[i := g][..n] == groups[..n];
    }
  }

  /** Every entry read is kept: adding one entry adds one to the total. */
  lemma AddEntryCounts(groups: seq<ConceptMapGroup>, srcs: string, tgts: string, e: SourceElement)
    ensures EntryCount(AddEntry(groups, srcs, tgts, e)) == EntryCount(groups) + 1
  {
    var i := GroupIndex(groups, srcs, tgts);
    if i < |groups| {
      EntryCountUpdate(groups, i, groups[i].(elements := groups[i].elements + [e]));
    } else {
      assert (groups + [ConceptMapGroup(srcs, tgts, [e])])[..|groups|] == groups;
    }
  }

  /** The system a declared prefix at c stands for. */
  function PrefixAt(prefixes: map<string, string>, ts: seq<string>, c: nat): (r: Result<(string, nat)>)
    ensures r.Ok? <==> c < |ts| && ts[c] in prefixes
    ensures r.Ok? ==> r.value == (prefixes[ts[c]], c + 1)
    ensures c < |ts| && ts[c] !in prefixes ==> r == Fails("Unknown prefix '" + ts[c] + "'")
  {
    var t :- TakeAt(ts, c);
    if t.0 in prefixes then Ok((prefixes[t.0], t.1)) else Fails("Unknown prefix '" + t.0 + "'")
  }

  /** readPrefix: a declared prefix stands for its system URL. */
  method ReadPrefix(prefixes: map<string, string>, lexer: Lexer) returns (r: Result<string>)
    requires lexer.Valid()
    modifies lexer
    ensures lexer.Valid()
    ensures r.Ok? ==>
      && lexer.cursor == old(lexer.cursor) + 1
      && lexer.tokens[old(lexer.cursor)] in prefixes
      && r.value == prefixes[lexer.tokens[old(lexer.cursor)]]
    ensures old(lexer.cursor) < |lexer.tokens| && lexer.tokens[old(lexer.cursor)] !in prefixes ==>
      r == Fails("Unknown prefix '" + lexer.tokens[old(lexer.cursor)] + "'")
    ensures Parsed(r, lexer.cursor) == PrefixAt(prefixes, lexer.tokens, old(lexer.cursor))
  {
    var prefix :- lexer.Take();
    if prefix !in prefixes {
      return Fails("Unknown prefix '" + prefix + "'");
    }
    r := Ok(prefixes[prefix]);
  }

  /** An embedded concept map read from c. */
  function ConceptMapAt(ts: seq<string>, c: nat): (r: Result<(ConceptMap, nat)>)
    requires c <= |ts|
    ensures MovesWithin(r, ts, c)
  {
    var keyword :- KeywordAt(ts, c, "conceptmap");
    var id :- ConstantAt(ts, keyword, "map id");
    if id.0 == "" then Fails("String index out of range: -1")
    else ConceptMapBodyAt(ts, id.1, id.0[1..])
  }

  /** The body `{ prefixes entries }` of the concept map named `mapId`. */
  function ConceptMapBodyAt(ts: seq<string>, c: nat, mapId: string): (r: Result<(ConceptMap, nat)>)
    requires c <= |ts|
    ensures MovesWithin(r, ts, c)
    ensures r.Ok? ==> r.value.0.id == Some(mapId)
  {
    var open :- KeywordAt(ts, c, "{");
    var prefixes :- PrefixesFrom(ts, CommentsEnd(ts, open), map[]);
    var groups :- EntriesFrom(ts, prefixes.1, prefixes.0, []);
    Ok((ConceptMap(Some(mapId), groups.0), groups.1))
  }

  /** An embedded concept map: `conceptmap "#id" { prefix declarations, then
      entries "s:code op t:code" }`. The identifier loses its first character,
      whatever it is: the check that it is '#' builds an error it never raises. */
  method ParseConceptMap(lexer: Lexer) returns (r: Result<ConceptMap>)
    requires lexer.Valid()
    modifies lexer
    ensures lexer.Valid()
    ensures r.Ok? ==>
      && old(lexer.cursor) + 1 < lexer.cursor
      && lexer.tokens[old(lexer.cursor)] == "conceptmap"
      && IsStringConstantToken(lexer.tokens[old(lexer.cursor) + 1])
      && |ProcessConstant(lexer.tokens[old(lexer.cursor) + 1])| > 0
      && r.value.id == Some(ProcessConstant(lexer.tokens[old(lexer.cursor) + 1])[1..])
    ensures r.Ok? ==> lexer.tokens[lexer.cursor - 1] == "}"
    ensures Parsed(r, lexer.cursor) == ConceptMapAt(lexer.tokens, old(lexer.cursor))
  {
    ghost var start := lexer.cursor;
    var keyword := lexer.Token("conceptmap");
    if keyword.Fail? {
      return Err(keyword.error);
    }
    var id :- lexer.ReadConstant("map id");
    assert lexer.tokens[start] == "conceptmap" && lexer.cursor == start + 2;
    assert IsStringConstantToken(lexer.tokens[start + 1]) && id == ProcessConstant(lexer.tokens[start + 1]);
    if id == "" {
      return Fails("String index out of range: -1");
    }
    r := ParseConceptMapBody(lexer, id[1..]);
  }

  method ParseConceptMapBody(lexer: Lexer, mapId: string) returns (r: Result<ConceptMap>)
    requires lexer.Valid()
    modifies lexer
    ensures lexer.Valid()
    ensures r.Ok? ==> 0 < lexer.cursor && lexer.tokens[lexer.cursor - 1] == "}"
    ensures Parsed(r, lexer.cursor) == ConceptMapBodyAt(lexer.tokens, old(lexer.cursor), mapId)
  {
    var open := lexer.Token("{");
    if open.Fail? {
      return Err(open.error);
    }
    lexer.SkipComments();
    var prefixes :- ParsePrefixes(lexer);
    var groups :- ParseConceptMapEntries(lexer, prefixes);
    r := Ok(ConceptMap(Some(mapId), groups));
  }

  /** The declarations `prefix name = "url"` from c, each added to
      `prefixes` in turn, so a name declared twice keeps its last URL. */
  function PrefixesFrom(ts: seq<string>, c: nat, prefixes: map<string, string>): (r: Result<(map<string, string>, nat)>)
    requires c <= |ts|
    ensures StopsWithin(r, ts, c)
    ensures r.Ok? ==> TokenAt(ts, r.value.1) != "prefix" && prefixes.Keys <= r.value.0.Keys
    ensures TokenAt(ts, c) != "prefix" ==> r == Ok((prefixes, c))
    decreases |ts| - c
  {
    if TokenAt(ts, c) == "prefix" then
      var name :- TakeAt(ts, c + 1);
      var equals :- KeywordAt(ts, name.1, "=");
      var url :- ConstantAt(ts, equals, "prefix url");
      PrefixesFrom(ts, url.1, prefixes[name.0 := url.0])
    else Ok((prefixes, c))
  }

  /** One declaration binds its name to the URL without its quotes. */
  lemma PrefixDeclaration(ts: seq<string>, c: nat, prefixes: map<string, string>)
    requires c + 4 <= |ts| && ts[c] == "prefix" && ts[c + 2] == "=" && IsStringConstantToken(ts[c + 3])
    requires TokenAt(ts, c + 4) != "prefix"
    ensures PrefixesFrom(ts, c, prefixes) == Ok((prefixes[ts[c + 1] := ProcessConstant(ts[c + 3])], c + 4))
  {
    assert PrefixesFrom(ts, c + 4, prefixes[ts[c + 1] := ProcessConstant(ts[c + 3])])
        == Ok((prefixes[ts[c + 1] := ProcessConstant(ts[c + 3])], c + 4));
  }

  /** The `prefix name = "url"` declarations at the head of a concept map. */
  method ParsePrefixes(lexer: Lexer) returns (r: Result<map<string, string>>)
    requires lexer.Valid()
    modifies lexer
    ensures lexer.Valid() && old(lexer.cursor) <= lexer.cursor
    ensures r.Ok? ==> !lexer.HasToken("prefix")
    ensures Parsed(r, lexer.cursor) == PrefixesFrom(lexer.tokens, old(lexer.cursor), map[])
  {
    var prefixes: map<string, string> := map[];
    while lexer.HasToken("prefix")
      invariant lexer.Valid() && old(lexer.cursor) <= lexer.cursor
      invariant PrefixesFrom(lexer.tokens, old(lexer.cursor), map[]) == PrefixesFrom(lexer.tokens, lexer.cursor, prefixes)
      decreases |lexer.tokens| - lexer.cursor
    {
      lexer.SkipToken("prefix");
      var n :- lexer.Take();
      :- lexer.Token("=");
      var v :- lexer.ReadConstant("prefix url");
      prefixes := prefixes[n := v];
    }
    r := Ok(prefixes);
  }

  /** One concept-map entry as read: the source system, the target system
      ("" for none) and the source element with its one target. */
  datatype Entry = Entry(source: string, target: string, element: SourceElement)

  /** The code after the target system: `: code`. */
  function TargetCodeAt(ts: seq<string>, c: nat): (r: Result<(string, nat)>)
    ensures r.Ok? <==> TokenAt(ts, c) == ":" && c + 1 < |ts|
    ensures r.Ok? ==> r.value == (ts[c + 1], c + 2)
  {
    var colon :- KeywordAt(ts, c, ":");
    TakeAt(ts, colon)
  }

  /** The entry `s:code op t:code [comment]` at c. `--` (unmatched) reads
      no target system and no target code; `==` (equivalent) leaves the
      equivalence unset. */
  function EntryAt(ts: seq<string>, c: nat, prefixes: map<string, string>): (r: Result<(Entry, nat)>)
    requires c <= |ts|
    ensures MovesWithin(r, ts, c)
  {
    var srcs :- PrefixAt(prefixes, ts, c);
    var colon :- KeywordAt(ts, srcs.1, ":");
    var sc :- TakeAt(ts, colon);
    var eq :- EquivalenceAt(ts, sc.1);
    var tgts :- if eq.0 != Unmatched then PrefixAt(prefixes, ts, eq.1) else Ok(("", eq.1));
    var equivalence := if eq.0 == Equivalent then None else Some(eq.0);
    var code :- if equivalence != Some(Unmatched) then TargetCodeAt(ts, tgts.1) else Ok(("", tgts.1));
    var comment := CommentAt(ts, code.1);
    Ok((Entry(srcs.0, tgts.0, SourceElement(sc.0, [TargetElement(code.0, equivalence, comment.0)])), comment.1))
  }

  /** An entry with a target: `s:code op t:code`, the operator any but `--`. */
  lemma EntryWithTarget(ts: seq<string>, c: nat, prefixes: map<string, string>, e: Equivalence)
    requires c + 7 <= |ts| && e != Unmatched
    requires ts[c] in prefixes && ts[c + 1] == ":" && ts[c + 3] == EquivalenceToken(e)
    requires ts[c + 4] in prefixes && ts[c + 5] == ":" && !IsComment(TokenAt(ts, c + 7))
    ensures EntryAt(ts, c, prefixes) == Ok((Entry(prefixes[ts[c]], prefixes[ts[c + 4]],
      SourceElement(ts[c + 2], [TargetElement(ts[c + 6], if e == Equivalent then None else Some(e), "")])), c + 7))
  {
    EquivalenceTokenRoundTrip(e, e);
  }

  /** An unmatched entry `s:code --` has no target system and no target code. */
  lemma EntryUnmatched(ts: seq<string>, c: nat, prefixes: map<string, string>)
    requires c + 4 <= |ts|
    requires ts[c] in prefixes && ts[c + 1] == ":" && ts[c + 3] == "--" && !IsComment(TokenAt(ts, c + 4))
    ensures EntryAt(ts, c, prefixes) == Ok((Entry(prefixes[ts[c]], "",
      SourceElement(ts[c + 2], [TargetElement("", Some(Unmatched), "")])), c + 4))
  {
  }

  /** The entries from c up to and including the closing `}`, each added
      to `groups` by `AddEntry` in the order read. */
  function EntriesFrom(ts: seq<string>, c: nat, prefixes: map<string, string>, groups: seq<ConceptMapGroup>)
    : (r: Result<(seq<ConceptMapGroup>, nat)>)
    requires c <= |ts|
    ensures MovesWithin(r, ts, c)
    ensures r.Ok? ==> ts[r.value.1 - 1] == "}"
    decreases |ts| - c
  {
    if TokenAt(ts, c) == "}" then Ok((groups, c + 1))
    else
      var e :- EntryAt(ts, c, prefixes);
      EntriesFrom(ts, e.1, prefixes, AddEntry(groups, e.0.source, e.0.target, e.0.element))
  }

  /** The entries from c up to and including the closing `}`, as a list. */
  function EntryListFrom(ts: seq<string>, c: nat, prefixes: map<string, string>, entries: seq<Entry>)
    : (r: Result<(seq<Entry>, nat)>)
    requires c <= |ts|
    ensures MovesWithin(r, ts, c)
    decreases |ts| - c
  {
    if TokenAt(ts, c) == "}" then Ok((entries, c + 1))
    else
      var e :- EntryAt(ts, c, prefixes);
      EntryListFrom(ts, e.1, prefixes, entries + [e.0])
  }

  /** The groups the entries make, added one by one to `groups`. */
  function Grouped(groups: seq<ConceptMapGroup>, entries: seq<Entry>): seq<ConceptMapGroup>
    decreases |entries|
  {
    if entries == [] then groups
    else
      var e := entries[|entries| - 1];
      AddEntry(Grouped(groups, entries[..|entries| - 1]), e.source, e.target, e.element)
  }

  /** The groups of a concept map are its list of entries, grouped: reading
      the entries into groups is reading them as a list, then grouping. */
  lemma {:induction false} EntriesAreGrouped(ts: seq<string>, c: nat, prefixes: map<string, string>,
                                             groups: seq<ConceptMapGroup>, entries: seq<Entry>)
    requires c <= |ts|
    ensures var l := EntryListFrom(ts, c, prefixes, entries);
      EntriesFrom(ts, c, prefixes, Grouped(groups, entries))
        == if l.Ok? then Ok((Grouped(groups, l.value.0), l.value.1)) else Err(l.error)
    decreases |ts| - c
  {
    if TokenAt(ts, c) != "}" {
      var e := EntryAt(ts, c, prefixes);
      if e.Ok? {
        var entry := e.value.0;
        assert (entries + [entry])[..|entries|] == entries;
        assert Grouped(groups, entries + [entry]) == AddEntry(Grouped(groups, entries), entry.source, entry.target, entry.element);
        EntriesAreGrouped(ts, e.value.1, prefixes, groups, entries + [entry]);
      }
    }
  }

  /** Grouping keeps every entry: the groups hold one element per entry. */
  lemma {:induction false} GroupedCount(groups: seq<ConceptMapGroup>, entries: seq<Entry>)
    ensures EntryCount(Grouped(groups, entries)) == EntryCount(groups) + |entries|
    decreases |entries|
  {
    if entries != [] {
      var e := entries[|entries| - 1];
      GroupedCount(groups, entries[..|entries| - 1]);
      AddEntryCounts(Grouped(groups, entries[..|entries| - 1]), e.source, e.target, e.element);
    }
  }

  /** One entry: `s:code op t:code [comment]`. */
  method ParseEntry(lexer: Lexer, prefixes: map<string, string>) returns (r: Result<Entry>)
    requires lexer.Valid()
    modifies lexer
    ensures lexer.Valid()
    ensures Parsed(r, lexer.cursor) == EntryAt(lexer.tokens, old(lexer.cursor), prefixes)
  {
    var srcs := ReadPrefix(prefixes, lexer);
    if srcs.Err? {
      return Err(srcs.error);
    }
    :- lexer.Token(":");
    var sc :- lexer.Take();
    var eq :- ReadEquivalence(lexer);
    var tgts := "";
    if eq != Unmatched {
      tgts :- ReadPrefix(prefixes, lexer);
    }
    var equivalence := if eq == Equivalent then None else Some(eq);
    var code := "";
    if equivalence != Some(Unmatched) {
      :- lexer.Token(":");
      code :- lexer.Take();
    }
    var comments := ReadComment(lexer);
    r := Ok(Entry(srcs.value, tgts, SourceElement(sc, [TargetElement(code, equivalence, comments)])));
  }

  /** The entries `s:code op t:code` of a concept map, up to and including its
      closing `}`; entries sharing source and target systems share a group. */
  method ParseConceptMapEntries(lexer: Lexer, prefixes: map<string, string>) returns (r: Result<seq<ConceptMapGroup>>)
    requires lexer.Valid()
    modifies lexer
    ensures lexer.Valid()
    ensures r.Ok? ==> old(lexer.cursor) < lexer.cursor && lexer.tokens[lexer.cursor - 1] == "}"
    ensures Parsed(r, lexer.cursor) == EntriesFrom(lexer.tokens, old(lexer.cursor), prefixes, [])
  {
    var groups: seq<ConceptMapGroup> := [];
    while !lexer.HasToken("}")
      invariant lexer.Valid() && old(lexer.cursor) <= lexer.cursor
      invariant EntriesFrom(lexer.tokens, old(lexer.cursor), prefixes, []) == EntriesFrom(lexer.tokens, lexer.cursor, prefixes, groups)
      decreases |lexer.tokens| - lexer.cursor
    {
      var e :- ParseEntry(lexer, prefixes);
      groups := AddEntry(groups, e.source, e.target, e.element);
    }
    lexer.SkipToken("}");
    r := Ok(groups);
  }

  // ---------------------------------------------------------------------
  // Uses, imports, groups and inputs

  /** The text of a comment at the cursor, which is consumed, or "" when the
      current token is not a comment. */
  method ReadComment(lexer: Lexer) returns (text: string)
    requires lexer.Valid()
    modifies lexer
    ensures lexer.Valid()
    ensures old(lexer.HasComment()) ==>
      text == CommentText(lexer.tokens[old(lexer.cursor)]) && lexer.cursor == old(lexer.cursor) + 1
    ensures !old(lexer.HasComment()) ==> text == "" && lexer.cursor == old(lexer.cursor)
    ensures (text, lexer.cursor) == CommentAt(lexer.tokens, old(lexer.cursor))
  {
    text := "";
    if lexer.HasComment() {
      var c := lexer.Advance();
      text := CommentText(c);
    }
  }

  /** `uses "url" as mode [;] [comment]` at c: the comment documents the
      structure, and the comments after it are skipped. */
  function UsesAt(ts: seq<string>, c: nat): (r: Result<(Structure, nat)>)
    requires c <= |ts| && NonEmptyTokens(ts)
    ensures MovesWithin(r, ts, c)
  {
    var keyword :- KeywordAt(ts, c, "uses");
    var url :- ConstantAt(ts, keyword, "url");
    var as_ :- KeywordAt(ts, url.1, "as");
    var code :- TakeAt(ts, as_);
    var mode :- ModelModeFromCode(code.0);
    assert mode.Some?;
    var doc := CommentAt(ts, SkipAt(ts, code.1, ";"));
    Ok((Structure(url.0, mode.value, doc.0), CommentsEnd(ts, doc.1)))
  }

  method ParseUses(lexer: Lexer) returns (r: Result<Structure>)
    requires lexer.Valid()
    modifies lexer
    ensures lexer.Valid()
    ensures r.Ok? ==>
      && old(lexer.cursor) + 4 <= lexer.cursor
      && lexer.tokens[old(lexer.cursor)] == "uses"
      && IsStringConstantToken(lexer.tokens[old(lexer.cursor) + 1])
      && r.value.url == ProcessConstant(lexer.tokens[old(lexer.cursor) + 1])
      && lexer.tokens[old(lexer.cursor) + 2] == "as"
      && ModelModeCode(r.value.mode) == lexer.tokens[old(lexer.cursor) + 3]
    ensures Parsed(r, lexer.cursor) == UsesAt(lexer.tokens, old(lexer.cursor))
  {
    var keyword := lexer.Token("uses");
    if keyword.Fail? {
      return Err(keyword.error);
    }
    var url :- lexer.ReadConstant("url");
    :- lexer.Token("as");
    var code :- lexer.Take();
    var mode :- ModelModeFromCode(code);
    assert mode.Some?;
    lexer.SkipToken(";");
    var documentation := ReadComment(lexer);
    lexer.SkipComments();
    r := Ok(Structure(url, mode.value, documentation));
  }

  /** `imports "url" [;]` at c, and the comments after it. */
  function ImportsAt(ts: seq<string>, c: nat): (r: Result<(string, nat)>)
    requires c <= |ts|
    ensures MovesWithin(r, ts, c)
  {
    var keyword :- KeywordAt(ts, c, "imports");
    var url :- ConstantAt(ts, keyword, "url");
    Ok((url.0, CommentsEnd(ts, SkipAt(ts, url.1, ";"))))
  }

  method ParseImports(lexer: Lexer) returns (r: Result<string>)
    requires lexer.Valid()
    modifies lexer
    ensures lexer.Valid()
    ensures r.Ok? ==>
      && old(lexer.cursor) + 2 <= lexer.cursor
      && lexer.tokens[old(lexer.cursor)] == "imports"
      && IsStringConstantToken(lexer.tokens[old(lexer.cursor) + 1])
      && r.value == ProcessConstant(lexer.tokens[old(lexer.cursor) + 1])
    ensures Parsed(r, lexer.cursor) == ImportsAt(lexer.tokens, old(lexer.cursor))
  {
    var keyword := lexer.Token("imports");
    if keyword.Fail? {
      return Err(keyword.error);
    }
    var url :- lexer.ReadConstant("url");
    lexer.SkipToken(";");
    if lexer.HasComment() {
      lexer.Next();
    }
    lexer.SkipComments();
    r := Ok(url);
  }

  /** The tokens an input declaration is made of, up to its mode. */
  function InputTokens(i: Input): seq<string> {
    ["input", i.name] + (if i.typeName != "" then [":", i.typeName] else []) + ["as", InputModeCode(i.mode)]
  }

  /** An optional `keyword t` at c, as in `: type` of an input and `as v`
      of a source or target: the token t after the keyword, or "" and
      nothing read when the keyword is not there. */
  function OptionalTokenAt(ts: seq<string>, c: nat, keyword: string): (r: Result<(string, nat)>)
    ensures TokenAt(ts, c) != keyword ==> r == Ok(("", c))
    ensures TokenAt(ts, c) == keyword ==> r == TakeAt(ts, c + 1)
  {
    if TokenAt(ts, c) == keyword then TakeAt(ts, c + 1) else Ok(("", c))
  }

  /** The optional `: type` of an input declaration; "" when it is absent. */
  method ReadInputType(lexer: Lexer) returns (r: Result<string>)
    requires lexer.Valid()
    modifies lexer
    ensures lexer.Valid()
    ensures r.Ok? ==>
      && old(lexer.cursor) <= lexer.cursor
      && lexer.tokens[old(lexer.cursor)..lexer.cursor] == (if r.value != "" then [":", r.value] else [])
    ensures Parsed(r, lexer.cursor) == OptionalTokenAt(lexer.tokens, old(lexer.cursor), ":")
  {
    if !lexer.HasToken(":") {
      return Ok("");
    }
    lexer.SkipToken(":");
    var typeName :- lexer.Take();
    r := Ok(typeName);
  }

  /** The three runs of tokens of an input declaration make up its tokens. */
  lemma InputHeadTokens(ts: seq<string>, start: nat, mid: nat, end: nat, i: Input)
    requires start + 2 <= mid <= end <= |ts|
    requires ts[start..start + 2] == ["input", i.name]
    requires ts[start + 2..mid] == (if i.typeName != "" then [":", i.typeName] else [])
    requires ts[mid..end] == ["as", InputModeCode(i.mode)]
    ensures end - start == |InputTokens(i)| && ts[start..end] == InputTokens(i)
  {
    assert ts[start..end] == ts[start..start + 2] + ts[start + 2..mid] + ts[mid..end];
  }

  /** The input mode named by the token at c. */
  function InputModeAt(ts: seq<string>, c: nat): (r: Result<(InputMode, nat)>)
    requires NonEmptyTokens(ts)
    ensures r.Ok? ==> c < |ts| && InputModeCode(r.value.0) == ts[c] && r.value.1 == c + 1
  {
    var code :- TakeAt(ts, c);
    var mode :- InputModeFromCode(code.0);
    assert mode.Some?;
    Ok((mode.value, code.1))
  }

  /** `InputMode.fromCode(take())`: the token names an input mode. */
  method ReadInputMode(lexer: Lexer) returns (r: Result<InputMode>)
    requires lexer.Valid()
    modifies lexer
    ensures lexer.Valid()
    ensures r.Ok? ==> lexer.cursor == old(lexer.cursor) + 1 && InputModeCode(r.value) == lexer.tokens[old(lexer.cursor)]
    ensures Parsed(r, lexer.cursor) == InputModeAt(lexer.tokens, old(lexer.cursor))
  {
    var code :- lexer.Take();
    var mode :- InputModeFromCode(code);
    assert mode.Some?;
    r := Ok(mode.value);
  }

  /** `input name [: type] as mode` at c. */
  function InputHeadAt(ts: seq<string>, c: nat): (r: Result<(Input, nat)>)
    requires NonEmptyTokens(ts)
    ensures r.Ok? ==> c < r.value.1 <= |ts| && r.value.0.documentation == ""
  {
    var keyword :- KeywordAt(ts, c, "input");
    var name :- TakeAt(ts, keyword);
    var typeName :- OptionalTokenAt(ts, name.1, ":");
    var as_ :- KeywordAt(ts, typeName.1, "as");
    var mode :- InputModeAt(ts, as_);
    Ok((Input(name.0, typeName.0, mode.0, ""), mode.1))
  }

  /** `input name [: type] as mode`: the declaration up to its mode. */
  method ParseInputHead(lexer: Lexer) returns (r: Result<Input>)
    requires lexer.Valid()
    modifies lexer
    ensures lexer.Valid()
    ensures r.Ok? ==>
      && r.value.documentation == ""
      && old(lexer.cursor) + |InputTokens(r.value)| == lexer.cursor
      && lexer.tokens[old(lexer.cursor)..lexer.cursor] == InputTokens(r.value)
    ensures Parsed(r, lexer.cursor) == InputHeadAt(lexer.tokens, old(lexer.cursor))
  {
    ghost var start := lexer.cursor;
    :- lexer.Token("input");
    var name :- lexer.Take();
    SlicePair(lexer.tokens, start);
    var typeName :- ReadInputType(lexer);
    ghost var mid := lexer.cursor;
    :- lexer.Token("as");
    var mode :- ReadInputMode(lexer);
    SlicePair(lexer.tokens, mid);
    InputHeadTokens(lexer.tokens, start, mid, lexer.cursor, Input(name, typeName, mode, ""));
    r := Ok(Input(name, typeName, mode, ""));
  }

  /** An input declaration at c: its head, a comment that documents it, an
      optional `;` and the comments after it. */
  function InputAt(ts: seq<string>, c: nat): (r: Result<(Input, nat)>)
    requires NonEmptyTokens(ts)
    ensures MovesWithin(r, ts, c)
  {
    var head :- InputHeadAt(ts, c);
    var doc := CommentAt(ts, head.1);
    Ok((head.0.(documentation := doc.0), CommentsEnd(ts, SkipAt(ts, doc.1, ";"))))
  }

  /** An input declaration with its trailing comment as documentation. */
  method ParseInput(lexer: Lexer) returns (r: Result<Input>)
    requires lexer.Valid()
    modifies lexer
    ensures lexer.Valid()
    ensures r.Ok? ==>
      && old(lexer.cursor) + |InputTokens(r.value)| <= lexer.cursor
      && lexer.tokens[old(lexer.cursor)..old(lexer.cursor) + |InputTokens(r.value)|] == InputTokens(r.value)
    ensures Parsed(r, lexer.cursor) == InputAt(lexer.tokens, old(lexer.cursor))
  {
    var head :- ParseInputHead(lexer);
    var documentation := ReadComment(lexer);
    lexer.SkipToken(";");
    lexer.SkipComments();
    r := Ok(head.(documentation := documentation));
    assert InputTokens(r.value) == InputTokens(head);
  }


  // ---------------------------------------------------------------------
  // Rules

  /** The tokens of a list of variable names separated by commas. */
  function VariableTokens(vs: seq<string>): (ts: seq<string>)
    ensures vs != [] ==> |ts| == 2 * |vs| - 1
    decreases |vs|
  {
    if vs == [] then []
    else if |vs| == 1 then vs
    else VariableTokens(vs[..|vs| - 1]) + [",", vs[|vs| - 1]]
  }

  /** The tokens of a dependent invocation `name(v1, ..., vn)`. */
  function DependentTokens(d: Dependent): seq<string> {
    [d.name, "("] + VariableTokens(d.variables) + [")"]
  }

  /** Reading one more variable after a comma extends the list's tokens. */
  lemma {:induction false} ReferenceStep(ts: seq<string>, start: nat, c: nat, vars: seq<string>)
    requires start <= c < |ts| && vars != []
    requires ts[start..c] == VariableTokens(vars) + [","]
    ensures ts[start..c + 1] == VariableTokens(vars + [ts[c]])
  {
    var v := ts[c];
    SliceSnoc(ts, start, c);
    assert (vars + [v])[..|vars|] == vars;
    assert VariableTokens(vars + [v]) == VariableTokens(vars) + [",", v];
  }

  /** The text each token of an invocation is written as: a comma with the
      space after it, any other token as it is. */
  function TokenText(t: string): string {
    if t == "," then ", " else t
  }

  lemma {:induction false} VariableTokensText(vs: seq<string>)
    requires forall i :: 0 <= i < |vs| ==> vs[i] != ","
    ensures Concat(Texts(VariableTokens(vs), TokenText)) == Join(vs, ", ")
    decreases |vs|
  {
    if |vs| == 1 {
      assert Texts(VariableTokens(vs), TokenText) == [vs[0]];
      ConcatSingle(vs[0]);
    } else if |vs| > 1 {
      var init := vs[..|vs| - 1];
      var last := vs[|vs| - 1];
      VariableTokensText(init);
      var ts := Texts(VariableTokens(init), TokenText);
      assert Texts(VariableTokens(vs), TokenText) == (ts + [", "]) + [last];
      ConcatAppend(ts + [", "], last);
      ConcatAppend(ts, ", ");
    }
  }

  lemma DependentTokensTexts(d: Dependent)
    requires d.name != ","
    ensures Texts(DependentTokens(d), TokenText) == ([d.name, "("] + Texts(VariableTokens(d.variables), TokenText)) + [")"]
  {
  }

  /** The corrected text of an invocation spells out exactly the tokens the
      parser reads for it, commas written with a following space. */
  lemma {:induction false} CorrectedDependentRoundTrip(d: Dependent)
    requires d.name != "," && d.variables != []
    requires forall i :: 0 <= i < |d.variables| ==> d.variables[i] != ","
    ensures Concat(Texts(DependentTokens(d), TokenText)) == Render.CorrectedDependentText(d)
  {
    var vt := Texts(VariableTokens(d.variables), TokenText);
    var head := [d.name, "("];
    VariableTokensText(d.variables);
    DependentTokensTexts(d);
    ConcatPairOf(d.name, "(");
    ConcatConcat(head, vt);
    ConcatAppend(head + vt, ")");
  }

  /** The names `, v` from c, each appended to `vars`. */
  /** The i-th name of a variable list, and the comma after it. */
  lemma {:induction false} VariableTokenAt(vs: seq<string>, i: nat)
    requires i < |vs|
    ensures VariableTokens(vs)[2 * i] == vs[i]
    ensures i + 1 < |vs| ==> VariableTokens(vs)[2 * i + 1] == ","
    decreases |vs|
  {
    if |vs| > 1 && i < |vs| - 1 {
      var init := vs[..|vs| - 1];
      VariableTokenAt(init, i);
      assert init[i] == vs[i];
      if i + 1 < |vs| - 1 {
        assert VariableTokens(vs)[2 * i + 1] == VariableTokens(init)[2 * i + 1];
      }
    }
  }

  function VariablesFrom(ts: seq<string>, c: nat, vars: seq<string>): (r: Result<(seq<string>, nat)>)
    requires c <= |ts|
    ensures StopsWithin(r, ts, c)
    ensures r.Ok? ==> |vars| <= |r.value.0| && TokenAt(ts, r.value.1) != ","
    decreases |ts| - c
  {
    if TokenAt(ts, c) == "," then
      if c + 1 < |ts| then VariablesFrom(ts, c + 2, vars + [ts[c + 1]]) else Err(EndOfInput)
    else Ok((vars, c))
  }

  /** The variable list `v1, ..., vn` at c. */
  function VariablesAt(ts: seq<string>, c: nat): (r: Result<(seq<string>, nat)>)
    requires c <= |ts|
    ensures MovesWithin(r, ts, c)
  {
    var first :- TakeAt(ts, c);
    VariablesFrom(ts, first.1, [first.0])
  }

  lemma {:induction false} VariablesFromTokens(ts: seq<string>, c: nat, vs: seq<string>, k: nat)
    requires 1 <= k <= |vs| && c + 2 * |vs| - 1 <= |ts|
    requires ts[c..c + 2 * |vs| - 1] == VariableTokens(vs)
    requires TokenAt(ts, c + 2 * |vs| - 1) != ","
    ensures VariablesFrom(ts, c + 2 * k - 1, vs[..k]) == Ok((vs, c + 2 * |vs| - 1))
    decreases |vs| - k
  {
    var p := c + 2 * k - 1;
    if k < |vs| {
      VariableTokenAt(vs, k - 1);
      VariableTokenAt(vs, k);
      assert ts[p] == VariableTokens(vs)[2 * (k - 1) + 1];
      assert ts[p + 1] == VariableTokens(vs)[2 * k];
      assert vs[..k] + [ts[p + 1]] == vs[..k + 1];
      VariablesFromTokens(ts, c, vs, k + 1);
    } else {
      assert vs[..k] == vs;
    }
  }

  /** A variable list reads back from its tokens. */
  lemma VariablesOfTokens(ts: seq<string>, c: nat, vs: seq<string>)
    requires vs != [] && c + |VariableTokens(vs)| <= |ts|
    requires ts[c..c + |VariableTokens(vs)|] == VariableTokens(vs)
    requires TokenAt(ts, c + |VariableTokens(vs)|) != ","
    ensures VariablesAt(ts, c) == Ok((vs, c + |VariableTokens(vs)|))
  {
    VariableTokenAt(vs, 0);
    assert ts[c] == VariableTokens(vs)[0];
    assert [vs[0]] == vs[..1];
    VariablesFromTokens(ts, c, vs, 1);
  }

  /** A comma and one more name extend both the list read and its tokens. */
  lemma VariableStep(ts: seq<string>, start: nat, c: nat, vars: seq<string>)
    requires start <= c && c + 1 < |ts| && ts[c] == "," && vars != []
    requires ts[start..c] == VariableTokens(vars)
    ensures ts[start..c + 2] == VariableTokens(vars + [ts[c + 1]])
    ensures VariablesFrom(ts, c, vars) == VariablesFrom(ts, c + 2, vars + [ts[c + 1]])
  {
    SliceSnoc(ts, start, c);
    ReferenceStep(ts, start, c + 1, vars);
  }

  /** The names VariablesFrom reads, with the names before them, are
      written by the tokens it passes over. */
  lemma {:induction false} VariablesFromSlice(ts: seq<string>, start: nat, c: nat, vars: seq<string>)
    requires start <= c <= |ts| && vars != [] && ts[start..c] == VariableTokens(vars)
    ensures VariablesFrom(ts, c, vars).Ok? ==>
      ts[start..VariablesFrom(ts, c, vars).value.1] == VariableTokens(VariablesFrom(ts, c, vars).value.0)
    decreases |ts| - c
  {
    if TokenAt(ts, c) == "," && c + 1 < |ts| {
      VariableStep(ts, start, c, vars);
      VariablesFromSlice(ts, start, c + 2, vars + [ts[c + 1]]);
    }
  }

  /** `v1, ..., vn`: at least one variable name, separated by commas. */
  method ParseVariables(lexer: Lexer) returns (r: Result<seq<string>>)
    requires lexer.Valid()
    modifies lexer
    ensures lexer.Valid() && old(lexer.cursor) <= lexer.cursor
    ensures r.Ok? ==>
      && |r.value| > 0
      && lexer.tokens[old(lexer.cursor)..lexer.cursor] == VariableTokens(r.value)
      && !lexer.HasToken(",")
    ensures Parsed(r, lexer.cursor) == VariablesAt(lexer.tokens, old(lexer.cursor))
  {
    ghost var start := lexer.cursor;
    var first :- lexer.Take();
    var variables := [first];
    assert lexer.tokens[start..lexer.cursor] == VariableTokens(variables);
    VariablesFromSlice(lexer.tokens, start, lexer.cursor, variables);
    while lexer.HasToken(",")
      invariant lexer.Valid() && start < lexer.cursor
      invariant VariablesAt(lexer.tokens, start) == VariablesFrom(lexer.tokens, lexer.cursor, variables)
      decreases |lexer.tokens| - lexer.cursor
    {
      lexer.Next();
      if lexer.Done() {
        return Err(EndOfInput);
      }
      var v := lexer.Advance();
      variables := variables + [v];
    }
    r := Ok(variables);
  }

  /** The invocation `name(v1, ..., vn)` at c. */
  function RuleReferenceAt(ts: seq<string>, c: nat): (r: Result<(Dependent, nat)>)
    ensures MovesWithin(r, ts, c)
  {
    var name :- TakeAt(ts, c);
    var open :- KeywordAt(ts, name.1, "(");
    var vars :- VariablesAt(ts, open);
    var close :- KeywordAt(ts, vars.1, ")");
    Ok((Dependent(name.0, vars.0), close))
  }

  /** An invocation reads back from its tokens. */
  lemma DependentOfTokens(ts: seq<string>, c: nat, d: Dependent)
    requires d.variables != [] && forall i :: 0 <= i < |d.variables| ==> d.variables[i] != ","
    requires c + |DependentTokens(d)| <= |ts| && ts[c..c + |DependentTokens(d)|] == DependentTokens(d)
    ensures RuleReferenceAt(ts, c) == Ok((d, c + |DependentTokens(d)|))
  {
    DependentTokenParts(ts, c, d);
    VariablesOfTokens(ts, c + 2, d.variables);
  }

  /** Where the name, the parentheses and the variables of an invocation sit
      among its tokens. */
  lemma DependentTokenParts(ts: seq<string>, c: nat, d: Dependent)
    requires c + |DependentTokens(d)| <= |ts| && ts[c..c + |DependentTokens(d)|] == DependentTokens(d)
    ensures |DependentTokens(d)| == |VariableTokens(d.variables)| + 3
    ensures ts[c] == d.name && ts[c + 1] == "("
    ensures ts[c + 2..c + 2 + |VariableTokens(d.variables)|] == VariableTokens(d.variables)
    ensures ts[c + 2 + |VariableTokens(d.variables)|] == ")"
  {
    var n := |VariableTokens(d.variables)|;
    var dt := DependentTokens(d);
    var w := ts[c..c + |dt|];
    assert |dt| == n + 3;
    assert w[0] == ts[c] && w[1] == ts[c + 1] && w[n + 2] == ts[c + 2 + n];
    assert dt[0] == d.name && dt[1] == "(" && dt[n + 2] == ")";
    assert dt[2..2 + n] == VariableTokens(d.variables);
    var inner, expected := ts[c + 2..c + 2 + n], dt[2..2 + n];
    forall i | 0 <= i < n
      ensures inner[i] == expected[i]
    {
      assert w[2 + i] == ts[c + 2 + i];
    }
    assert inner == expected;
  }

  /** `name(v1, ..., vn)`: the invocation of another group from a rule. */
  method ParseRuleReference(lexer: Lexer) returns (r: Result<Dependent>)
    requires lexer.Valid()
    modifies lexer
    ensures lexer.Valid()
    ensures r.Ok? ==>
      && |r.value.variables| > 0
      && old(lexer.cursor) < lexer.cursor
      && lexer.tokens[old(lexer.cursor)..lexer.cursor] == DependentTokens(r.value)
    ensures Parsed(r, lexer.cursor) == RuleReferenceAt(lexer.tokens, old(lexer.cursor))
  {
    ghost var start := lexer.cursor;
    var name :- lexer.Take();
    :- lexer.Token("(");
    SlicePair(lexer.tokens, start);
    var variables :- ParseVariables(lexer);
    ghost var end := lexer.cursor;
    :- lexer.Token(")");
    r := Ok(Dependent(name, variables));
    DependentTokensAt(lexer.tokens, start, end, r.value);
  }

  /** The runs of tokens of an invocation make up its tokens. */
  lemma DependentTokensAt(ts: seq<string>, start: nat, end: nat, d: Dependent)
    requires start + 2 <= end < |ts|
    requires ts[start..start + 2] == [d.name, "("]
    requires ts[start + 2..end] == VariableTokens(d.variables)
    requires ts[end] == ")"
    ensures ts[start..end + 1] == DependentTokens(d)
  {
    SliceSplit(ts, start, end, end + 1);
    SliceSplit(ts, start, start + 2, end);
    assert ts[end..end + 1] == [ts[end]];
  }

  predicate IsSourceListModeToken(t: string) {
    t == "first" || t == "last" || t == "only_one"
  }

  /** `[optional] context[.element]` at c: whether the source is required,
      its context and its element ("" for none). */
  function SourceHeadAt(ts: seq<string>, c: nat): (r: Result<((bool, string, string), nat)>)
    ensures MovesWithin(r, ts, c)
    ensures r.Ok? ==> (r.value.0.0 <==> TokenAt(ts, c) != "optional")
    ensures r.Ok? ==> r.value.0.1 == TokenAt(ts, if r.value.0.0 then c else c + 1)
  {
    var required := TokenAt(ts, c) != "optional";
    var context :- TakeAt(ts, if required then c else c + 1);
    if TokenAt(ts, context.1) == "." then
      var element :- TakeAt(ts, context.1 + 1);
      Ok(((required, context.0, element.0), element.1))
    else Ok(((required, context.0, ""), context.1))
  }

  /** `[optional] context[.element]`: a source is required unless it says
      otherwise. */
  method ParseSourceHead(lexer: Lexer) returns (r: Result<(bool, string, string)>)
    requires lexer.Valid()
    modifies lexer
    ensures lexer.Valid()
    ensures Parsed(r, lexer.cursor) == SourceHeadAt(lexer.tokens, old(lexer.cursor))
  {
    var required := true;
    if lexer.HasToken("optional") {
      lexer.Next();
      required := false;
    }
    var context :- lexer.Take();
    var element := "";
    if lexer.HasToken(".") {
      lexer.SkipToken(".");
      element :- lexer.Take();
    }
    r := Ok((required, context, element));
  }

  /** `: type min..max` at c, read and dropped: the position after it. */
  function TypeAndCardinalityAt(ts: seq<string>, c: nat): (r: Result<nat>)
    requires c <= |ts|
    ensures r.Ok? ==> c <= r.value <= |ts|
    ensures TokenAt(ts, c) != ":" ==> r == Ok(c)
  {
    if TokenAt(ts, c) == ":" then
      var typeName :- DottedAt(ts, c + 1);
      var min :- TakeAt(ts, typeName.1);
      var range :- KeywordAt(ts, min.1, "..");
      var max :- TakeAt(ts, range);
      Ok(max.1)
    else Ok(c)
  }

  /** `: type min..max` after a source: read and dropped. */
  method SkipTypeAndCardinality(lexer: Lexer) returns (o: Outcome)
    requires lexer.Valid()
    modifies lexer
    ensures lexer.Valid() && old(lexer.cursor) <= lexer.cursor
    ensures !old(lexer.HasToken(":")) ==> o.Pass? && lexer.cursor == old(lexer.cursor)
    ensures Reached(o, lexer.cursor) == TypeAndCardinalityAt(lexer.tokens, old(lexer.cursor))
  {
    if lexer.HasToken(":") {
      lexer.SkipToken(":");
      var typeName := lexer.TakeDottedToken();
      if typeName.Err? {
        return Fail(typeName.error);
      }
      var min := lexer.Take();
      if min.Err? {
        return Fail(min.error);
      }
      var range := lexer.Token("..");
      if range.Fail? {
        return range;
      }
      var max := lexer.Take();
      if max.Err? {
        return Fail(max.error);
      }
    }
    o := Pass;
  }

  /** The list mode of a source at c, and the position after it. */
  function SourceListModeAt(ts: seq<string>, c: nat): (r: (Option<ListMode>, nat))
    ensures r.0.Some? <==> IsSourceListModeToken(TokenAt(ts, c))
    ensures r.1 == if r.0.Some? then c + 1 else c
  {
    var t := TokenAt(ts, c);
    if t == "only_one" then (Some(Share), c + 1)
    else if t == "first" then (Some(First), c + 1)
    else if t == "last" then (Some(Last), c + 1)
    else (None, c)
  }

  /** The list mode of a source: `first`, `last`, or `only_one`, which is
      recorded as share. */
  method ReadSourceListMode(lexer: Lexer) returns (m: Option<ListMode>)
    requires lexer.Valid()
    modifies lexer
    ensures lexer.Valid()
    ensures var t := old(lexer.Current());
      && (IsSourceListModeToken(t) ==> lexer.cursor == old(lexer.cursor) + 1)
      && (!IsSourceListModeToken(t) ==> m == None && lexer.cursor == old(lexer.cursor))
      && (t == "only_one" ==> m == Some(Share))
      && (t == "first" ==> m == Some(First))
      && (t == "last" ==> m == Some(Last))
    ensures (m, lexer.cursor) == SourceListModeAt(lexer.tokens, old(lexer.cursor))
  {
    m := None;
    if IsSourceListModeToken(lexer.Current()) {
      var code := lexer.Advance();
      if code == "only_one" {
        m := Some(Share);
      } else {
        var mode := ListModeFromCode(code);
        assert mode.Ok? && mode.value.Some?;
        m := mode.value;
      }
    }
  }

  /** `as v`: the variable a source or target binds, or "" when there is none. */
  method ReadVariable(lexer: Lexer) returns (r: Result<string>)
    requires lexer.Valid()
    modifies lexer
    ensures lexer.Valid() && old(lexer.cursor) <= lexer.cursor
    ensures !old(lexer.HasToken("as")) ==> r == Ok("") && lexer.cursor == old(lexer.cursor)
    ensures old(lexer.HasToken("as")) && r.Ok? ==>
      lexer.cursor == old(lexer.cursor) + 2 && r.value == lexer.tokens[old(lexer.cursor) + 1]
    ensures Parsed(r, lexer.cursor) == OptionalTokenAt(lexer.tokens, old(lexer.cursor), "as")
  {
    r := Ok("");
    if lexer.HasToken("as") {
      var _ := lexer.Advance();
      r := lexer.Take();
    }
  }

  /** `keyword expr` at c: the expression's text, "" without the keyword. */
  function ConditionAt(ts: seq<string>, fp: ExpressionParser, c: nat, keyword: string): (r: Result<(string, nat)>)
    requires keyword != ""
    ensures TokenAt(ts, c) != keyword ==> r == Ok(("", c))
    ensures TokenAt(ts, c) == keyword ==> r == ExpressionAt(ts, fp, c + 1)
  {
    if TokenAt(ts, c) == keyword then ExpressionAt(ts, fp, c + 1) else Ok(("", c))
  }

  /** `where expr` or `check expr`: the text of the expression after the
      keyword, or "" when the keyword is absent. */
  method ReadCondition(lexer: Lexer, fp: ExpressionParser, keyword: string) returns (r: Result<string>)
    requires lexer.Valid() && keyword != ""
    modifies lexer
    ensures lexer.Valid() && old(lexer.cursor) <= lexer.cursor
    ensures !old(lexer.HasToken(keyword)) ==> r == Ok("") && lexer.cursor == old(lexer.cursor)
    ensures old(lexer.HasToken(keyword)) && r.Ok? ==>
      var e := fp(lexer.tokens, old(lexer.cursor) + 1);
      e.Some? && r.value == e.value.0 && lexer.cursor == e.value.1
    ensures Parsed(r, lexer.cursor) == ConditionAt(lexer.tokens, fp, old(lexer.cursor), keyword)
  {
    r := Ok("");
    if lexer.HasToken(keyword) {
      var _ := lexer.Advance();
      r := lexer.ReadExpression(fp);
    }
  }

  /** The source at c: its head, a type and cardinality that are dropped,
      its list mode, variable, `where` condition and `check`, in that order. */
  function SourceAt(ts: seq<string>, fp: ExpressionParser, c: nat): (r: Result<(Source, nat)>)
    ensures MovesWithin(r, ts, c)
    ensures r.Ok? ==> (r.value.0.required <==> TokenAt(ts, c) != "optional")
    ensures r.Ok? ==> r.value.0.context == TokenAt(ts, if r.value.0.required then c else c + 1)
  {
    var head :- SourceHeadAt(ts, c);
    var typed :- TypeAndCardinalityAt(ts, head.1);
    var listMode := SourceListModeAt(ts, typed);
    var variable :- OptionalTokenAt(ts, listMode.1, "as");
    var condition :- ConditionAt(ts, fp, variable.1, "where");
    var check :- ConditionAt(ts, fp, condition.1, "check");
    Ok((Source(head.0.1, head.0.2, head.0.0, listMode.0, variable.0, condition.0, check.0), check.1))
  }

  /** A source with a list mode and a variable: `context.element first as v`. */
  lemma SourceWithVariable(ts: seq<string>, fp: ExpressionParser, c: nat)
    requires c + 6 <= |ts| && ts[c] != "optional" && ts[c + 1] == "." && ts[c + 3] == "first" && ts[c + 4] == "as"
    requires TokenAt(ts, c + 6) != "where" && TokenAt(ts, c + 6) != "check"
    ensures SourceAt(ts, fp, c) == Ok((Source(ts[c], ts[c + 2], true, Some(First), ts[c + 5], "", ""), c + 6))
  {
    assert SourceHeadAt(ts, c) == Ok(((true, ts[c], ts[c + 2]), c + 3));
    assert TypeAndCardinalityAt(ts, c + 3) == Ok(c + 3);
    assert SourceListModeAt(ts, c + 3) == (Some(First), c + 4);
  }

  /** An optional source with conditions: `optional context where w check k`;
      each condition is the text the expression parser gives for it. */
  lemma SourceWithConditions(ts: seq<string>, fp: ExpressionParser, c: nat, w: (string, nat), k: (string, nat))
    requires c + 3 < |ts| && ts[c] == "optional" && ts[c + 2] == "where"
    requires fp(ts, c + 3) == Some(w) && c + 3 < w.1 < |ts| && ts[w.1] == "check"
    requires fp(ts, w.1 + 1) == Some(k) && w.1 + 1 < k.1 <= |ts|
    requires ts[c + 2] != "." && ts[c + 2] != ":" && ts[c + 2] != "as"
    ensures SourceAt(ts, fp, c) == Ok((Source(ts[c + 1], "", false, None, "", w.0, k.0), k.1))
  {
  }

  /** A rule source: `[optional] context[.element] [: type min..max]
      [first|last|only_one] [as v] [where expr] [check expr]`. */
  method ParseSource(lexer: Lexer, fp: ExpressionParser) returns (r: Result<Source>)
    requires lexer.Valid()
    modifies lexer
    ensures lexer.Valid()
    ensures r.Ok? ==> r.value.context != ""
    ensures Parsed(r, lexer.cursor) == SourceAt(lexer.tokens, fp, old(lexer.cursor))
  {
    var head :- ParseSourceHead(lexer);
    :- SkipTypeAndCardinality(lexer);
    var listMode := ReadSourceListMode(lexer);
    var variable :- ReadVariable(lexer);
    var condition :- ReadCondition(lexer, fp, "where");
    var check :- ReadCondition(lexer, fp, "check");
    r := Ok(Source(head.1, head.2, head.0, listMode, variable, condition, check));
  }

  predicate IsTargetListModeToken(t: string) {
    t == "first" || t == "last" || t == "share" || t == "only_one"
  }

  /** The parameters from c up to the closing ")", appended to `acc`: each
      parameter is followed by "," unless ")" comes next. */
  function ParametersFrom(ts: seq<string>, c: nat, acc: seq<ParamValue>): (r: Result<(seq<ParamValue>, nat)>)
    requires c <= |ts|
    ensures StopsWithin(r, ts, c)
    ensures r.Ok? ==> TokenAt(ts, r.value.1) == ")"
    decreases |ts| - c
  {
    if TokenAt(ts, c) == ")" then Ok((acc, c))
    else
      var p :- ParameterAt(ts, c);
      var next :- if TokenAt(ts, p.1) == ")" then Ok(p.1) else KeywordAt(ts, p.1, ",");
      ParametersFrom(ts, next, acc + [p.0])
  }

  /** The parameters read from their tokens, one for each. */
  function ParametersOfTokens(toks: seq<string>): (ps: seq<ParamValue>)
    ensures |ps| == |toks|
  {
    seq(|toks|, i requires 0 <= i < |toks| => ParameterOfToken(toks[i]))
  }

  lemma ParametersOfTokensSnoc(toks: seq<string>, k: nat)
    requires 1 <= k <= |toks|
    ensures ParametersOfTokens(toks[..k]) == ParametersOfTokens(toks[..k - 1]) + [ParameterOfToken(toks[k - 1])]
  {
  }

  /** A parameter followed by "," or by ")". */
  lemma ParameterStep(ts: seq<string>, p: nat, acc: seq<ParamValue>)
    requires p + 1 < |ts| && ts[p] != ")" && (ts[p + 1] == "," || ts[p + 1] == ")")
    ensures ts[p + 1] == "," ==> ParametersFrom(ts, p, acc) == ParametersFrom(ts, p + 2, acc + [ParameterOfToken(ts[p])])
    ensures ts[p + 1] == ")" ==> ParametersFrom(ts, p, acc) == Ok((acc + [ParameterOfToken(ts[p])], p + 1))
  {
    assert ParameterAt(ts, p) == Ok((ParameterOfToken(ts[p]), p + 1));
    if ts[p + 1] == "," {
      assert KeywordAt(ts, p + 1, ",") == Ok(p + 2);
    }
  }

  lemma {:induction false} ParametersFromTokens(ts: seq<string>, c: nat, toks: seq<string>, k: nat)
    requires 1 <= k <= |toks| && c + 2 * |toks| <= |ts|
    requires ts[c..c + 2 * |toks| - 1] == VariableTokens(toks) && ts[c + 2 * |toks| - 1] == ")"
    requires forall i :: 0 <= i < |toks| ==> toks[i] != ")"
    ensures ParametersFrom(ts, c + 2 * k - 2, ParametersOfTokens(toks[..k - 1]))
      == Ok((ParametersOfTokens(toks), c + 2 * |toks| - 1))
    decreases |toks| - k
  {
    var p := c + 2 * k - 2;
    var vt := VariableTokens(toks);
    VariableTokenAt(toks, k - 1);
    assert ts[p] == ts[c..c + |vt|][2 * (k - 1)] == toks[k - 1];
    ParametersOfTokensSnoc(toks, k);
    if k < |toks| {
      assert ts[p + 1] == ts[c..c + |vt|][2 * (k - 1) + 1] == ",";
      ParameterStep(ts, p, ParametersOfTokens(toks[..k - 1]));
      ParametersFromTokens(ts, c, toks, k + 1);
    } else {
      assert toks[..k] == toks;
      ParameterStep(ts, p, ParametersOfTokens(toks[..k - 1]));
    }
  }

  /** A parameter list `t1, ..., tn)` reads back as the parameters of its
      tokens, and stops on the ")". */
  lemma ParametersOfList(ts: seq<string>, c: nat, toks: seq<string>)
    requires c + |VariableTokens(toks)| < |ts|
    requires ts[c..c + |VariableTokens(toks)|] == VariableTokens(toks) && ts[c + |VariableTokens(toks)|] == ")"
    requires forall i :: 0 <= i < |toks| ==> toks[i] != ")"
    ensures ParametersFrom(ts, c, []) == Ok((ParametersOfTokens(toks), c + |VariableTokens(toks)|))
  {
    if toks == [] {
      assert ParametersOfTokens(toks) == [];
    } else {
      assert ParametersOfTokens(toks[..0]) == [];
      ParametersFromTokens(ts, c, toks, 1);
    }
  }

  /** The parameters of a transform `name(p1, ..., pn)`: the cursor is just
      past "(" and is left on ")". */
  method ParseParameters(lexer: Lexer) returns (r: Result<seq<ParamValue>>)
    requires lexer.Valid()
    modifies lexer
    ensures lexer.Valid()
    ensures old(lexer.cursor) <= lexer.cursor
    ensures r.Ok? ==> lexer.HasToken(")")
    ensures Parsed(r, lexer.cursor) == ParametersFrom(lexer.tokens, old(lexer.cursor), [])
  {
    var parameters: seq<ParamValue> := [];
    while !lexer.HasToken(")")
      invariant lexer.Valid() && old(lexer.cursor) <= lexer.cursor
      invariant ParametersFrom(lexer.tokens, old(lexer.cursor), []) == ParametersFrom(lexer.tokens, lexer.cursor, parameters)
      decreases |lexer.tokens| - lexer.cursor
    {
      var p :- ParseParameter(lexer);
      parameters := parameters + [p];
      if !lexer.HasToken(")") {
        :- lexer.Token(",");
      }
    }
    r := Ok(parameters);
  }

  /** The list modes of a target from c, appended to `modes`, and the rule id
      after `share`. `share` takes the next token as the rule id and then
      passes over one more token whatever it is; `first` is first, and
      `last` and `only_one` are both recorded as last. */
  function ListModesFrom(ts: seq<string>, c: nat, modes: seq<ListMode>, ruleId: string)
    : (r: Result<((seq<ListMode>, string), nat)>)
    requires c <= |ts|
    ensures StopsWithin(r, ts, c)
    decreases |ts| - c
  {
    var t := TokenAt(ts, c);
    if !IsTargetListModeToken(t) then Ok(((modes, ruleId), c))
    else if t == "share" then
      var id :- TakeAt(ts, c + 1);
      ListModesFrom(ts, NextAt(ts, id.1), modes + [Share], id.0)
    else ListModesFrom(ts, c + 1, modes + [if t == "first" then First else Last], ruleId)
  }

  /** The list modes stop at the first token that is not one; a share rule
      id is only ever read with a share mode; and with no list mode token at
      c nothing is read. */
  lemma {:induction false} ListModesShape(ts: seq<string>, c: nat, modes: seq<ListMode>, ruleId: string)
    requires c <= |ts|
    ensures var r := ListModesFrom(ts, c, modes, ruleId);
      && (r.Ok? ==> !IsTargetListModeToken(TokenAt(ts, r.value.1)))
      && (r.Ok? && (ruleId != "" ==> Share in modes) ==> (r.value.0.1 != "" ==> Share in r.value.0.0))
      && (!IsTargetListModeToken(TokenAt(ts, c)) ==> r == Ok(((modes, ruleId), c)))
    decreases |ts| - c
  {
    var t := TokenAt(ts, c);
    if !IsTargetListModeToken(t) {
    } else if t == "share" {
      if c + 1 < |ts| {
        ListModesShape(ts, NextAt(ts, c + 2), modes + [Share], ts[c + 1]);
      }
    } else {
      ListModesShape(ts, c + 1, modes + [if t == "first" then First else Last], ruleId);
    }
  }

  /** `only_one` on a target is read as `last`. */
  lemma OnlyOneIsLast(ts: seq<string>, c: nat, modes: seq<ListMode>, ruleId: string)
    requires c < |ts| && ts[c] == "only_one"
    ensures ListModesFrom(ts, c, modes, ruleId) == ListModesFrom(ts, c + 1, modes + [Last], ruleId)
  {
  }

  /** `share id t`: the id is kept and the token t after it is passed over,
      even when t is itself a list mode, so `share r first` records share
      alone. */
  lemma ShareSkipsAToken(ts: seq<string>, c: nat, modes: seq<ListMode>, ruleId: string)
    requires c + 3 <= |ts| && ts[c] == "share"
    ensures ListModesFrom(ts, c, modes, ruleId) == ListModesFrom(ts, c + 3, modes + [Share], ts[c + 1])
  {
    assert TakeAt(ts, c + 1) == Ok((ts[c + 1], c + 2));
  }

  /** The trailing list modes of a target. `share` is followed by the rule
      id, and then one more token is skipped; `only_one` is recorded as
      last. */
  method ParseTargetListModes(lexer: Lexer) returns (r: Result<(seq<ListMode>, string)>)
    requires lexer.Valid()
    modifies lexer
    ensures lexer.Valid()
    ensures r.Ok? ==> old(lexer.cursor) <= lexer.cursor && !IsTargetListModeToken(lexer.Current())
    ensures r.Ok? ==> r.value.1 != "" ==> Share in r.value.0
    ensures !IsTargetListModeToken(old(lexer.Current())) ==> r == Ok(([], "")) && lexer.cursor == old(lexer.cursor)
    ensures Parsed(r, lexer.cursor) == ListModesFrom(lexer.tokens, old(lexer.cursor), [], "")
  {
    var modes: seq<ListMode> := [];
    var ruleId := "";
    while IsTargetListModeToken(lexer.Current())
      invariant lexer.Valid() && old(lexer.cursor) <= lexer.cursor
      invariant ruleId != "" ==> Share in modes
      invariant modes == [] ==> ruleId == "" && lexer.cursor == old(lexer.cursor)
      invariant modes != [] ==> IsTargetListModeToken(old(lexer.Current()))
      invariant ListModesFrom(lexer.tokens, old(lexer.cursor), [], "") == ListModesFrom(lexer.tokens, lexer.cursor, modes, ruleId)
      decreases |lexer.tokens| - lexer.cursor
    {
      var next := ParseListMode(lexer, modes, ruleId);
      if next.Err? {
        return Err(next.error);
      }
      modes, ruleId := next.value.0, next.value.1;
    }
    r := Ok((modes, ruleId));
  }

  /** One round of that loop: the list mode at the cursor. */
  method ParseListMode(lexer: Lexer, modes: seq<ListMode>, ruleId: string) returns (r: Result<(seq<ListMode>, string)>)
    requires lexer.Valid() && IsTargetListModeToken(lexer.Current())
    modifies lexer
    ensures lexer.Valid() && old(lexer.cursor) < lexer.cursor
    ensures r.Ok? ==> r.value.0 != [] && ((ruleId != "" ==> Share in modes) ==> (r.value.1 != "" ==> Share in r.value.0))
    ensures r.Ok? ==> ListModesFrom(lexer.tokens, old(lexer.cursor), modes, ruleId) == ListModesFrom(lexer.tokens, lexer.cursor, r.value.0, r.value.1)
    ensures r.Err? ==> ListModesFrom(lexer.tokens, old(lexer.cursor), modes, ruleId) == Err(r.error)
  {
    var id := ruleId;
    var mode := Last;
    if lexer.HasToken("share") {
      mode := Share;
      lexer.Next();
      var t := lexer.Take();
      if t.Err? {
        return Err(t.error);
      }
      id := t.value;
    } else if lexer.HasToken("first") {
      mode := First;
    }
    lexer.Next();
    r := Ok((modes + [mode], id));
  }

  /** The start of a target at c: the context, its type, the element, the
      value's name ("" for none) and whether that name is a literal.
      `a.b = v` and `a = v` name a context; a bare `a.b` is a context and
      element with no value, a bare `v` a value with no context. */
  function TargetHeadAt(ts: seq<string>, c: nat)
    : (r: Result<((string, Option<ContextType>, string, string, bool), nat)>)
    ensures MovesWithin(r, ts, c)
  {
    var start :- TakeAt(ts, c);
    var dotted := TokenAt(ts, start.1) == ".";
    var element :- if dotted then TakeAt(ts, start.1 + 1) else Ok(("", start.1));
    var equals := TokenAt(ts, element.1) == "=";
    var isConstant := equals && IsConstantToken(TokenAt(ts, element.1 + 1), true);
    var name :- if equals then TakeAt(ts, element.1 + 1) else Ok((if dotted then "" else start.0, element.1));
    var context := if dotted || equals then start.0 else "";
    Ok(((context, if dotted then Some(VariableContext) else None, element.0, name.0, isConstant), name.1))
  }

  /** What a target head reads from the tokens: a `.` after the first token
      makes it a context with an element, an `=` after that names the value
      (a literal when its token is a constant), and a bare first token is the
      value itself. A context has a type exactly when it has an element. */
  lemma TargetHeadShape(ts: seq<string>, c: nat)
    requires c <= |ts|
    ensures var r := TargetHeadAt(ts, c);
      r.Ok? ==>
      var (context, contextType, element, name, isConstant) := r.value.0;
      var dotted := TokenAt(ts, c + 1) == ".";
      var eq := if dotted then c + 3 else c + 1;
      && (contextType.Some? <==> dotted)
      && element == (if dotted then TokenAt(ts, c + 2) else "")
      && context == (if dotted || TokenAt(ts, eq) == "=" then TokenAt(ts, c) else "")
      && name == (if TokenAt(ts, eq) == "=" then TokenAt(ts, eq + 1) else if dotted then "" else TokenAt(ts, c))
      && (isConstant <==> TokenAt(ts, eq) == "=" && IsConstantToken(name, true))
      && (isConstant ==> name != "")
    ensures TargetHeadAt(ts, c).Ok? && NonEmptyTokens(ts) ==>
      (TargetHeadAt(ts, c).value.0.1.Some? <==> TargetHeadAt(ts, c).value.0.2 != "")
  {
  }

  /** The start of a target, up to its value: `context.element =`,
      `context =`, `context.element` or a bare value. Gives the context, its
      type, the element, the value's name ("" for none) and whether that
      name is a literal. */
  method ParseTargetHead(lexer: Lexer) returns (r: Result<(string, Option<ContextType>, string, string, bool)>)
    requires lexer.Valid()
    modifies lexer
    ensures lexer.Valid()
    ensures r.Ok? ==> (r.value.1.Some? <==> r.value.2 != "")
    ensures Parsed(r, lexer.cursor) == TargetHeadAt(lexer.tokens, old(lexer.cursor))
  {
    var start :- lexer.Take();
    var startPresent := true;
    var context := "";
    var contextType := None;
    var element := "";
    if lexer.HasToken(".") {
      context := start;
      contextType := Some(VariableContext);
      startPresent := false;
      lexer.SkipToken(".");
      element :- lexer.Take();
    }
    var name := "";
    var isConstant := false;
    if lexer.HasToken("=") {
      if startPresent {
        context := start;
      }
      lexer.SkipToken("=");
      isConstant := lexer.IsConstant(true);
      name :- lexer.Take();
    } else if startPresent {
      name := start;
    }
    r := Ok((context, contextType, element, name, isConstant));
  }

  /** What DotsFrom reads is `s` followed by the tokens it passes over. */
  lemma {:induction false} DotsFromText(ts: seq<string>, c: nat, s: string)
    requires c <= |ts|
    ensures DotsFrom(ts, c, s).Ok? ==> DotsFrom(ts, c, s).value.0 == s + Concat(ts[c..DotsFrom(ts, c, s).value.1])
    decreases |ts| - c
  {
    var r := DotsFrom(ts, c, s);
    if r.Ok? {
      if TokenAt(ts, c) == "." {
        var next := s + "." + ts[c + 1];
        assert r == DotsFrom(ts, c + 2, next);
        DotsFromText(ts, c + 2, next);
        var e := r.value.1;
        var rest := Concat(ts[c + 2..e]);
        assert ts[c..e] == [ts[c], ts[c + 1]] + ts[c + 2..e];
        ConcatConcat([ts[c], ts[c + 1]], ts[c + 2..e]);
        ConcatPairOf(ts[c], ts[c + 1]);
        assert Concat(ts[c..e]) == ts[c] + ts[c + 1] + rest;
        assert r.value.0 == s + ts[c] + ts[c + 1] + rest;
      } else {
        assert ts[c..c] == [];
      }
    }
  }

  /** A copied variable reference `a.b.c`: the name followed by every
      `. part` pair, joined. */
  method ReadDottedReference(lexer: Lexer, name: string) returns (r: Result<string>)
    requires lexer.Valid()
    modifies lexer
    ensures lexer.Valid() && old(lexer.cursor) <= lexer.cursor
    ensures r.Ok? ==> r.value == name + Concat(lexer.tokens[old(lexer.cursor)..lexer.cursor])
    ensures r.Ok? ==> !lexer.HasToken(".")
    ensures Parsed(r, lexer.cursor) == DotsFrom(lexer.tokens, old(lexer.cursor), name)
  {
    ghost var start := lexer.cursor;
    var id := name;
    while lexer.HasToken(".")
      invariant lexer.Valid() && start <= lexer.cursor
      invariant DotsFrom(lexer.tokens, start, name) == DotsFrom(lexer.tokens, lexer.cursor, id)
      decreases |lexer.tokens| - lexer.cursor
    {
      ghost var before, idBefore := lexer.cursor, id;
      var dot := lexer.Advance();
      var part :- lexer.Take();
      id := id + dot + part;
      assert DotsFrom(lexer.tokens, before, idBefore) == DotsFrom(lexer.tokens, lexer.cursor, id);
    }
    r := Ok(id);
    DotsFromText(lexer.tokens, start, name);
  }

  /** The value of a target at c, given the name its head read: an inline
      expression `(expr)`, a transform `name(params)` (evaluate takes one
      parameter and an expression), a copied reference `a.b.c`, a copied
      literal, or no value at all. */
  function TargetValueAt(ts: seq<string>, fp: ExpressionParser, c: nat, name: string, isConstant: bool)
    : (r: Result<((Option<Transform>, seq<ParamValue>, Option<string>), nat)>)
    requires c <= |ts|
    ensures StopsWithin(r, ts, c)
  {
    if name == "(" then
      var e :- ExpressionAt(ts, fp, c);
      var close :- KeywordAt(ts, e.1, ")");
      Ok(((Some(Evaluate), [StringParam(e.0)], Some(e.0)), close))
    else if TokenAt(ts, c) == "(" then
      var transform :- TransformFromCode(name);
      if transform == Some(Evaluate) then
        var p :- ParameterAt(ts, c + 1);
        var comma :- KeywordAt(ts, p.1, ",");
        var e :- ExpressionAt(ts, fp, comma);
        var close :- KeywordAt(ts, e.1, ")");
        Ok(((transform, [p.0, StringParam(e.0)], Some(e.0)), close))
      else
        var parameters :- ParametersFrom(ts, c + 1, []);
        Ok(((transform, parameters.0, None), SkipAt(ts, parameters.1, ")")))
    else if name != "" then
      if !isConstant then
        var id :- DotsFrom(ts, c, name);
        Ok(((Some(Copy), [IdParam(id.0)], None), id.1))
      else Ok(((Some(Copy), [ConstantValue(name)], None), c))
    else Ok(((None, [], None), c))
  }

  /** An evaluate value has one or two parameters, the last of them the
      expression it keeps; no other value keeps an expression. */
  predicate KeepsExpression(transform: Option<Transform>, parameters: seq<ParamValue>, expression: Option<string>) {
    && (transform == Some(Evaluate) ==> 1 <= |parameters| <= 2 && parameters[|parameters| - 1].StringParam?)
    && (expression.Some? <==> transform == Some(Evaluate))
    && (expression.Some? ==> parameters[|parameters| - 1] == StringParam(expression.value))
  }

  /** Every value read for a target keeps its expression as evaluate does. */
  lemma TargetValueEvaluate(ts: seq<string>, fp: ExpressionParser, c: nat, name: string, isConstant: bool)
    requires c <= |ts|
    ensures var r := TargetValueAt(ts, fp, c, name, isConstant);
      r.Ok? ==> KeepsExpression(r.value.0.0, r.value.0.1, r.value.0.2)
  {
    if name != "(" && TokenAt(ts, c) == "(" {
      var transform := TransformFromCode(name);
      if transform.Ok? && transform.value != Some(Evaluate) {
        assert TargetValueAt(ts, fp, c, name, isConstant).Ok? ==>
          TargetValueAt(ts, fp, c, name, isConstant).value.0.2 == None;
      }
    }
  }

  /** Which value a target has: `(` as its name is an inline expression;
      `name(` is that transform, with the parameters ParametersFrom reads
      unless it is evaluate; a name with no `(` is copied, as the dotted
      reference DotsFrom reads unless it is a literal; no name at all is no
      value. */
  lemma TargetValueShape(ts: seq<string>, fp: ExpressionParser, c: nat, name: string, isConstant: bool)
    requires c <= |ts|
    ensures var r := TargetValueAt(ts, fp, c, name, isConstant);
      r.Ok? ==>
      var (transform, parameters, expression) := r.value.0;
      && (name == "(" ==> transform == Some(Evaluate) && |parameters| == 1)
      && (name == "" && TokenAt(ts, c) != "(" ==> transform == None && parameters == [] && r.value.1 == c)
      && (name != "" && name != "(" && TokenAt(ts, c) != "(" ==>
            transform == Some(Copy) && |parameters| == 1 && (isConstant ==> parameters == [ConstantValue(name)]))
      && (name != "(" && TokenAt(ts, c) == "(" ==> TransformFromCode(name) == Ok(transform))
      && (name != "(" && TokenAt(ts, c) == "(" && transform != Some(Evaluate) ==>
            var ps := ParametersFrom(ts, c + 1, []);
            ps.Ok? && parameters == ps.value.0)
      && (name != "" && name != "(" && TokenAt(ts, c) != "(" && !isConstant ==>
            var id := DotsFrom(ts, c, name);
            id.Ok? && parameters == [IdParam(id.value.0)])
  {
    if name != "(" && TokenAt(ts, c) == "(" {
      var transform := TransformFromCode(name);
      if transform.Ok? && transform.value != Some(Evaluate) {
        assert TargetValueAt(ts, fp, c, name, isConstant) ==
          var ps :- ParametersFrom(ts, c + 1, []);
          Ok(((transform.value, ps.0, None), SkipAt(ts, ps.1, ")")));
      }
    }
  }

  /** The value of a target: an inline expression `(expr)`, a transform
      `name(params)` (evaluate takes a parameter and an expression), or else
      a named value that is copied. */
  method ParseTargetValue(lexer: Lexer, fp: ExpressionParser, name: string, isConstant: bool)
    returns (r: Result<(Option<Transform>, seq<ParamValue>, Option<string>)>)
    requires lexer.Valid()
    modifies lexer
    ensures lexer.Valid() && old(lexer.cursor) <= lexer.cursor
    ensures Parsed(r, lexer.cursor) == TargetValueAt(lexer.tokens, fp, old(lexer.cursor), name, isConstant)
  {
    if name == "(" {
      var e :- lexer.ReadExpression(fp);
      :- lexer.Token(")");
      r := Ok((Some(Evaluate), [StringParam(e)], Some(e)));
    } else if lexer.HasToken("(") {
      var transform :- TransformFromCode(name);
      lexer.SkipToken("(");
      if transform == Some(Evaluate) {
        var p :- ParseParameter(lexer);
        :- lexer.Token(",");
        var e :- lexer.ReadExpression(fp);
        :- lexer.Token(")");
        r := Ok((transform, [p, StringParam(e)], Some(e)));
      } else {
        var parameters :- ParseParameters(lexer);
        lexer.SkipToken(")");
        r := Ok((transform, parameters, None));
      }
    } else if name != "" {
      if !isConstant {
        var id :- ReadDottedReference(lexer, name);
        r := Ok((Some(Copy), [IdParam(id)], None));
      } else {
        r := Ok((Some(Copy), [ConstantValue(name)], None));
      }
    } else {
      r := Ok((None, [], None));
    }
  }

  /** A rule target at c: `[context[.element] =] value [as v] [list modes]`. */
  function TargetAt(ts: seq<string>, fp: ExpressionParser, c: nat): (r: Result<(Target, nat)>)
    ensures MovesWithin(r, ts, c)
  {
    var head :- TargetHeadAt(ts, c);
    var (context, contextType, element, name, isConstant) := head.0;
    var value :- TargetValueAt(ts, fp, head.1, name, isConstant);
    var variable :- OptionalTokenAt(ts, value.1, "as");
    var modes :- ListModesFrom(ts, variable.1, [], "");
    var (transform, parameters, expression) := value.0;
    Ok((Target(context, contextType, element, transform, parameters, variable.0, modes.0.0, modes.0.1, expression), modes.1))
  }

  /** A target read from c keeps what its head read; an evaluate target has
      one or two parameters, the last a string, and keeps that string as its
      expression, which no other target has; a share rule id comes with a
      share mode. */
  lemma TargetShape(ts: seq<string>, fp: ExpressionParser, c: nat)
    requires c <= |ts|
    ensures TargetAt(ts, fp, c).Ok? ==>
      var h := TargetHeadAt(ts, c);
      && h.Ok? && h.value.1 <= TargetAt(ts, fp, c).value.1
      && var t := TargetAt(ts, fp, c).value.0;
      && t.context == h.value.0.0 && t.contextType == h.value.0.1 && t.element == h.value.0.2
      && KeepsExpression(t.transform, t.parameters, t.expression)
      && (t.listRuleId != "" ==> Share in t.listModes)
  {
    var head := TargetHeadAt(ts, c);
    if head.Ok? {
      var (context, contextType, element, name, isConstant) := head.value.0;
      var value := TargetValueAt(ts, fp, head.value.1, name, isConstant);
      TargetValueEvaluate(ts, fp, head.value.1, name, isConstant);
      if value.Ok? {
        var variable := OptionalTokenAt(ts, value.value.1, "as");
        if variable.Ok? {
          ListModesShape(ts, variable.value.1, [], "");
        }
      }
    }
  }

  /** A rule target: `[context[.element] =] value [as v] [list modes]`. */
  method ParseTarget(lexer: Lexer, fp: ExpressionParser) returns (r: Result<Target>)
    requires lexer.Valid()
    modifies lexer
    ensures lexer.Valid()
    ensures r.Ok? ==> (r.value.contextType.Some? <==> r.value.element != "")
    ensures Parsed(r, lexer.cursor) == TargetAt(lexer.tokens, fp, old(lexer.cursor))
  {
    var head :- ParseTargetHead(lexer);
    var (context, contextType, element, name, isConstant) := head;
    var value :- ParseTargetValue(lexer, fp, name, isConstant);
    var variable :- ReadVariable(lexer);
    var modes :- ParseTargetListModes(lexer);
    var (transform, parameters, expression) := value;
    r := Ok(Target(context, contextType, element, transform, parameters, variable, modes.0, modes.1, expression));
  }

  /** The sources `s1, s2, ...` from c, appended to `sources`: one source,
      then another after each comma. */
  function SourcesFrom(ts: seq<string>, fp: ExpressionParser, c: nat, sources: seq<Source>): (r: Result<(seq<Source>, nat)>)
    ensures MovesWithin(r, ts, c)
    ensures r.Ok? ==> |r.value.0| > |sources|
    ensures r.Ok? ==> TokenAt(ts, r.value.1) != ","
  {
    SeparatedFrom(ts, SourceReader(ts, fp), c, sources)
  }

  /** The source reading at every position. */
  function SourceReader(ts: seq<string>, fp: ExpressionParser): (read: nat -> Result<(Source, nat)>)
    ensures Moving(ts, read)
  {
    (i: nat) => SourceAt(ts, fp, i)
  }

  /** The separator-driven loop over a rule's sources: `s1, s2, ...`. */
  method ParseSources(lexer: Lexer, fp: ExpressionParser) returns (r: Result<seq<Source>>)
    requires lexer.Valid()
    modifies lexer
    ensures lexer.Valid()
    ensures r.Ok? ==> |r.value| > 0 && old(lexer.cursor) < lexer.cursor
    ensures Parsed(r, lexer.cursor) == SourcesFrom(lexer.tokens, fp, old(lexer.cursor), [])
  {
    var sources: seq<Source> := [];
    var done := false;
    while !done
      invariant lexer.Valid() && old(lexer.cursor) <= lexer.cursor
      invariant !done ==> SourcesFrom(lexer.tokens, fp, old(lexer.cursor), []) == SourcesFrom(lexer.tokens, fp, lexer.cursor, sources)
      invariant done ==> SourcesFrom(lexer.tokens, fp, old(lexer.cursor), []) == Ok((sources, lexer.cursor))
      decreases |lexer.tokens| - lexer.cursor, !done
    {
      var next;
      next, done := ParseNextSource(lexer, fp, sources);
      if next.Err? {
        return Err(next.error);
      }
      sources := next.value;
    }
    r := Ok(sources);
  }

  /** One round of that loop: a source, and the comma after it if any. */
  method ParseNextSource(lexer: Lexer, fp: ExpressionParser, sources: seq<Source>) returns (r: Result<seq<Source>>, done: bool)
    requires lexer.Valid()
    modifies lexer
    ensures lexer.Valid()
    ensures r.Ok? ==> old(lexer.cursor) < lexer.cursor
    ensures r.Err? ==> SourcesFrom(lexer.tokens, fp, old(lexer.cursor), sources) == Err(r.error)
    ensures r.Ok? ==>
      SourcesFrom(lexer.tokens, fp, old(lexer.cursor), sources)
        == (if done then Ok((r.value, lexer.cursor)) else SourcesFrom(lexer.tokens, fp, lexer.cursor, r.value))
  {
    done := true;
    ghost var start := lexer.cursor;
    var s := ParseSource(lexer, fp);
    if s.Ok? {
      var items;
      items, done := lexer.EndItem(SourceReader(lexer.tokens, fp), start, sources, s.value);
      r := Ok(items);
    } else {
      SeparatedFails(lexer.tokens, SourceReader(lexer.tokens, fp), start, sources);
      r := Err(s.error);
    }
  }

  /** The targets `t1, t2, ...` from c, appended to `targets`. */
  function TargetsFrom(ts: seq<string>, fp: ExpressionParser, c: nat, targets: seq<Target>): (r: Result<(seq<Target>, nat)>)
    ensures MovesWithin(r, ts, c)
    ensures r.Ok? ==> |r.value.0| > |targets|
    ensures r.Ok? ==> TokenAt(ts, r.value.1) != ","
  {
    SeparatedFrom(ts, TargetReader(ts, fp), c, targets)
  }

  /** The target reading at every position. */
  function TargetReader(ts: seq<string>, fp: ExpressionParser): (read: nat -> Result<(Target, nat)>)
    ensures Moving(ts, read)
  {
    (i: nat) => TargetAt(ts, fp, i)
  }

  /** The loop over a rule's targets after `make`: `t1, t2, ...`. */
  method ParseTargets(lexer: Lexer, fp: ExpressionParser) returns (r: Result<seq<Target>>)
    requires lexer.Valid()
    modifies lexer
    ensures lexer.Valid()
    ensures r.Ok? ==> |r.value| > 0 && old(lexer.cursor) < lexer.cursor
    ensures Parsed(r, lexer.cursor) == TargetsFrom(lexer.tokens, fp, old(lexer.cursor), [])
  {
    var targets: seq<Target> := [];
    var done := false;
    while !done
      invariant lexer.Valid() && old(lexer.cursor) <= lexer.cursor
      invariant !done ==> TargetsFrom(lexer.tokens, fp, old(lexer.cursor), []) == TargetsFrom(lexer.tokens, fp, lexer.cursor, targets)
      invariant done ==> TargetsFrom(lexer.tokens, fp, old(lexer.cursor), []) == Ok((targets, lexer.cursor))
      decreases |lexer.tokens| - lexer.cursor, !done
    {
      var next;
      next, done := ParseNextTarget(lexer, fp, targets);
      if next.Err? {
        return Err(next.error);
      }
      targets := next.value;
    }
    r := Ok(targets);
  }

  /** One round of that loop: a target, and the comma after it if any. */
  method ParseNextTarget(lexer: Lexer, fp: ExpressionParser, targets: seq<Target>) returns (r: Result<seq<Target>>, done: bool)
    requires lexer.Valid()
    modifies lexer
    ensures lexer.Valid()
    ensures r.Ok? ==> old(lexer.cursor) < lexer.cursor
    ensures r.Err? ==> TargetsFrom(lexer.tokens, fp, old(lexer.cursor), targets) == Err(r.error)
    ensures r.Ok? ==>
      TargetsFrom(lexer.tokens, fp, old(lexer.cursor), targets)
        == (if done then Ok((r.value, lexer.cursor)) else TargetsFrom(lexer.tokens, fp, lexer.cursor, r.value))
  {
    done := true;
    ghost var start := lexer.cursor;
    var t := ParseTarget(lexer, fp);
    if t.Ok? {
      var items;
      items, done := lexer.EndItem(TargetReader(lexer.tokens, fp), start, targets, t.value);
      r := Ok(items);
    } else {
      SeparatedFails(lexer.tokens, TargetReader(lexer.tokens, fp), start, targets);
      r := Err(t.error);
    }
  }

  /** The invocations `f(a), g(b, c), ...` from c, appended to `dependents`. */
  function RuleReferencesFrom(ts: seq<string>, c: nat, dependents: seq<Dependent>): (r: Result<(seq<Dependent>, nat)>)
    ensures MovesWithin(r, ts, c)
    ensures r.Ok? ==> |r.value.0| > |dependents|
    ensures r.Ok? ==> TokenAt(ts, r.value.1) != ","
  {
    SeparatedFrom(ts, RuleReferenceReader(ts), c, dependents)
  }

  /** The invocation reading at every position. */
  function RuleReferenceReader(ts: seq<string>): (read: nat -> Result<(Dependent, nat)>)
    ensures Moving(ts, read)
  {
    (i: nat) => RuleReferenceAt(ts, i)
  }

  /** The loop over a rule's dependent invocations after `then`. */
  method ParseRuleReferences(lexer: Lexer) returns (r: Result<seq<Dependent>>)
    requires lexer.Valid()
    modifies lexer
    ensures lexer.Valid()
    ensures r.Ok? ==> |r.value| > 0 && old(lexer.cursor) < lexer.cursor
    ensures Parsed(r, lexer.cursor) == RuleReferencesFrom(lexer.tokens, old(lexer.cursor), [])
  {
    var dependents: seq<Dependent> := [];
    var done := false;
    while !done
      invariant lexer.Valid() && old(lexer.cursor) <= lexer.cursor
      invariant !done ==> RuleReferencesFrom(lexer.tokens, old(lexer.cursor), []) == RuleReferencesFrom(lexer.tokens, lexer.cursor, dependents)
      invariant done ==> RuleReferencesFrom(lexer.tokens, old(lexer.cursor), []) == Ok((dependents, lexer.cursor))
      decreases |lexer.tokens| - lexer.cursor, !done
    {
      var next;
      next, done := ParseNextReference(lexer, dependents);
      if next.Err? {
        return Err(next.error);
      }
      dependents := next.value;
    }
    r := Ok(dependents);
  }

  /** One round of that loop: an invocation, and the comma after it if any. */
  method ParseNextReference(lexer: Lexer, dependents: seq<Dependent>) returns (r: Result<seq<Dependent>>, done: bool)
    requires lexer.Valid()
    modifies lexer
    ensures lexer.Valid()
    ensures r.Ok? ==> old(lexer.cursor) < lexer.cursor
    ensures r.Err? ==> RuleReferencesFrom(lexer.tokens, old(lexer.cursor), dependents) == Err(r.error)
    ensures r.Ok? ==>
      RuleReferencesFrom(lexer.tokens, old(lexer.cursor), dependents)
        == (if done then Ok((r.value, lexer.cursor)) else RuleReferencesFrom(lexer.tokens, lexer.cursor, r.value))
  {
    done := true;
    ghost var start := lexer.cursor;
    var d := ParseRuleReference(lexer);
    if d.Ok? {
      var items;
      items, done := lexer.EndItem(RuleReferenceReader(lexer.tokens), start, dependents, d.value);
      r := Ok(items);
    } else {
      SeparatedFails(lexer.tokens, RuleReferenceReader(lexer.tokens), start, dependents);
      r := Err(d.error);
    }
  }

  /** `name : for` at c: the rule's dotted name, and the position after `for`. */
  function RuleNameAt(ts: seq<string>, c: nat): (r: Result<(string, nat)>)
    requires c <= |ts|
    ensures MovesWithin(r, ts, c)
  {
    var name :- DottedAt(ts, c);
    var colon :- KeywordAt(ts, name.1, ":");
    var keyword :- KeywordAt(ts, colon, "for");
    Ok((name.0, keyword))
  }

  /** The part of a rule at c before `then`: its name, its sources and its
      targets after `make` (none without it). */
  function RuleHeadAt(ts: seq<string>, fp: ExpressionParser, c: nat)
    : (r: Result<((string, seq<Source>, seq<Target>), nat)>)
    requires c <= |ts|
    ensures MovesWithin(r, ts, c)
    ensures r.Ok? ==> |r.value.0.1| > 0
  {
    var name :- RuleNameAt(ts, c);
    var sources :- SourcesFrom(ts, fp, name.1, []);
    var targets :- MadeAt(ts, fp, sources.1);
    Ok(((name.0, sources.0, targets.0), targets.1))
  }

  /** `make t1, t2, ...` at c: the targets, none without `make`. */
  function MadeAt(ts: seq<string>, fp: ExpressionParser, c: nat): (r: Result<(seq<Target>, nat)>)
    requires c <= |ts|
    ensures StopsWithin(r, ts, c)
    ensures TokenAt(ts, c) != "make" ==> r == Ok(([], c))
    ensures TokenAt(ts, c) == "make" ==> r == TargetsFrom(ts, fp, c + 1, [])
  {
    if TokenAt(ts, c) == "make" then TargetsFrom(ts, fp, c + 1, []) else Ok(([], c))
  }

  /** A rule at c: `name : for sources [make targets]` and then its body. */
  function RuleAt(ts: seq<string>, fp: ExpressionParser, c: nat): (r: Result<(Rule, nat)>)
    requires c <= |ts|
    ensures MovesWithin(r, ts, c)
    ensures r.Ok? ==> |r.value.0.sources| > 0 && (r.value.0.rules == [] || r.value.0.dependents == [])
    decreases |ts| - c, 0
  {
    var head :- RuleHeadAt(ts, fp, c);
    var (name, sources, targets) := head.0;
    RuleBodyAt(ts, fp, head.1, name, sources, targets)
  }

  /** The body of a rule at c, after its head: `then { rules }` with a
      comment just after "{" as the documentation, `then` and invocations,
      or no `then` and a comment as the documentation; then the comments
      that follow. */
  function RuleBodyAt(ts: seq<string>, fp: ExpressionParser, c: nat, name: string, sources: seq<Source>, targets: seq<Target>)
    : (r: Result<(Rule, nat)>)
    requires c <= |ts|
    ensures StopsWithin(r, ts, c)
    ensures r.Ok? ==>
      var rule := r.value.0;
      && rule.name == name && rule.sources == sources && rule.targets == targets
      && (rule.rules == [] || rule.dependents == [])
      && (rule.rules != [] ==> TokenAt(ts, c) == "then" && TokenAt(ts, c + 1) == "{")
      && (rule.dependents != [] ==> TokenAt(ts, c) == "then" && TokenAt(ts, c + 1) != "{")
      && (TokenAt(ts, c) != "then" ==> rule.rules == [] && rule.dependents == [])
      && (TokenAt(ts, c) == "then" && TokenAt(ts, c + 1) != "{" ==> rule.documentation == "")
    decreases |ts| - c, 0
  {
    if TokenAt(ts, c) == "then" then
      if TokenAt(ts, c + 1) == "{" then
        var doc := CommentAt(ts, c + 2);
        var nested :- NestedRulesFrom(ts, fp, CommentsEnd(ts, doc.1), []);
        Ok((Rule(name, sources, targets, nested.0, [], doc.0), CommentsEnd(ts, nested.1)))
      else
        var dependents :- RuleReferencesFrom(ts, c + 1, []);
        Ok((Rule(name, sources, targets, [], dependents.0, ""), CommentsEnd(ts, dependents.1)))
    else
      var doc := CommentAt(ts, c);
      Ok((Rule(name, sources, targets, [], [], doc.0), CommentsEnd(ts, doc.1)))
  }

  /** The nested rules from c, appended to `rules`, up to and past the
      closing "}"; the input must not end first. */
  function NestedRulesFrom(ts: seq<string>, fp: ExpressionParser, c: nat, rules: seq<Rule>): (r: Result<(seq<Rule>, nat)>)
    requires c <= |ts|
    ensures MovesWithin(r, ts, c)
    ensures r.Ok? && (forall i :: 0 <= i < |rules| ==> |rules[i].sources| > 0) ==>
      forall i :: 0 <= i < |r.value.0| ==> |r.value.0[i].sources| > 0
    decreases |ts| - c, 1
  {
    if TokenAt(ts, c) == "}" then Ok((rules, c + 1))
    else if c == |ts| then Fails("premature termination expecting '}' in nested group")
    else
      var rule :- RuleAt(ts, fp, c);
      NestedRulesFrom(ts, fp, rule.1, rules + [rule.0])
  }

  /** A rule: `name : for sources [make targets] [then { rules } | then
      invocations] [comment]`. A rule has at least one source, and either
      nested rules or dependent invocations, never both. */
  method ParseRule(lexer: Lexer, fp: ExpressionParser) returns (r: Result<Rule>, ghost nameEnd: nat, ghost bodyAt: nat)
    requires lexer.Valid()
    modifies lexer
    ensures lexer.Valid()
    ensures r.Ok? ==>
      && old(lexer.cursor) < lexer.cursor
      && |r.value.sources| > 0
      && (r.value.rules == [] || r.value.dependents == [])
    ensures r.Ok? ==> RuleShape(lexer.tokens, old(lexer.cursor), nameEnd, bodyAt, lexer.cursor, r.value)
    ensures Parsed(r, lexer.cursor) == RuleAt(lexer.tokens, fp, old(lexer.cursor))
    decreases |lexer.tokens| - lexer.cursor, 0
  {
    bodyAt := lexer.cursor;
    var head;
    head, nameEnd := ParseRuleHead(lexer, fp);
    if head.Err? {
      return Err(head.error), nameEnd, bodyAt;
    }
    var (name, sources, targets) := head.value;
    bodyAt := lexer.cursor;
    r, bodyAt := ParseRuleBody(lexer, fp, old(lexer.cursor), nameEnd, name, sources, targets);
  }

  /** Where the parts of a rule read from `start` to `end` lie: the name
      spans start..nameEnd and is followed by `: for`; the body starts at
      bodyAt, with `then {` before nested rules and `then` alone before
      invocations. */
  ghost predicate RuleShape(ts: seq<string>, start: nat, nameEnd: nat, bodyAt: nat, end: nat, rule: Rule) {
    && start < nameEnd && nameEnd + 2 < bodyAt <= end <= |ts|
    && DotsBetween(ts, start, nameEnd)
    && rule.name == Concat(ts[start..nameEnd])
    && ts[nameEnd] == ":" && ts[nameEnd + 1] == "for"
    && (rule.rules != [] ==> TokenAt(ts, bodyAt) == "then" && TokenAt(ts, bodyAt + 1) == "{")
    && (rule.dependents != [] ==> TokenAt(ts, bodyAt) == "then" && TokenAt(ts, bodyAt + 1) != "{")
    && (TokenAt(ts, bodyAt) != "then" ==> rule.rules == [] && rule.dependents == [])
  }

  /** The body of a rule, after the head read from `start`. */
  method ParseRuleBody(lexer: Lexer, fp: ExpressionParser, ghost start: nat, ghost nameEnd: nat,
                       name: string, sources: seq<Source>, targets: seq<Target>)
    returns (r: Result<Rule>, ghost bodyAt: nat)
    requires lexer.Valid() && |sources| > 0
    requires start < nameEnd && nameEnd + 2 < lexer.cursor && DotsBetween(lexer.tokens, start, nameEnd)
    requires name == Concat(lexer.tokens[start..nameEnd])
    requires lexer.tokens[nameEnd] == ":" && lexer.tokens[nameEnd + 1] == "for"
    requires RuleAt(lexer.tokens, fp, start) == RuleBodyAt(lexer.tokens, fp, lexer.cursor, name, sources, targets)
    modifies lexer
    ensures lexer.Valid() && bodyAt == old(lexer.cursor)
    ensures r.Ok? ==>
      && start < lexer.cursor && |r.value.sources| > 0 && (r.value.rules == [] || r.value.dependents == [])
      && RuleShape(lexer.tokens, start, nameEnd, bodyAt, lexer.cursor, r.value)
    ensures Parsed(r, lexer.cursor) == RuleAt(lexer.tokens, fp, start)
    decreases |lexer.tokens| - lexer.cursor, 3
  {
    bodyAt := lexer.cursor;
    r := ParseRuleRest(lexer, fp, name, sources, targets);
  }

  /** What follows a rule's head: `then { rules }`, `then` and invocations,
      or a comment; then the comments after it. */
  method ParseRuleRest(lexer: Lexer, fp: ExpressionParser, name: string, sources: seq<Source>, targets: seq<Target>)
    returns (r: Result<Rule>)
    requires lexer.Valid()
    modifies lexer
    ensures lexer.Valid()
    ensures Parsed(r, lexer.cursor) == RuleBodyAt(lexer.tokens, fp, old(lexer.cursor), name, sources, targets)
    decreases |lexer.tokens| - lexer.cursor, 2
  {
    if lexer.HasToken("then") {
      ghost var start := lexer.cursor;
      lexer.SkipToken("then");
      if lexer.HasToken("{") {
        r := ParseNestedBody(lexer, fp, start, name, sources, targets);
      } else {
        r := ParseInvokingBody(lexer, start, fp, name, sources, targets);
      }
    } else {
      var documentation := ReadComment(lexer);
      lexer.SkipComments();
      r := Ok(Rule(name, sources, targets, [], [], documentation));
    }
  }

  /** The body `then { rules }` of a rule, from just after `then` at
      `start`, with a comment just after "{" as the documentation. */
  method ParseNestedBody(lexer: Lexer, fp: ExpressionParser, ghost start: nat,
                         name: string, sources: seq<Source>, targets: seq<Target>)
    returns (r: Result<Rule>)
    requires lexer.Valid() && lexer.cursor == start + 1 && lexer.tokens[start] == "then" && lexer.HasToken("{")
    modifies lexer
    ensures lexer.Valid()
    ensures Parsed(r, lexer.cursor) == RuleBodyAt(lexer.tokens, fp, start, name, sources, targets)
    decreases |lexer.tokens| - lexer.cursor, 0
  {
    lexer.SkipToken("{");
    var documentation := ReadComment(lexer);
    lexer.SkipComments();
    var nested := ParseNestedRules(lexer, fp);
    RuleBodyNested(lexer.tokens, fp, start, name, sources, targets);
    if nested.Err? {
      return Err(nested.error);
    }
    lexer.SkipComments();
    r := Ok(Rule(name, sources, targets, nested.value, [], documentation));
  }

  /** The body `then f(a), ...` of a rule, from just after `then` at
      `start`. */
  method ParseInvokingBody(lexer: Lexer, ghost start: nat, fp: ExpressionParser,
                           name: string, sources: seq<Source>, targets: seq<Target>)
    returns (r: Result<Rule>)
    requires lexer.Valid() && lexer.cursor == start + 1 && lexer.tokens[start] == "then" && !lexer.HasToken("{")
    modifies lexer
    ensures lexer.Valid()
    ensures Parsed(r, lexer.cursor) == RuleBodyAt(lexer.tokens, fp, start, name, sources, targets)
  {
    var refs := ParseRuleReferences(lexer);
    RuleBodyInvoking(lexer.tokens, fp, start, name, sources, targets);
    if refs.Err? {
      return Err(refs.error);
    }
    lexer.SkipComments();
    r := Ok(Rule(name, sources, targets, [], refs.value, ""));
  }

  /** The body `then { rules }` at c. */
  lemma RuleBodyNested(ts: seq<string>, fp: ExpressionParser, c: nat, name: string, sources: seq<Source>, targets: seq<Target>)
    requires c + 1 < |ts| && ts[c] == "then" && ts[c + 1] == "{"
    ensures var doc := CommentAt(ts, c + 2);
      var nested := NestedRulesFrom(ts, fp, CommentsEnd(ts, doc.1), []);
      RuleBodyAt(ts, fp, c, name, sources, targets)
        == if nested.Err? then Err(nested.error)
           else Ok((Rule(name, sources, targets, nested.value.0, [], doc.0), CommentsEnd(ts, nested.value.1)))
  {
  }

  /** The body `then f(a), ...` at c. */
  lemma RuleBodyInvoking(ts: seq<string>, fp: ExpressionParser, c: nat, name: string, sources: seq<Source>, targets: seq<Target>)
    requires c < |ts| && ts[c] == "then" && TokenAt(ts, c + 1) != "{"
    ensures var refs := RuleReferencesFrom(ts, c + 1, []);
      RuleBodyAt(ts, fp, c, name, sources, targets)
        == if refs.Err? then Err(refs.error)
           else Ok((Rule(name, sources, targets, [], refs.value.0, ""), CommentsEnd(ts, refs.value.1)))
  {
  }

  /** `name : for`: the rule's dotted name. It ends at `nameEnd`, where
      `: for` follows it. */
  method ParseRuleName(lexer: Lexer) returns (r: Result<string>, ghost nameEnd: nat)
    requires lexer.Valid()
    modifies lexer
    ensures lexer.Valid()
    ensures r.Ok? ==>
      && old(lexer.cursor) < nameEnd && nameEnd + 2 == lexer.cursor
      && DotsBetween(lexer.tokens, old(lexer.cursor), nameEnd)
      && r.value == Concat(lexer.tokens[old(lexer.cursor)..nameEnd])
      && lexer.tokens[nameEnd] == ":" && lexer.tokens[nameEnd + 1] == "for"
    ensures Parsed(r, lexer.cursor) == RuleNameAt(lexer.tokens, old(lexer.cursor))
  {
    nameEnd := lexer.cursor;
    var name := lexer.TakeDottedToken();
    if name.Err? {
      return Err(name.error), nameEnd;
    }
    nameEnd := lexer.cursor;
    var colon := lexer.Token(":");
    if colon.Fail? {
      return Err(colon.error), nameEnd;
    }
    var keyword := lexer.Token("for");
    if keyword.Fail? {
      return Err(keyword.error), nameEnd;
    }
    r := Ok(name.value);
  }

  /** The part of a rule before `then`: its name, its sources and its
      optional `make` targets. The name ends at `nameEnd`, where `: for`
      follows it. */
  method ParseRuleHead(lexer: Lexer, fp: ExpressionParser)
    returns (r: Result<(string, seq<Source>, seq<Target>)>, ghost nameEnd: nat)
    requires lexer.Valid()
    modifies lexer
    ensures lexer.Valid()
    ensures r.Ok? ==> old(lexer.cursor) < lexer.cursor && |r.value.1| > 0
    ensures r.Ok? ==>
      && old(lexer.cursor) < nameEnd && nameEnd + 2 < lexer.cursor
      && DotsBetween(lexer.tokens, old(lexer.cursor), nameEnd)
      && r.value.0 == Concat(lexer.tokens[old(lexer.cursor)..nameEnd])
      && lexer.tokens[nameEnd] == ":" && lexer.tokens[nameEnd + 1] == "for"
    ensures Parsed(r, lexer.cursor) == RuleHeadAt(lexer.tokens, fp, old(lexer.cursor))
  {
    var name;
    name, nameEnd := ParseRuleName(lexer);
    if name.Err? {
      return Err(name.error), nameEnd;
    }
    var sources := ParseSources(lexer, fp);
    if sources.Err? {
      return Err(sources.error), nameEnd;
    }
    var targets := ParseMade(lexer, fp);
    if targets.Err? {
      return Err(targets.error), nameEnd;
    }
    r := Ok((name.value, sources.value, targets.value));
  }

  /** The optional `make t1, t2, ...` of a rule. */
  method ParseMade(lexer: Lexer, fp: ExpressionParser) returns (r: Result<seq<Target>>)
    requires lexer.Valid()
    modifies lexer
    ensures lexer.Valid()
    ensures Parsed(r, lexer.cursor) == MadeAt(lexer.tokens, fp, old(lexer.cursor))
  {
    if !lexer.HasToken("make") {
      return Ok([]);
    }
    lexer.SkipToken("make");
    r := ParseTargets(lexer, fp);
  }

  /** The nested rules of a rule, up to and including the closing `}`. */
  method ParseNestedRules(lexer: Lexer, fp: ExpressionParser) returns (r: Result<seq<Rule>>)
    requires lexer.Valid()
    modifies lexer
    ensures lexer.Valid()
    ensures r.Ok? ==> old(lexer.cursor) < lexer.cursor && forall i :: 0 <= i < |r.value| ==> |r.value[i].sources| > 0
    ensures Parsed(r, lexer.cursor) == NestedRulesFrom(lexer.tokens, fp, old(lexer.cursor), [])
    decreases |lexer.tokens| - lexer.cursor, 2
  {
    var rules: seq<Rule> := [];
    while !lexer.HasToken("}")
      invariant lexer.Valid() && old(lexer.cursor) <= lexer.cursor
      invariant forall i :: 0 <= i < |rules| ==> |rules[i].sources| > 0
      invariant NestedRulesFrom(lexer.tokens, fp, old(lexer.cursor), []) == NestedRulesFrom(lexer.tokens, fp, lexer.cursor, rules)
      decreases |lexer.tokens| - lexer.cursor
    {
      var rule := ParseNestedRule(lexer, fp, rules);
      if rule.Err? {
        return Err(rule.error);
      }
      rules := rules + [rule.value];
    }
    lexer.SkipToken("}");
    r := Ok(rules);
  }

  /** One round of that loop: a nested rule, unless the input ends first. */
  method ParseNestedRule(lexer: Lexer, fp: ExpressionParser, rules: seq<Rule>) returns (r: Result<Rule>)
    requires lexer.Valid() && !lexer.HasToken("}")
    modifies lexer
    ensures lexer.Valid()
    ensures r.Err? ==> NestedRulesFrom(lexer.tokens, fp, old(lexer.cursor), rules) == Err(r.error)
    ensures r.Ok? ==>
      && old(lexer.cursor) < lexer.cursor && |r.value.sources| > 0
      && NestedRulesFrom(lexer.tokens, fp, old(lexer.cursor), rules)
           == NestedRulesFrom(lexer.tokens, fp, lexer.cursor, rules + [r.value])
    decreases |lexer.tokens| - lexer.cursor, 1
  {
    if lexer.Done() {
      return Fails("premature termination expecting '}' in nested group");
    }
    ghost var nameEnd, bodyAt;
    r, nameEnd, bodyAt := ParseRule(lexer, fp);
  }

  // ---------------------------------------------------------------------
  // Groups and the whole map

  /** `group name [extends other]` at c and the comments after it: the
      group's name and the name it extends, or "" when it extends none. */
  function GroupHeadAt(ts: seq<string>, c: nat): (r: Result<((string, string), nat)>)
    requires c <= |ts| && NonEmptyTokens(ts)
    ensures MovesWithin(r, ts, c)
    ensures r.Ok? ==>
      && c + 2 <= r.value.1
      && ts[c] == "group" && r.value.0.0 == ts[c + 1]
      && (r.value.0.1 != "" <==> TokenAt(ts, c + 2) == "extends")
      && (TokenAt(ts, c + 2) == "extends" ==> c + 4 <= r.value.1 && r.value.0.1 == ts[c + 3])
  {
    var keyword :- KeywordAt(ts, c, "group");
    var name :- TakeAt(ts, keyword);
    if TokenAt(ts, name.1) == "extends" then
      var other :- TakeAt(ts, name.1 + 1);
      Ok(((name.0, other.0), CommentsEnd(ts, other.1)))
    else
      Ok(((name.0, ""), CommentsEnd(ts, name.1)))
  }

  method ParseGroupHead(lexer: Lexer) returns (r: Result<(string, string)>)
    requires lexer.Valid()
    modifies lexer
    ensures lexer.Valid()
    ensures Parsed(r, lexer.cursor) == GroupHeadAt(lexer.tokens, old(lexer.cursor))
  {
    var keyword := lexer.Token("group");
    if keyword.Fail? {
      return Err(keyword.error);
    }
    var name := lexer.Take();
    if name.Err? {
      return Err(name.error);
    }
    var extendsName := "";
    if lexer.HasToken("extends") {
      lexer.Next();
      var other := lexer.Take();
      if other.Err? {
        return Err(other.error);
      }
      extendsName := other.value;
    }
    lexer.SkipComments();
    r := Ok((name.value, extendsName));
  }

  /** The input declarations from c, appended to `inputs`, for as long as
      the current token is `input`. */
  function InputsFrom(ts: seq<string>, c: nat, inputs: seq<Input>): (r: Result<(seq<Input>, nat)>)
    requires c <= |ts| && NonEmptyTokens(ts)
    ensures StopsWithin(r, ts, c)
    ensures r.Ok? ==> TokenAt(ts, r.value.1) != "input"
    decreases |ts| - c
  {
    if TokenAt(ts, c) == "input" then
      var input :- InputAt(ts, c);
      InputsFrom(ts, input.1, inputs + [input.0])
    else Ok((inputs, c))
  }

  method ParseInputs(lexer: Lexer) returns (r: Result<seq<Input>>)
    requires lexer.Valid()
    modifies lexer
    ensures lexer.Valid()
    ensures Parsed(r, lexer.cursor) == InputsFrom(lexer.tokens, old(lexer.cursor), [])
  {
    var inputs: seq<Input> := [];
    while lexer.HasToken("input")
      invariant lexer.Valid() && old(lexer.cursor) <= lexer.cursor
      invariant InputsFrom(lexer.tokens, old(lexer.cursor), []) == InputsFrom(lexer.tokens, lexer.cursor, inputs)
      decreases |lexer.tokens| - lexer.cursor
    {
      var input := ParseInput(lexer);
      if input.Err? {
        return Err(input.error);
      }
      inputs := inputs + [input.value];
    }
    r := Ok(inputs);
  }

  /** The rules of a group from c, appended to `rules`, up to `endgroup` and
      the comments after it; the input must not end first. */
  function GroupRulesFrom(ts: seq<string>, fp: ExpressionParser, c: nat, rules: seq<Rule>): (r: Result<(seq<Rule>, nat)>)
    requires c <= |ts|
    ensures MovesWithin(r, ts, c)
    ensures r.Ok? && (forall i :: 0 <= i < |rules| ==> |rules[i].sources| > 0) ==>
      forall i :: 0 <= i < |r.value.0| ==> |r.value.0[i].sources| > 0
    decreases |ts| - c
  {
    if TokenAt(ts, c) == "endgroup" then Ok((rules, CommentsEnd(ts, c + 1)))
    else if c == |ts| then Fails("premature termination expecting 'endgroup'")
    else
      var rule :- RuleAt(ts, fp, c);
      GroupRulesFrom(ts, fp, rule.1, rules + [rule.0])
  }

  method ParseGroupRules(lexer: Lexer, fp: ExpressionParser) returns (r: Result<seq<Rule>>)
    requires lexer.Valid()
    modifies lexer
    ensures lexer.Valid()
    ensures Parsed(r, lexer.cursor) == GroupRulesFrom(lexer.tokens, fp, old(lexer.cursor), [])
  {
    var rules: seq<Rule> := [];
    while !lexer.HasToken("endgroup")
      invariant lexer.Valid() && old(lexer.cursor) <= lexer.cursor
      invariant GroupRulesFrom(lexer.tokens, fp, old(lexer.cursor), []) == GroupRulesFrom(lexer.tokens, fp, lexer.cursor, rules)
      decreases |lexer.tokens| - lexer.cursor
    {
      if lexer.Done() {
        return Fails("premature termination expecting 'endgroup'");
      }
      var rule;
      ghost var nameEnd, bodyAt;
      rule, nameEnd, bodyAt := ParseRule(lexer, fp);
      if rule.Err? {
        return Err(rule.error);
      }
      rules := rules + [rule.value];
    }
    lexer.Next();
    lexer.SkipComments();
    r := Ok(rules);
  }

  /** A group at c: its head, its inputs and its rules. The group is given
      no documentation. */
  function GroupAt(ts: seq<string>, fp: ExpressionParser, c: nat): (r: Result<(Group, nat)>)
    requires c <= |ts| && NonEmptyTokens(ts)
    ensures MovesWithin(r, ts, c)
    ensures r.Ok? ==>
      var g := r.value.0;
      && c + 2 <= r.value.1
      && ts[c] == "group" && g.name == ts[c + 1] && g.documentation == ""
      && (g.extendsName != "" <==> TokenAt(ts, c + 2) == "extends")
      && (TokenAt(ts, c + 2) == "extends" ==> g.extendsName == TokenAt(ts, c + 3))
      && (forall i :: 0 <= i < |g.rules| ==> |g.rules[i].sources| > 0)
  {
    var head :- GroupHeadAt(ts, c);
    var inputs :- InputsFrom(ts, head.1, []);
    var rules :- GroupRulesFrom(ts, fp, inputs.1, []);
    Ok((Group(head.0.0, head.0.1, "", inputs.0, rules.0), rules.1))
  }

  /** `group name [extends other] inputs rules endgroup`. */
  method ParseGroup(lexer: Lexer, fp: ExpressionParser) returns (r: Result<Group>)
    requires lexer.Valid()
    modifies lexer
    ensures lexer.Valid()
    ensures Parsed(r, lexer.cursor) == GroupAt(lexer.tokens, fp, old(lexer.cursor))
  {
    var head := ParseGroupHead(lexer);
    if head.Err? {
      return Err(head.error);
    }
    var inputs := ParseInputs(lexer);
    if inputs.Err? {
      return Err(inputs.error);
    }
    var rules := ParseGroupRules(lexer, fp);
    if rules.Err? {
      return Err(rules.error);
    }
    r := Ok(Group(head.value.0, head.value.1, "", inputs.value, rules.value));
  }

  /** The groups from c, appended to `groups`, up to the end of the input. */
  function GroupsFrom(ts: seq<string>, fp: ExpressionParser, c: nat, groups: seq<Group>): (r: Result<(seq<Group>, nat)>)
    requires c <= |ts| && NonEmptyTokens(ts)
    ensures r.Ok? ==> r.value.1 == |ts| && |groups| <= |r.value.0|
    decreases |ts| - c
  {
    if c == |ts| then Ok((groups, c))
    else
      var g :- GroupAt(ts, fp, c);
      GroupsFrom(ts, fp, g.1, groups + [g.0])
  }

  /** The groups that end a map: at least one, up to the end of the input. */
  function GroupListAt(ts: seq<string>, fp: ExpressionParser, c: nat): (r: Result<(seq<Group>, nat)>)
    requires c <= |ts| && NonEmptyTokens(ts)
    ensures r.Ok? ==> |r.value.0| > 0 && r.value.1 == |ts|
  {
    var first :- GroupAt(ts, fp, c);
    GroupsFrom(ts, fp, first.1, [first.0])
  }

  method ParseGroups(lexer: Lexer, fp: ExpressionParser) returns (r: Result<seq<Group>>)
    requires lexer.Valid()
    modifies lexer
    ensures lexer.Valid()
    ensures r.Ok? ==> |r.value| > 0 && lexer.Done()
    ensures Parsed(r, lexer.cursor) == GroupListAt(lexer.tokens, fp, old(lexer.cursor))
  {
    var first := ParseGroup(lexer, fp);
    if first.Err? {
      return Err(first.error);
    }
    var groups := [first.value];
    while !lexer.Done()
      invariant lexer.Valid()
      invariant GroupListAt(lexer.tokens, fp, old(lexer.cursor)) == GroupsFrom(lexer.tokens, fp, lexer.cursor, groups)
      decreases |lexer.tokens| - lexer.cursor
    {
      var g := ParseGroup(lexer, fp);
      if g.Err? {
        return Err(g.error);
      }
      groups := groups + [g.value];
    }
    r := Ok(groups);
  }

  /** The header of a map after any comments from c: `map "url" = "name"`.
      It starts at the first token that is not a comment. */
  function HeaderAt(ts: seq<string>, c: nat): (r: Result<((string, string), nat)>)
    requires c <= |ts|
    ensures r.Ok? ==>
      var at := CommentsEnd(ts, c);
      && r.value.1 == at + 4 <= |ts|
      && ts[at] == "map" && ts[at + 2] == "="
      && IsStringConstantToken(ts[at + 1]) && r.value.0.0 == ProcessConstant(ts[at + 1])
      && IsStringConstantToken(ts[at + 3]) && r.value.0.1 == ProcessConstant(ts[at + 3])
  {
    var keyword :- KeywordAt(ts, CommentsEnd(ts, c), "map");
    var url :- ConstantAt(ts, keyword, "url");
    var equals :- KeywordAt(ts, url.1, "=");
    var name :- ConstantAt(ts, equals, "name");
    Ok(((url.0, name.0), name.1))
  }

  /** The header of a map: `map "url" = "name"` after any comments. `at`
      is where `map` stands. */
  method ParseHeader(lexer: Lexer) returns (r: Result<(string, string)>, ghost at: nat)
    requires lexer.Valid()
    modifies lexer
    ensures lexer.Valid() && at == CommentsEnd(lexer.tokens, old(lexer.cursor))
    ensures Parsed(r, lexer.cursor) == HeaderAt(lexer.tokens, old(lexer.cursor))
  {
    lexer.SkipComments();
    at := lexer.cursor;
    var keyword := lexer.Token("map");
    if keyword.Fail? {
      return Err(keyword.error), at;
    }
    var url := lexer.ReadConstant("url");
    if url.Err? {
      return Err(url.error), at;
    }
    var equals := lexer.Token("=");
    if equals.Fail? {
      return Err(equals.error), at;
    }
    var name := lexer.ReadConstant("name");
    if name.Err? {
      return Err(name.error), at;
    }
    r := Ok((url.value, name.value));
  }

  /** The embedded concept maps from c, appended to `maps`, for as long as
      the current token is `conceptmap`. */
  function ConceptMapsFrom(ts: seq<string>, c: nat, maps: seq<ConceptMap>): (r: Result<(seq<ConceptMap>, nat)>)
    requires c <= |ts|
    ensures StopsWithin(r, ts, c)
    ensures r.Ok? ==> TokenAt(ts, r.value.1) != "conceptmap"
    decreases |ts| - c
  {
    if TokenAt(ts, c) == "conceptmap" then
      var m :- ConceptMapAt(ts, c);
      ConceptMapsFrom(ts, m.1, maps + [m.0])
    else Ok((maps, c))
  }

  method ParseConceptMaps(lexer: Lexer) returns (r: Result<seq<ConceptMap>>)
    requires lexer.Valid()
    modifies lexer
    ensures lexer.Valid()
    ensures Parsed(r, lexer.cursor) == ConceptMapsFrom(lexer.tokens, old(lexer.cursor), [])
  {
    var maps: seq<ConceptMap> := [];
    while lexer.HasToken("conceptmap")
      invariant lexer.Valid() && old(lexer.cursor) <= lexer.cursor
      invariant ConceptMapsFrom(lexer.tokens, old(lexer.cursor), []) == ConceptMapsFrom(lexer.tokens, lexer.cursor, maps)
      decreases |lexer.tokens| - lexer.cursor
    {
      var m := ParseConceptMap(lexer);
      if m.Err? {
        return Err(m.error);
      }
      maps := maps + [m.value];
    }
    r := Ok(maps);
  }

  /** The `uses` declarations from c, appended to `structures`. */
  function UsesFrom(ts: seq<string>, c: nat, structures: seq<Structure>): (r: Result<(seq<Structure>, nat)>)
    requires c <= |ts| && NonEmptyTokens(ts)
    ensures StopsWithin(r, ts, c)
    ensures r.Ok? ==> TokenAt(ts, r.value.1) != "uses"
    decreases |ts| - c
  {
    if TokenAt(ts, c) == "uses" then
      var u :- UsesAt(ts, c);
      UsesFrom(ts, u.1, structures + [u.0])
    else Ok((structures, c))
  }

  method ParseUsesClauses(lexer: Lexer) returns (r: Result<seq<Structure>>)
    requires lexer.Valid()
    modifies lexer
    ensures lexer.Valid()
    ensures Parsed(r, lexer.cursor) == UsesFrom(lexer.tokens, old(lexer.cursor), [])
  {
    var structures: seq<Structure> := [];
    while lexer.HasToken("uses")
      invariant lexer.Valid() && old(lexer.cursor) <= lexer.cursor
      invariant UsesFrom(lexer.tokens, old(lexer.cursor), []) == UsesFrom(lexer.tokens, lexer.cursor, structures)
      decreases |lexer.tokens| - lexer.cursor
    {
      var u := ParseUses(lexer);
      if u.Err? {
        return Err(u.error);
      }
      structures := structures + [u.value];
    }
    r := Ok(structures);
  }

  /** The `imports` declarations from c, appended to `imports`. */
  function ImportsFrom(ts: seq<string>, c: nat, imports: seq<string>): (r: Result<(seq<string>, nat)>)
    requires c <= |ts|
    ensures StopsWithin(r, ts, c)
    ensures r.Ok? ==> TokenAt(ts, r.value.1) != "imports"
    decreases |ts| - c
  {
    if TokenAt(ts, c) == "imports" then
      var i :- ImportsAt(ts, c);
      ImportsFrom(ts, i.1, imports + [i.0])
    else Ok((imports, c))
  }

  method ParseImportsClauses(lexer: Lexer) returns (r: Result<seq<string>>)
    requires lexer.Valid()
    modifies lexer
    ensures lexer.Valid()
    ensures Parsed(r, lexer.cursor) == ImportsFrom(lexer.tokens, old(lexer.cursor), [])
  {
    var imports: seq<string> := [];
    while lexer.HasToken("imports")
      invariant lexer.Valid() && old(lexer.cursor) <= lexer.cursor
      invariant ImportsFrom(lexer.tokens, old(lexer.cursor), []) == ImportsFrom(lexer.tokens, lexer.cursor, imports)
      decreases |lexer.tokens| - lexer.cursor
    {
      var i := ParseImports(lexer);
      if i.Err? {
        return Err(i.error);
      }
      imports := imports + [i.value];
    }
    r := Ok(imports);
  }

  /** The whole map read from the tokens: its header, then embedded concept
      maps, uses, imports and at least one group, up to the end of the
      input. */
  function MapAt(ts: seq<string>, fp: ExpressionParser): (r: Result<StructureMap>)
    requires NonEmptyTokens(ts)
    ensures ts == [] ==> r == Fails("Map Input cannot be empty")
    ensures r.Ok? ==> |r.value.groups| > 0
    ensures r.Ok? ==>
      var at := CommentsEnd(ts, 0);
      && at + 4 <= |ts|
      && ts[at] == "map" && ts[at + 2] == "="
      && IsStringConstantToken(ts[at + 1]) && r.value.url == ProcessConstant(ts[at + 1])
      && IsStringConstantToken(ts[at + 3]) && r.value.name == ProcessConstant(ts[at + 3])
  {
    if ts == [] then Fails("Map Input cannot be empty")
    else
      var header :- HeaderAt(ts, 0);
      MapBodyAt(ts, fp, header.1, header.0.0, header.0.1)
  }

  /** What follows the header of the map named `name` at `url`, from c:
      the comments, then embedded concept maps, uses, imports and the
      groups. */
  function MapBodyAt(ts: seq<string>, fp: ExpressionParser, c: nat, url: string, name: string): (r: Result<StructureMap>)
    requires c <= |ts| && NonEmptyTokens(ts)
    ensures r.Ok? ==> r.value.url == url && r.value.name == name && |r.value.groups| > 0
  {
    var maps :- ConceptMapsFrom(ts, CommentsEnd(ts, c), []);
    var uses :- UsesFrom(ts, maps.1, []);
    var imports :- ImportsFrom(ts, uses.1, []);
    var groups :- GroupListAt(ts, fp, imports.1);
    Ok(StructureMap(url, name, maps.0, uses.0, imports.0, groups.0))
  }

  /** The whole map: `map "url" = "name"`, then embedded concept maps, uses,
      imports and at least one group, up to the end of the input. `at` is
      where `map` stands. */
  method Parse(tokens: seq<string>, fp: ExpressionParser) returns (r: Result<StructureMap>, ghost at: nat)
    requires NonEmptyTokens(tokens)
    ensures at == CommentsEnd(tokens, 0)
    ensures r == MapAt(tokens, fp)
  {
    at := 0;
    var lexer := new Lexer(tokens);
    if lexer.Done() {
      return Fails("Map Input cannot be empty"), at;
    }
    var header;
    header, at := ParseHeader(lexer);
    if header.Err? {
      return Err(header.error), at;
    }
    var (url, name) := header.value;
    lexer.SkipComments();
    var contained := ParseConceptMaps(lexer);
    if contained.Err? {
      return Err(contained.error), at;
    }
    var structures := ParseUsesClauses(lexer);
    if structures.Err? {
      return Err(structures.error), at;
    }
    var imports := ParseImportsClauses(lexer);
    if imports.Err? {
      return Err(imports.error), at;
    }
    var groups := ParseGroups(lexer, fp);
    if groups.Err? {
      return Err(groups.error), at;
    }
    r := Ok(StructureMap(url, name, contained.value, structures.value, imports.value, groups.value));
  }

  /** A token that does not start with '/' is not a comment. */
  lemma NotAComment(t: string)
    requires t != "" && t[0] != '/'
    ensures !IsComment(t)
  {
    if |t| >= 2 {
      assert t[..2][0] == t[0];
    }
  }

  /** A one-character string in double quotes stands for that character. */
  lemma QuotedChar(t: string)
    requires |t| == 3 && t[0] == '"'
    ensures ProcessConstant(t) == [t[1]]
  {
  }

  /** A map that declares nothing but its header and one group that extends
      none and has no inputs: the map holds just that group, whose rules are
      the rules read after its name. */
  lemma SingleGroupMap(ts: seq<string>, fp: ExpressionParser)
    requires NonEmptyTokens(ts) && 6 < |ts|
    requires ts[0] == "map" && ts[2] == "=" && ts[4] == "group"
    requires IsStringConstantToken(ts[1]) && IsStringConstantToken(ts[3])
    requires ts[6] != "extends" && ts[6] != "input" && !IsComment(ts[6])
    requires GroupRulesFrom(ts, fp, 6, []).Ok? && GroupRulesFrom(ts, fp, 6, []).value.1 == |ts|
    ensures MapAt(ts, fp)
         == Ok(StructureMap(ProcessConstant(ts[1]), ProcessConstant(ts[3]), [], [], [],
                 [Group(ts[5], "", "", [], GroupRulesFrom(ts, fp, 6, []).value.0)]))
  {
    var rules := GroupRulesFrom(ts, fp, 6, []).value.0;
    var url, name := ProcessConstant(ts[1]), ProcessConstant(ts[3]);
    var g := Group(ts[5], "", "", [], rules);
    NotAComment(ts[0]);
    assert HeaderAt(ts, 0) == Ok(((url, name), 4));
    NotAComment(ts[4]);
    assert GroupHeadAt(ts, 4) == Ok(((ts[5], ""), 6));
    assert InputsFrom(ts, 6, []) == Ok(([], 6));
    assert GroupAt(ts, fp, 4) == Ok((g, |ts|));
    assert GroupListAt(ts, fp, 4) == Ok(([g], |ts|));
    assert MapBodyAt(ts, fp, 4, url, name) == Ok(StructureMap(url, name, [], [], [], [g]));
  }

  /** The smallest map: a header and one empty group. */
  lemma EmptyGroupMap(fp: ExpressionParser)
    ensures MapAt(["map", "\"u\"", "=", "\"m\"", "group", "g", "endgroup"], fp)
         == Ok(StructureMap("u", "m", [], [], [], [Group("g", "", "", [], [])]))
  {
    var ts := ["map", "\"u\"", "=", "\"m\"", "group", "g", "endgroup"];
    NotAComment(ts[6]);
    QuotedChar(ts[1]);
    QuotedChar(ts[3]);
    assert GroupRulesFrom(ts, fp, 6, []) == Ok(([], 7));
    SingleGroupMap(ts, fp);
  }

  /** `name : for s` closed by `endgroup` or `}`: a rule with one
      required source `s` that has no element, list mode, variable or
      condition, and no targets, nested rules, invocations or documentation. */
  lemma BareRule(ts: seq<string>, fp: ExpressionParser, c: nat)
    requires c + 4 < |ts| && ts[c + 1] == ":" && ts[c + 2] == "for" && ts[c + 3] != "optional"
    requires ts[c + 4] == "endgroup" || ts[c + 4] == "}"
    ensures RuleAt(ts, fp, c) == Ok((Rule(ts[c], [Source(ts[c + 3], "", true, None, "", "", "")], [], [], [], ""), c + 4))
  {
    var source := Source(ts[c + 3], "", true, None, "", "", "");
    NotAComment(ts[c + 4]);
    assert RuleNameAt(ts, c) == Ok((ts[c], c + 3));
    assert SourceHeadAt(ts, c + 3) == Ok(((true, ts[c + 3], ""), c + 4));
    assert SourceAt(ts, fp, c + 3) == Ok((source, c + 4));
    assert [] + [source] == [source];
    assert SourcesFrom(ts, fp, c + 3, []) == Ok(([source], c + 4));
    assert RuleHeadAt(ts, fp, c) == Ok(((ts[c], [source], []), c + 4));
  }

}

=== FILE: render.dfy ===
/** The canonical text form of a StructureMap.

    Each `*Text` function states declaratively what the engine writes for one
    node of the tree; each `Render*` method appends that text to a
    StringBuilder step by step, as the engine does, and is proved to append
    exactly the `*Text` of its node. */
module Render {
  import opened Wrappers
  import opened Text
  import opened Ast

  // ---------------------------------------------------------------------
  // Declarative text of each node

  /** Documentation as a trailing comment, line breaks turned into blanks. */
  function DocoText(doco: string): string {
    if doco == "" then ""
    else " // " + ReplaceAll(ReplaceAll(ReplaceAll(doco, "\r\n", " "), "\r", " "), "\n", " ")
  }

  /** The literal text of a parameter value (its `asStringValue`). */
  function PlainText(p: ParamValue): string {
    match p
    case IdParam(id) => id
    case StringParam(s) => s
    case BoolParam(b) => if b then "true" else "false"
    case IntParam(digits) => digits
    case DecimalParam(text) => text
  }

  /** A transform parameter: literals and variable names as they are, strings
      quoted and escaped. */
  function ParamText(p: ParamValue): string {
    match p
    case StringParam(s) => "\"" + EscapeJava(s) + "\""
    case _ => PlainText(p)
  }

  function SourceListModeText(m: ListMode): string {
    if m == Share then "only_one" else ListModeCode(m)
  }

  function SourceText(rs: Source): string {
    (if !rs.required then "optional " else "")
    + rs.context
    + (if rs.element != "" then "." + rs.element else "")
    + (if rs.listMode.Some? then " " + SourceListModeText(rs.listMode.value) else "")
    + (if rs.variable != "" then " as " + rs.variable else "")
    + (if rs.condition != "" then " where " + rs.condition else "")
    + (if rs.check != "" then " check " + rs.check else "")
  }

  /** The transform part of a target: the short forms for a one-parameter copy
      and for evaluate, the general `code(p1, p2, ...)` otherwise. */
  function TransformText(t: Transform, ps: seq<ParamValue>): string {
    if t == Copy && |ps| == 1 then ParamText(ps[0])
    else if t == Evaluate && |ps| == 1 then "(" + "\"" + PlainText(ps[0]) + "\"" + ")"
    else if t == Evaluate && |ps| == 2 then
      TransformCode(t) + "(" + PlainText(ps[0]) + "\"" + PlainText(ps[1]) + "\"" + ")"
    else TransformCode(t) + "(" + Join(Texts(ps, ParamText), ", ") + ")"
  }

  function ListModeText(m: ListMode, listRuleId: string): string {
    " " + ListModeCode(m) + (if m == Share then " " + listRuleId else "")
  }

  function ListModesText(ms: seq<ListMode>, listRuleId: string): string
    decreases |ms|
  {
    if ms == [] then ""
    else ListModesText(ms[..|ms| - 1], listRuleId) + ListModeText(ms[|ms| - 1], listRuleId)
  }

  /** The element a target writes to: `[@]context[.element]`, or nothing. */
  function TargetContextText(rt: Target): string {
    if rt.context != "" then
      (if rt.contextType == Some(TypeContext) then "@" else "")
      + rt.context
      + (if rt.element != "" then "." + rt.element else "")
    else ""
  }

  /** The value a target computes: `= transform`, or nothing. */
  function TargetValueText(rt: Target): string {
    if rt.transform.Some? then
      (if rt.context != "" then " = " else "") + TransformText(rt.transform.value, rt.parameters)
    else ""
  }

  function TargetText(rt: Target): string {
    TargetContextText(rt)
    + TargetValueText(rt)
    + (if rt.variable != "" then " as " + rt.variable else "")
    + ListModesText(rt.listModes, rt.listRuleId)
  }

  /** Each target of a multi-target rule, on its own continuation line. */
  function TargetLine(i: nat, rt: Target, indent: nat): string {
    (if i == 0 then "" else ", ") + "\r\n" + Spaces(indent + 4) + TargetText(rt)
  }

  function TargetLines(ts: seq<Target>, indent: nat): (r: seq<string>)
    ensures |r| == |ts| && forall i :: 0 <= i < |ts| ==> r[i] == TargetLine(i, ts[i], indent)
  {
    seq(|ts|, i requires 0 <= i < |ts| => TargetLine(i, ts[i], indent))
  }

  function TargetsText(ts: seq<Target>, indent: nat): string {
    if |ts| > 1 then " make " + Concat(TargetLines(ts, indent))
    else if |ts| == 1 then " make " + TargetText(ts[0])
    else ""
  }

  /** What the engine writes for the variable list of a dependent: the list's
      own text form, `[StringType[v1], StringType[v2], ...]`, in which each
      string element prints as its class name and its value. */
  function VariableListText(vars: seq<string>): string {
    "[" + Join(seq(|vars|, i requires 0 <= i < |vars| => "StringType[" + vars[i] + "]"), ", ") + "]"
  }

  /** A dependent as the engine writes it: its name, an opening parenthesis,
      and the whole variable list once per variable. No closing parenthesis. */
  function DependentText(d: Dependent): string {
    d.name + "(" + Join(seq(|d.variables|, i => VariableListText(d.variables)), ", ")
  }

  function RuleText(r: Rule, indent: nat): string
    decreases RuleSize(r), 1
  {
    Spaces(indent) + r.name + ": for " + Join(Texts(r.sources, SourceText), ", ")
    + TargetsText(r.targets, indent)
    + RuleBodyText(r, indent)
  }

  /** What follows the targets: nested rules in braces, or the dependents
      and the documentation on the same line. As the engine writes it, the
      dependents follow the targets directly, with no ` then ` before them,
      each in the engine's own dependent text. */
  function RuleBodyText(r: Rule, indent: nat): string
    decreases RuleSize(r), 0
  {
    if |r.rules| > 0 then
      " then {\r\n" + DocoText(r.documentation)
      + Concat(RuleTexts(r.rules, indent + 2))
      + Spaces(indent) + "}\r\n"
    else
      Join(Texts(r.dependents, DependentText), ", ") + DocoText(r.documentation) + "\r\n"
  }

  function RuleTexts(rs: seq<Rule>, indent: nat): (r: seq<string>)
    ensures |r| == |rs| && forall i :: 0 <= i < |rs| ==> r[i] == RuleText(rs[i], indent)
    decreases RulesSize(rs), 2
  {
    seq(|rs|, i requires 0 <= i < |rs| => RuleText(rs[i], indent))
  }

  function InputText(gi: Input): string {
    "  input " + gi.name + (if gi.typeName != "" then " : " + gi.typeName else "")
    + " as " + InputModeCode(gi.mode) + ";\r\n"
  }

  function GroupText(g: Group): string {
    "group " + g.name
    + (if g.extendsName != "" then " extends " + g.extendsName else "")
    + DocoText(g.documentation) + "\r\n"
    + Concat(Texts(g.inputs, InputText))
    + (if |g.inputs| > 0 then "\r\n" else "")
    + Concat(RuleTexts(g.rules, 2))
    + "\r\nendgroup\r\n"
  }

  function UseText(s: Structure): string {
    "uses \"" + s.url + "\" as " + ModelModeCode(s.mode) + "\r\n" + DocoText(s.documentation)
  }

  function UsesText(m: StructureMap): string {
    Concat(Texts(m.structures, UseText)) + (if |m.structures| > 0 then "\r\n" else "")
  }

  function ImportText(url: string): string {
    "imports \"" + url + "\"\r\n"
  }

  function ImportsText(m: StructureMap): string {
    Concat(Texts(m.imports, ImportText)) + (if |m.imports| > 0 then "\r\n" else "")
  }

  function HeaderText(m: StructureMap): string {
    "map \"" + m.url + "\" = \"" + EscapeJava(m.name) + "\"\r\n\r\n"
  }

  /** The whole map: header, uses, imports, then every group in order. The
      embedded concept maps are not part of the text form. */
  function MapText(m: StructureMap): string {
    HeaderText(m) + UsesText(m) + ImportsText(m) + Concat(Texts(m.groups, GroupText))
  }

  // ---------------------------------------------------------------------
  // Properties of the text form

  /** A documentation comment always stays on the line it starts on. */
  lemma DocoTextSingleLine(doco: string)
    ensures '\r' !in DocoText(doco) && '\n' !in DocoText(doco)
    ensures doco != "" ==> StartsWith(DocoText(doco), " // ")
  {
    if doco != "" {
      var a := ReplaceAll(doco, "\r\n", " ");
      var b := ReplaceAll(a, "\r", " ");
      var c := ReplaceAll(b, "\n", " ");
      if '\n' in c {
        ReplaceCharRemoves(b, '\n', " ", '\n');
      }
      if '\r' in c {
        ReplaceCharRemoves(b, '\n', " ", '\r');
        ReplaceCharRemoves(a, '\r', " ", '\r');
      }
      assert DocoText(doco) == " // " + c;
    }
  }

  /** A source written as optional starts with the `optional` keyword, and a
      required one starts with its context variable. */
  lemma SourceTextStart(rs: Source)
    ensures !rs.required ==> StartsWith(SourceText(rs), "optional " + rs.context)
    ensures rs.required ==> StartsWith(SourceText(rs), rs.context)
  {
  }

  /** The engine's text for a dependent with variables ends in the list's
      closing bracket: it never closes the parenthesis it opened. */
  lemma {:induction false} DependentTextUnclosed(d: Dependent)
    requires |d.variables| > 0
    ensures DependentText(d)[|DependentText(d)| - 1] == ']'
    ensures DependentText(d)[..|d.name| + 1] == d.name + "("
  {
    var items := seq(|d.variables|, i => VariableListText(d.variables));
    JoinEndsWith(items, ", ", ']');
  }

  lemma {:induction false} JoinEndsWith(items: seq<string>, sep: string, c: char)
    requires |items| > 0
    requires forall i :: 0 <= i < |items| ==> |items[i]| > 0 && items[i][|items[i]| - 1] == c
    ensures |Join(items, sep)| > 0 && Join(items, sep)[|Join(items, sep)| - 1] == c
  {
  }

  /** A one-variable invocation `f(a)` comes out as `f([StringType[a]]`. */
  lemma DependentTextExample()
    ensures DependentText(Dependent("f", ["a"])) == "f([StringType[a]]"
    ensures DependentText(Dependent("f", ["a"])) != CorrectedDependentText(Dependent("f", ["a"]))
  {
    var vars := ["a"];
    var items := seq(|vars|, i requires 0 <= i < |vars| => "StringType[" + vars[i] + "]");
    assert items[0] == "StringType[a]";
    assert items == ["StringType[a]"];
    assert VariableListText(["a"]) == "[StringType[a]]";
    var lists := seq(1, i => VariableListText(["a"]));
    assert lists == ["[StringType[a]]"];
  }

  /** A dependent invocation written the way the parser reads it back:
      `name(v1, v2, ...)`. */
  function CorrectedDependentText(d: Dependent): (r: string)
    ensures |r| > |d.name| + 1 && r[|r| - 1] == ')' && r[..|d.name| + 1] == d.name + "("
  {
    d.name + "(" + Join(d.variables, ", ") + ")"
  }

  /** The body of a rule written the way the parser reads it back: the
      dependents after ` then `, each as `name(v1, v2, ...)`. Nested rules
      are written as the engine writes them. */
  function CorrectedRuleBodyText(r: Rule, indent: nat): (t: string)
    ensures |r.rules| > 0 ==> t == RuleBodyText(r, indent)
    ensures |r.rules| == 0 && |r.dependents| > 0 ==>
      |t| > 6 && t[..6] == " then " && t[|t| - 2..] == "\r\n"
  {
    if |r.rules| > 0 then RuleBodyText(r, indent)
    else
      (if |r.dependents| > 0 then " then " + Join(Texts(r.dependents, CorrectedDependentText), ", ") else "")
      + DocoText(r.documentation) + "\r\n"
  }

  /** A rule whose body is the one invocation `f(a)`: the engine writes
      `f([StringType[a]]` straight after the targets, where the parser
      expects ` then f(a)`. */
  lemma RuleBodyMissingThen(r: Rule, indent: nat)
    requires r.rules == [] && r.dependents == [Dependent("f", ["a"])] && r.documentation == ""
    ensures RuleBodyText(r, indent) == "f([StringType[a]]\r\n"
    ensures CorrectedRuleBodyText(r, indent) == " then f(a)\r\n"
  {
    var d := Dependent("f", ["a"]);
    DependentTextExample();
    assert Texts(r.dependents, DependentText) == [DependentText(d)];
    assert Texts(r.dependents, CorrectedDependentText) == [CorrectedDependentText(d)];
    assert Join(["a"], ", ") == "a";
    assert CorrectedDependentText(d) == "f(a)";
  }


  lemma RuleTextsConcatStep(rs: seq<Rule>, indent: nat, i: nat)
    requires i < |rs|
    ensures Concat(RuleTexts(rs[..i + 1], indent)) == Concat(RuleTexts(rs[..i], indent)) + RuleText(rs[i], indent)
  {
    var longer := RuleTexts(rs[..i + 1], indent);
    var shorter := RuleTexts(rs[..i], indent);
    forall k | 0 <= k < i
      ensures longer[k] == shorter[k]
    {
      assert rs[..i + 1][k] == rs[..i][k];
    }
    assert longer[..i] == shorter;
    assert longer[i] == RuleText(rs[i], indent) by {
      assert rs[..i + 1][i] == rs[i];
    }
  }

  lemma TargetLinesConcatStep(ts: seq<Target>, indent: nat, i: nat)
    requires i < |ts|
    ensures Concat(TargetLines(ts[..i + 1], indent)) == Concat(TargetLines(ts[..i], indent)) + TargetLine(i, ts[i], indent)
  {
    assert TargetLines(ts[..i + 1], indent) == TargetLines(ts[..i], indent) + [TargetLine(i, ts[i], indent)];
    ConcatAppend(TargetLines(ts[..i], indent), TargetLine(i, ts[i], indent));
  }

  // ---------------------------------------------------------------------
  // The renderer, appending to a StringBuilder

  /** Appends s. `written` is what the caller has appended since `start`;
      `now` is what it has appended once s is added. */
  method Emit(b: StringBuilder, ghost start: string, ghost written: string, s: string)
    returns (ghost now: string)
    requires b.text == start + written
    modifies b
    ensures now == written + s && b.text == start + now
  {
    b.Append(s);
    AppendAssoc(start, written, s);
    now := written + s;
  }

  method RenderDoco(b: StringBuilder, doco: string)
    modifies b
    ensures b.text == old(b.text) + DocoText(doco)
  {
    if doco == "" {
      return;
    }
    b.Append(" // ");
    b.Append(ReplaceAll(ReplaceAll(ReplaceAll(doco, "\r\n", " "), "\r", " "), "\n", " "));
  }

  method RenderTransformParam(b: StringBuilder, rtp: ParamValue)
    modifies b
    ensures b.text == old(b.text) + ParamText(rtp)
  {
    match rtp
    case BoolParam(v) => b.Append(if v then "true" else "false");
    case DecimalParam(t) => b.Append(t);
    case IdParam(id) => b.Append(id);
    case IntParam(digits) => b.Append(digits);
    case StringParam(s) => b.Append("\"" + EscapeJava(s) + "\"");
  }

  method RenderSource(b: StringBuilder, rs: Source)
    modifies b
    ensures b.text == old(b.text) + SourceText(rs)
  {
    ghost var start := b.text;
    var optional := if !rs.required then "optional " else "";
    b.Append(optional);
    ghost var w := Emit(b, start, optional, rs.context);
    w := Emit(b, start, w, if rs.element != "" then "." + rs.element else "");
    w := Emit(b, start, w, if rs.listMode.Some? then " " + SourceListModeText(rs.listMode.value) else "");
    w := Emit(b, start, w, if rs.variable != "" then " as " + rs.variable else "");
    w := Emit(b, start, w, if rs.condition != "" then " where " + rs.condition else "");
    w := Emit(b, start, w, if rs.check != "" then " check " + rs.check else "");
  }

  /** Appends the parameters separated by ", ". */
  method RenderParams(b: StringBuilder, ps: seq<ParamValue>)
    modifies b
    ensures b.text == old(b.text) + Join(Texts(ps, ParamText), ", ")
  {
    ghost var start := b.text;
    for i := 0 to |ps|
      invariant b.text == start + Join(Texts(ps[..i], ParamText), ", ")
    {
      ghost var w := Join(Texts(ps[..i], ParamText), ", ");
      if i > 0 {
        w := Emit(b, start, w, ", ");
        TextsJoinStep(ps, ParamText, ", ", i);
      }
      RenderTransformParam(b, ps[i]);
      AppendAssoc(start, w, ParamText(ps[i]));
    }
    assert ps[..|ps|] == ps;
  }

  method RenderListMode(b: StringBuilder, m: ListMode, listRuleId: string)
    modifies b
    ensures b.text == old(b.text) + ListModeText(m, listRuleId)
  {
    b.Append(" ");
    b.Append(ListModeCode(m));
    if m == Share {
      b.Append(" ");
      b.Append(listRuleId);
    }
  }

  method RenderListModes(b: StringBuilder, ms: seq<ListMode>, listRuleId: string)
    modifies b
    ensures b.text == old(b.text) + ListModesText(ms, listRuleId)
  {
    ghost var start := b.text;
    for i := 0 to |ms|
      invariant b.text == start + ListModesText(ms[..i], listRuleId)
    {
      assert ms[..i + 1][..i] == ms[..i];
      RenderListMode(b, ms[i], listRuleId);
      AppendAssoc(start, ListModesText(ms[..i], listRuleId), ListModeText(ms[i], listRuleId));
    }
    assert ms[..|ms|] == ms;
  }

  method RenderTransform(b: StringBuilder, t: Transform, ps: seq<ParamValue>)
    modifies b
    ensures b.text == old(b.text) + TransformText(t, ps)
  {
    ghost var start := b.text;
    if t == Copy && |ps| == 1 {
      RenderTransformParam(b, ps[0]);
    } else if t == Evaluate && |ps| == 1 {
      b.Append("(");
      ghost var w := Emit(b, start, "(", "\"");
      w := Emit(b, start, w, PlainText(ps[0]));
      w := Emit(b, start, w, "\"");
      w := Emit(b, start, w, ")");
    } else if t == Evaluate && |ps| == 2 {
      b.Append(TransformCode(t));
      ghost var w := Emit(b, start, TransformCode(t), "(");
      w := Emit(b, start, w, PlainText(ps[0]));
      w := Emit(b, start, w, "\"");
      w := Emit(b, start, w, PlainText(ps[1]));
      w := Emit(b, start, w, "\"");
      w := Emit(b, start, w, ")");
    } else {
      b.Append(TransformCode(t));
      ghost var w := Emit(b, start, TransformCode(t), "(");
      RenderParams(b, ps);
      AppendAssoc(start, w, Join(Texts(ps, ParamText), ", "));
      w := Emit(b, start, w + Join(Texts(ps, ParamText), ", "), ")");
    }
  }

  method RenderTargetContext(b: StringBuilder, rt: Target)
    modifies b
    ensures b.text == old(b.text) + TargetContextText(rt)
  {
    if rt.context != "" {
      ghost var start := b.text;
      var at := if rt.contextType == Some(TypeContext) then "@" else "";
      b.Append(at);
      ghost var w := Emit(b, start, at, rt.context);
      w := Emit(b, start, w, if rt.element != "" then "." + rt.element else "");
    }
  }

  method RenderTargetValue(b: StringBuilder, rt: Target)
    modifies b
    ensures b.text == old(b.text) + TargetValueText(rt)
  {
    if rt.transform.Some? {
      ghost var start := b.text;
      var assign := if rt.context != "" then " = " else "";
      b.Append(assign);
      RenderTransform(b, rt.transform.value, rt.parameters);
      AppendAssoc(start, assign, TransformText(rt.transform.value, rt.parameters));
    }
  }

  method RenderTarget(b: StringBuilder, rt: Target)
    modifies b
    ensures b.text == old(b.text) + TargetText(rt)
  {
    ghost var start := b.text;
    RenderTargetContext(b, rt);
    ghost var w := TargetContextText(rt);
    RenderTargetValue(b, rt);
    AppendAssoc(start, w, TargetValueText(rt));
    w := Emit(b, start, w + TargetValueText(rt), if rt.variable != "" then " as " + rt.variable else "");
    RenderListModes(b, rt.listModes, rt.listRuleId);
    AppendAssoc(start, w, ListModesText(rt.listModes, rt.listRuleId));
  }

  method RenderSources(b: StringBuilder, ss: seq<Source>)
    modifies b
    ensures b.text == old(b.text) + Join(Texts(ss, SourceText), ", ")
  {
    ghost var start := b.text;
    for i := 0 to |ss|
      invariant b.text == start + Join(Texts(ss[..i], SourceText), ", ")
    {
      ghost var w := Join(Texts(ss[..i], SourceText), ", ");
      if i > 0 {
        w := Emit(b, start, w, ", ");
        TextsJoinStep(ss, SourceText, ", ", i);
      }
      RenderSource(b, ss[i]);
      AppendAssoc(start, w, SourceText(ss[i]));
    }
    assert ss[..|ss|] == ss;
  }

  method RenderTargetLine(b: StringBuilder, i: nat, rt: Target, indent: nat)
    modifies b
    ensures b.text == old(b.text) + TargetLine(i, rt, indent)
  {
    ghost var start := b.text;
    var sep := if i == 0 then "" else ", ";
    b.Append(sep);
    ghost var w := Emit(b, start, sep, "\r\n");
    w := Emit(b, start, w, Spaces(indent + 4));
    RenderTarget(b, rt);
    AppendAssoc(start, w, TargetText(rt));
  }

  method RenderTargets(b: StringBuilder, ts: seq<Target>, indent: nat)
    modifies b
    ensures b.text == old(b.text) + TargetsText(ts, indent)
  {
    ghost var start := b.text;
    if |ts| > 1 {
      b.Append(" make ");
      ghost var lines := b.text;
      for i := 0 to |ts|
        invariant b.text == lines + Concat(TargetLines(ts[..i], indent))
      {
        TargetLinesConcatStep(ts, indent, i);
        RenderTargetLine(b, i, ts[i], indent);
        AppendAssoc(lines, Concat(TargetLines(ts[..i], indent)), TargetLine(i, ts[i], indent));
      }
      assert ts[..|ts|] == ts;
      AppendAssoc(start, " make ", Concat(TargetLines(ts, indent)));
    } else if |ts| == 1 {
      b.Append(" make ");
      RenderTarget(b, ts[0]);
      AppendAssoc(start, " make ", TargetText(ts[0]));
    }
  }

  /** The dependent loop as the engine runs it: the name and "(", then for
      each variable the whole variable list, separated by ", ". */
  method RenderDependent(b: StringBuilder, d: Dependent)
    modifies b
    ensures b.text == old(b.text) + DependentText(d)
  {
    ghost var start := b.text;
    b.Append(d.name);
    ghost var w := Emit(b, start, d.name, "(");
    ghost var mid := b.text;
    var list := VariableListText(d.variables);
    ghost var lists := seq(|d.variables|, i => list);
    for i := 0 to |d.variables|
      invariant b.text == mid + Join(lists[..i], ", ")
    {
      assert lists[..i + 1] == lists[..i] + [list];
      ghost var v := Join(lists[..i], ", ");
      if i > 0 {
        v := Emit(b, mid, v, ", ");
        JoinAppend(lists[..i], ", ", list);
      }
      v := Emit(b, mid, v, list);
    }
    assert lists[..|d.variables|] == lists;
    AppendAssoc(start, w, Join(lists, ", "));
  }

  method RenderDependents(b: StringBuilder, ds: seq<Dependent>)
    modifies b
    ensures b.text == old(b.text) + Join(Texts(ds, DependentText), ", ")
  {
    ghost var start := b.text;
    for i := 0 to |ds|
      invariant b.text == start + Join(Texts(ds[..i], DependentText), ", ")
    {
      ghost var w := Join(Texts(ds[..i], DependentText), ", ");
      if i > 0 {
        w := Emit(b, start, w, ", ");
        TextsJoinStep(ds, DependentText, ", ", i);
      }
      RenderDependent(b, ds[i]);
      AppendAssoc(start, w, DependentText(ds[i]));
    }
    assert ds[..|ds|] == ds;
  }

  method RenderRule(b: StringBuilder, r: Rule, indent: nat)
    modifies b
    ensures b.text == old(b.text) + RuleText(r, indent)
    decreases RuleSize(r), 1
  {
    ghost var start := b.text;
    var indentation := Spaces(indent);
    b.Append(indentation);
    ghost var w := Emit(b, start, indentation, r.name);
    w := Emit(b, start, w, ": for ");
    RenderSources(b, r.sources);
    AppendAssoc(start, w, Join(Texts(r.sources, SourceText), ", "));
    w := w + Join(Texts(r.sources, SourceText), ", ");
    RenderTargets(b, r.targets, indent);
    AppendAssoc(start, w, TargetsText(r.targets, indent));
    w := w + TargetsText(r.targets, indent);
    RenderRuleBody(b, r, indent);
    AppendAssoc(start, w, RuleBodyText(r, indent));
  }

  method RenderRuleBody(b: StringBuilder, r: Rule, indent: nat)
    modifies b
    ensures b.text == old(b.text) + RuleBodyText(r, indent)
    decreases RuleSize(r), 0
  {
    ghost var start := b.text;
    if |r.rules| > 0 {
      b.Append(" then {\r\n");
      RenderDoco(b, r.documentation);
      AppendAssoc(start, " then {\r\n", DocoText(r.documentation));
      ghost var w := " then {\r\n" + DocoText(r.documentation);
      RenderRules(b, r.rules, indent + 2);
      AppendAssoc(start, w, Concat(RuleTexts(r.rules, indent + 2)));
      w := Emit(b, start, w + Concat(RuleTexts(r.rules, indent + 2)), Spaces(indent));
      w := Emit(b, start, w, "}\r\n");
    } else {
      if |r.dependents| > 0 {
        RenderDependents(b, r.dependents);
      }
      ghost var w := Join(Texts(r.dependents, DependentText), ", ");
      RenderDoco(b, r.documentation);
      AppendAssoc(start, w, DocoText(r.documentation));
      w := Emit(b, start, w + DocoText(r.documentation), "\r\n");
    }
  }

  /** Appends each rule of a list in turn. */
  method RenderRules(b: StringBuilder, rs: seq<Rule>, indent: nat)
    modifies b
    ensures b.text == old(b.text) + Concat(RuleTexts(rs, indent))
    decreases RulesSize(rs), 2
  {
    ghost var start := b.text;
    for i := 0 to |rs|
      invariant b.text == start + Concat(RuleTexts(rs[..i], indent))
    {
      RuleTextsConcatStep(rs, indent, i);
      RenderRule(b, rs[i], indent);
      AppendAssoc(start, Concat(RuleTexts(rs[..i], indent)), RuleText(rs[i], indent));
    }
    assert rs[..|rs|] == rs;
  }

  method RenderInput(b: StringBuilder, gi: Input)
    modifies b
    ensures b.text == old(b.text) + InputText(gi)
  {
    ghost var start := b.text;
    b.Append("  input ");
    ghost var w := Emit(b, start, "  input ", gi.name);
    w := Emit(b, start, w, if gi.typeName != "" then " : " + gi.typeName else "");
    w := Emit(b, start, w, " as ");
    w := Emit(b, start, w, InputModeCode(gi.mode));
    w := Emit(b, start, w, ";\r\n");
  }

  /** Appends each input of a group in turn. */
  method RenderInputs(b: StringBuilder, inputs: seq<Input>)
    modifies b
    ensures b.text == old(b.text) + Concat(Texts(inputs, InputText))
  {
    ghost var start := b.text;
    for i := 0 to |inputs|
      invariant b.text == start + Concat(Texts(inputs[..i], InputText))
    {
      TextsConcatStep(inputs, InputText, i);
      RenderInput(b, inputs[i]);
      AppendAssoc(start, Concat(Texts(inputs[..i], InputText)), InputText(inputs[i]));
    }
    assert inputs[..|inputs|] == inputs;
  }

  method RenderGroup(b: StringBuilder, g: Group)
    modifies b
    ensures b.text == old(b.text) + GroupText(g)
  {
    ghost var start := b.text;
    b.Append("group ");
    ghost var w := Emit(b, start, "group ", g.name);
    w := Emit(b, start, w, if g.extendsName != "" then " extends " + g.extendsName else "");
    RenderDoco(b, g.documentation);
    AppendAssoc(start, w, DocoText(g.documentation));
    w := Emit(b, start, w + DocoText(g.documentation), "\r\n");
    RenderInputs(b, g.inputs);
    AppendAssoc(start, w, Concat(Texts(g.inputs, InputText)));
    w := Emit(b, start, w + Concat(Texts(g.inputs, InputText)), if |g.inputs| > 0 then "\r\n" else "");
    RenderRules(b, g.rules, 2);
    AppendAssoc(start, w, Concat(RuleTexts(g.rules, 2)));
    w := Emit(b, start, w + Concat(RuleTexts(g.rules, 2)), "\r\nendgroup\r\n");
  }

  method RenderUse(b: StringBuilder, s: Structure)
    modifies b
    ensures b.text == old(b.text) + UseText(s)
  {
    ghost var start := b.text;
    b.Append("uses \"");
    ghost var w := Emit(b, start, "uses \"", s.url);
    w := Emit(b, start, w, "\" as ");
    w := Emit(b, start, w, ModelModeCode(s.mode));
    w := Emit(b, start, w, "\r\n");
    RenderDoco(b, s.documentation);
    AppendAssoc(start, w, DocoText(s.documentation));
  }

  method RenderUses(b: StringBuilder, m: StructureMap)
    modifies b
    ensures b.text == old(b.text) + UsesText(m)
  {
    ghost var start := b.text;
    for i := 0 to |m.structures|
      invariant b.text == start + Concat(Texts(m.structures[..i], UseText))
    {
      TextsConcatStep(m.structures, UseText, i);
      RenderUse(b, m.structures[i]);
      AppendAssoc(start, Concat(Texts(m.structures[..i], UseText)), UseText(m.structures[i]));
    }
    assert m.structures[..|m.structures|] == m.structures;
    ghost var w := Emit(b, start, Concat(Texts(m.structures, UseText)), if |m.structures| > 0 then "\r\n" else "");
  }

  method RenderImports(b: StringBuilder, m: StructureMap)
    modifies b
    ensures b.text == old(b.text) + ImportsText(m)
  {
    ghost var start := b.text;
    for i := 0 to |m.imports|
      invariant b.text == start + Concat(Texts(m.imports[..i], ImportText))
    {
      TextsConcatStep(m.imports, ImportText, i);
      ghost var mid := b.text;
      b.Append("imports \"");
      ghost var w := Emit(b, mid, "imports \"", m.imports[i]);
      w := Emit(b, mid, w, "\"\r\n");
      AppendAssoc(start, Concat(Texts(m.imports[..i], ImportText)), ImportText(m.imports[i]));
    }
    assert m.imports[..|m.imports|] == m.imports;
    ghost var w := Emit(b, start, Concat(Texts(m.imports, ImportText)), if |m.imports| > 0 then "\r\n" else "");
  }

  /** `render(map)`: the canonical text of a whole map. */
  method RenderMap(m: StructureMap) returns (text: string)
    ensures text == MapText(m)
  {
    var b := new StringBuilder();
    b.Append("map \"");
    ghost var w := Emit(b, [], "map \"", m.url);
    w := Emit(b, [], w, "\" = \"");
    w := Emit(b, [], w, EscapeJava(m.name));
    w := Emit(b, [], w, "\"\r\n\r\n");
    RenderUses(b, m);
    AppendAssoc([], w, UsesText(m));
    w := w + UsesText(m);
    RenderImports(b, m);
    AppendAssoc([], w, ImportsText(m));
    w := w + ImportsText(m);
    RenderGroups(b, m.groups);
    AppendAssoc([], w, Concat(Texts(m.groups, GroupText)));
    text := b.text;
  }

  /** The loop of `render` over the map's groups. */
  method RenderGroups(b: StringBuilder, gs: seq<Group>)
    modifies b
    ensures b.text == old(b.text) + Concat(Texts(gs, GroupText))
  {
    ghost var mid := b.text;
    for i := 0 to |gs|
      invariant b.text == mid + Concat(Texts(gs[..i], GroupText))
    {
      TextsConcatStep(gs, GroupText, i);
      RenderGroup(b, gs[i]);
      AppendAssoc(mid, Concat(Texts(gs[..i], GroupText)), GroupText(gs[i]));
    }
    assert gs[..|gs|] == gs;
  }

  /** `groupToString`. */
  method GroupToString(g: Group) returns (text: string)
    ensures text == GroupText(g)
  {
    var b := new StringBuilder();
    RenderGroup(b, g);
    EmptyThen(GroupText(g));
    text := b.text;
  }

  /** `ruleToString`: a rule at indentation 0. */
  method RuleToString(r: Rule) returns (text: string)
    ensures text == RuleText(r, 0)
  {
    var b := new StringBuilder();
    RenderRule(b, r, 0);
    EmptyThen(RuleText(r, 0));
    text := b.text;
  }

  /** `sourceToString`. */
  method SourceToString(rs: Source) returns (text: string)
    ensures text == SourceText(rs)
  {
    var b := new StringBuilder();
    RenderSource(b, rs);
    EmptyThen(SourceText(rs));
    text := b.text;
  }

  /** `targetToString`. */
  method TargetToString(rt: Target) returns (text: string)
    ensures text == TargetText(rt)
  {
    var b := new StringBuilder();
    RenderTarget(b, rt);
    EmptyThen(TargetText(rt));
    text := b.text;
  }

  /** `paramToString`. */
  method ParamToString(rtp: ParamValue) returns (text: string)
    ensures text == ParamText(rtp)
  {
    var b := new StringBuilder();
    RenderTransformParam(b, rtp);
    EmptyThen(ParamText(rtp));
    text := b.text;
  }
}

=== FILE: text.dfy ===
/** String helpers the engine borrows from Java and from its utility library:
    joining, integer formatting and parsing, escaping, replacing, trimming,
    and the StringBuilder the renderer appends to. */
module Text {

  /** Concatenation of all parts, in order. */
  function Concat(parts: seq<string>): (r: string)
    ensures parts == [] ==> r == []
    decreases |parts|
  {
    if parts == [] then [] else Concat(parts[..|parts| - 1]) + parts[|parts| - 1]
  }

  lemma ConcatPairOf(a: string, b: string)
    ensures Concat([a, b]) == a + b
  {
    assert [a, b][..1] == [a];
    assert [a][..0] == [];
  }

  lemma {:induction false} ConcatAppend(parts: seq<string>, s: string)
    ensures Concat(parts + [s]) == Concat(parts) + s
  {
    assert (parts + [s])[..|parts + [s]| - 1] == parts;
  }

  /** Concatenating two lists of parts concatenates their texts. */
  lemma {:induction false} ConcatConcat(a: seq<string>, b: seq<string>)
    ensures Concat(a + b) == Concat(a) + Concat(b)
    decreases |b|
  {
    if b == [] {
      assert a + b == a;
    } else {
      var init := b[..|b| - 1];
      var last := b[|b| - 1];
      assert b == init + [last];
      assert a + b == (a + init) + [last];
      ConcatConcat(a, init);
      ConcatAppend(a + init, last);
      ConcatAppend(init, last);
    }
  }

  lemma {:induction false} ConcatSingle(s: string)
    ensures Concat([s]) == s
  {
    ConcatAppend([], s);
    assert [] + [s] == [s];
  }

  /** The text of each element of xs, in order. */
  function Texts<T>(xs: seq<T>, f: T -> string): (r: seq<string>)
    ensures |r| == |xs| && forall i :: 0 <= i < |xs| ==> r[i] == f(xs[i])
  {
    seq(|xs|, i requires 0 <= i < |xs| => f(xs[i]))
  }

  /** Writing one more element adds its text at the end. */
  lemma TextsConcatStep<T>(xs: seq<T>, f: T -> string, i: nat)
    requires i < |xs|
    ensures Concat(Texts(xs[..i + 1], f)) == Concat(Texts(xs[..i], f)) + f(xs[i])
  {
    assert Texts(xs[..i + 1], f) == Texts(xs[..i], f) + [f(xs[i])];
    ConcatAppend(Texts(xs[..i], f), f(xs[i]));
  }

  /** Writing one more element after a separator adds both at the end. */
  lemma TextsJoinStep<T>(xs: seq<T>, f: T -> string, sep: string, i: nat)
    requires 0 < i < |xs|
    ensures Join(Texts(xs[..i + 1], f), sep) == Join(Texts(xs[..i], f), sep) + sep + f(xs[i])
  {
    assert Texts(xs[..i + 1], f) == Texts(xs[..i], f) + [f(xs[i])];
    JoinAppend(Texts(xs[..i], f), sep, f(xs[i]));
  }

  lemma TextsJoinFirst<T>(xs: seq<T>, f: T -> string, sep: string)
    requires 0 < |xs|
    ensures Join(Texts(xs[..1], f), sep) == f(xs[0])
  {
  }

  /** `parts` separated by `sep`, as a CommaSeparatedStringBuilder produces them. */
  function Join(parts: seq<string>, sep: string): (r: string)
    decreases |parts|
  {
    if parts == [] then []
    else if |parts| == 1 then parts[0]
    else Join(parts[..|parts| - 1], sep) + sep + parts[|parts| - 1]
  }

  lemma {:induction false} JoinAppend(parts: seq<string>, sep: string, s: string)
    requires parts != []
    ensures Join(parts + [s], sep) == Join(parts, sep) + sep + s
  {
    assert (parts + [s])[..|parts + [s]| - 1] == parts;
  }

  /** n blanks. */
  function Spaces(n: nat): (r: string)
    ensures |r| == n
    ensures forall i :: 0 <= i < n ==> r[i] == ' '
  {
    if n == 0 then [] else Spaces(n - 1) + [' ']
  }

  predicate IsDigit(c: char) { '0' <= c <= '9' }

  function DigitChar(d: nat): (c: char)
    requires d < 10
    ensures IsDigit(c)
  {
    "0123456789"[d]
  }

  function DigitValue(c: char): (d: nat)
    requires IsDigit(c)
    ensures d < 10
  {
    (c as int - '0' as int) as nat
  }

  /** Decimal form of a natural number, without leading zeros. */
  function NatToString(n: nat): (r: string)
    ensures |r| > 0
    ensures forall i :: 0 <= i < |r| ==> IsDigit(r[i])
    decreases n
  {
    if n < 10 then [DigitChar(n)] else NatToString(n / 10) + [DigitChar(n % 10)]
  }

  /** Decimal form of an integer, as Java's Integer.toString gives it. */
  function IntToString(i: int): (r: string)
    ensures |r| > 0
  {
    if i < 0 then "-" + NatToString(-i) else NatToString(i)
  }

  /** Value of a non-empty string of decimal digits. */
  function DigitsValue(s: string): (n: nat)
    requires forall i :: 0 <= i < |s| ==> IsDigit(s[i])
    decreases |s|
  {
    if s == [] then 0 else DigitsValue(s[..|s| - 1]) * 10 + DigitValue(s[|s| - 1])
  }

  lemma {:induction false} NatToStringValue(n: nat)
    ensures DigitsValue(NatToString(n)) == n
    decreases n
  {
    var r := NatToString(n);
    if n >= 10 {
      NatToStringValue(n / 10);
      assert r[..|r| - 1] == NatToString(n / 10);
    }
    assert DigitValue(DigitChar(n % 10)) == n % 10 by {
      assert "0123456789"[n % 10] as int - '0' as int == n % 10;
    }
  }

  const IntMin: int := -0x8000_0000
  const IntMax: int := 0x7fff_ffff

  predicate AllDigits(s: string) { forall i :: 0 <= i < |s| ==> IsDigit(s[i]) }

  /** The value of s read as Java's Integer.parseInt reads it (an optional sign
      and at least one ASCII digit), without the 32-bit range check. */
  function SignedValue(s: string): (v: int)
    requires |s| > 0
    requires (s[0] == '-' || s[0] == '+') ==> AllDigits(s[1..])
    requires !(s[0] == '-' || s[0] == '+') ==> AllDigits(s)
  {
    if s[0] == '-' then 0 - (DigitsValue(s[1..]) as int)
    else if s[0] == '+' then DigitsValue(s[1..])
    else DigitsValue(s)
  }

  /** Utilities.isInteger: Integer.parseInt accepts the string (sign, digits,
      and a value inside the 32-bit range). */
  predicate IsInteger(s: string) {
    && |s| > 0
    && (if s[0] == '-' || s[0] == '+' then |s| > 1 && AllDigits(s[1..]) else AllDigits(s))
    && IntMin <= SignedValue(s) <= IntMax
  }

  function ParseInt(s: string): (v: int)
    requires IsInteger(s)
    ensures IntMin <= v <= IntMax
  {
    SignedValue(s)
  }

  lemma {:induction false} IntToStringIsInteger(n: nat)
    requires n <= IntMax
    ensures IsInteger(IntToString(n)) && ParseInt(IntToString(n)) == n
  {
    NatToStringValue(n);
  }

  /** Utilities.isDecimal, restricted to plain decimal notation: an optional
      sign, digits, and at most one '.', with at least one digit. */
  predicate IsDecimal(s: string) {
    var body := if |s| > 0 && (s[0] == '-' || s[0] == '+') then s[1..] else s;
    && (exists i :: 0 <= i < |body| && IsDigit(body[i]))
    && (forall i :: 0 <= i < |body| ==> IsDigit(body[i]) || body[i] == '.')
    && (forall i, j :: 0 <= i < j < |body| && body[i] == '.' ==> body[j] != '.')
  }

  function StartsWith(s: string, prefix: string): (b: bool)
    ensures b <==> |prefix| <= |s| && s[..|prefix|] == prefix
  {
    |prefix| <= |s| && s[..|prefix|] == prefix
  }

  predicate ContainsChar(s: string, c: char) { c in s }

  /** String.indexOf(char): the first position of c, or -1. */
  function IndexOf(s: string, c: char): (i: int)
    ensures -1 <= i < |s|
    ensures i == -1 <==> c !in s
    ensures i >= 0 ==> s[i] == c && c !in s[..i]
    decreases |s|
  {
    if s == [] then -1
    else if s[0] == c then 0
    else var k := IndexOf(s[1..], c); if k == -1 then -1 else k + 1
  }

  /** String.lastIndexOf(char): the last position of c, or -1. */
  function LastIndexOf(s: string, c: char): (i: int)
    ensures -1 <= i < |s|
    ensures i == -1 <==> c !in s
    ensures i >= 0 ==> s[i] == c && c !in s[i + 1..]
    decreases |s|
  {
    if s == [] then -1
    else if s[|s| - 1] == c then |s| - 1
    else
      var init := s[..|s| - 1];
      var k := LastIndexOf(init, c);
      assert s == init + [s[|s| - 1]];
      assert k >= 0 ==> s[k + 1..] == init[k + 1..] + [s[|s| - 1]];
      k
  }

  /** String.replace(pat, rep): every non-overlapping occurrence of pat, scanning
      from the left, replaced by rep. */
  function ReplaceAll(s: string, pat: string, rep: string): (r: string)
    requires |pat| > 0
    decreases |s|
  {
    if |s| < |pat| then s
    else if s[..|pat|] == pat then rep + ReplaceAll(s[|pat|..], pat, rep)
    else [s[0]] + ReplaceAll(s[1..], pat, rep)
  }

  /** Replacing a character by a string that does not hold it removes it,
      and adds no character that was neither in s nor in rep. */
  lemma {:induction false} ReplaceCharRemoves(s: string, c: char, rep: string, d: char)
    requires c !in rep
    requires d in ReplaceAll(s, [c], rep)
    ensures d != c
    ensures d in s || d in rep
    decreases |s|
  {
    if |s| >= 1 {
      var tail := ReplaceAll(s[1..], [c], rep);
      if s[..1] == [c] {
        if d !in rep { ReplaceCharRemoves(s[1..], c, rep, d); }
      } else {
        if d != s[0] { ReplaceCharRemoves(s[1..], c, rep, d); }
      }
    }
  }

  /** Replacing a two-character pattern adds no character outside s and rep. */
  lemma {:induction false} ReplaceAdds(s: string, pat: string, rep: string, d: char)
    requires |pat| > 0
    requires d in ReplaceAll(s, pat, rep)
    ensures d in s || d in rep
    decreases |s|
  {
    if |s| >= |pat| {
      if s[..|pat|] == pat {
        if d !in rep {
          ReplaceAdds(s[|pat|..], pat, rep, d);
        }
      } else {
        if d != s[0] { ReplaceAdds(s[1..], pat, rep, d); }
      }
    }
  }

  /** Utilities.escapeJava: backslash-escapes quotes, backslashes and line breaks. */
  function EscapeJava(s: string): (r: string)
    ensures |r| >= |s|
    decreases |s|
  {
    if s == [] then []
    else
      var c := s[0];
      var e := if c == '\r' then "\\r" else if c == '\n' then "\\n"
               else if c == '"' then "\\\"" else if c == '\\' then "\\\\" else [c];
      e + EscapeJava(s[1..])
  }

  /** EscapeJava never leaves a raw line break in its output. */
  lemma {:induction false} EscapeJavaNoLineBreaks(s: string)
    ensures '\r' !in EscapeJava(s) && '\n' !in EscapeJava(s)
    decreases |s|
  {
    if s != [] { EscapeJavaNoLineBreaks(s[1..]); }
  }

  predicate IsBlankChar(c: char) { c <= ' ' }

  /** String.trim: strips characters at or below ' ' from both ends. */
  function Trim(s: string): (r: string)
    ensures |r| <= |s|
    ensures r != [] ==> !IsBlankChar(r[0]) && !IsBlankChar(r[|r| - 1])
    decreases |s|
  {
    if s == [] then []
    else if IsBlankChar(s[0]) then Trim(s[1..])
    else if IsBlankChar(s[|s| - 1]) then Trim(s[..|s| - 1])
    else s
  }

  /** String.toLowerCase on the ASCII letters (UUIDs hold nothing else). */
  function Lower(s: string): (r: string)
    ensures |r| == |s|
    ensures forall i :: 0 <= i < |s| ==> !('A' <= r[i] <= 'Z')
  {
    seq(|s|, i requires 0 <= i < |s| =>
      if 'A' <= s[i] <= 'Z' then (s[i] as int - 'A' as int + 'a' as int) as char else s[i])
  }

  lemma EmptyThen<T>(s: seq<T>)
    ensures [] + s == s
  {
  }

  lemma AppendAssoc<T>(a: seq<T>, b: seq<T>, c: seq<T>)
    ensures a + (b + c) == (a + b) + c
  {
  }

  /** A mutable text buffer; the renderer and the generator append to it. */
  class StringBuilder {
    var text: string

    constructor ()
      ensures text == []
    {
      text := [];
    }

    method Append(s: string)
      modifies this
      ensures text == old(text) + s
    {
      text := text + s;
    }
  }
}

=== FILE: tokens.dfy ===
/** The token source the mapping-language parser reads from: a sequence of
    tokens and a cursor into it, with the primitives the parser calls
    (`current`, `take`, `token`, `hasToken`, comment handling, constants).
    How text is cut into tokens is not part of this model; every token is
    non-empty, and a comment is one token that starts with "//". */
module Tokens {
  import opened Wrappers
  import opened Text

  /** The embedded FluentPath parser: from the token stream and a position,
      the text form of the expression that starts there and the position just
      after it, or None when no expression starts there. */
  type ExpressionParser = (seq<string>, nat) -> Option<(string, nat)>

  predicate IsComment(t: string) {
    StartsWith(t, "//")
  }

  /** A string constant starts with a quote. */
  predicate IsStringConstantToken(t: string) {
    t != "" && (t[0] == '\'' || t[0] == '"')
  }

  /** A literal: a quoted string (double quotes only when allowed), a date,
      an external constant, a number, a boolean or the empty set. */
  predicate IsConstantToken(t: string, allowDoubleQuote: bool) {
    && t != ""
    && (|| t[0] == '\''
        || (allowDoubleQuote && t[0] == '"')
        || t[0] == '@' || t[0] == '%' || t[0] == '-' || t[0] == '+'
        || IsDigit(t[0])
        || t == "true" || t == "false" || t == "{}")
  }

  /** A quoted constant loses its quotes; any other constant stays as it is. */
  function ProcessConstant(s: string): (r: string)
    ensures |r| <= |s|
  {
    if |s| >= 2 && (s[0] == '\'' || s[0] == '"') then s[1..|s| - 1] else s
  }

  /** A quoted constant is its content between the two quotes. */
  lemma ProcessConstantUnquotes(s: string)
    requires |s| >= 2 && (s[0] == '\'' || s[0] == '"')
    ensures s == [s[0]] + ProcessConstant(s) + [s[|s| - 1]]
  {
  }

  /** The text of a comment token: what follows "//", trimmed. */
  function CommentText(t: string): (r: string)
    requires IsComment(t)
    ensures |r| <= |t| - 2
  {
    Trim(t[2..])
  }

  lemma ConcatSlice(ts: seq<string>, a: nat, b: nat)
    requires a < b <= |ts|
    ensures Concat(ts[a..b]) == Concat(ts[a..b - 1]) + ts[b - 1]
  {
    assert ts[a..b] == ts[a..b - 1] + [ts[b - 1]];
    ConcatAppend(ts[a..b - 1], ts[b - 1]);
  }

  lemma SliceSnoc(ts: seq<string>, a: nat, b: nat)
    requires a <= b < |ts|
    ensures ts[a..b + 1] == ts[a..b] + [ts[b]]
  {
  }

  lemma ConcatPair(ts: seq<string>, a: nat, mid: nat)
    requires a <= mid && mid + 2 <= |ts|
    ensures Concat(ts[a..mid + 2]) == Concat(ts[a..mid]) + ts[mid] + ts[mid + 1]
  {
    ConcatSlice(ts, a, mid + 2);
    ConcatSlice(ts, a, mid + 1);
  }

  /** The tokens at odd offsets from `start` are dots. */
  ghost predicate DotsBetween(ts: seq<string>, start: nat, end: nat)
    requires end <= |ts|
  {
    forall j :: start < start + 2 * j + 1 < end ==> ts[start + 2 * j + 1] == "."
  }

  /** After `pairs` pairs `. name`, one more dot extends the run by a pair. */
  lemma DotsExtend(ts: seq<string>, start: nat, pairs: nat)
    requires start + 2 * pairs + 3 <= |ts|
    requires DotsBetween(ts, start, start + 2 * pairs + 1) && ts[start + 2 * pairs + 1] == "."
    ensures DotsBetween(ts, start, start + 2 * pairs + 3)
  {
    forall j | start < start + 2 * j + 1 < start + 2 * pairs + 3
      ensures ts[start + 2 * j + 1] == "."
    {
      if j < pairs {
        assert start + 2 * j + 1 < start + 2 * pairs + 1;
      }
    }
  }

  lemma SlicePair(ts: seq<string>, a: nat)
    requires a + 2 <= |ts|
    ensures ts[a..a + 2] == [ts[a], ts[a + 1]]
  {
  }

  lemma SliceSplit(ts: seq<string>, a: nat, b: nat, c: nat)
    requires a <= b <= c <= |ts|
    ensures ts[a..c] == ts[a..b] + ts[b..c]
  {
  }

  /** Every token is non-empty: the lexer never produces an empty token. */
  predicate NonEmptyTokens(ts: seq<string>) {
    forall i :: 0 <= i < |ts| ==> ts[i] != ""
  }

  // ---------------------------------------------------------------------
  // The primitives as functions of a position. A reading from position c
  // gives the value read and the position just after it, or the error the
  // parser stops with.

  /** The token at position i, or "" past the end. */
  function TokenAt(ts: seq<string>, i: nat): (t: string)
    ensures i < |ts| ==> t == ts[i]
    ensures i >= |ts| ==> t == ""
  {
    if i < |ts| then ts[i] else ""
  }

  /** A method's result as a reading: the value and where it left the cursor. */
  function Parsed<T>(r: Result<T>, c: nat): Result<(T, nat)> {
    if r.Ok? then Ok((r.value, c)) else Err(r.error)
  }

  /** A keyword test's outcome as a reading: the position after the keyword. */
  function Reached(o: Outcome, c: nat): Result<nat> {
    if o.Pass? then Ok(c) else Err(o.error)
  }

  /** A reading from c stops between c and the end of the input. */
  predicate StopsWithin<T>(r: Result<(T, nat)>, ts: seq<string>, c: nat) {
    r.Ok? ==> c <= r.value.1 <= |ts|
  }

  /** A reading from c consumes at least one token. */
  predicate MovesWithin<T>(r: Result<(T, nat)>, ts: seq<string>, c: nat) {
    r.Ok? ==> c < r.value.1 <= |ts|
  }

  /** A reader of one item, at any position, that moves forward and stays
      within the tokens whenever it succeeds. */
  ghost predicate Moving<T>(ts: seq<string>, read: nat -> Result<(T, nat)>) {
    forall i: nat :: MovesWithin(read(i), ts, i)
  }

  /** The `do { item } while (hasToken(","))` loop: the items `read` finds
      from c, one more after each comma, appended to acc; it ends at the
      first item not followed by a comma. */
  function SeparatedFrom<T>(ts: seq<string>, read: nat -> Result<(T, nat)>, c: nat, acc: seq<T>)
    : (r: Result<(seq<T>, nat)>)
    requires Moving(ts, read)
    ensures MovesWithin(r, ts, c)
    ensures r.Ok? ==> |r.value.0| > |acc|
    ensures r.Ok? ==> TokenAt(ts, r.value.1) != ","
    decreases |ts| - c
  {
    var item :- read(c);
    if TokenAt(ts, item.1) == "," then SeparatedFrom(ts, read, item.1 + 1, acc + [item.0])
    else Ok((acc + [item.0], item.1))
  }

  /** One round of that loop: the item at c is followed either by the rest
      of the list after its comma, or by the end of the list. */
  lemma SeparatedNext<T>(ts: seq<string>, read: nat -> Result<(T, nat)>, c: nat, acc: seq<T>, item: T, e: nat)
    requires Moving(ts, read) && read(c) == Ok((item, e))
    ensures SeparatedFrom(ts, read, c, acc)
      == if TokenAt(ts, e) == "," then SeparatedFrom(ts, read, e + 1, acc + [item]) else Ok((acc + [item], e))
  {
  }

  /** An item that fails at c fails the whole list. */
  lemma SeparatedFails<T>(ts: seq<string>, read: nat -> Result<(T, nat)>, c: nat, acc: seq<T>)
    requires Moving(ts, read) && read(c).Err?
    ensures SeparatedFrom(ts, read, c, acc) == Err(read(c).error)
  {
  }

  /** `next`: one token on, unless at the end. */
  function NextAt(ts: seq<string>, c: nat): nat {
    if c < |ts| then c + 1 else c
  }

  /** `take`: the current token; there is none at the end. */
  function TakeAt(ts: seq<string>, c: nat): (r: Result<(string, nat)>)
    ensures r.Ok? <==> c < |ts|
    ensures r.Ok? ==> r.value == (ts[c], c + 1)
  {
    if c < |ts| then Ok((ts[c], c + 1)) else Err(EndOfInput)
  }

  /** `token(kw)`: the keyword is the current token, or the parser stops. */
  function KeywordAt(ts: seq<string>, c: nat, kw: string): (r: Result<nat>)
    requires kw != ""
    ensures r.Ok? <==> TokenAt(ts, c) == kw
    ensures r.Ok? ==> c < |ts| && r.value == c + 1
    ensures r.Err? ==> r.error == ExpectedError(TokenAt(ts, c), kw)
  {
    if TokenAt(ts, c) == kw then Ok(c + 1) else Err(ExpectedError(TokenAt(ts, c), kw))
  }

  /** `skipToken(kw)`: past the keyword when it is the current token. */
  function SkipAt(ts: seq<string>, c: nat, kw: string): (r: nat)
    requires kw != ""
    ensures c <= |ts| ==> c <= r <= |ts|
    ensures r == c + 1 <==> TokenAt(ts, c) == kw
  {
    if TokenAt(ts, c) == kw then c + 1 else c
  }

  /** `skipComments`: the first position from c that is not a comment. */
  function CommentsEnd(ts: seq<string>, c: nat): (r: nat)
    requires c <= |ts|
    ensures c <= r <= |ts| && !IsComment(TokenAt(ts, r))
    ensures forall i :: c <= i < r ==> IsComment(ts[i])
    decreases |ts| - c
  {
    if c < |ts| && IsComment(ts[c]) then CommentsEnd(ts, c + 1) else c
  }

  /** A comment at c read as documentation, or "" when there is none. */
  function CommentAt(ts: seq<string>, c: nat): (r: (string, nat))
    requires c <= |ts|
    ensures c <= r.1 <= |ts|
    ensures r.1 == c + 1 <==> IsComment(TokenAt(ts, c))
    ensures IsComment(TokenAt(ts, c)) ==> r.0 == CommentText(ts[c])
    ensures !IsComment(TokenAt(ts, c)) ==> r == ("", c)
  {
    if IsComment(TokenAt(ts, c)) then (CommentText(TokenAt(ts, c)), c + 1) else ("", c)
  }

  /** A string constant without its quotes, or the error that names what
      was expected. */
  function ConstantAt(ts: seq<string>, c: nat, desc: string): (r: Result<(string, nat)>)
    ensures r.Ok? <==> IsStringConstantToken(TokenAt(ts, c))
    ensures r.Ok? ==> c < |ts| && r.value == (ProcessConstant(ts[c]), c + 1)
    ensures r.Err? ==> r == Fails("Found " + TokenAt(ts, c) + " expecting \"[" + desc + "]\"")
  {
    if IsStringConstantToken(TokenAt(ts, c)) then Ok((ProcessConstant(TokenAt(ts, c)), c + 1))
    else Fails("Found " + TokenAt(ts, c) + " expecting \"[" + desc + "]\"")
  }

  /** The expression the expression parser reads from c; one that reads
      nothing, or reads past the end, is an error. */
  function ExpressionAt(ts: seq<string>, fp: ExpressionParser, c: nat): (r: Result<(string, nat)>)
    ensures MovesWithin(r, ts, c)
    ensures r.Ok? ==> fp(ts, c) == Some(r.value)
  {
    var e := fp(ts, c);
    if e.Some? && c < e.value.1 <= |ts| then Ok(e.value)
    else Fails("Error parsing FHIRPath expression at " + TokenAt(ts, c))
  }

  /** The `. part` pairs from c appended to s, each with its dot. */
  function DotsFrom(ts: seq<string>, c: nat, s: string): (r: Result<(string, nat)>)
    requires c <= |ts|
    ensures StopsWithin(r, ts, c)
    ensures r.Ok? ==> TokenAt(ts, r.value.1) != "."
    decreases |ts| - c
  {
    if TokenAt(ts, c) == "." then
      var part :- TakeAt(ts, c + 1);
      DotsFrom(ts, part.1, s + "." + part.0)
    else Ok((s, c))
  }

  /** A dotted name `a.b.c` from c. */
  function DottedAt(ts: seq<string>, c: nat): (r: Result<(string, nat)>)
    requires c <= |ts|
    ensures MovesWithin(r, ts, c)
    ensures r.Ok? ==> TokenAt(ts, r.value.1) != "."
  {
    var first :- TakeAt(ts, c);
    DotsFrom(ts, first.1, first.0)
  }

  /** The error the lexer raises when the current token is not the expected one. */
  function ExpectedError(found: string, kw: string): Error {
    Error("Found \"" + found + "\" expecting \"" + kw + "\"")
  }

  const EndOfInput: Error := Error("Unexpected end of input")

  class Lexer {
    const tokens: seq<string>
    var cursor: nat

    ghost predicate Valid()
      reads this
    {
      && cursor <= |tokens|
      && NonEmptyTokens(tokens)
    }

    constructor (tokens: seq<string>)
      requires NonEmptyTokens(tokens)
      ensures this.tokens == tokens && cursor == 0 && Valid()
    {
      this.tokens := tokens;
      cursor := 0;
    }

    /** The current token, or "" at the end of the input. */
    function Current(): string
      reads this
    {
      TokenAt(tokens, cursor)
    }

    predicate Done()
      reads this
    {
      cursor >= |tokens|
    }

    predicate HasToken(kw: string)
      reads this
    {
      Current() == kw
    }

    predicate HasComment()
      reads this
    {
      IsComment(Current())
    }

    predicate IsStringConstant()
      reads this
    {
      IsStringConstantToken(Current())
    }

    predicate IsConstant(allowDoubleQuote: bool)
      reads this
    {
      IsConstantToken(Current(), allowDoubleQuote)
    }

    method Next()
      requires Valid()
      modifies this
      ensures Valid()
      ensures cursor == if old(cursor) < |tokens| then old(cursor) + 1 else old(cursor)
    {
      if cursor < |tokens| {
        cursor := cursor + 1;
      }
    }

    /** Consumes and returns the current token; there is none at the end. */
    method Take() returns (r: Result<string>)
      requires Valid()
      modifies this
      ensures Valid()
      ensures old(cursor) < |tokens| ==> r == Ok(tokens[old(cursor)]) && cursor == old(cursor) + 1
      ensures old(cursor) == |tokens| ==> r == Err(EndOfInput) && cursor == old(cursor)
      ensures Parsed(r, cursor) == TakeAt(tokens, old(cursor))
    {
      if cursor == |tokens| {
        return Err(EndOfInput);
      }
      r := Ok(tokens[cursor]);
      cursor := cursor + 1;
    }

    /** Consumes and returns the current token where one is known to be there
        (a `take` that follows a test on the current token). */
    method Advance() returns (t: string)
      requires Valid() && !Done()
      modifies this
      ensures Valid()
      ensures t == tokens[old(cursor)] && cursor == old(cursor) + 1
    {
      t := tokens[cursor];
      cursor := cursor + 1;
    }

    /** Consumes the keyword kw, or fails without moving. */
    method Token(kw: string) returns (o: Outcome)
      requires Valid() && kw != ""
      modifies this
      ensures Valid()
      ensures o.Pass? <==> old(Current()) == kw
      ensures o.Pass? ==> cursor == old(cursor) + 1
      ensures o.Fail? ==> cursor == old(cursor) && o.error == ExpectedError(old(Current()), kw)
      ensures Reached(o, cursor) == KeywordAt(tokens, old(cursor), kw)
    {
      if Current() != kw {
        return Fail(ExpectedError(Current(), kw));
      }
      cursor := cursor + 1;
      o := Pass;
    }

    /** Consumes kw if it is the current token. */
    method SkipToken(kw: string)
      requires Valid() && kw != ""
      modifies this
      ensures Valid()
      ensures cursor == if old(Current()) == kw then old(cursor) + 1 else old(cursor)
      ensures cursor == SkipAt(tokens, old(cursor), kw)
    {
      if Current() == kw {
        cursor := cursor + 1;
      }
    }

    /** The end of one round of a `do { item } while (hasToken(","))` loop:
        `item` was read from `start` up to the cursor; the comma after it,
        if any, is consumed, and the loop is done without one. */
    method EndItem<T>(ghost read: nat -> Result<(T, nat)>, ghost start: nat, items: seq<T>, item: T)
      returns (r: seq<T>, done: bool)
      requires Valid() && Moving(tokens, read)
      requires read(start) == Ok((item, cursor))
      modifies this
      ensures Valid() && r == items + [item] && start < cursor
      ensures done <==> TokenAt(tokens, old(cursor)) != ","
      ensures SeparatedFrom(tokens, read, start, items)
        == if done then Ok((r, cursor)) else SeparatedFrom(tokens, read, cursor, r)
    {
      SeparatedNext(tokens, read, start, items, item, cursor);
      done := !HasToken(",");
      if !done {
        cursor := cursor + 1;
      }
      r := items + [item];
    }

    /** Consumes every comment token at the cursor. */
    method SkipComments()
      requires Valid()
      modifies this
      ensures Valid()
      ensures old(cursor) <= cursor && !HasComment()
      ensures forall i :: old(cursor) <= i < cursor ==> IsComment(tokens[i])
      ensures cursor == CommentsEnd(tokens, old(cursor))
    {
      while HasComment()
        invariant Valid() && old(cursor) <= cursor
        invariant forall i :: old(cursor) <= i < cursor ==> IsComment(tokens[i])
        invariant CommentsEnd(tokens, cursor) == CommentsEnd(tokens, old(cursor))
        decreases |tokens| - cursor
      {
        cursor := cursor + 1;
      }
    }

    /** Consumes a string constant and returns its content. */
    method ReadConstant(desc: string) returns (r: Result<string>)
      requires Valid()
      modifies this
      ensures Valid()
      ensures old(IsStringConstant()) ==> r == Ok(ProcessConstant(tokens[old(cursor)])) && cursor == old(cursor) + 1
      ensures !old(IsStringConstant()) ==> r.Err? && cursor == old(cursor)
      ensures Parsed(r, cursor) == ConstantAt(tokens, old(cursor), desc)
    {
      if !IsStringConstant() {
        return Fails("Found " + Current() + " expecting \"[" + desc + "]\"");
      }
      r := Ok(ProcessConstant(tokens[cursor]));
      cursor := cursor + 1;
    }

    /** Consumes a name made of tokens joined by ".": `a`, `a.b`, `a.b.c`. */
    method TakeDottedToken() returns (r: Result<string>)
      requires Valid()
      modifies this
      ensures Valid()
      ensures old(cursor) <= cursor
      ensures r.Ok? ==> old(cursor) < cursor && r.value == Concat(tokens[old(cursor)..cursor])
      ensures r.Ok? ==> DotsBetween(tokens, old(cursor), cursor)
      ensures r.Ok? ==> Current() != "."
      ensures Parsed(r, cursor) == DottedAt(tokens, old(cursor))
    {
      ghost var start := cursor;
      var first := Take();
      if first.Err? {
        return Err(first.error);
      }
      var s := first.value;
      ConcatSlice(tokens, start, cursor);
      ConcatSingle(tokens[start]);
      ghost var pairs: nat := 0;
      while HasToken(".")
        invariant Valid() && cursor == start + 2 * pairs + 1
        invariant s == Concat(tokens[start..cursor])
        invariant DotsBetween(tokens, start, cursor)
        invariant DottedAt(tokens, start) == DotsFrom(tokens, cursor, s)
        decreases |tokens| - cursor
      {
        var next := TakeDotAndPart(start, pairs, s);
        if next.Err? {
          return Err(next.error);
        }
        s := next.value;
        pairs := pairs + 1;
      }
      r := Ok(s);
    }

    /** One round of that loop: the dot at the cursor and the name after it. */
    method TakeDotAndPart(ghost start: nat, ghost pairs: nat, s: string) returns (r: Result<string>)
      requires Valid() && cursor == start + 2 * pairs + 1 && HasToken(".")
      requires s == Concat(tokens[start..cursor]) && DotsBetween(tokens, start, cursor)
      modifies this
      ensures Valid() && old(cursor) <= cursor
      ensures r.Ok? ==> cursor == old(cursor) + 2 && r.value == Concat(tokens[start..cursor])
      ensures r.Ok? ==> DotsBetween(tokens, start, cursor)
      ensures r.Ok? ==> DotsFrom(tokens, old(cursor), s) == DotsFrom(tokens, cursor, r.value)
      ensures r.Err? ==> DotsFrom(tokens, old(cursor), s) == Err(r.error)
    {
      ghost var before := cursor;
      var dot := tokens[cursor];
      cursor := cursor + 1;
      var part := Take();
      if part.Err? {
        return Err(part.error);
      }
      ConcatPair(tokens, start, before);
      DotsExtend(tokens, start, pairs);
      r := Ok(s + dot + part.value);
    }

    /** Hands the token stream to the expression parser and moves past the
        expression it reads; an expression that reads nothing is an error. */
    method ReadExpression(fp: ExpressionParser) returns (r: Result<string>)
      requires Valid()
      modifies this
      ensures Valid()
      ensures var e := fp(tokens, old(cursor));
        if e.Some? && old(cursor) < e.value.1 <= |tokens|
        then r == Ok(e.value.0) && cursor == e.value.1
        else r.Err? && cursor == old(cursor)
      ensures Parsed(r, cursor) == ExpressionAt(tokens, fp, old(cursor))
    {
      var e := fp(tokens, cursor);
      if e.None? || !(cursor < e.value.1 <= |tokens|) {
        return Fails("Error parsing FHIRPath expression at " + Current());
      }
      r := Ok(e.value.0);
      cursor := e.value.1;
    }
  }
}

=== FILE: translate.dfy ===
/** Translation of a code through a local concept map: which source elements
    a coding matches, and which of the first match's targets the engine
    selects, by the targets' equivalences. */
module Translate {
  import opened Wrappers
  import opened Ast

  /** A coded value: its system ("" when it has none) and its code. */
  datatype Code = Code(system: string, code: string)

  /** One source element of one concept-map group. */
  datatype Match = Match(group: ConceptMapGroup, element: SourceElement)

  /** A coding without a system matches on the code alone; a coding with a
      system matches elements of the groups whose source is that system. */
  predicate ElementMatches(src: Code, g: ConceptMapGroup, e: SourceElement) {
    if src.system == "" then src.code == e.code
    else src.system == g.source && src.code == e.code
  }

  /** The matching elements of a group, in order. */
  function MatchesIn(src: Code, g: ConceptMapGroup, es: seq<SourceElement>): (r: seq<Match>)
    ensures forall i :: 0 <= i < |r| ==> r[i].group == g && r[i].element in es && ElementMatches(src, g, r[i].element)
    decreases |es|
  {
    if es == [] then []
    else
      var e := es[|es| - 1];
      MatchesIn(src, g, es[..|es| - 1]) + (if ElementMatches(src, g, e) then [Match(g, e)] else [])
  }

  /** The matching elements of all groups, group by group. */
  function AllMatches(src: Code, groups: seq<ConceptMapGroup>): (r: seq<Match>)
    ensures forall i :: 0 <= i < |r| ==>
      r[i].group in groups && r[i].element in r[i].group.elements && ElementMatches(src, r[i].group, r[i].element)
    decreases |groups|
  {
    if groups == [] then []
    else
      var g := groups[|groups| - 1];
      AllMatches(src, groups[..|groups| - 1]) + MatchesIn(src, g, g.elements)
  }

  /** No match means no element of any group matches. */
  lemma {:induction false} NoMatchMeansNone(src: Code, groups: seq<ConceptMapGroup>)
    ensures AllMatches(src, groups) == [] <==>
      forall i, j :: 0 <= i < |groups| && 0 <= j < |groups[i].elements| ==> !ElementMatches(src, groups[i], groups[i].elements[j])
    decreases |groups|
  {
    if groups != [] {
      var n := |groups| - 1;
      NoMatchMeansNone(src, groups[..n]);
      MatchesInEmpty(src, groups[n], groups[n].elements);
      if AllMatches(src, groups) == [] {
        forall i, j | 0 <= i < |groups| && 0 <= j < |groups[i].elements|
          ensures !ElementMatches(src, groups[i], groups[i].elements[j])
        {
          if i < n {
            assert groups[..n][i] == groups[i];
          }
        }
      } else {
        if AllMatches(src, groups[..n]) == [] {
          var j :| 0 <= j < |groups[n].elements| && ElementMatches(src, groups[n], groups[n].elements[j]);
        } else {
          var i, j :| 0 <= i < n && 0 <= j < |groups[..n][i].elements| && ElementMatches(src, groups[..n][i], groups[..n][i].elements[j]);
          assert groups[..n][i] == groups[i];
        }
      }
    }
  }

  lemma {:induction false} MatchesInEmpty(src: Code, g: ConceptMapGroup, es: seq<SourceElement>)
    ensures MatchesIn(src, g, es) == [] <==> forall j :: 0 <= j < |es| ==> !ElementMatches(src, g, es[j])
    decreases |es|
  {
    if es != [] {
      var n := |es| - 1;
      MatchesInEmpty(src, g, es[..n]);
      if MatchesIn(src, g, es) == [] {
        forall j | 0 <= j < |es| ensures !ElementMatches(src, g, es[j]) {
          if j < n {
            assert es[..n][j] == es[j];
          }
        }
      }
    }
  }

  /** The nested loop over groups and their elements that collects matches. */
  method CollectMatches(src: Code, groups: seq<ConceptMapGroup>) returns (list: seq<Match>)
    ensures list == AllMatches(src, groups)
  {
    list := [];
    for i := 0 to |groups|
      invariant list == AllMatches(src, groups[..i])
    {
      var g := groups[i];
      assert groups[..i + 1][..i] == groups[..i];
      ghost var before := list;
      for j := 0 to |g.elements|
        invariant list == before + MatchesIn(src, g, g.elements[..j])
      {
        var e := g.elements[j];
        assert g.elements[..j + 1][..j] == g.elements[..j];
        if ElementMatches(src, g, e) {
          list := list + [Match(g, e)];
        }
      }
      assert g.elements[..|g.elements|] == g.elements;
    }
    assert groups[..|groups|] == groups;
  }

  /** Entry k has the id and no later entry has it. */
  predicate LastWithId(contained: seq<ConceptMap>, id: string, k: int) {
    && 0 <= k < |contained| && HasId(contained[k], id)
    && forall j :: k < j < |contained| ==> !HasId(contained[j], id)
  }

  /** The concept map has this id. */
  predicate HasId(cm: ConceptMap, id: string) {
    cm.id == Some(id)
  }

  /** Every contained concept map has an id, so comparing ids never
      dereferences `null`. */
  predicate AllIdentified(contained: seq<ConceptMap>) {
    forall i :: 0 <= i < |contained| ==> contained[i].id.Some?
  }

  /** The contained concept map a "#id" reference names: the loop over the
      contained resources keeps the last one with the id. */
  function LastContained(contained: seq<ConceptMap>, id: string): (r: Option<ConceptMap>)
    ensures r.None? <==> forall i :: 0 <= i < |contained| ==> !HasId(contained[i], id)
    ensures r.Some? ==> HasId(r.value, id) && r.value in contained
    decreases |contained|
  {
    if contained == [] then None
    else
      var n := |contained| - 1;
      if HasId(contained[n], id) then Some(contained[n])
      else LastContained(contained[..n], id)
  }

  /** The map found is the last contained one with the id. */
  lemma {:induction false} LastContainedIsLast(contained: seq<ConceptMap>, id: string)
    ensures LastContained(contained, id).Some? ==>
      exists k :: LastWithId(contained, id, k) && contained[k] == LastContained(contained, id).value
    decreases |contained|
  {
    if contained != [] {
      var n := |contained| - 1;
      var init := contained[..n];
      if HasId(contained[n], id) {
        assert LastWithId(contained, id, n);
      } else {
        assert LastContained(contained, id) == LastContained(init, id);
        LastContainedIsLast(init, id);
        if LastContained(init, id).Some? {
          var k :| LastWithId(init, id, k) && init[k] == LastContained(init, id).value;
          LastWithIdExtend(contained, id, k);
        }
      }
    }
  }

  /** A last entry without the id keeps the last entry with it last. */
  lemma LastWithIdExtend(contained: seq<ConceptMap>, id: string, k: int)
    requires contained != [] && !HasId(contained[|contained| - 1], id)
    requires LastWithId(contained[..|contained| - 1], id, k)
    ensures LastWithId(contained, id, k) && contained[k] == contained[..|contained| - 1][k]
  {
    var init := contained[..|contained| - 1];
    forall j | k < j < |contained|
      ensures !HasId(contained[j], id)
    {
      if j < |init| {
        assert contained[j] == init[j];
      }
    }
  }

  /** The lookup loop: it visits every contained map, so one without an id
      anywhere in the list fails the lookup with a `null` dereference;
      otherwise the last map with the id is found. */
  method FindContained(contained: seq<ConceptMap>, id: string) returns (r: Result<Option<ConceptMap>>)
    ensures !AllIdentified(contained) ==> r == Fails("null")
    ensures AllIdentified(contained) ==> r == Ok(LastContained(contained, id))
  {
    var found: Option<ConceptMap> := None;
    for i := 0 to |contained|
      invariant AllIdentified(contained[..i])
      invariant found == LastContained(contained[..i], id)
    {
      assert contained[..i + 1][..i] == contained[..i];
      if contained[i].id.None? {
        return Fails("null");
      }
      if contained[i].id.value == id {
        found := Some(contained[i]);
      }
    }
    assert contained[..|contained|] == contained;
    return Ok(found);
  }

  // ---------------------------------------------------------------------
  // Selecting a target

  /** The equivalences the engine accepts: unset, equal, equivalent, wider. */
  predicate Acceptable(e: Option<Equivalence>) {
    e.None? || e == Some(Equal) || e == Some(Equivalent) || e == Some(Wider)
  }

  /** The selection loop's state: whether a translation is settled, the code
      chosen so far, and the last message recorded. */
  datatype Selection = Selection(done: bool, outcome: Option<string>, message: Option<string>)

  function MultipleMatches(su: string, code: string): string {
    "Concept map " + su + " found multiple matches for " + code
  }

  /** One target: an acceptable one is chosen when nothing is settled and
      unsettles the choice otherwise; an unmatched one settles the choice. */
  function Step(s: Selection, t: TargetElement, su: string, code: string): Selection {
    if Acceptable(t.equivalence) then
      if s.done then Selection(false, s.outcome, Some(MultipleMatches(su, code)))
      else Selection(true, Some(t.code), s.message)
    else if t.equivalence == Some(Unmatched) then s.(done := true)
    else s
  }

  /** The selection after the targets, in order. */
  function Select(ts: seq<TargetElement>, su: string, code: string): Selection
    decreases |ts|
  {
    if ts == [] then Selection(false, None, None)
    else Step(Select(ts[..|ts| - 1], su, code), ts[|ts| - 1], su, code)
  }

  /** The loop over the first match's targets. */
  method SelectTarget(ts: seq<TargetElement>, su: string, code: string) returns (s: Selection)
    ensures s == Select(ts, su, code)
  {
    var done := false;
    var outcome: Option<string> := None;
    var message: Option<string> := None;
    for i := 0 to |ts|
      invariant Selection(done, outcome, message) == Select(ts[..i], su, code)
    {
      assert ts[..i + 1][..i] == ts[..i];
      var t := ts[i];
      if Acceptable(t.equivalence) {
        if done {
          message := Some(MultipleMatches(su, code));
          done := false;
        } else {
          done := true;
          outcome := Some(t.code);
        }
      } else if t.equivalence == Some(Unmatched) {
        done := true;
      }
    }
    assert ts[..|ts|] == ts;
    s := Selection(done, outcome, message);
  }

  /** What the local translation yields: no match gives no value; a first
      match without targets, or whose targets leave nothing settled, is an
      error; otherwise the chosen code in the group's target system, or no
      value when only an unmatched target settled it. */
  function LocalOutcome(matches: seq<Match>, su: string, code: string): (r: Result<Option<Code>>)
    ensures matches == [] ==> r == Ok(None)
    ensures matches != [] && matches[0].element.targets == [] ==>
      r == Fails("Concept map " + su + " found no translation for " + code)
    ensures r.Ok? && r.value.Some? ==> matches != [] && r.value.value.system == matches[0].group.target
  {
    if matches == [] then Ok(None)
    else if matches[0].element.targets == [] then Fails("Concept map " + su + " found no translation for " + code)
    else
      var s := Select(matches[0].element.targets, su, code);
      if !s.done then Fails("Concept map " + su + " found no usable translation for " + code)
      else if s.outcome.None? then Ok(None)
      else Ok(Some(Code(matches[0].group.target, s.outcome.value)))
  }

  // ---------------------------------------------------------------------
  // What the selection settles on

  function AcceptableCount(ts: seq<TargetElement>): nat
    decreases |ts|
  {
    if ts == [] then 0
    else AcceptableCount(ts[..|ts| - 1]) + (if Acceptable(ts[|ts| - 1].equivalence) then 1 else 0)
  }

  predicate HasUnmatched(ts: seq<TargetElement>) {
    exists i :: 0 <= i < |ts| && ts[i].equivalence == Some(Unmatched)
  }

  /** The number of acceptable targets after the last unmatched one. */
  function AcceptableSinceUnmatched(ts: seq<TargetElement>): nat
    decreases |ts|
  {
    if ts == [] then 0
    else if ts[|ts| - 1].equivalence == Some(Unmatched) then 0
    else AcceptableSinceUnmatched(ts[..|ts| - 1]) + (if Acceptable(ts[|ts| - 1].equivalence) then 1 else 0)
  }

  /** Each acceptable target flips the settled flag and an unmatched one sets
      it: the selection is settled exactly when an odd number of targets is
      acceptable and none is unmatched, or an even number of acceptable
      targets follows the last unmatched one. */
  lemma {:induction false} SelectParity(ts: seq<TargetElement>, su: string, code: string)
    ensures Select(ts, su, code).done <==>
      if HasUnmatched(ts) then AcceptableSinceUnmatched(ts) % 2 == 0 else AcceptableCount(ts) % 2 == 1
    decreases |ts|
  {
    if ts != [] {
      var n := |ts| - 1;
      var init := ts[..n];
      SelectParity(init, su, code);
      assert HasUnmatched(ts) <==> HasUnmatched(init) || ts[n].equivalence == Some(Unmatched) by {
        if HasUnmatched(ts) {
          var i :| 0 <= i < |ts| && ts[i].equivalence == Some(Unmatched);
          if i < n {
            assert init[i] == ts[i];
          }
        }
        if HasUnmatched(init) {
          var i :| 0 <= i < |init| && init[i].equivalence == Some(Unmatched);
          assert ts[i] == init[i];
        }
      }
      if !HasUnmatched(init) && ts[n].equivalence != Some(Unmatched) {
        AcceptableSinceNoUnmatched(ts);
      }
    }
  }

  lemma {:induction false} AcceptableSinceNoUnmatched(ts: seq<TargetElement>)
    requires !HasUnmatched(ts)
    ensures AcceptableSinceUnmatched(ts) == AcceptableCount(ts)
    decreases |ts|
  {
    if ts != [] {
      var n := |ts| - 1;
      AcceptableSinceNoUnmatched(ts[..n]);
    }
  }

  /** A target that settles nothing leaves the selection as it was. */
  lemma {:induction false} SelectSkipsIgnored(ts: seq<TargetElement>, u: seq<TargetElement>, su: string, code: string)
    requires forall i :: 0 <= i < |u| ==> !Acceptable(u[i].equivalence) && u[i].equivalence != Some(Unmatched)
    ensures Select(ts + u, su, code) == Select(ts, su, code)
    decreases |u|
  {
    if u == [] {
      assert ts + u == ts;
    } else {
      var n := |u| - 1;
      assert (ts + u)[..|ts + u| - 1] == ts + u[..n];
      SelectSkipsIgnored(ts, u[..n], su, code);
    }
  }

  /** The main case: when exactly one target is acceptable and none is
      unmatched, the engine chooses that target's code. */
  lemma {:induction false} SingleAcceptableChosen(ts: seq<TargetElement>, k: nat, su: string, code: string)
    requires k < |ts| && Acceptable(ts[k].equivalence)
    requires forall i :: 0 <= i < |ts| && i != k ==> !Acceptable(ts[i].equivalence) && ts[i].equivalence != Some(Unmatched)
    ensures Select(ts, su, code).done && Select(ts, su, code).outcome == Some(ts[k].code)
  {
    assert ts == ts[..k] + [ts[k]] + ts[k + 1..];
    SelectSkipsIgnored([], ts[..k], su, code);
    assert [] + ts[..k] == ts[..k];
    assert Select(ts[..k], su, code) == Selection(false, None, None);
    assert (ts[..k] + [ts[k]])[..k] == ts[..k];
    SelectSkipsIgnored(ts[..k] + [ts[k]], ts[k + 1..], su, code);
  }

  /** Only unmatched targets: the translation settles on no value. */
  lemma {:induction false} OnlyUnmatchedGivesNone(ts: seq<TargetElement>, su: string, code: string)
    requires ts != [] && forall i :: 0 <= i < |ts| ==> ts[i].equivalence == Some(Unmatched)
    ensures Select(ts, su, code) == Selection(true, None, None)
    decreases |ts|
  {
    if |ts| > 1 {
      OnlyUnmatchedGivesNone(ts[..|ts| - 1], su, code);
    }
  }

  /** As written: two acceptable targets record the "multiple matches"
      message, but the translation then reports the generic one. */
  lemma TwoAcceptableReportedAsUnusable(a: TargetElement, b: TargetElement, src: ConceptMapGroup, e: SourceElement, su: string, code: string)
    requires Acceptable(a.equivalence) && Acceptable(b.equivalence)
    requires e.targets == [a, b]
    ensures Select([a, b], su, code).message == Some(MultipleMatches(su, code))
    ensures LocalOutcome([Match(src, e)], su, code) == Fails("Concept map " + su + " found no usable translation for " + code)
  {
    assert [a, b][..1] == [a];
    assert [a][..0] == [];
    assert Select([a], su, code) == Selection(true, Some(a.code), None);
    assert Select([a, b], su, code) == Selection(false, Some(a.code), Some(MultipleMatches(su, code)));
  }

  /** As written: a third acceptable target is chosen. */
  lemma ThirdAcceptableChosen(a: TargetElement, b: TargetElement, c: TargetElement, su: string, code: string)
    requires Acceptable(a.equivalence) && Acceptable(b.equivalence) && Acceptable(c.equivalence)
    ensures Select([a, b, c], su, code).done && Select([a, b, c], su, code).outcome == Some(c.code)
  {
    assert [a, b, c][..2] == [a, b];
    assert [a, b][..1] == [a];
    assert [a][..0] == [];
    assert Select([a], su, code).done;
    assert !Select([a, b], su, code).done;
  }

  // ---------------------------------------------------------------------
  // The selection as intended

  function AcceptableTargets(ts: seq<TargetElement>): (r: seq<TargetElement>)
    ensures |r| == AcceptableCount(ts)
    ensures forall i :: 0 <= i < |r| ==> r[i] in ts && Acceptable(r[i].equivalence)
    decreases |ts|
  {
    if ts == [] then []
    else
      var t := ts[|ts| - 1];
      AcceptableTargets(ts[..|ts| - 1]) + (if Acceptable(t.equivalence) then [t] else [])
  }

  /** The intended rule: one acceptable target is the translation, more than
      one is an error that says so, none leaves no value when a target says
      the code is unmatched, and is an error otherwise. */
  function CorrectedOutcome(matches: seq<Match>, su: string, code: string): (r: Result<Option<Code>>)
    ensures r.Ok? && r.value.Some? ==>
      && matches != []
      && AcceptableCount(matches[0].element.targets) == 1
      && exists t :: t in matches[0].element.targets && Acceptable(t.equivalence) && r.value.value == Code(matches[0].group.target, t.code)
    ensures matches != [] && AcceptableCount(matches[0].element.targets) > 1 ==> r == Fails(MultipleMatches(su, code))
  {
    if matches == [] then Ok(None)
    else
      var ts := matches[0].element.targets;
      if ts == [] then Fails("Concept map " + su + " found no translation for " + code)
      else
        var acc := AcceptableTargets(ts);
        if |acc| == 1 then Ok(Some(Code(matches[0].group.target, acc[0].code)))
        else if |acc| > 1 then Fails(MultipleMatches(su, code))
        else if HasUnmatched(ts) then Ok(None)
        else Fails("Concept map " + su + " found no usable translation for " + code)
  }

  /** The loop over the first match's targets, keeping the acceptable ones. */
  method CollectAcceptable(ts: seq<TargetElement>) returns (acc: seq<TargetElement>)
    ensures acc == AcceptableTargets(ts)
  {
    acc := [];
    for i := 0 to |ts|
      invariant acc == AcceptableTargets(ts[..i])
    {
      assert ts[..i + 1][..i] == ts[..i];
      if Acceptable(ts[i].equivalence) {
        acc := acc + [ts[i]];
      }
    }
    assert ts[..|ts|] == ts;
  }

  /** The translation through a local concept map: collect the matches,
      then run the selection loop over the first match's targets. */
  method TranslateLocal(cmap: ConceptMap, src: Code, su: string) returns (r: Result<Option<Code>>)
    ensures r == LocalOutcome(AllMatches(src, cmap.groups), su, src.code)
  {
    var list := CollectMatches(src, cmap.groups);
    if list == [] {
      return Ok(None);
    }
    var ts := list[0].element.targets;
    if ts == [] {
      return Fails("Concept map " + su + " found no translation for " + src.code);
    }
    var s := SelectTarget(ts, su, src.code);
    if !s.done {
      r := Fails("Concept map " + su + " found no usable translation for " + src.code);
    } else if s.outcome.None? {
      r := Ok(None);
    } else {
      r := Ok(Some(Code(list[0].group.target, s.outcome.value)));
    }
  }

  /** Where the source's rule is unambiguous (one acceptable target and no
      unmatched one, or only unmatched ones) the two agree. */
  lemma {:induction false} CorrectedAgrees(matches: seq<Match>, k: nat, su: string, code: string)
    requires matches != []
    requires var ts := matches[0].element.targets;
      && k < |ts| && Acceptable(ts[k].equivalence)
      && forall i :: 0 <= i < |ts| && i != k ==> !Acceptable(ts[i].equivalence) && ts[i].equivalence != Some(Unmatched)
    ensures CorrectedOutcome(matches, su, code) == LocalOutcome(matches, su, code)
  {
    var ts := matches[0].element.targets;
    SingleAcceptableChosen(ts, k, su, code);
    SelectParity(ts, su, code);
    AcceptableSingle(ts, k);
  }

  lemma {:induction false} AcceptableSingle(ts: seq<TargetElement>, k: nat)
    requires k < |ts| && Acceptable(ts[k].equivalence)
    requires forall i :: 0 <= i < |ts| && i != k ==> !Acceptable(ts[i].equivalence)
    ensures AcceptableTargets(ts) == [ts[k]]
    decreases |ts|
  {
    var n := |ts| - 1;
    if k < n {
      AcceptableSingle(ts[..n], k);
    } else {
      AcceptableNone(ts[..n]);
    }
  }

  lemma {:induction false} AcceptableNone(ts: seq<TargetElement>)
    requires forall i :: 0 <= i < |ts| ==> !Acceptable(ts[i].equivalence)
    ensures AcceptableTargets(ts) == []
    decreases |ts|
  {
    if ts != [] {
      AcceptableNone(ts[..|ts| - 1]);
    }
  }
}

=== FILE: values.dfy ===
/** The values the transform engine computes without changing the object
    graph: parameter values, the strings the transforms read, TRUNCATE's
    text, CREATE's id, the coding a value set gives a code, and the concept
    map a translation uses. The engine's collaborators (the FluentPath
    engine, the worker context, the host services, the object model's type
    lists) are the `Oracles` record. */
module Values {
  import opened Wrappers
  import opened Text
  import opened Ast
  import opened Variables
  import opened Instance
  import opened Dispatch
  import opened Translate

  /** An entry of a value set's expansion ("" for an absent system, code or
      display). */
  datatype Contains = Contains(system: string, code: string, display: string)

  /** The host application's translation service: the coding for a source
      coding through a concept map URL, or none. */
  datatype Services = Services(translate: (Code, string) -> Option<Code>)

  /** What the engine asks of others:
      - `evaluate`, `evaluateToBoolean`: the FluentPath engine, on the graph,
        a focus value and an expression's text;
      - `resourceTypes`: the type names whose instances are resources;
        `knownTypes`: the names the resource factory can instantiate;
      - `oid2Uri`, `fetchConceptMap`, `expandValueSet`, `validateDisplay`:
        the worker context (`expandValueSet` is None when there is no value
        set at the URL, an error when its expansion fails);
      - `services`: the host services, when there are any;
      - `targetText`, `parameterText`: the objects' `toString` texts that
        error messages quote. */
  datatype Oracles = Oracles(
    evaluate: (Graph, Base, string) -> seq<Base>,
    evaluateToBoolean: (Graph, Base, string) -> bool,
    resourceTypes: set<string>,
    knownTypes: set<string>,
    oid2Uri: string -> Option<string>,
    fetchConceptMap: string -> Option<ConceptMap>,
    expandValueSet: string -> Option<Result<seq<Contains>>>,
    validateDisplay: (string, string) -> Option<string>,
    services: Option<Services>,
    targetText: Target -> string,
    parameterText: ParamValue -> string)

  /** The FluentPath engine only returns values of the graph it is given. */
  ghost predicate EvaluateWithin(o: Oracles) {
    forall g: Graph, b: Base, e: string, i :: 0 <= i < |o.evaluate(g, b, e)| ==> Within(g.next, o.evaluate(g, b, e)[i])
  }

  /** Every variable holds a value of the graph. */
  predicate VarsWithin(next: nat, list: seq<Variable<Base>>) {
    forall i :: 0 <= i < |list| ==> Within(next, list[i].value)
  }

  lemma BindWithin(list: seq<Variable<Base>>, mode: VariableMode, name: string, v: Base, next: nat)
    requires VarsWithin(next, list) && Within(next, v)
    ensures VarsWithin(next, Bind(list, mode, name, v))
  {
    var r := Bind(list, mode, name, v);
    var rest := Rest(list, mode, name);
    forall i | 0 <= i < |r| ensures Within(next, r[i].value) {
      if i < |rest| {
        assert r[i] == rest[i] && rest[i] in list;
      }
    }
  }

  /** The called group's variables hold values of the graph. */
  lemma {:induction false} BindInputsWithin(name: string, inputs: seq<Input>, args: seq<string>, vin: seq<Variable<Base>>, next: nat)
    requires |inputs| == |args| && VarsWithin(next, vin)
    requires BindInputs(name, inputs, args, vin).Ok?
    ensures VarsWithin(next, BindInputs(name, inputs, args, vin).value)
    decreases |inputs|
  {
    if inputs != [] {
      var n := |inputs| - 1;
      var mode := ModeOfInput(inputs[n].mode);
      BindInputsWithin(name, inputs[..n], args[..n], vin, next);
      var l := Lookup(vin, mode, args[n]);
      var k :| 0 <= k < |vin| && vin[k] == l.value;
      BindWithin(BindInputs(name, inputs[..n], args[..n], vin).value, mode, inputs[n].name, l.value.value, next);
    }
  }

  predicate IsResource(o: Oracles, g: Graph, b: Base) {
    b.Node? && FhirType(g, b) in o.resourceTypes
  }

  // ---------------------------------------------------------------------
  // Parameters

  /** A constant parameter as a value: a primitive of the constant's type. */
  function ConstantBase(p: ParamValue): (r: Base)
    requires !p.IdParam?
    ensures r.Primitive?
  {
    match p
    case StringParam(s) => Primitive("string", s)
    case BoolParam(b) => Primitive("boolean", if b then "true" else "false")
    case IntParam(d) => Primitive("integer", d)
    case DecimalParam(t) => Primitive("decimal", t)
  }

  /** `name: type` for each variable of the mode, in order. */
  function EntriesText(g: Graph, list: seq<Variable<Base>>, mode: VariableMode): (r: seq<string>)
    ensures |r| <= |list|
    decreases |list|
  {
    if list == [] then []
    else
      var n := |list| - 1;
      EntriesText(g, list[..n], mode)
        + (if list[n].mode == mode then [list[n].name + ": " + FhirType(g, list[n].value)] else [])
  }

  /** `Variables.summary`: the source variables, then the target ones. */
  function SummaryText(g: Graph, list: seq<Variable<Base>>): string {
    "source variables [" + Join(EntriesText(g, list, VariableMode.Input), ", ")
      + "], target variables [" + Join(EntriesText(g, list, Output), ", ") + "]"
  }

  /** `getParam`: a constant stands for itself; a name reads the source
      variable, or else the target variable, and is an error when neither
      is bound. */
  function ParamBase(g: Graph, list: seq<Variable<Base>>, p: ParamValue): (r: Result<Base>)
    ensures !p.IdParam? ==> r == Ok(ConstantBase(p))
    ensures r.Err? <==> p.IdParam? && ValueOf(list, VariableMode.Input, p.id).None? && ValueOf(list, Output, p.id).None?
    ensures r.Ok? && p.IdParam? ==>
      || ValueOf(list, VariableMode.Input, p.id) == Some(r.value)
      || (ValueOf(list, VariableMode.Input, p.id).None? && ValueOf(list, Output, p.id) == Some(r.value))
    ensures r.Ok? && VarsWithin(g.next, list) ==> Within(g.next, r.value)
  {
    if !p.IdParam? then Ok(ConstantBase(p))
    else
      var b := ValueOf(list, VariableMode.Input, p.id);
      var b' := if b.Some? then b else ValueOf(list, Output, p.id);
      if b'.None? then Fails("Variable " + p.id + " not found (" + SummaryText(g, list) + ")")
      else
        assert Lookup(list, VariableMode.Input, p.id).Some? ==> Lookup(list, VariableMode.Input, p.id).value in list;
        assert Lookup(list, Output, p.id).Some? ==> Lookup(list, Output, p.id).value in list;
        Ok(b'.value)
  }

  /** `getParamString`: the primitive text of the parameter's value, or none
      when the value has none. */
  function ParamString(g: Graph, list: seq<Variable<Base>>, p: ParamValue): (r: Result<Option<string>>)
    ensures r.Err? <==> ParamBase(g, list, p).Err?
    ensures r.Ok? && r.value.Some? ==> HasPrimitiveValue(ParamBase(g, list, p).value) && ParamBase(g, list, p).value.value == r.value.value
    ensures r.Ok? && r.value.None? ==> !HasPrimitiveValue(ParamBase(g, list, p).value)
  {
    match ParamBase(g, list, p)
    case Err(e) => Err(e)
    case Ok(b) => if HasPrimitiveValue(b) then Ok(Some(b.value)) else Ok(None)
  }

  /** `getParamStringNoNull`: as `getParamString`, but a value without a
      primitive text is an error that names the parameter and its type. */
  function ParamStringNoNull(o: Oracles, g: Graph, list: seq<Variable<Base>>, p: ParamValue, context: string): (r: Result<string>)
    ensures r.Ok? <==> ParamString(g, list, p).Ok? && ParamString(g, list, p).value.Some?
    ensures r.Ok? ==> ParamString(g, list, p) == Ok(Some(r.value))
  {
    match ParamBase(g, list, p)
    case Err(e) => Err(e)
    case Ok(b) =>
      if !HasPrimitiveValue(b) then
        Fails("Found a value for " + o.parameterText(p) + ", but it has a type of " + FhirType(g, b)
          + " and cannot be treated as a string. Context: " + context)
      else Ok(b.value)
  }

  /** `parameter.get(i)`: a missing parameter is the list's index error. */
  function ParamAt(ps: seq<ParamValue>, i: nat): (r: Result<ParamValue>)
    ensures r.Ok? <==> i < |ps|
    ensures r.Ok? ==> r.value == ps[i]
  {
    if i < |ps| then Ok(ps[i]) else Fails("Index: " + NatToString(i) + ", Size: " + NatToString(|ps|))
  }

  // ---------------------------------------------------------------------
  // TRUNCATE

  /** TRUNCATE's text: the first `len` characters when `len` is an integer
      below the text's length, the text itself otherwise; a negative length
      makes `substring` fail. */
  function Truncated(src: string, len: string): (r: Result<string>)
    ensures r.Err? <==> IsInteger(len) && ParseInt(len) < 0
    ensures r.Ok? ==> r.value <= src
    ensures r.Ok? && IsInteger(len) && ParseInt(len) < |src| ==> |r.value| == ParseInt(len)
    ensures r.Ok? && !(IsInteger(len) && ParseInt(len) < |src|) ==> r.value == src
  {
    if IsInteger(len) && |src| > ParseInt(len) then
      var l := ParseInt(len);
      if l < 0 then Fails("String index out of range: " + IntToString(l)) else Ok(src[..l])
    else Ok(src)
  }

  /** Truncating what TRUNCATE gave, to the same length, changes nothing. */
  lemma TruncateIdempotent(src: string, len: string)
    requires Truncated(src, len).Ok?
    ensures Truncated(Truncated(src, len).value, len) == Truncated(src, len)
  {
  }

  // ---------------------------------------------------------------------
  // CREATE's id

  /** The id CREATE gives the new object, as written: with more than one
      parameter it reads parameter 0 again, so the id is the type name;
      otherwise a fresh UUID in lower case. */
  function CreateId(typeName: string, params: seq<ParamValue>, uuid: string): (r: string)
    ensures |params| > 1 ==> r == typeName
    ensures |params| <= 1 ==> |r| == |uuid|
  {
    if |params| > 1 then typeName else Lower(uuid)
  }

  /** As written, `create('Patient', 'p1')` names the new resource "Patient". */
  lemma CreateIdIgnoresSecondParameter(uuid: string)
    ensures CreateId("Patient", [StringParam("Patient"), StringParam("p1")], uuid) == "Patient"
    ensures CorrectedCreateId(Graph(map[], map[], map[], 0), [], [StringParam("Patient"), StringParam("p1")], uuid) == Ok(Some("p1"))
  {
  }

  /** The id as intended: the string value of parameter 1 (none when it has
      no text), or a fresh UUID in lower case when there is no second
      parameter. */
  function CorrectedCreateId(g: Graph, list: seq<Variable<Base>>, params: seq<ParamValue>, uuid: string): (r: Result<Option<string>>)
    ensures |params| > 1 ==> r == ParamString(g, list, params[1])
    ensures |params| > 1 && params[1].StringParam? && params[1].s != "" ==> r == Ok(Some(params[1].s))
    ensures |params| <= 1 ==> r.Ok? && r.value.Some? && |r.value.value| == |uuid|
  {
    if |params| > 1 then ParamString(g, list, params[1]) else Ok(Some(Lower(uuid)))
  }

  // ---------------------------------------------------------------------
  // C and CC: the coding a value set gives a code

  /** An expansion entry with a system that has the code, or whose display
      is the code ignoring case. */
  predicate EntryMatches(t: Contains, code: string) {
    t.system != "" && (code == t.code || (t.display != "" && Lower(code) == Lower(t.display)))
  }

  /** Entry k matches and none before it does. */
  predicate FirstMatchAt(entries: seq<Contains>, code: string, k: nat) {
    k < |entries| && EntryMatches(entries[k], code) && forall j :: 0 <= j < k ==> !EntryMatches(entries[j], code)
  }

  /** The first matching entry: the loop stops there. */
  function FirstEntry(entries: seq<Contains>, code: string): (r: Option<Contains>)
    ensures r.Some? ==> r.value in entries && EntryMatches(r.value, code)
    ensures r.None? <==> forall i :: 0 <= i < |entries| ==> !EntryMatches(entries[i], code)
    ensures r.Some? ==> exists k: nat :: FirstMatchAt(entries, code, k) && entries[k] == r.value
    decreases |entries|
  {
    if entries == [] then None
    else if EntryMatches(entries[0], code) then Some(entries[0])
    else
      var r := FirstEntry(entries[1..], code);
      if r.Some? then
        var k: nat :| FirstMatchAt(entries[1..], code, k) && entries[1..][k] == r.value;
        assert forall j :: 0 < j < k + 1 ==> entries[j] == entries[1..][j - 1];
        assert FirstMatchAt(entries, code, k + 1) && entries[k + 1] == r.value;
        r
      else r
  }

  /** The codes the error message lists: every non-blank code, in order. */
  function ExpansionCodes(entries: seq<Contains>): (r: seq<string>)
    ensures |r| <= |entries|
    ensures forall i :: 0 <= i < |r| ==> r[i] != ""
    decreases |entries|
  {
    if entries == [] then []
    else
      var n := |entries| - 1;
      ExpansionCodes(entries[..n]) + (if entries[n].code != "" then [entries[n].code] else [])
  }

  /** A coding: system, code and display ("" for none). */
  datatype Coded = Coded(system: string, code: string, display: string)

  function DisplayFor(o: Oracles, system: string, code: string, display: string): string {
    var v := o.validateDisplay(system, code);
    if v.Some? then v.value else display
  }

  /** `buildCoding`: when the URI names a value set, the code must be in its
      expansion (by code or display) and the entry gives the system;
      otherwise the URI is the system. The terminology server's display
      wins when it has one. */
  function CodingFor(o: Oracles, uri: string, code: string): (r: Result<Coded>)
    ensures r.Ok? ==> r.value.code == code
    ensures uri == "" || o.expandValueSet(uri).None? ==> r.Ok? && r.value.system == uri
    ensures uri != "" && o.expandValueSet(uri).Some? && o.expandValueSet(uri).value.Ok? ==>
      var entries := o.expandValueSet(uri).value.value;
      && (r.Ok? <==> FirstEntry(entries, code).Some?)
      && (r.Ok? ==> r.value.system == FirstEntry(entries, code).value.system && r.value.system != "")
  {
    var vs := if uri == "" then None else o.expandValueSet(uri);
    if vs.None? then Ok(Coded(uri, code, DisplayFor(o, uri, code, "")))
    else if vs.value.Err? then Err(vs.value.error)
    else
      var entries := vs.value.value;
      match FirstEntry(entries, code)
      case None =>
        Fails("The code '" + code + "' is not in the value set '" + uri + "' (valid codes: "
          + Join(ExpansionCodes(entries), ", ") + "; also checked displays)")
      case Some(t) => Ok(Coded(t.system, code, DisplayFor(o, t.system, code, t.display)))
  }

  // ---------------------------------------------------------------------
  // TRANSLATE

  const SpecialOid2Uri: string := "http://hl7.org/fhir/ConceptMap/special-oid2uri"

  /** The primitive text of the single value of a property, "" otherwise. */
  function SingleText(g: Graph, b: Base, name: string): string {
    var vs := Children(g, b, name);
    if |vs| == 1 && vs[0].Primitive? then vs[0].value else ""
  }

  /** The primitive text of the single value of a property; none (Java's
      `null`) when there is not exactly one value or it is not primitive. */
  function SingleValue(g: Graph, b: Base, name: string): (r: Option<string>)
    ensures r.Some? <==> |Children(g, b, name)| == 1 && Children(g, b, name)[0].Primitive?
    ensures r.Some? ==> r.value == SingleText(g, b, name)
  {
    var vs := Children(g, b, name);
    if |vs| == 1 && vs[0].Primitive? then Some(vs[0].value) else None
  }

  /** The coding a translation reads from its source: a system ("" when it
      has none) and a code that is absent when a Coding or CE has none. */
  datatype SourceCoding = SourceCoding(system: string, code: Option<string>)

  /** The coding translated: a primitive is a bare code; a Coding reads its
      system and code, a v2 CE its codeSystem and code; anything else cannot
      be translated. */
  function SourceCode(g: Graph, b: Base): (r: Result<SourceCoding>)
    ensures b.Primitive? ==> r == Ok(SourceCoding("", Some(b.value)))
    ensures r.Err? <==> !b.Primitive? && FhirType(g, b) != "Coding" && FhirType(g, b) != "CE"
    ensures r.Ok? && !b.Primitive? ==> r.value.code == SingleValue(g, b, "code")
  {
    if b.Primitive? then Ok(SourceCoding("", Some(b.value)))
    else if FhirType(g, b) == "Coding" then Ok(SourceCoding(SingleText(g, b, "system"), SingleValue(g, b, "code")))
    else if FhirType(g, b) == "CE" then Ok(SourceCoding(SingleText(g, b, "codeSystem"), SingleValue(g, b, "code")))
    else Fails("Unable to translate source " + FhirType(g, b))
  }

  /** The code as string concatenation writes it: an absent code is "null". */
  function CodeText(sc: SourceCoding): string {
    if sc.code.Some? then sc.code.value else "null"
  }

  /** The coding as the matching reads it; an absent code matches no element. */
  function CodeOf(sc: SourceCoding): Code {
    Code(sc.system, if sc.code.Some? then sc.code.value else "")
  }

  /** The matching compares the code with some source element: a group has
      an element, and either the coding has no system or its system is the
      group's source. With an absent code that comparison dereferences
      `null`. */
  predicate ComparesCode(sc: SourceCoding, cmap: Option<ConceptMap>) {
    && cmap.Some?
    && exists i :: 0 <= i < |cmap.value.groups| &&
         cmap.value.groups[i].elements != [] && (sc.system == "" || sc.system == cmap.value.groups[i].source)
  }

  /** The concept map a URL names, and the URL the messages use: "#id" is a
      map contained in the structure map (named by the map's URL plus the
      reference when one is found); any other URL is fetched. Comparing the
      ids of the contained maps fails on one that has no id. */
  function ConceptMapFor(o: Oracles, m: StructureMap, url: string): (r: Result<(Option<ConceptMap>, string)>)
    ensures StartsWith(url, "#") && !AllIdentified(m.contained) ==> r == Fails("null")
    ensures StartsWith(url, "#") && AllIdentified(m.contained) ==>
      && r.Ok? && r.value.0 == LastContained(m.contained, url[1..])
      && r.value.1 == if r.value.0.Some? then m.url + url else url
    ensures !StartsWith(url, "#") ==> r == Ok((o.fetchConceptMap(url), url))
  {
    if StartsWith(url, "#") then
      if !AllIdentified(m.contained) then Fails("null")
      else
        var c := LastContained(m.contained, url[1..]);
        Ok((c, if c.Some? then m.url + url else url))
    else Ok((o.fetchConceptMap(url), url))
  }

  /** The outcome of a translation through any map but the OID one: the
      lookup's failure; without a map, the host service's answer (an error
      without services); with one, the local selection. */
  function TranslationOf(o: Oracles, m: StructureMap, src: Code, url: string): (r: Result<Option<Code>>)
    ensures ConceptMapFor(o, m, url).Err? ==> r == Err(ConceptMapFor(o, m, url).error)
    ensures ConceptMapFor(o, m, url).Ok? && ConceptMapFor(o, m, url).value.0.None? && o.services.None? ==>
      r == Fails("No map found for " + url)
    ensures ConceptMapFor(o, m, url).Ok? && ConceptMapFor(o, m, url).value.0.None? && o.services.Some? ==>
      r == Ok(o.services.value.translate(src, url))
    ensures ConceptMapFor(o, m, url).Ok? && ConceptMapFor(o, m, url).value.0.Some? ==>
      var (cmap, su) := ConceptMapFor(o, m, url).value;
      r == LocalOutcome(AllMatches(src, cmap.value.groups), su, src.code)
  {
    var (cmap, su) :- ConceptMapFor(o, m, url);
    if cmap.None? then
      if o.services.None? then Fails("No map found for " + url) else Ok(o.services.value.translate(src, url))
    else LocalOutcome(AllMatches(src, cmap.value.groups), su, src.code)
  }

  /** The OID map: the worker's URI for the OID, or the "urn:oid:" form. */
  function Oid2Uri(o: Oracles, oid: string): (r: string)
    ensures o.oid2Uri(oid).None? ==> r == "urn:oid:" + oid
  {
    var u := o.oid2Uri(oid);
    if u.Some? then u.value else "urn:oid:" + oid
  }

  /** What a translation gives: a value to use as it is, or a coding for
      which a Coding element is made. */
  datatype Translated = TranslatedValue(b: Base) | TranslatedCoding(c: Code)

  /** TRANSLATE from the parameter values it reads: the source value, the
      map URL (none when the parameter has no text, which makes the URL
      comparison fail) and the field to return. The OID map gives a URI and
      accepts only "uri" as the field; any other map gives nothing, the
      target's code as a `code` when the field is "code", or a Coding. */
  function TranslateOutcome(o: Oracles, m: StructureMap, g: Graph, src: Base, url: Option<string>, fld: Option<string>): (r: Result<Option<Translated>>)
    ensures SourceCode(g, src).Err? ==> r == Err(SourceCode(g, src).error)
    ensures SourceCode(g, src).Ok? && url.None? ==> r.Err?
    ensures SourceCode(g, src).Ok? && url == Some(SpecialOid2Uri) ==>
      r == if fld == Some("uri") then Ok(Some(TranslatedValue(Primitive("uri", Oid2Uri(o, CodeText(SourceCode(g, src).value))))))
           else Fails("Error in return code")
    ensures SourceCode(g, src).Ok? && url.Some? && url.value != SpecialOid2Uri &&
            SourceCode(g, src).value.code.None? && ConceptMapFor(o, m, url.value).Ok? &&
            ComparesCode(SourceCode(g, src).value, ConceptMapFor(o, m, url.value).value.0) ==>
      r == Fails("null")
    ensures SourceCode(g, src).Ok? && url.Some? && url.value != SpecialOid2Uri &&
            !(SourceCode(g, src).value.code.None? && ConceptMapFor(o, m, url.value).Ok? &&
              ComparesCode(SourceCode(g, src).value, ConceptMapFor(o, m, url.value).value.0)) ==>
      var t := TranslationOf(o, m, CodeOf(SourceCode(g, src).value), url.value);
      && (r.Err? <==> t.Err?)
      && (r.Err? ==> r == Err(t.error))
      && (r.Ok? ==> (r.value.None? <==> t.value.None?))
      && (r.Ok? && t.value.Some? && fld == Some("code") ==> r.value == Some(TranslatedValue(Primitive("code", t.value.value.code))))
      && (r.Ok? && t.value.Some? && fld != Some("code") ==> r.value == Some(TranslatedCoding(t.value.value)))
  {
    match SourceCode(g, src)
    case Err(e) => Err(e)
    case Ok(sc) =>
      if url.None? then Fails("null")
      else if url.value == SpecialOid2Uri then
        if fld == Some("uri") then Ok(Some(TranslatedValue(Primitive("uri", Oid2Uri(o, CodeText(sc))))))
        else Fails("Error in return code")
      else if sc.code.None? && ConceptMapFor(o, m, url.value).Ok? && ComparesCode(sc, ConceptMapFor(o, m, url.value).value.0) then
        Fails("null")
      else
        match TranslationOf(o, m, CodeOf(sc), url.value)
        case Err(e) => Err(e)
        case Ok(None) => Ok(None)
        case Ok(Some(c)) =>
          if fld == Some("code") then Ok(Some(TranslatedValue(Primitive("code", c.code))))
          else Ok(Some(TranslatedCoding(c)))
  }

  // ---------------------------------------------------------------------
  // EVALUATE and TRUNCATE outcomes

  /** EVALUATE from what the expression gave: nothing is no value, one value
      is the value, more than one is an error that counts them. */
  function EvaluationOutcome(ruleId: string, expr: string, results: seq<Base>): (r: Result<Option<Base>>)
    ensures r == Ok(None) <==> results == []
    ensures r.Ok? && r.value.Some? <==> |results| == 1
    ensures r.Ok? && r.value.Some? ==> results == [r.value.value]
  {
    if |results| == 0 then Ok(None)
    else if |results| != 1 then
      Fails("Rule \"" + ruleId + "\": Evaluation of " + expr + " returned " + NatToString(|results|) + " objects")
    else Ok(Some(results[0]))
  }

  /** What EVALUATE works on: the expression kept by the parser, or when
      there is none the text of parameter 1; and the focus, parameter 0.
      A target with a kept expression never reads parameter 1, so the
      inline form `(expr)` with its one parameter runs. */
  function EvaluateInputs(o: Oracles, g: Graph, list: seq<Variable<Base>>, tgt: Target): (r: Result<(string, Base)>)
    ensures tgt.expression.Some? ==>
      (r.Ok? <==> |tgt.parameters| > 0 && ParamBase(g, list, tgt.parameters[0]).Ok?)
    ensures tgt.expression.None? && |tgt.parameters| < 2 ==> r.Err?
    ensures r.Ok? ==>
      && |tgt.parameters| > 0
      && ParamBase(g, list, tgt.parameters[0]) == Ok(r.value.1)
      && (tgt.expression.Some? ==> r.value.0 == tgt.expression.value)
      && (tgt.expression.None? ==>
            |tgt.parameters| >= 2 && ParamStringNoNull(o, g, list, tgt.parameters[1], o.targetText(tgt)) == Ok(r.value.0))
  {
    var expr :- if tgt.expression.Some? then Ok(tgt.expression.value)
                else
                  var p1 :- ParamAt(tgt.parameters, 1);
                  ParamStringNoNull(o, g, list, p1, o.targetText(tgt));
    var p0 :- ParamAt(tgt.parameters, 0);
    var focus :- ParamBase(g, list, p0);
    Ok((expr, focus))
  }

  /** TRUNCATE when the source may have no text: with an integer length the
      length comparison fails on the missing text; otherwise the string
      made has no text either. */
  function TruncateOutcome(src: Option<string>, len: string): (r: Result<string>)
    ensures src.Some? ==> r == Truncated(src.value, len)
    ensures src.None? ==> (r.Err? <==> IsInteger(len)) && (r.Ok? ==> r.value == "")
  {
    if src.None? then (if IsInteger(len) then Fails("null") else Ok(""))
    else Truncated(src.value, len)
  }

  // ---------------------------------------------------------------------
  // Errors of a transform

  /** The transforms the engine names as not supported yet, and those it
      does not know. These throw an `Error`, which escapes the handler that
      wraps every other failure. */
  predicate NotSupportedYet(t: Transform) {
    t == Escape || t == Cast || t == Append || t == DateOp
  }

  predicate UnknownTransform(t: Transform) {
    t == Qty || t == Id || t == CP
  }

  function ExceptionPrefix(o: Oracles, tgt: Target, ruleId: string): string {
    "Exception executing transform " + o.targetText(tgt) + " on Rule \"" + ruleId + "\": "
  }

  /** The handler around a transform: a failure becomes an error that names
      the target and the rule, followed by the original message. */
  function Wrapped<T>(o: Oracles, tgt: Target, ruleId: string, r: Result<T>): (w: Result<T>)
    ensures w.Ok? <==> r.Ok?
    ensures r.Ok? ==> w == r
    ensures r.Err? ==> w.error.msg == ExceptionPrefix(o, tgt, ruleId) + r.error.msg
  {
    if r.Err? then Fails(ExceptionPrefix(o, tgt, ruleId) + r.error.msg) else r
  }

  /** A value of the graph stays one as the graph grows. */
  lemma VarsWithinGrow(list: seq<Variable<Base>>, next: nat, next': nat)
    requires VarsWithin(next, list) && next <= next'
    ensures VarsWithin(next', list)
  {
  }

  /** The values of a property that is set only when the text is not blank. */
  function PrimitiveIf(fhirType: string, s: string): seq<Base> {
    if s == "" then [] else [Primitive(fhirType, s)]
  }

  /** A Coding element with this system, code and display. */
  ghost predicate HoldsCoding(g: Graph, b: Base, c: Coded) {
    && FhirType(g, b) == "Coding"
    && Children(g, b, "system") == PrimitiveIf("uri", c.system)
    && Children(g, b, "code") == PrimitiveIf("code", c.code)
    && Children(g, b, "display") == PrimitiveIf("string", c.display)
  }

  /** A Coding element that is kept as it was still holds its coding. */
  lemma HoldsCodingKept(g0: Graph, g1: Graph, b: Base, c: Coded, reIded: set<nat>)
    requires HoldsCoding(g0, b, c) && b.Node? && b.id < g0.next && KeepsNodes(g0, g1, reIded)
    ensures HoldsCoding(g1, b, c)
  {
  }

  /** A CodeableConcept element holding exactly this coding. */
  ghost predicate HoldsConcept(g: Graph, b: Base, c: Coded) {
    && FhirType(g, b) == "CodeableConcept"
    && |Children(g, b, "coding")| == 1
    && HoldsCoding(g, Children(g, b, "coding")[0], c)
  }

  // ---------------------------------------------------------------------
  // Rule sources and targets

  /** The rule's `where` condition is there and is false for the value. */
  predicate ConditionFails(o: Oracles, g: Graph, b: Base, src: Source) {
    src.condition != "" && !o.evaluateToBoolean(g, b, src.condition)
  }

  /** The rule's `check` condition is there and is false for the value. */
  predicate CheckFails(o: Oracles, g: Graph, b: Base, src: Source) {
    src.check != "" && !o.evaluateToBoolean(g, b, src.check)
  }

  /** The values a source ranges over: the context value itself, or the
      values of its element. */
  function SourceItems(g: Graph, b: Base, src: Source): (r: seq<Base>)
    ensures src.element == "" ==> r == [b]
    ensures GraphValid(g) && Within(g.next, b) ==> forall i :: 0 <= i < |r| ==> Within(g.next, r[i])
  {
    if src.element == "" then [b] else Children(g, b, src.element)
  }

  /** The environment for one value of a source: the rule's environment,
      with the source variable bound to the value when the source names one. */
  function ItemVariables(list: seq<Variable<Base>>, src: Source, item: Base): seq<Variable<Base>> {
    if src.variable == "" then list else Bind(list, VariableMode.Input, src.variable, item)
  }

  /** A source value's environment is well formed when the rule's is. */
  lemma ItemVariablesOk(list: seq<Variable<Base>>, src: Source, item: Base, next: nat)
    requires Unique(list) && VarsWithin(next, list) && Within(next, item)
    ensures Unique(ItemVariables(list, src, item)) && VarsWithin(next, ItemVariables(list, src, item))
  {
    if src.variable != "" {
      BindUnique(list, VariableMode.Input, src.variable, item);
      BindWithin(list, VariableMode.Input, src.variable, item, next);
    }
  }

  /** The target variable was bound, and that is the only change. */
  predicate OutputBound(before: seq<Variable<Base>>, after: seq<Variable<Base>>, name: string) {
    && name != ""
    && ValueOf(after, Output, name).Some?
    && after == Bind(before, Output, name, ValueOf(after, Output, name).value)
  }
}

=== FILE: variables.dfy ===
/** Variable environments of the transform interpreter (`Variables`) and of the
    profile analyzer (`VariablesForProfiling`): lists of (mode, name, value)
    entries where a source-direction and a target-direction variable may share
    a name without clashing. */
module Variables {
  import opened Wrappers
  import opened Text

  /** VariableMode: INPUT for source-side variables, OUTPUT for target-side ones. */
  datatype VariableMode = Input | Output

  datatype Variable<V> = Variable(mode: VariableMode, name: string, value: V)

  predicate Matches<V>(v: Variable<V>, mode: VariableMode, name: string) {
    v.mode == mode && v.name == name
  }

  /** The first entry with this mode and name: what `get` finds. */
  function Lookup<V>(list: seq<Variable<V>>, mode: VariableMode, name: string): (r: Option<Variable<V>>)
    ensures r.Some? ==> r.value in list && Matches(r.value, mode, name)
    ensures r.None? <==> forall i :: 0 <= i < |list| ==> !Matches(list[i], mode, name)
    decreases |list|
  {
    if list == [] then None
    else if Matches(list[0], mode, name) then Some(list[0])
    else Lookup(list[1..], mode, name)
  }

  /** The value of the first entry with this mode and name. */
  function ValueOf<V>(list: seq<Variable<V>>, mode: VariableMode, name: string): Option<V> {
    match Lookup(list, mode, name)
    case None => None
    case Some(v) => Some(v.value)
  }

  /** The position of the last entry with this mode and name, or -1: the entry
      that `add` removes. */
  function LastIndex<V>(list: seq<Variable<V>>, mode: VariableMode, name: string): (k: int)
    ensures -1 <= k < |list|
    ensures k >= 0 ==> Matches(list[k], mode, name)
    ensures forall j :: k < j < |list| ==> !Matches(list[j], mode, name)
    decreases |list|
  {
    if list == [] then -1
    else if Matches(list[|list| - 1], mode, name) then |list| - 1
    else LastIndex(list[..|list| - 1], mode, name)
  }

  /** No two entries share a mode and a name. */
  ghost predicate Unique<V>(list: seq<Variable<V>>) {
    forall i, j :: 0 <= i < j < |list| ==> !Matches(list[j], list[i].mode, list[i].name)
  }

  /** The list `add` leaves: the last entry with this mode and name removed, the
      new entry appended. */
  function Bind<V>(list: seq<Variable<V>>, mode: VariableMode, name: string, value: V): seq<Variable<V>> {
    Rest(list, mode, name) + [Variable(mode, name, value)]
  }

  /** After a bind, the bound name reads back the new value, no other (mode,
      name) pair changes its value, and the entries stay unique. */
  lemma {:induction false} BindSemantics<V>(list: seq<Variable<V>>, mode: VariableMode, name: string, value: V)
    requires Unique(list)
    ensures Unique(Bind(list, mode, name, value))
    ensures ValueOf(Bind(list, mode, name, value), mode, name) == Some(value)
    ensures forall m, n :: (m != mode || n != name) ==>
              ValueOf(Bind(list, mode, name, value), m, n) == ValueOf(list, m, n)
  {
    BindUnique(list, mode, name, value);
    BindFinds(list, mode, name, value);
    forall m, n | m != mode || n != name
      ensures ValueOf(Bind(list, mode, name, value), m, n) == ValueOf(list, m, n)
    {
      BindKeepsOthers(list, mode, name, value, m, n);
    }
  }

  /** The entries other than the bound one, in their order: the list
      without its last entry of this mode and name. */
  function Rest<V>(list: seq<Variable<V>>, mode: VariableMode, name: string): (r: seq<Variable<V>>)
    ensures |r| <= |list|
    ensures forall i :: 0 <= i < |r| ==> r[i] in list
    decreases |list|
  {
    if list == [] then []
    else
      var n := |list| - 1;
      if Matches(list[n], mode, name) then list[..n]
      else Rest(list[..n], mode, name) + [list[n]]
  }

  /** The prefix of a list without duplicates has none either. */
  lemma UniquePrefix<V>(list: seq<Variable<V>>, n: nat)
    requires Unique(list) && n <= |list|
    ensures Unique(list[..n])
  {
  }

  lemma {:induction false} RestHasNoMatch<V>(list: seq<Variable<V>>, mode: VariableMode, name: string)
    requires Unique(list)
    ensures forall i :: 0 <= i < |Rest(list, mode, name)| ==> !Matches(Rest(list, mode, name)[i], mode, name)
    decreases |list|
  {
    if list != [] {
      var n := |list| - 1;
      var init := list[..n];
      UniquePrefix(list, n);
      if Matches(list[n], mode, name) {
        forall i | 0 <= i < n ensures !Matches(init[i], mode, name) {
          assert !Matches(list[n], list[i].mode, list[i].name);
        }
      } else {
        RestHasNoMatch(init, mode, name);
      }
    }
  }

  lemma {:induction false} RestUnique<V>(list: seq<Variable<V>>, mode: VariableMode, name: string)
    requires Unique(list)
    ensures Unique(Rest(list, mode, name))
    decreases |list|
  {
    if list != [] {
      var n := |list| - 1;
      var init := list[..n];
      UniquePrefix(list, n);
      if !Matches(list[n], mode, name) {
        RestUnique(init, mode, name);
        var rest := Rest(init, mode, name);
        var r := rest + [list[n]];
        forall i, j | 0 <= i < j < |r| ensures !Matches(r[j], r[i].mode, r[i].name) {
          if j == |rest| {
            assert r[i] in init;
            var k :| 0 <= k < n && init[k] == r[i];
            assert !Matches(list[n], list[k].mode, list[k].name);
          } else {
            assert r[i] == rest[i] && r[j] == rest[j];
          }
        }
      }
    }
  }

  lemma {:induction false} BindUnique<V>(list: seq<Variable<V>>, mode: VariableMode, name: string, value: V)
    requires Unique(list)
    ensures Unique(Bind(list, mode, name, value))
  {
    var rest := Rest(list, mode, name);
    var r := rest + [Variable(mode, name, value)];
    RestUnique(list, mode, name);
    RestHasNoMatch(list, mode, name);
    forall i, j | 0 <= i < j < |r| ensures !Matches(r[j], r[i].mode, r[i].name) {
      if j < |rest| {
        assert r[i] == rest[i] && r[j] == rest[j];
      } else {
        assert r[i] == rest[i];
      }
    }
  }

  lemma {:induction false} BindFinds<V>(list: seq<Variable<V>>, mode: VariableMode, name: string, value: V)
    requires Unique(list)
    ensures ValueOf(Bind(list, mode, name, value), mode, name) == Some(value)
  {
    var rest := Rest(list, mode, name);
    RestHasNoMatch(list, mode, name);
    LookupPrefix(rest, [Variable(mode, name, value)], mode, name);
  }

  /** Dropping the bound entry does not change a lookup of another key. */
  lemma {:induction false} RestKeepsOthers<V>(list: seq<Variable<V>>, mode: VariableMode, name: string, m: VariableMode, n: string)
    requires m != mode || n != name
    ensures Lookup(Rest(list, mode, name), m, n) == Lookup(list, m, n)
    decreases |list|
  {
    if list != [] {
      var k := |list| - 1;
      var init := list[..k];
      assert list == init + [list[k]];
      LookupPrefix(init, [list[k]], m, n);
      if !Matches(list[k], mode, name) {
        RestKeepsOthers(init, mode, name, m, n);
        LookupPrefix(Rest(init, mode, name), [list[k]], m, n);
      }
    }
  }

  lemma {:induction false} BindKeepsOthers<V>(list: seq<Variable<V>>, mode: VariableMode, name: string, value: V,
                                              m: VariableMode, n: string)
    requires m != mode || n != name
    ensures ValueOf(Bind(list, mode, name, value), m, n) == ValueOf(list, m, n)
  {
    var rest := Rest(list, mode, name);
    LookupPrefix(rest, [Variable(mode, name, value)], m, n);
    RestKeepsOthers(list, mode, name, m, n);
  }

  /** A lookup after a binding: the bound key finds the new value, any other
      key what it found before. */
  lemma BindLookup<V>(list: seq<Variable<V>>, mode: VariableMode, name: string, value: V,
                      m: VariableMode, n: string, expected: Option<V>)
    requires Unique(list)
    requires m == mode && n == name ==> expected == Some(value)
    requires m != mode || n != name ==> ValueOf(list, m, n) == expected
    ensures ValueOf(Bind(list, mode, name, value), m, n) == expected
  {
    if m == mode && n == name {
      BindFinds(list, mode, name, value);
    } else {
      BindKeepsOthers(list, mode, name, value, m, n);
    }
  }

  /** The entry removed is the last one of the key: `Rest` cuts it out. */
  lemma {:induction false} RestAtLastIndex<V>(list: seq<Variable<V>>, mode: VariableMode, name: string)
    ensures var k := LastIndex(list, mode, name);
      Rest(list, mode, name) == if k >= 0 then list[..k] + list[k + 1..] else list
    decreases |list|, 1
  {
    if list != [] {
      var init, last := list[..|list| - 1], list[|list| - 1];
      assert list == init + [last];
      RestAtLastIndexSnoc(init, last, mode, name);
    }
  }

  /** The same, for a list split into its last entry and the rest. */
  lemma {:induction false} RestAtLastIndexSnoc<V>(init: seq<Variable<V>>, last: Variable<V>, mode: VariableMode, name: string)
    ensures var list, k := init + [last], LastIndex(init + [last], mode, name);
      Rest(list, mode, name) == if k >= 0 then list[..k] + list[k + 1..] else list
    decreases |init| + 1, 0
  {
    var list := init + [last];
    if Matches(last, mode, name) {
      RestAtMatch(init, last, mode, name);
      assert list[..|init|] + list[|init| + 1..] == init;
    } else {
      RestPastOther(init, last, mode, name);
      RestAtLastIndex(init, mode, name);
      var k := LastIndex(init, mode, name);
      if k >= 0 {
        CutThenAppend(init, k, last);
      }
    }
  }

  /** An entry of the key at the end is the one `Rest` drops and `LastIndex`
      finds. */
  lemma RestAtMatch<V>(init: seq<Variable<V>>, last: Variable<V>, mode: VariableMode, name: string)
    requires Matches(last, mode, name)
    ensures Rest(init + [last], mode, name) == init
    ensures LastIndex(init + [last], mode, name) == |init|
  {
    var list := init + [last];
    assert list[..|list| - 1] == init;
  }

  /** An entry of another key at the end is kept by `Rest` and skipped by
      `LastIndex`. */
  lemma RestPastOther<V>(init: seq<Variable<V>>, last: Variable<V>, mode: VariableMode, name: string)
    requires !Matches(last, mode, name)
    ensures Rest(init + [last], mode, name) == Rest(init, mode, name) + [last]
    ensures LastIndex(init + [last], mode, name) == LastIndex(init, mode, name)
  {
    var list := init + [last];
    assert list[..|list| - 1] == init;
  }

  /** Cutting index `k` out of `s` and then appending `x` cuts the same index
      out of `s + [x]`. */
  lemma CutThenAppend<T>(s: seq<T>, k: nat, x: T)
    requires k < |s|
    ensures (s[..k] + s[k + 1..]) + [x] == (s + [x])[..k] + (s + [x])[k + 1..]
  {
    var t := s + [x];
    assert t[..k] == s[..k];
    assert t[k + 1..] == s[k + 1..] + [x];
  }

  /** Looking up in `a + b` finds in `a` first, and finds in `b` what `a` lacks. */
  lemma {:induction false} LookupPrefix<V>(a: seq<Variable<V>>, b: seq<Variable<V>>, mode: VariableMode, name: string)
    ensures Lookup(a + b, mode, name) == if Lookup(a, mode, name).Some? then Lookup(a, mode, name) else Lookup(b, mode, name)
    decreases |a|
  {
    if a != [] {
      assert (a + b)[1..] == a[1..] + b;
      LookupPrefix(a[1..], b, mode, name);
    } else {
      assert a + b == b;
    }
  }

  /** Removing an entry of another key does not change a lookup. */
  lemma {:induction false} LookupSkip<V>(a: seq<Variable<V>>, x: Variable<V>, b: seq<Variable<V>>, mode: VariableMode, name: string)
    requires !Matches(x, mode, name)
    ensures Lookup(a + [x] + b, mode, name) == Lookup(a + b, mode, name)
  {
    var xb := [x] + b;
    assert xb[0] == x && xb[1..] == b;
    assert Lookup(xb, mode, name) == Lookup(b, mode, name);
    assert a + [x] + b == a + xb;
    LookupPrefix(a, xb, mode, name);
    LookupPrefix(a, b, mode, name);
  }

  /** `add`'s list update: scan for the last entry with the same mode and name,
      drop it, append the new entry. */
  method Replace<V>(list: seq<Variable<V>>, mode: VariableMode, name: string, value: V)
    returns (r: seq<Variable<V>>)
    ensures r == Bind(list, mode, name, value)
  {
    var vv := -1;
    for i := 0 to |list|
      invariant vv == LastIndex(list[..i], mode, name)
    {
      assert list[..i + 1][..i] == list[..i];
      if Matches(list[i], mode, name) {
        vv := i;
      }
    }
    assert list[..|list|] == list;
    RestAtLastIndex(list, mode, name);
    if vv >= 0 {
      r := list[..vv] + list[vv + 1..];
    } else {
      r := list;
    }
    r := r + [Variable(mode, name, value)];
  }

  /** `get`'s scan: the first entry with this mode and name. */
  method Find<V>(list: seq<Variable<V>>, mode: VariableMode, name: string)
    returns (r: Option<Variable<V>>)
    ensures r == Lookup(list, mode, name)
  {
    var i := 0;
    while i < |list|
      invariant 0 <= i <= |list|
      invariant Lookup(list, mode, name) == Lookup(list[i..], mode, name)
    {
      if Matches(list[i], mode, name) {
        return Some(list[i]);
      }
      assert list[i..][1..] == list[i + 1..];
      i := i + 1;
    }
    return None;
  }

  /** The interpreter's environment of live values. */
  class Variables<V> {
    var list: seq<Variable<V>>

    ghost predicate Valid()
      reads this
    {
      Unique(list)
    }

    constructor ()
      ensures Valid() && list == []
    {
      list := [];
    }

    /** Binds name in this mode, replacing any earlier binding of that pair. */
    method Add(mode: VariableMode, name: string, value: V)
      requires Valid()
      modifies this
      ensures Valid()
      ensures list == Bind(old(list), mode, name, value)
      ensures ValueOf(list, mode, name) == Some(value)
      ensures forall m, n :: (m != mode || n != name) ==> ValueOf(list, m, n) == ValueOf(old(list), m, n)
    {
      BindSemantics(list, mode, name, value);
      list := Replace(list, mode, name, value);
    }

    /** A shallow branch: a new environment holding the same entries. */
    method Copy() returns (r: Variables<V>)
      requires Valid()
      ensures fresh(r) && r.Valid() && r.list == list
    {
      r := new Variables();
      r.list := list;
    }

    /** The value bound to name in this mode, if any. */
    method Get(mode: VariableMode, name: string) returns (r: Option<V>)
      ensures r == ValueOf(list, mode, name)
    {
      var v := Find(list, mode, name);
      r := if v.Some? then Some(v.value.value) else None;
    }
  }

  /** The analyzer's environment: entries carry type-level information, and the
      environment records whether the branch it belongs to is optional or
      repeating. */
  class VariablesForProfiling<P> {
    var list: seq<Variable<P>>
    var optional: bool
    var repeating: bool

    ghost predicate Valid()
      reads this
    {
      Unique(list)
    }

    constructor (optional: bool, repeating: bool)
      ensures Valid() && list == [] && this.optional == optional && this.repeating == repeating
    {
      list := [];
      this.optional := optional;
      this.repeating := repeating;
    }

    method Add(mode: VariableMode, name: string, property: P)
      requires Valid()
      modifies this
      ensures Valid() && optional == old(optional) && repeating == old(repeating)
      ensures list == Bind(old(list), mode, name, property)
      ensures ValueOf(list, mode, name) == Some(property)
      ensures forall m, n :: (m != mode || n != name) ==> ValueOf(list, m, n) == ValueOf(old(list), m, n)
    {
      BindSemantics(list, mode, name, property);
      list := Replace(list, mode, name, property);
    }

    /** A branch with the same entries and the given flags. */
    method CopyWith(optional: bool, repeating: bool) returns (r: VariablesForProfiling<P>)
      requires Valid()
      ensures fresh(r) && r.Valid() && r.list == list
      ensures r.optional == optional && r.repeating == repeating
    {
      r := new VariablesForProfiling(optional, repeating);
      r.list := list;
    }

    /** A branch with the same entries and the same flags. */
    method Copy() returns (r: VariablesForProfiling<P>)
      requires Valid()
      ensures fresh(r) && r.Valid() && r.list == list
      ensures r.optional == optional && r.repeating == repeating
    {
      r := CopyWith(optional, repeating);
    }

    method Get(mode: VariableMode, name: string) returns (r: Option<Variable<P>>)
      ensures r == Lookup(list, mode, name)
    {
      r := Find(list, mode, name);
    }

    /** `get(null, name)`: the target-side variable of that name if there is
        one, otherwise the source-side one. */
    method GetEither(name: string) returns (r: Option<Variable<P>>)
      ensures r.Some? ==> r.value.name == name
      ensures Lookup(list, Output, name).Some? ==> r == Lookup(list, Output, name)
      ensures Lookup(list, Output, name).None? ==> r == Lookup(list, Input, name)
    {
      r := Find(list, Output, name);
      if r.None? {
        r := Find(list, Input, name);
      }
    }
  }
}

=== FILE: wrappers.dfy ===
/** Failure-compatible wrappers used throughout the model: an optional value
    (Java's `null`) and a result that is either a value or an error message
    (Java's thrown exceptions). */
module Wrappers {

  datatype Option<+T> = None | Some(value: T) {
    predicate IsFailure() { None? }

    function PropagateFailure<U>(): Option<U>
      requires None?
    {
      None
    }

    function Extract(): T
      requires Some?
    {
      value
    }
  }

  /** An error as the engine reports it: the message of the thrown exception. */
  datatype Error = Error(msg: string)

  datatype Result<+T> = Ok(value: T) | Err(error: Error) {
    predicate IsFailure() { Err? }

    function PropagateFailure<U>(): Result<U>
      requires Err?
    {
      Err(error)
    }

    function Extract(): T
      requires Ok?
    {
      value
    }
  }

  /** A result that carries no value: a Java `void` method that may throw.
      Its failure propagates as a failed Result. */
  datatype Outcome = Pass | Fail(error: Error) {
    predicate IsFailure() { Fail? }

    function PropagateFailure<U>(): Result<U>
      requires Fail?
    {
      Err(error)
    }
  }

  function Fails<T>(msg: string): Result<T> {
    Err(Error(msg))
  }
}
